=== FILE: README.md ===
# sprobot, modelled in Dafny

sprobot is a family of Discord bots for a coffee community, plus a small web viewer. Members fill in profile forms ("templates"), for instance about their espresso setup. Each profile is a JSON document in an S3 bucket, under `profiles/<guild>/<template>/<user>.json`. A profile can carry one image. The bot copies that image into the bucket and shows the profile as an embed card. The web viewer renders the same document as an HTML page.

The repository holds two implementations of the profile pipeline:

- the Go client in `pkg/s3client` and its bot in `pkg/bot`;
- an earlier Python backend in `src/sprobot`.

Both are modelled, since they differ in small but visible ways. Around the pipeline sit the Go bot's other features:

- a capped per-group cache;
- the idle-repost loop that keeps a reminder message at the bottom of a channel;
- the starboard ("top reactions") and top-poster counts;
- the permission-change event log;
- round-robin text shortcuts, the mod-log archive, tickets, self-assigned roles and the wiki command;
- the thread-reminder bot (`pkg/threadbot`) and the sticky-message bot (`pkg/stickybot`).

The model is functional. Every stored document, cache and bot state is an immutable datatype. Every command handler is a function (a method where the code loops) from the state and the outcome of each outside call to the new state and the reply. Storage, HTTP fetches, Discord REST calls, the clock and random draws are not modelled as code. Each of them becomes a parameter that says how the call came out: success, not found or failure, the bytes returned, the random number drawn. Go strings are modelled as `string` where the code treats them as text. They are modelled as UTF-8 bytes (`seq<Byte>`) where it measures or cuts them by byte. Go's random map iteration is left open, with `:|` or a sequence parameter, so every contract holds for every visiting order.

Each module corresponds to one source file:

- **Profiles**: storage and cache keys and links (`pkg/sprobot`, `pkg/s3client`).
- **Store**: the Go client.
- **Backend**: the Python backend.
- **DeleteFlow** and **DeleteState**: the Go and Python delete confirmations.
- **SaveImage**: "save image" from a post or a slash command, in both languages.
- **GroupedCache**, **IdleLoop**, **Starboard**, **TopPosters**, **EventLog**, **Shortcuts**, **Embed**, **ModLog**, **Tickets**, **Selfrole**, **Wiki**: the Go bot.
- **ThreadBot** and **Sticky**: the two smaller bots.
- **Web**: the viewer.

**Text**, **Escape**, **Base** and **Components** hold what these modules share:

- Go's `strings` and `strconv` semantics;
- UTF-8 and percent-escaping;
- `Option` and `Result`;
- the message-component shapes.

Eight places where the code does not do what it evidently means are listed under "## Findings". Each is modelled twice:

- once as written, with a lemma exhibiting the discrepancy;
- once corrected, with the intended property proved.

The rest of the model uses the corrected definitions.

Where the code and its documentation disagree, the model follows the code:

- The Python delete view re-tests the Deleted state where it means Error (`src/sprobot/commands.py`, line 130), so its error rendering is dead code. `DeleteState.NeverError` shows that no input reaches the error state anyway, so nothing observable changes.
- The idle loop's comment promises arming by "whichever comes first" of the two thresholds. The code forgets an elapsed time threshold when no message came before it (finding 3).
- Reminders accept a message threshold of 0 when a time threshold is set. The load defaults then turn it into 30 (finding 5).

## Model

| member | source | states |
|---|---|---|
| Profiles.ProfileS3Path | pkg/sprobot/sprobot.go:8-10 | a profile document lives under "profiles/" and ends in ".json", and its key is exactly 16 characters longer than guild, template and user together |
| Profiles.ProfileS3PathEmptyTemplate | pkg/sprobot/sprobot.go:8-10 | an empty template name is not rejected: it yields a key with an empty path component |
| Profiles.ProfileS3PathInjective | pkg/sprobot/sprobot.go:8-10 | two profiles share a document only when guild, template and user are all equal, provided guild and template contain no "/" |
| Profiles.CacheKey | pkg/s3client/s3client.go:135-137 | the cache key starts with the template name and a "/" and has exactly two separators added |
| Profiles.CacheKeyInjective | pkg/s3client/s3client.go:135-137 | distinct (template, guild, user) triples never share a cache entry while template and guild contain no "/" |
| Profiles.CacheKeyCollidesWithSlashes | pkg/s3client/s3client.go:135-137 | the "/" restriction is needed: two different triples with "/" inside collide on one cache key |
| Profiles.ImageS3Path | pkg/s3client/s3client.go:419 | a relocated image lives under "images/" and ends in "." followed by its extension |
| Profiles.TrimTrailingSlashes | pkg/s3client/s3client.go:437 | the result is a prefix of the input that does not end in "/", and everything cut off was "/" |
| Profiles.BuildS3Url | pkg/s3client/s3client.go:436-439 | the object URL is the endpoint without trailing "/", then the bucket, then the escaped key, and unescaping that last part gives back the key's bytes |
| Profiles.ProfileLinkAsWritten | pkg/s3client/s3client.go:251 | the bot's web link starts with the web endpoint and, because the whole path is escaped at once, contains no "/" after it |
| Profiles.ProfileLink | pkg/s3client/s3client.go:251 | the corrected web link starts with the web endpoint; its components are escaped one by one (see Web.LinkRoundTrip) |
| Profiles.UrlJoin | src/sprobot/backend.py:393-395 | joining a relative path onto a base that ends in "/" appends it |
| Store.New | pkg/s3client/s3client.go:79-118 | a client is built exactly when key, secret, endpoint and bucket are all set; each missing setting is reported by its own message, checked in the order key, secret, endpoint, bucket; a new client has the configured endpoint and bucket, sees the bucket as it already is, and starts with an empty cache |
| Store.NewCoherent | pkg/s3client/s3client.go:79-118 | a new client over a bucket with any contents satisfies the cache invariant, since its cache is empty |
| Store.CacheEvict | pkg/s3client/s3client.go:143-150 | the LRU dropping an entry removes only that key and keeps the cache invariant |
| Store.WriteBothCoherent | pkg/s3client/s3client.go:240-249 | writing the same document to the bucket and the cache keeps the cache invariant |
| Store.RemoveBothCoherent | pkg/s3client/s3client.go:257-277 | removing a profile from the cache and the bucket keeps the cache invariant |
| Store.FetchProfile | pkg/s3client/s3client.go:139-182 | a cache hit is served from the cache; a miss reads the bucket; a missing document is ErrNotFound; the bucket never changes and only a successful read fills the cache |
| Store.FetchReturnsStored | pkg/s3client/s3client.go:139-182 | on a coherent client a successful fetch returns the stored document and the client stays coherent |
| Store.FetchProfileSimple | pkg/s3client/s3client.go:184-203 | the web server's read succeeds exactly when the document exists and returns it; a missing document is ErrNotFound |
| Store.ImageExtension | pkg/s3client/s3client.go:405-417 | the five image content types get their own extension and every other type gets "bin" |
| Store.NoticeText | pkg/s3client/s3client.go:386-428 | every notice except the content-type one ends by telling the user the rest of the profile was saved |
| Store.RelocateImage | pkg/s3client/s3client.go:375-434 | case by case: no image gives nothing to do; a URL already on the endpoint is kept; an invalid URL, an unreachable URL and a non-image content type each give their own notice and no URL; an image whose upload succeeds is stored under its images/ key with its content type and its bucket URL is returned with no notice; an image whose upload fails gives the upload notice and no URL; never both a notice and a URL; profile documents and cache are untouched |
| Store.EndpointStartsUrls | pkg/s3client/s3client.go:436-439 | an object URL starts with the configured endpoint, unless the endpoint ends in two "/" (those are trimmed) |
| Store.RelocatedIsHosted | pkg/s3client/s3client.go:375-384 | relocating a second time is the identity: once an image has been relocated to the bucket, saving the profile again with that URL keeps it as hosted, with no upload and no notice |
| Store.ChosenImage | pkg/s3client/s3client.go:209-227 | a relocated URL wins; no image removes the field; a refused image falls back to the previously saved image if there was one |
| Store.WithImage | pkg/s3client/s3client.go:209-227 | only the image field changes: set to the chosen value or removed |
| Store.PreviousForSave | pkg/s3client/s3client.go:213-220 | the previous document is read only when the image was refused |
| Store.SavedDocument | pkg/s3client/s3client.go:209-249 | the written document keeps every text field as submitted and holds the relocated image URL when there is one |
| Store.SaveProfile | pkg/s3client/s3client.go:205-255 | the save fails exactly when the bucket write fails; on failure the bucket is unchanged; on success the document and cache entry are both the saved document and the web link is the corrected ProfileLink |
| Store.SaveWithUserError | pkg/s3client/s3client.go:205-255 | a refused image does not stop the save: the document is written and the user message is returned with it |
| Store.SaveCoherent | pkg/s3client/s3client.go:205-255 | a save keeps the cache invariant whether or not the write went through |
| Store.SaveKeepsPreviousImage | pkg/s3client/s3client.go:213-227 | when the new image is refused, the document keeps the image of the previously saved one |
| Store.SaveThenFetch | pkg/s3client/s3client.go:139-255 | after a successful save, fetching the same profile returns exactly what was written |
| Store.DeleteProfile | pkg/s3client/s3client.go:257-277 | the cache entry is dropped first, whatever the bucket then says; the document is removed exactly when the delete succeeds |
| Store.DeleteCoherent | pkg/s3client/s3client.go:257-277 | a delete keeps the cache invariant even when the bucket refuses, and a later fetch after a successful delete finds nothing |
| Backend.Init | src/sprobot/backend.py:27-47 | a fresh backend has an empty cache, both counters at one, and satisfies the cache invariant |
| Backend.GetFromCache | src/sprobot/backend.py:55-74 | every lookup counts; a miss (absent or empty profile) also counts as a miss, so misses never exceed lookups; the lookup returns the cached value and changes neither cache nor bucket |
| Backend.CacheEvict | src/sprobot/backend.py:44 | the LRU (at most 500 entries) dropping an entry removes only that key, keeps every other cached value and the bucket, keeps the cache invariant, and the dropped key is then a miss |
| Backend.FetchProfile | src/sprobot/backend.py:76-134 | a non-empty cached profile is returned as is; otherwise the bucket is read; a missing document raises the not-found KeyError and a failing read raises, with the cache as the miss left it; the bucket never changes; the dict returned on a miss is the caller's own (the corrected fetch of finding 8) |
| Backend.FetchReturnsStored | src/sprobot/backend.py:76-134 | on a coherent backend a fetched profile is the stored document and not-found means there is none |
| Backend.RelocateImage | src/sprobot/backend.py:136-221 | case by case: no image gives nothing to do; a URL already on the endpoint is kept; a failed download, an unrecognised type and a non-image MIME type each give their own notice and no URL; an image whose upload succeeds is stored under its image key with its MIME type and its hosted URL is returned with no notice; the call raises exactly when the upload of an image fails, leaving the backend as it was; never not-found; profile documents and cache are untouched |
| Backend.RelocatedIsHosted | src/sprobot/backend.py:139-144 | relocating a second time is the identity: a hosted URL that relocation returned is kept as it is, with no upload and no notice, when the endpoint ends in "/" |
| Backend.SavedDocument | src/sprobot/backend.py:355-362 | the document written keeps every other key of the profile, holds the relocated URL as the image when there is one, and has no image key otherwise |
| Backend.EditedBySave | src/sprobot/backend.py:352-362 | `save_profile` edits the caller's dict in place: when relocation raises the dict is untouched, otherwise it becomes the saved document; other keys are kept either way |
| Backend.ImageKeyLayout | src/sprobot/backend.py:178-183 | the Python image key has the same layout as the Go one for the decimal guild and user IDs |
| Backend.NoticeText | src/sprobot/backend.py:154-176 | every notice except the MIME-type one ends by telling the user the rest of the profile was saved |
| Backend.SaveProfile | src/sprobot/backend.py:339-405 | the save returns exactly when relocation returns and the write succeeds; the document and cache entry are the same; text fields are kept; the image is the hosted URL or removed; the web link is the endpoint joined with bucket and quoted key |
| Backend.SaveWithoutImage | src/sprobot/backend.py:339-405 | a profile without an image is stored exactly as given, with no message for the user |
| Backend.PyWebUrlShape | src/sprobot/backend.py:393-395 | the Python web link is endpoint, bucket, "/" and the quoted key, whose "/" are kept, so it matches the web server's route |
| Backend.SaveCoherent | src/sprobot/backend.py:339-405 | a save keeps the cache invariant, whether it returns or raises (a raise leaves documents and cache as they were) |
| Backend.DeleteProfile | src/sprobot/backend.py:223-273 | the cache entry is dropped before the delete; the delete returns exactly when the bucket accepts it and then the document is gone; a failing delete raises with the entry already dropped and the document kept |
| Backend.PathOfInjective | src/sprobot/backend.py:98-103 | two cache keys share a document only when they are equal, provided the template name has no "/" |
| Backend.DeleteCoherent | src/sprobot/backend.py:223-273 | a delete keeps the cache invariant and a later fetch of that profile reports not-found |
| Backend.FetchStored | src/sprobot/backend.py:76-134 | on a coherent backend whose read goes through, fetching an existing profile returns the stored document |
| DeleteFlow.DeletePrompt | pkg/bot/deleteprofile.go:17-44 | the delete prompt has one row of three buttons: delete profile, delete picture (both carrying the template's short name) and cancel |
| DeleteFlow.RouteTemplates | pkg/bot/deleteprofile.go:80-131 | a click either asks for confirmation, confirms a deletion for a template whose confirm ID it is, or is ignored |
| DeleteFlow.RouteClick | pkg/bot/deleteprofile.go:46-78 | the cancel button always cancels and a role button always toggles its role, before any template is consulted |
| DeleteFlow.PromptUpdate | pkg/bot/deleteprofile.go:71-120 | cancel replies "No worries!" with no buttons; a first click replies "Are you sure?" with the matching confirm button |
| DeleteFlow.DeleteIdsDiffer | pkg/bot/deleteprofile.go:31-35 | the four delete button ID families and the cancel ID never collide, whatever the short names |
| DeleteFlow.DeleteIdReachesTemplates | pkg/bot/deleteprofile.go:46-80 | a delete button ID is never taken by the role, ticket or cancel branches |
| DeleteFlow.DeleteButtonsRoute | pkg/bot/deleteprofile.go:46-131 | each delete button of a configured template leads to its own confirmation, and each confirmation to the deletion for a template of the same short name |
| DeleteFlow.RouteTemplatesFinds | pkg/bot/deleteprofile.go:80-131 | the template loop finds the route for every configured template's buttons |
| DeleteFlow.ConfirmDeleteProfile | pkg/bot/deleteprofile.go:134-159 | confirming deletes the document and cache entry and replies "Deleted!", or "Oops! Something went wrong." when the bucket refuses |
| DeleteFlow.ImageDeleteOfMissingProfile | pkg/bot/deleteprofile.go:168-177 | deleting the picture of a profile that does not exist replies "Deleted!" and changes nothing |
| DeleteFlow.ImageDeleteKeepsFields | pkg/bot/deleteprofile.go:187-214 | deleting the picture of a profile with text left rewrites the document without the picture and replies "Deleted!", so the user-message branch cannot be reached |
| DeleteFlow.ImageDeleteRemovesEmptyProfile | pkg/bot/deleteprofile.go:187-230 | deleting the picture of a profile with no text left removes the document and its cache entry |
| DeleteState.Render | src/sprobot/commands.py:103-131 | redrawing keeps state and pending action; only the waiting state shows Confirm and Cancel; cancelled and deleted stop the view; the error state gets no message, because the second branch re-tests Deleted |
| DeleteState.RunAction | src/sprobot/commands.py:142-206 | from the first state a delete button only asks for confirmation and remembers which deletion; after confirmation it deletes and ends in Deleted or Error; otherwise nothing happens |
| DeleteState.ConfirmedImageDelete | src/sprobot/commands.py:160-206 | the confirmed picture deletion ends in Deleted or Error with no buttons left, and Deleted stops the view |
| DeleteState.StoreRemainder | src/sprobot/commands.py:184-206 | what is left of the profile is saved or deleted and the view ends in Deleted or Error |
| DeleteState.Click | src/sprobot/commands.py:134-206 | a stopped view and a button not shown ignore the click; cancel moves to Cancelled; confirm runs the remembered deletion |
| DeleteState.ClickValid | src/sprobot/commands.py:65-206 | every click keeps the view in one of its consistent shapes |
| DeleteState.NeverError | src/sprobot/commands.py:180-198 | the error state is never reached: a fetched profile without its picture is saved with no picture, so no user message comes back |
| DeleteState.FinishedIgnoresClicks | src/sprobot/commands.py:121-127 | a cancelled or deleted view ignores every further click |
| DeleteState.DeleteEntireProfile | src/sprobot/commands.py:142-158 | deleting the whole profile takes two clicks: the first only asks, the confirmation deletes the document and ends in Deleted |
| DeleteState.StoreRemainderSaves | src/sprobot/commands.py:184-198 | a non-empty remainder without a picture is saved as is |
| DeleteState.ConfirmedImageDeleteRewrites | src/sprobot/commands.py:160-206 | a stored profile with other keys is rewritten without its picture |
| DeleteState.ConfirmedImageDeleteRemoves | src/sprobot/commands.py:160-206 | a stored profile with nothing but its picture is deleted |
| DeleteState.DeleteImageClicks | src/sprobot/commands.py:160-206 | from a fresh view the picture button only asks, and the confirmation runs the picture deletion |
| DeleteState.ConfirmRunsImageDelete | src/sprobot/commands.py:134-160 | confirming a remembered picture deletion runs exactly the picture deletion |
| DeleteState.RemainderNeverError | src/sprobot/commands.py:184-198 | a remainder without a picture never brings the view to the error state |
| DeleteState.FetchedStores | src/sprobot/commands.py:160-184 | once the profile is fetched, the picture deletion is storing what is left without the picture |
| DeleteState.EmptyRemainderDeletes | src/sprobot/commands.py:184-206 | an empty remainder deletes the whole document and ends in Deleted |
| DeleteFlow.ConfirmDeleteImage | pkg/bot/deleteprofile.go:161-235 | every outcome removes the buttons; a profile that is not there counts as deleted and changes nothing; a read that fails on a miss answers "Something went wrong, please try again." and changes nothing; a failed rewrite of the remaining fields gives the same answer and changes no document; a failed delete of a profile with nothing left gives the same answer, keeps the document and drops its cache entry |
| SaveImage.ClassifyAttachment | pkg/bot/saveimage.go:87-94 | an attachment is a found image exactly when its content type starts with "image/", and then its proxy URL is the candidate; exactly the "video/" types give the video message |
| SaveImage.ClassifyEmbedGo | pkg/bot/saveimage.go:96-103 | in Go an embed is a found image exactly when its image has a non-empty proxy URL, and every other embed with a video gives the video message |
| SaveImage.ClassifyEmbedPy | src/sprobot/commands.py:562-579 | in Python an embed is a found image exactly when its image has a non-empty proxy URL, but only an embed without any image gives the video message |
| SaveImage.ClassifyEmbeds | pkg/bot/saveimage.go:96-103 | every embed of the post is classified, one item per embed, in order |
| SaveImage.ClassifyAttachments | pkg/bot/saveimage.go:87-94 | every attachment of the post is classified, one item per attachment, in order |
| SaveImage.ScanItemsCounts | pkg/bot/saveimage.go:84-103 | the two loops count exactly the images found, remember the last image URL and the last video message |
| SaveImage.Decide | pkg/bot/saveimage.go:105-118 | the image is saved exactly when one image was found; the video message is shown only when no image was found; several images or none abort with their messages |
| SaveImage.Search | src/sprobot/commands.py:539-601 | a post is saved exactly when it holds a single image, and the URL saved is that image's |
| SaveImage.SearchAgrees | src/sprobot/commands.py:562-579 | the Go and Python searches decide alike on every post unless an embed has an image with an empty proxy URL |
| SaveImage.SingleAttachmentSaved | pkg/bot/saveimage.go:87-129 | a post holding one image attachment is saved with that attachment's URL |
| SaveImage.StartingProfile | pkg/bot/saveimage.go:76-82 | the handlers start from the fetched profile, or from an empty one when the fetch failed |
| SaveImage.GoSaveAndShow | pkg/bot/saveimage.go:120-136 | a failed write gives the generic failure; a successful save without a notice shows the stored document; the bucket is what the save left |
| SaveImage.GoSaveImageMenu | pkg/bot/saveimage.go:59-137 | a post that is not saved is answered with the search's message and the bucket is unchanged; what a saved post writes is stated by SaveImage.GoMenuSavesImage |
| SaveImage.GoSaveImageCommand | pkg/bot/saveimage.go:16-57 | a failed write is reported with the generic failure; what a save writes is stated by SaveImage.GoCommandSavesImage |
| SaveImage.GoSaveWrites | pkg/s3client/s3client.go:205-255 | a save that goes through writes only the profile's document: its other fields are those handed in, and its image is the given URL when already hosted, or the hosted copy when the upload goes through |
| SaveImage.GoMenuSavesImage | pkg/bot/saveimage.go:76-120 | with the write going through, the menu stores the fetched profile (or an empty one) with the single image found as its image: the URL itself when already hosted, the hosted copy when the upload goes through, and every other field as fetched; no other document changes |
| SaveImage.GoCommandSavesImage | pkg/bot/saveimage.go:26-40 | with the write going through, the slash command stores the fetched profile (or an empty one) with the attachment, when given, as its image: the URL itself when already hosted, the hosted copy when the upload goes through, and every other field as fetched; no other document changes |
| SaveImage.GoCommandKeepsFields | pkg/bot/saveimage.go:26-40 | saving an attachment keeps every other field of the stored profile |
| SaveImage.GoMenuKeepsFields | pkg/bot/saveimage.go:76-129 | saving the single image of a post keeps every other field of the stored profile |
| SaveImage.GoMenuAfterFailedRead | pkg/bot/saveimage.go:76-82 | when the profile cannot be read the failure is only logged, so the saved document holds the image and nothing else |
| SaveImage.PySaveImageMenu | src/sprobot/commands.py:506-624 | a post that is not saved is answered with the search's message, the bucket is unchanged and the cache is what the fetch left; a failed write leaves the bucket unchanged; the handler edits its own copy of the profile (the corrected fetch of finding 8) |
| SaveImage.PySaveImageCommand | src/sprobot/commands.py:463-503 | the Python slash command has no catch-all: a failed read or write ends without an answer and leaves the bucket unchanged, with the cache as the fetch left it; a shown profile is the stored document; the handler edits its own copy of the profile |
| SaveImage.PySaveImageMenuCoherent | src/sprobot/commands.py:506-624 | with the corrected fetch the menu keeps the cache invariant whatever happens: refused post, raised upload, failed write or success |
| SaveImage.PySaveImageCommandCoherent | src/sprobot/commands.py:463-503 | the corrected slash command keeps the cache invariant too |
| SaveImage.PyMenuBackend | src/sprobot/commands.py:517-624 | the menu ends with the fetch's state when the fetch raises or the post is refused, and otherwise with the state `save_profile` leaves, whether it returns or raises |
| SaveImage.PyCommandBackend | src/sprobot/commands.py:477-503 | the slash command ends with the fetch's state when the fetch raises, and otherwise with the state `save_profile` leaves, whether it returns or raises |
| SaveImage.PyMenuDict | src/sprobot/commands.py:527-566 | the dict the menu ends with is the fetched profile, or a new one, with the last image URL found written into it |
| SaveImage.PySaveImageMenuAsWritten | src/sprobot/commands.py:527-601 | as written, the menu replies and writes as the corrected one, but after a miss its dict is the cache entry: a refused post with images leaves the stored document with the last image URL cached; without the sharing it is the corrected menu |
| SaveImage.PySaveImageCommandAsWritten | src/sprobot/commands.py:476-490 | as written, a slash command that raises after a miss leaves the stored document unchanged but the cached dict edited: its other fields kept and, when the upload raised, the attachment URL as the image |
| SaveImage.RefusalLeavesImageCached | src/sprobot/backend.py:126-129 | as written, after a miss that handed out the cache entry, a refused post with images is answered with the refusal, writes nothing, and the next fetch returns the stored document with the last image URL as its image |
| SaveImage.TwoImagesFound | src/sprobot/commands.py:539-551 | a post with two image attachments yields both URLs, in order |
| SaveImage.RefusedPostPollutesCache | src/sprobot/backend.py:126-129 | the concrete case of finding 8: with {"Grinder": "x"} stored and a cold cache, a post with two images is refused and nothing is written, yet the next fetch returns {"Grinder": "x"} with "u2" as the image |
| SaveImage.ColdMissHandsOut | src/sprobot/backend.py:126-129 | on a cold cache, a read of a non-empty stored document is the miss that hands out the cached dict |
| GroupedCache.New | pkg/bot/groupedcache.go:36-41 | a new cache is empty and consistent |
| GroupedCache.Get | pkg/bot/groupedcache.go:43-53 | a lookup finds exactly the stored entities and returns the stored value |
| GroupedCache.GroupLen | pkg/bot/groupedcache.go:172-179 | a group's length is zero exactly when no entry is filed under it |
| GroupedCache.EvictScan | pkg/bot/groupedcache.go:75-91 | the eviction loop only moves the log position forward, within the log |
| GroupedCache.EvictScanFixed | pkg/bot/groupedcache.go:75-91 | the corrected eviction loop only moves the log position forward, within the log |
| GroupedCache.Compact | pkg/bot/groupedcache.go:93-101 | compaction keeps the data, the counter and the unread part of the log |
| GroupedCache.AdvanceKeeps | pkg/bot/groupedcache.go:27-34 | every stored key other than the one at the log position is still logged after it |
| GroupedCache.ExhaustedIsEmpty | pkg/bot/groupedcache.go:76 | a consistent cache whose log is read to the end holds nothing |
| GroupedCache.RemoveHeadValid | pkg/bot/groupedcache.go:80-87 | removing the entry at the log position keeps the counter equal to the number of entries |
| GroupedCache.TakeHeadEvicted | pkg/bot/groupedcache.go:80-87 | one eviction brings a cache that was one over capacity back within it |
| GroupedCache.EvictScanValid | pkg/bot/groupedcache.go:75-91 | the eviction loop leaves the cache consistent and within capacity, having removed at most one entry |
| GroupedCache.EvictScanFixedValid | pkg/bot/groupedcache.go:75-91 | the corrected loop keeps the same guarantees |
| GroupedCache.EvictScanFixedKeepsNewest | pkg/bot/groupedcache.go:75-91 | the corrected loop never evicts the key logged last while another entry is present |
| GroupedCache.KeepsNewestBefore | pkg/bot/groupedcache.go:75-91 | the corrected loop evicts a present key whose last log entry comes earlier before it could reach the newest key |
| GroupedCache.SkipStale | pkg/bot/groupedcache.go:76-90 | the loop as written steps over a log entry whose key is gone, leaving the cache consistent and the outcome of the eviction unchanged |
| GroupedCache.SkipHead | pkg/bot/groupedcache.go:90 | a stale log entry is skipped without changing the cache |
| GroupedCache.EvictScanDrops | pkg/bot/groupedcache.go:75-91 | the eviction loop as written only drops entries, keeps the values of the rest, and changes nothing while the counter is within capacity |
| GroupedCache.EvictScanFixedDrops | pkg/bot/groupedcache.go:75-91 | the corrected loop keeps the same promises |
| GroupedCache.Evict | pkg/bot/groupedcache.go:75-101 | eviction as written keeps the capacity and drops nothing while the counter is within capacity |
| GroupedCache.EvictFixed | pkg/bot/groupedcache.go:75-101 | the corrected eviction keeps the same promises |
| GroupedCache.PutKeepsValues | pkg/bot/groupedcache.go:55-101 | both evictions keep the values of the entries they leave; after a put, as written or corrected, every entry is either the one just put, with its value, or an earlier entry with its old value |
| GroupedCache.Insert | pkg/bot/groupedcache.go:59-70 | a new key is logged and counted; overwriting a present key changes neither log nor counter |
| GroupedCache.InsertValid | pkg/bot/groupedcache.go:55-70 | storing an entity keeps the counter equal to the number of entries |
| GroupedCache.Put | pkg/bot/groupedcache.go:55-91 | a put as written keeps the capacity, and with room left the entity just put can be read back |
| GroupedCache.PutFixed | pkg/bot/groupedcache.go:55-91 | the put with corrected eviction keeps the same promises |
| GroupedCache.PutBounded | pkg/bot/groupedcache.go:55-91 | after a put the cache is consistent and within capacity, with at most one entry evicted |
| GroupedCache.PutFixedThenGet | pkg/bot/groupedcache.go:43-91 | with the corrected eviction an entity just put can be read back |
| GroupedCache.NewKeyLogged | pkg/bot/groupedcache.go:59-70 | a put that goes over capacity logged a new key as the last log entry |
| GroupedCache.PutEvictsNewest | pkg/bot/groupedcache.go:55-91 | from the state `StaleLog` (2 and 3 cached, 1's stale entry at the head of the log, capacity two), putting 1 again loses the 1 just put while 2 and 3 stay |
| GroupedCache.PutThroughStaleHead | pkg/bot/groupedcache.go:75-91 | a full cache whose log starts with a stale entry of the key being put evicts that key again at once |
| GroupedCache.PutKReached | pkg/bot/groupedcache.go:36-91 | a new cache of capacity two, after putting 1, holds just 1 |
| GroupedCache.PutKAReached | pkg/bot/groupedcache.go:55-91 | putting 2 next fills the cache with 1 and 2 |
| GroupedCache.RemovedKReached | pkg/bot/groupedcache.go:108-123 | removing 1 then leaves 2 cached and 1's entry in the log |
| GroupedCache.StaleLogReached | pkg/bot/groupedcache.go:55-91 | putting 3 then reaches `StaleLog`, so the finding's sequence put 1, put 2, remove 1, put 3, put 1 runs through these states |
| GroupedCache.Remove | pkg/bot/groupedcache.go:108-123 | a removal returns what a lookup would and deletes just that entry; the log is left as it was |
| GroupedCache.RemoveValid | pkg/bot/groupedcache.go:108-123 | a removal keeps the cache consistent: the counter still equals the number of entries and every stored key is still logged |
| GroupedCache.RemoveIf | pkg/bot/groupedcache.go:134-148 | exactly the entities the filter selects are deleted, the others keep their values, and the counter stays right |
| GroupedCache.GroupRemoveIf | pkg/bot/groupedcache.go:150-164 | exactly the selected entities of that group are deleted, other groups are untouched, and the counter stays right |
| GroupedCache.GroupRemove | pkg/bot/groupedcache.go:125-132 | the group's entries go, others are untouched, and the counter drops by the group's length |
| GroupedCache.Load | pkg/bot/groupedcache.go:224-240 | loading resets the cache and logs and counts every item, in order; the stored keys are exactly the logged ones |
| GroupedCache.LoadLastWins | pkg/bot/groupedcache.go:231-239 | each key holds the last item filed under it |
| GroupedCache.LoadDistinctValid | pkg/bot/groupedcache.go:224-240 | loading items with distinct keys gives a consistent cache |
| GroupedCache.LoadDuplicateMiscounts | pkg/bot/groupedcache.go:231-239 | two items with the same key are counted twice though only one is stored |
| IdleLoop.Start | pkg/idleloop/idleloop.go:23-36 | the loop starts with no messages, disarmed, and with a time-threshold timer exactly when that threshold is positive |
| IdleLoop.Arm | pkg/idleloop/idleloop.go:74-89 | arming starts the timers and is idempotent: arming an armed loop changes nothing |
| IdleLoop.ResetAll | pkg/idleloop/idleloop.go:91-111 | after a reset the count is zero, the loop is disarmed with idle and maximum timers stopped, and the time-threshold timer restarts if it exists |
| IdleLoop.Step | pkg/idleloop/idleloop.go:113-157 | one turn as written: a message adds one to the count; a repost that goes through zeroes it and disarms; every other event keeps the count; only a stop stops the loop; the time-threshold timer is never created or removed |
| IdleLoop.StepFixed | pkg/idleloop/idleloop.go:113-157 | one corrected turn: a message adds one and, after a passed time threshold, arms the loop; a passed time threshold arms the loop or is remembered; other events are as written |
| IdleLoop.StartInv | pkg/idleloop/idleloop.go:22-36 | the loop starts in a state where it is armed exactly while the maximum timer runs, the idle timer runs only while armed, and arming needs a message |
| IdleLoop.StepInv | pkg/idleloop/idleloop.go:113-157 | every turn of the loop keeps that invariant |
| IdleLoop.StepFixedInv | pkg/idleloop/idleloop.go:113-157 | every turn of the corrected loop keeps it too |
| IdleLoop.RepostNeedsMessage | pkg/idleloop/idleloop.go:139-155 | the repost callback is only called after at least one message, and a successful repost zeroes the count and disarms |
| IdleLoop.FailedRepostStaysArmed | pkg/idleloop/idleloop.go:139-155 | a failed repost keeps the loop armed with its count, the maximum timer running, and after an idle failure the idle timer cleared |
| IdleLoop.ArmedMessageCounts | pkg/idleloop/idleloop.go:118-129 | while armed a message only adds to the count and restarts the idle timer |
| IdleLoop.ThresholdArms | pkg/idleloop/idleloop.go:130-132 | the message that reaches a positive message threshold arms the loop |
| IdleLoop.ElapsedThresholdForgotten | pkg/idleloop/idleloop.go:134-137 | as written, a time threshold that passes before any message is lost: the next message leaves the loop disarmed with no timer left to arm it |
| IdleLoop.ElapsedThresholdArms | pkg/idleloop/idleloop.go:17-21 | corrected, once the time threshold has passed the next message arms the loop, as the documented "whichever comes first" promises |
| Starboard.EffectiveThreshold | pkg/bot/topreactions.go:46-53 | the threshold in force is at least one: the configured one when positive, otherwise five |
| Starboard.Listed | pkg/bot/topreactions.go:57-61 | the inner loop finds an ID exactly when it is on the list |
| Starboard.IsBlacklisted | pkg/bot/topreactions.go:55-64 | a reaction is blacklisted exactly when one of the given channel IDs is on the blacklist |
| Starboard.EmojiDisplay | pkg/bot/topreactions.go:81-88 | a stored emoji with a ":" followed by something is shown as custom-emoji markup; any other is shown as stored |
| Starboard.MarkupBody | pkg/bot/topreactions.go:91 | the body found is exactly what lies between "<:" or "<a:" and the closing ">" |
| Starboard.CustomGroups | pkg/bot/topreactions.go:91-96 | a match of the custom-emoji pattern yields a name and an ID that rebuild the whole input |
| Starboard.MarkupOfBody | pkg/bot/topreactions.go:91 | static and animated markup are the "name:id" body inside their frames |
| Starboard.ParseEmojiInput | pkg/bot/topreactions.go:93-99 | the stored form is the input itself or, for custom-emoji markup, its name and ID joined by ":" |
| Starboard.ParseMarkup | pkg/bot/topreactions.go:93-99 | every static or animated markup with a word name and a numeric ID is stored as "name:id" |
| Starboard.DisplayOfParsed | pkg/bot/topreactions.go:81-99 | storing custom-emoji markup and displaying it gives back its static markup |
| Starboard.PlainEmojiUnchanged | pkg/bot/topreactions.go:81-99 | a Unicode emoji is stored and displayed unchanged |
| Starboard.Prune | pkg/bot/topreactions.go:158-165 | pruning drops exactly the unposted entries older than thirty days and keeps the others unchanged |
| Starboard.PruneKeeps | pkg/bot/topreactions.go:158-165 | a posted entry or one exactly thirty days old survives, and pruning twice is pruning once |
| Starboard.ReactionAdd | pkg/bot/topreactions.go:169-248 | a reaction by a bot, with no output channel or emoji, with another emoji, in the output channel or in a blacklisted channel changes nothing; otherwise the message's count goes up by one, a new entry records channel and author, and the entry is posted exactly when it reaches the threshold unposted, updated exactly when already posted |
| Starboard.ReactionRemove | pkg/bot/topreactions.go:250-282 | removing the configured emoji from a known message lowers its count by one but not below zero and keeps the entry; anything else changes nothing; a removal never posts |
| Starboard.ZeroCount | pkg/bot/topreactions.go:284-339 | clearing a known message's count keeps the rest of its entry and updates it only when posted; an unknown message is ignored |
| Starboard.ReactionRemoveAll | pkg/bot/topreactions.go:284-308 | removing all reactions clears the count of a known message whatever the configured emoji |
| Starboard.ReactionRemoveEmoji | pkg/bot/topreactions.go:310-339 | removing one emoji clears the count only for the configured emoji |
| Starboard.AddThenRemove | pkg/bot/topreactions.go:169-282 | a counted reaction followed by its removal gives the original count back, leaving a zero-count entry for a first reaction |
| Starboard.PostsAtThreshold | pkg/bot/topreactions.go:237-247 | the reaction that brings an unposted entry to the threshold posts it; a posted entry is only updated |
| Starboard.PostContent | pkg/bot/topreactions.go:357 | the starboard text starts with the displayed emoji and " **", ends with "** \| " and a mention of the source channel, and between them is the count in decimal |
| Starboard.PostCountReadsBack | pkg/bot/topreactions.go:357 | the count between the bold markers reads back (strconv.Atoi) as the entry's count |
| Starboard.RecordPost | pkg/bot/topreactions.go:392-396 | once Discord accepts the post, the entry records the starboard message and nothing else changes |
| Starboard.PostedOnlyUpdates | pkg/bot/topreactions.go:237-247 | an entry that was posted is never posted again: further reactions only update it |
| Starboard.DropUnposted | pkg/bot/topreactions.go:466-470 | exactly the posted entries are kept, unchanged |
| Starboard.ConfigSet | pkg/bot/topreactions.go:453-477 | each given option replaces its setting; a different parsed emoji drops every unposted entry first; an unchanged emoji keeps them all; the blacklist is untouched |
| Starboard.ConfigSetIdempotent | pkg/bot/topreactions.go:453-477 | repeating a configuration command changes nothing more |
| Starboard.Disable | pkg/bot/topreactions.go:520-525 | disabling clears only the output channel and keeps the counts |
| Starboard.DisableStopsCounting | pkg/bot/topreactions.go:520-534 | a disabled starboard ignores reactions, and setting a channel again restores everything else unchanged |
| Starboard.BlacklistAdd | pkg/bot/topreactions.go:568-594 | a listed channel is refused as already blacklisted; any other is appended, with a reply that depends on whether the save went through |
| Starboard.BlacklistRemove | pkg/bot/topreactions.go:596-629 | a channel not listed is reported and nothing changes; otherwise its first occurrence goes, so it is listed one time fewer |
| Starboard.BlacklistAddRemove | pkg/bot/topreactions.go:568-629 | adding a channel that was not listed and then removing it restores the settings |
| Starboard.BlacklistAddNoDuplicates | pkg/bot/topreactions.go:579-584 | the add command never creates a duplicate entry |
| Starboard.BlacklistList | pkg/bot/topreactions.go:631-649 | an empty blacklist gets its own message, and only then; a listed one is the heading followed by the channel mentions joined by newlines, in list order |
| Starboard.Mentions | pkg/bot/topreactions.go:644-647 | one channel mention per listed channel, in list order |
| Starboard.BlacklistListLines | pkg/bot/topreactions.go:631-649 | split into lines after the heading, the list gives back every blacklisted channel's mention, in order |
| Starboard.SavedReply | pkg/bot/topreactions.go:587-593 | a command's reply is its success text when the save went through and the failure text otherwise |
| Starboard.ChannelMention | pkg/bot/topreactions.go:646 | a channel mention is "<#", the decimal ID and ">" |
| TopPosters.OnMessage | pkg/bot/topposters.go:47-88 | a bot's message, an untracked guild or a member with the excluded role changes nothing; otherwise today's count of the author goes up by one and every other count stays |
| TopPosters.PruneOldDays | pkg/bot/topposters.go:146-152 | exactly the days that sort before the cutoff are dropped; the others keep their counts |
| TopPosters.PruneKeepsCutoff | pkg/bot/topposters.go:146-152 | the cutoff day itself is kept, and pruning twice is pruning once |
| TopPosters.OldestDate | pkg/bot/topposters.go:154-162 | no days gives ""; otherwise, whatever order the map is visited in, the result is a stored day that no other day sorts before |
| TopPosters.TotalRemove | pkg/bot/topposters.go:164-172 | a user's total over the days is one day's count plus the total over the others, whichever day is taken first |
| TopPosters.TotalAgree | pkg/bot/topposters.go:164-172 | two tables that agree on a user's daily counts give that user the same total |
| TopPosters.AddDay | pkg/bot/topposters.go:167-169 | folding one day in adds that day's count to each user's running total and adds its new users |
| TopPosters.AggregateCounts | pkg/bot/topposters.go:164-172 | the totals hold exactly the users seen on some day, each with the sum of their counts over all days |
| TopPosters.OnMessageTotal | pkg/bot/topposters.go:47-88 | counting a message raises the author's total by exactly one and no one else's |
| TopPosters.Insert | pkg/bot/topposters.go:213-215 | placing a poster keeps the ranking in descending order of count and adds exactly that poster |
| TopPosters.HeadBoundsInsert | pkg/bot/topposters.go:213-215 | a poster counting at least as much as everyone placed still does after one more is placed |
| TopPosters.ConsDescending | pkg/bot/topposters.go:213-215 | a poster counting at least as much as the first of a descending ranking can go in front of it and the ranking stays descending |
| TopPosters.InsertMembers | pkg/bot/topposters.go:213-215 | a ranking with one more poster holds exactly that poster and the earlier ones |
| TopPosters.RankStep | pkg/bot/topposters.go:209-215 | placing one more user's total keeps the ranking exactly the totals of the users placed so far |
| TopPosters.Rank | pkg/bot/topposters.go:208-215 | the ranking is in descending order of count and lists each user's total exactly once, in some order among ties |
| TopPosters.RankLine | pkg/bot/topposters.go:223 | a line starts with the rank, ". " and a mention of the user followed by " — ", ends in " messages", and between them is the count in decimal |
| TopPosters.RankLineCountReadsBack | pkg/bot/topposters.go:223 | the count written into a line reads back (`strconv.Atoi`) as the poster's count |
| TopPosters.RankLines | pkg/bot/topposters.go:217-224 | at most twenty lines, one per leading poster, numbered from one in ranking order |
| TopPosters.Leaderboard | pkg/bot/topposters.go:226-229 | no posters gives the "no messages" text; otherwise the description is the lines joined by newlines |
| TopPosters.BoardHasTop | pkg/bot/topposters.go:208-224 | everyone on the board has at least as many messages as everyone left off it |
| EventLog.TruncateBytes | pkg/bot/eventlog.go:61-66 | a text within the limit is kept; a longer one keeps its first max-1 bytes followed by the three bytes of "…" |
| EventLog.TruncateBytesIdempotent | pkg/bot/eventlog.go:61-66 | truncating a truncated text again changes nothing |
| EventLog.TruncateSplitsCharacter | pkg/bot/eventlog.go:61-66 | as written, truncating the bytes of "éé" to two cuts the first character in half and the result is not valid UTF-8 |
| EventLog.FittingPrefix | pkg/bot/eventlog.go:61-66 | the number of leading characters that fit a byte budget: one more would not fit |
| EventLog.Truncate | pkg/bot/eventlog.go:61-66 | corrected, a text within the limit is kept; a longer one keeps the longest whole-character prefix that fits in max-1 bytes and ends in "…"; the result is always valid UTF-8 |
| EventLog.TruncateAsciiShape | pkg/bot/eventlog.go:61-66 | on ASCII text the corrected truncation keeps the first max-1 characters followed by "…" |
| EventLog.TruncateAsciiAgrees | pkg/bot/eventlog.go:61-66 | on ASCII text the corrected and the written truncation give the same bytes |
| EventLog.AsciiCutBytes | pkg/bot/eventlog.go:65 | the bytes of an ASCII text cut to max-1 characters and followed by "…" are the bytes the written truncation produces |
| EventLog.TruncDiv | pkg/bot/eventlog.go:738 | Go's integer conversion of a quotient rounds toward zero, also for negative durations |
| EventLog.FormatDurationRanges | pkg/bot/eventlog.go:737-751 | past 365 whole days the text gives years and the days left over, which add back up to the days elapsed; from one day it gives days; from one hour, hours; otherwise minutes rounded toward zero |
| EventLog.FormatDuration | pkg/bot/eventlog.go:737-751 | a duration ends in days, hours or minutes, and in minutes when it is under an hour |
| EventLog.ChannelTypeName | pkg/bot/eventlog.go:753-772 | an unknown channel type, and only one, is named "Type " followed by its number |
| EventLog.ChannelTypeNameInjective | pkg/bot/eventlog.go:753-772 | different channel types never share a name |
| EventLog.Mark | pkg/bot/eventlog.go:495-518 | creating marks a bit allowed if newly allowed, else denied if newly denied; deleting reverts every bit set before; an update marks exactly the bits newly allowed as allowed, the bits newly denied and not newly allowed as denied, and leaves out exactly the bits whose allow and deny are both unchanged |
| EventLog.DiffEntries | pkg/bot/eventlog.go:494-519 | at most one line per permission of the table, and a marked first permission comes first |
| EventLog.DiffEntriesExactly | pkg/bot/eventlog.go:494-519 | a permission is listed with a mark exactly when its bit gets that mark |
| EventLog.FormatPermissionDiff | pkg/bot/eventlog.go:492-524 | no marked permission gives the "no recognizable changes" text; otherwise one line per marked permission, mark then name, in table order |
| EventLog.UnchangedListsNothing | pkg/bot/eventlog.go:506-517 | an update that changes no bit lists nothing |
| EventLog.DeleteListsCreated | pkg/bot/eventlog.go:496-505 | deleting an overwrite lists, in the same order, exactly the permissions that creating it listed |
| EventLog.UpdateUndoListsSame | pkg/bot/eventlog.go:506-517 | an update and the update that undoes it list the same permissions |
| Shortcuts.Loaded | pkg/bot/shortcuts.go:34-66 | a guild loaded from storage has its saved shortcuts and no round-robin position yet |
| Shortcuts.Use | pkg/bot/shortcuts.go:94-144 | an empty name asks for one; an unknown name or one without responses is not found and changes nothing; otherwise the response at the position (the random start on first use) is sent and the position moves on by one, wrapping around |
| Shortcuts.Uses | pkg/bot/shortcuts.go:94-144 | k successive uses give k replies |
| Shortcuts.RoundRobin | pkg/bot/shortcuts.go:125-131 | successive uses walk through the responses in order, wrapping around, from where the last use stopped or from the random start |
| Shortcuts.FullCycle | pkg/bot/shortcuts.go:125-131 | k uses move the position k steps around the responses, so as many uses as there are responses bring it back |
| Shortcuts.UsesState | pkg/bot/shortcuts.go:94-144 | using a shortcut never changes the saved shortcuts and keeps its position |
| Shortcuts.Autocomplete | pkg/bot/shortcuts.go:146-176 | in whatever order the names are visited, the choices are distinct names containing the lower-cased input, at most 25, and all of them when fewer than 25 match |
| Shortcuts.ChoicesCount | pkg/bot/shortcuts.go:162-172 | when the scan stops, the choices are all the matching names or 25 of them |
| Shortcuts.Prefill | pkg/bot/shortcuts.go:216-230 | the form has five fields, holding the existing responses in order and blanks after them |
| Shortcuts.KeepResponses | pkg/bot/shortcuts.go:265-271 | every kept response is a submitted one that is not blank, and every submitted response that is not blank is kept, where blank means only Unicode white space (`strings.TrimSpace`); all of them when none is blank, none when all are |
| Shortcuts.KeepResponsesAppend | pkg/bot/shortcuts.go:265-271 | the fields are filtered one at a time, in order: filtering two runs of fields is filtering each and joining the results, and a single field is kept exactly when it is not blank |
| Shortcuts.PrefillRoundTrip | pkg/bot/shortcuts.go:216-271 | submitting the form unchanged saves the same responses, for up to five non-blank responses |
| Shortcuts.BlankTail | pkg/bot/shortcuts.go:265-271 | blank fields after the responses are dropped |
| Shortcuts.SetFromModal | pkg/bot/shortcuts.go:256-301 | with no response that has a non-space character (Unicode white space) nothing is saved; a new name is refused once the guild has 200 shortcuts; otherwise the responses replace the old ones and the position restarts at the first |
| Shortcuts.SetKeepsLimit | pkg/bot/shortcuts.go:284-289 | saving never takes a guild past 200 shortcuts |
| Shortcuts.SetThenUse | pkg/bot/shortcuts.go:290-291 | the first use after a save sends the first saved response |
| Shortcuts.Remove | pkg/bot/shortcuts.go:303-343 | an empty name asks for one; an unknown name is not found and changes nothing; otherwise the shortcut and its position go |
| Shortcuts.SetThenRemove | pkg/bot/shortcuts.go:256-343 | removing a shortcut just created gives the guild's shortcuts back as they were |
| Shortcuts.ListLineMojibake | pkg/bot/shortcuts.go:365 | the list's separator is the em dash's UTF-8 bytes read as Windows-1252, so every line differs from the intended one |
| Shortcuts.ListLineEmDash | pkg/bot/shortcuts.go:365 | the corrected line shows the bold name, then an em dash (U+2014) between spaces, then the response count |
| Shortcuts.ListLineAsWritten | pkg/bot/shortcuts.go:365 | the line as written starts with the bold name and a space and ends with the response count |
| Shortcuts.ListLine | pkg/bot/shortcuts.go:365 | the corrected line has the same start and end |
| Embed.LetterAt | pkg/bot/embed.go:63 | every position of the alphabet is an ASCII letter |
| Embed.RgbToInt | pkg/bot/embed.go:58-60 | the colour packs red, green and blue into three bytes, and each channel can be read back from its byte |
| Embed.EmbedColor | pkg/bot/embed.go:20 | the embed colour is 0x674736 |
| Embed.RandomLetters | pkg/bot/embed.go:62-69 | n draws give a string of n ASCII letters |
| Embed.RandomLettersCoverAlphabet | pkg/bot/embed.go:62-69 | every letter can come out of the generator |
| Embed.ProfileFields | pkg/bot/embed.go:23-32 | no more fields are shown than the template has |
| Embed.ProfileFieldsMembers | pkg/bot/embed.go:23-32 | a field is shown exactly when the template has it and the profile fills it with a non-empty value, and it shows that value |
| Embed.ProfileFieldsOrdered | pkg/bot/embed.go:23-32 | shown fields keep the template's order |
| Embed.ProfileFieldsShift | pkg/bot/embed.go:23-32 | the fields of the template's tail are the end of the template's fields, moved by one when the first field is filled |
| Embed.ProfileFieldsHeadFirst | pkg/bot/embed.go:23-32 | a filled first field comes out before every other filled field |
| Embed.BuildProfileEmbed | pkg/bot/embed.go:14-51 | the title is the template name, " for " and the user name; the colour is the brown; the fields are the filled ones in order; a non-empty image becomes the image with "?" and ten letters appended; otherwise the hint on adding an image is the last field and there is no image; the footer is "sprobot" with the bot's icon |
| Embed.ImageLinkStripsBack | pkg/bot/embed.go:34-37 | the stored image URL is the part of the image link before its last "?" |
| ModLog.ContentChunks | pkg/bot/modlog.go:108-118 | the chunks concatenate back to the content; each is non-empty and at most 1024 bytes, all but the last exactly 1024; empty content gives no chunk |
| ModLog.AttachmentLinks | pkg/bot/modlog.go:122-132 | one link per attachment, in order: the bot's saved copy, or Discord's proxy URL when the save failed |
| ModLog.AllSavesFailed | pkg/bot/modlog.go:124-131 | with every save failing, the archive lists Discord's own URLs |
| ModLog.MessageLink | pkg/bot/modlog.go:274-276 | a message link is the Discord channels prefix followed by the three IDs and two separators |
| ModLog.MessageLinkRoundTrip | pkg/bot/modlog.go:274-276 | a message link reads back into the guild, channel and message it was made from |
| ModLog.ParseMessageLink | pkg/bot/modlog.go:274-276 | reading a link back only succeeds on a message link: the first two parts have no "/" and re-building the link from the three parts gives the input |
| ModLog.ArchiveFields | pkg/bot/modlog.go:108-161 | the archive starts with the content chunks as unnamed fields, then, exactly when there are attachments, the "Attachments" field holding the links joined by single spaces, then "Link to Message" holding "[Click here](" and the link and ")", then "Timestamps", and last the mod note exactly when one was written |
| ModLog.AttachmentsReadBack | pkg/bot/modlog.go:133-136 | split on spaces, the Attachments field gives back the attachment links in order, since links hold no space |
| ModLog.FirstMatch | pkg/bot/modlog.go:232-255 | the thread found is the first listed thread of the forum whose name contains a search term; none is found exactly when no listed thread of the forum matches |
| ModLog.FindThread | pkg/bot/modlog.go:208-272 | the first matching active thread of the forum wins; with none, the first matching archived thread is taken; a thread named after the user and their ID is created exactly when neither listing holds a match |
| ModLog.CreatedThreadFound | pkg/bot/modlog.go:238-259 | a thread the bot created for a user is found again while it stays active in the forum, wherever it is listed, provided no earlier thread of the forum matches |
| ThreadBot.Enable | pkg/threadbot/commands.go:118-172 | missing options default to 30 and 720 idle minutes, 500 messages and 720 minutes; a maximum idle time not above the minimum, or both thresholds at zero, is refused with its message and changes nothing; otherwise the channel's reminder is replaced by an enabled one with exactly those settings |
| ThreadBot.EnableDefaults | pkg/threadbot/commands.go:123-138 | enabling with no options stores a reminder with the defaults 30, 720, 500 and 720 |
| ThreadBot.Disable | pkg/threadbot/commands.go:174-199 | disabling a channel without a reminder answers that there is none and changes nothing; otherwise exactly that channel's reminder is removed, and its last posted message is deleted exactly when one was recorded |
| ThreadBot.EnableThenDisable | pkg/threadbot/commands.go:148-199 | enabling a channel that had no reminder and then disabling it leaves the guild's reminders as they were, whether or not the enable was accepted |
| ThreadBot.ApplyDefaults | pkg/threadbot/reminders.go:41-51 | on load, only zero fields change: minimum idle becomes 30, maximum idle 720 and message threshold 30; every other field is kept |
| ThreadBot.ApplyDefaultsIdempotent | pkg/threadbot/reminders.go:41-51 | applying the load defaults twice is the same as applying them once |
| ThreadBot.ReloadChangesSettings | pkg/threadbot/reminders.go:41-51 | a reminder accepted with message threshold 0 reloads with threshold 30, and one accepted with idle range 0 to 10 reloads with its minimum above its maximum |
| ThreadBot.ApplyDefaultsFixed | pkg/threadbot/commands.go:140-147 | the corrected load step keeps every reminder whose settings the enable command accepts, and applies the defaults only to one it would refuse |
| ThreadBot.EnableSurvivesReload | pkg/threadbot/commands.go:148-172 | with the corrected load step, every reminder the enable command stores comes back from a restart unchanged |
| ThreadBot.FormatAgeUnits | pkg/threadbot/reminders.go:303-324 | an age names the largest whole unit that fits: N days from two days, "1 day" from one, N hours from two hours, "1 hour", N mins from two minutes, and "1 min" below that, with N the truncated count |
| ThreadBot.FormatAge | pkg/threadbot/reminders.go:303-324 | an age is a number followed by one of the units day, hour or min, singular or plural |
| ThreadBot.Eligible | pkg/threadbot/reminders.go:176-195 | a thread is listed exactly when the listing holds it, it is not archived and its parent is the channel |
| ThreadBot.InsertByMessages | pkg/threadbot/reminders.go:207-209 | inserting one thread into a list ordered by descending message count keeps it ordered and adds exactly that thread |
| ThreadBot.SortByMessages | pkg/threadbot/reminders.go:207-209 | the sorted list is ordered by descending message count and is a permutation of the eligible threads, ties in any order |
| ThreadBot.MemberCount | pkg/threadbot/reminders.go:224-229 | a positive refreshed member count replaces the one Discord sent; a missing or non-positive one does not |
| ThreadBot.TakeWithin | pkg/threadbot/reminders.go:221-236 | the lines kept are a prefix of the lines, fit in the byte budget, and the first line left out would have overflowed it |
| ThreadBot.ShownLines | pkg/threadbot/reminders.go:221-236 | the body is the concatenation of the first ShownCount thread lines, in order, and fits in 3900 bytes |
| ThreadBot.ThreadLines | pkg/threadbot/reminders.go:221-229 | one line per thread, in the order given |
| ThreadBot.ShownCount | pkg/threadbot/reminders.go:221-236 | the number of threads shown is the longest run from the first whose lines fit in 3900 bytes: those lines fit, and adding the next line would overflow |
| ThreadBot.ShownInOrder | pkg/threadbot/reminders.go:221-236 | every shown thread's line appears in the description right after the lines of the threads before it |
| ThreadBot.ListDescription | pkg/threadbot/reminders.go:211-239 | with ten threads or fewer the description is the shown lines of all of them, within 3900 bytes, and no closing line; with more it is the shown lines of the first ten followed by "...and N more threads" for the N threads not shown |
| ThreadBot.ThreadList | pkg/threadbot/reminders.go:161-239 | there is no list when the thread listing fails or no thread is eligible; otherwise the count is the number of eligible threads and the description is the ListDescription of some ordering of exactly the eligible threads by descending message count; a list of at most ten threads fits in 3900 bytes |
| Sticky.ToExport | pkg/stickybot/sticky.go:48-61 | the saved form carries every persistent field of the sticky unchanged |
| Sticky.FromExport | pkg/stickybot/sticky.go:63-76 | a sticky read back starts with no post time and no messages counted since its last post |
| Sticky.ExportRoundTrip | pkg/stickybot/sticky.go:48-76 | reading back a saved sticky gives the same sticky with its runtime bookkeeping cleared, and saving a read-back record gives the record again |
| Sticky.SaveChannels | pkg/stickybot/sticky.go:113-118 | the saved map has one entry per sticky, keyed by the decimal form of its channel ID, and no other key |
| Sticky.SaveForGuild | pkg/stickybot/sticky.go:107-118 | saving a guild with no stickies map writes nothing; otherwise the map of all its stickies is written |
| Sticky.NatToStringInjectiveAll | pkg/stickybot/sticky.go:116 | two channels never share a saved key |
| Sticky.Load | pkg/stickybot/sticky.go:97-101 | the loaded stickies are exactly those named by some saved entry, each keyed by its own channel and read back from an entry naming that channel |
| Sticky.SavedEntry | pkg/stickybot/sticky.go:113-118 | every saved entry names a channel that has a sticky, and reads back as that channel's sticky |
| Sticky.SaveThenLoad | pkg/stickybot/sticky.go:78-118 | saving a guild's stickies and loading them back gives the same channels with the same stickies, runtime bookkeeping cleared |
| Sticky.LoadedValues | pkg/stickybot/sticky.go:97-101 | every loaded channel had a sticky, and its loaded sticky is the saved one with bookkeeping cleared |
| Sticky.LoadedCovers | pkg/stickybot/sticky.go:97-101 | every saved channel is present after loading |
| Sticky.ModalId | pkg/stickybot/commands.go:119 | the form's custom ID starts with the "sticky_config_" prefix |
| Sticky.ParseModalId | pkg/stickybot/commands.go:150-156 | the custom ID is refused exactly when no "_" follows the prefix |
| Sticky.ModalIdRoundTrip | pkg/stickybot/commands.go:119-156 | the custom ID built for a channel and message parses back to that channel and message |
| Sticky.ValidateSettings | pkg/stickybot/commands.go:161-170 | the form is accepted exactly when the delay parses to a number of at least 0 and the threshold to one of at least 1; a refusal names the delay when the delay is wrong and the threshold otherwise |
| Sticky.DefaultsAccepted | pkg/stickybot/commands.go:127-136 | the form's prefilled 15 seconds and 4 messages are accepted as they are |
| Sticky.SavedFiles | pkg/stickybot/commands.go:186-194 | the re-hosted links are exactly the successful saves, and a failed save is skipped |
| Sticky.SavedFilesAppend | pkg/stickybot/commands.go:186-194 | the saves are processed one at a time, in order: the links of two runs of saves are each run's links joined, a successful save gives exactly its one link and a failed one none |
| Sticky.StickyEmbeds | pkg/stickybot/commands.go:196-203 | the sticky keeps the original embeds in order, followed by one image embed per re-hosted link, in order |
| Sticky.SetActive | pkg/stickybot/commands.go:242-276 | stop and start on a channel without a sticky answer that there is none; otherwise only the sticky's active flag changes |
| Sticky.StopThenStart | pkg/stickybot/commands.go:242-276 | pausing and then resuming an active sticky leaves the stickies as they were |
| Sticky.Remove | pkg/stickybot/commands.go:278-304 | removing where there is no sticky answers that there is none and changes nothing; otherwise exactly that sticky is deleted, and its last posted message is deleted exactly when one was recorded |
| Sticky.Preview | pkg/stickybot/commands.go:322-325 | content of 50 bytes or fewer is shown whole; longer content shows its first 50 bytes followed by "..." |
| Selfrole.PanelComponents | pkg/bot/selfrole.go:161 | the panel is one action row holding one button per configured role, in configuration order |
| Selfrole.PanelNeedsUpdateExactly | pkg/bot/selfrole.go:156-194 | a posted panel is left alone exactly when it has no text content and its components are precisely the configured button row, with matching labels, styles, custom IDs and emoji |
| Selfrole.PanelNeedsUpdate | pkg/bot/selfrole.go:156-194 | a posted message with content or other than one row needs an update, and the configured panel does not |
| Selfrole.ParseSelfroleId | pkg/bot/selfrole.go:260-270 | an ID is accepted only when it starts with "selfrole_", and the role it yields fits in 64 bits |
| Selfrole.ParseButtonId | pkg/bot/selfrole.go:260-270 | every role button's custom ID is accepted and yields that button's role |
| Selfrole.ParseRejectsNonDigits | pkg/bot/selfrole.go:264-268 | an empty or non-decimal remainder after "selfrole_" is refused |
| Selfrole.RoleLabel | pkg/bot/selfrole.go:243-258 | the label is some configured button's label for the role, or "role" |
| Selfrole.FirstButton | pkg/bot/selfrole.go:250-254 | the button found is one of the buttons and is for the role; none is found only when no button is for the role |
| Selfrole.RoleLabelFound | pkg/bot/selfrole.go:243-258 | whenever some configured button is for the role, the label is the label of such a button |
| Selfrole.ToggleRole | pkg/bot/selfrole.go:196-241 | the role is removed exactly when the member is known and holds it, and added otherwise; a failed call answers with the retry message, a successful one names the role added or removed |
| Selfrole.ToggleTwice | pkg/bot/selfrole.go:204-240 | after one successful toggle, a second one does the opposite |
| Selfrole.RemoveAll | pkg/bot/selfrole.go:214-215 | removing the role leaves exactly the member's other roles |
| Tickets.LoadCounter | pkg/bot/tickets.go:63-90 | a guild starts at counter 1 when nothing is saved, the fetch fails, the document does not decode or its counter is below 1; a saved counter of at least 1 is kept; the counter is never below 1 |
| Tickets.ThreadName | pkg/bot/tickets.go:272 | a ticket's thread is named "ticket-" followed by its number in decimal |
| Tickets.ThreadNameInjective | pkg/bot/tickets.go:272 | different ticket numbers give different thread names |
| Tickets.Open | pkg/bot/tickets.go:257-314 | the ticket takes number counter plus offset, the counter moves on by exactly one whether or not the thread is created, and the user is told either where the ticket is or that creating it failed |
| Tickets.OpenMany | pkg/bot/tickets.go:257-272 | tickets opened in a row produce one thread name each |
| Tickets.OpenManyNumbers | pkg/bot/tickets.go:257-272 | tickets opened in a row are numbered consecutively from counter plus offset, and the counter ends advanced by the number of tickets |
| Tickets.OpenManyDistinct | pkg/bot/tickets.go:257-272 | no two tickets opened in a row share a thread name |
| Tickets.CounterSurvivesRestart | pkg/bot/tickets.go:63-90 | a counter saved after opening tickets loads back unchanged, so numbering continues after a restart |
| Tickets.PanelButtonAsWritten | pkg/bot/tickets.go:136-143 | the open button as written is primary, carries the panel label and the "ticket_open" ID, and its emoji is the four-character misreading |
| Tickets.PanelButton | pkg/bot/tickets.go:136-143 | the corrected open button is the same button with the ticket emoji U+1F3AB |
| Tickets.EmojiMojibake | pkg/bot/tickets.go:141 | both emoji literals are the Windows-1252 reading of the intended emoji's UTF-8 bytes, and neither is the emoji |
| Tickets.CloseButton | pkg/bot/tickets.go:296-304 | the close button is a danger button with the "ticket_close" ID and the padlock emoji U+1F512 |
| Tickets.PanelNeedsUpdateExactly | pkg/bot/tickets.go:145-174 | a posted panel is left alone exactly when it is the bot's panel, with no content, the one panel embed and the one open button, whatever that button's custom ID |
| Tickets.PanelIsCurrent | pkg/bot/tickets.go:145-174 | the panel the bot posts never needs an update |
| Tickets.Panel | pkg/bot/tickets.go:183-186 | the panel the bot posts passes its own check: it needs no update |
| Tickets.PanelNeedsUpdate | pkg/bot/tickets.go:145-174 | a posted message with text content, an embed other than the single panel text, or other than one component row needs an update |
| Tickets.FindPanel | pkg/bot/tickets.go:188-202 | the panel found is the first of the bot's messages holding a button with the "ticket_open" ID; none is found only when no message is one |
| Tickets.EnsurePanel | pkg/bot/tickets.go:176-233 | nothing is done when the listing fails; a panel is created exactly when no listed message is the bot's panel; otherwise the first panel listed decides: it is rewritten when it needs an update and left alone when current |
| Tickets.EnsureIdempotent | pkg/bot/tickets.go:176-233 | once the panel is posted, the next start finds it current and leaves it alone |
| Web.UnescapeAll | cmd/sprobot-web/main.go:53 | the path segments are all unescaped, each to its own bytes, and the request is refused exactly when some segment holds a bad escape |
| Web.RouteOf | cmd/sprobot-web/main.go:51-53 | the root path reaches the index, and a path reaches the profile handler only when it has exactly five segments |
| Web.TrimJson | cmd/sprobot-web/main.go:101 | a user ID ending in ".json" loses that one suffix, and any other is kept as it is |
| Web.TrimJsonOnce | cmd/sprobot-web/main.go:101 | only one trailing ".json" is stripped, so a doubled suffix keeps one |
| Web.AsWrittenLinkNotFound | cmd/sprobot-web/main.go:53 | the profile link as the bot writes it, with its separators escaped, is a single path segment and never reaches the profile handler |
| Web.LinkSegments | pkg/bot/embed.go:53-56 | the corrected link has five escaped components, none containing a "/" |
| Web.LinkRoundTrip | cmd/sprobot-web/main.go:51-103 | the corrected profile link reaches the profile handler with the bucket, guild, template and user it was built from, and the user ID looked up is the one the link names |
| Web.RouteOfProfile | cmd/sprobot-web/main.go:53 | a path of five non-empty segments whose second reads "profiles" reaches the profile handler with the unescaped first, third, fourth and fifth segments |
| Web.UserIdOfLink | cmd/sprobot-web/main.go:101 | the user segment of a link, once ".json" is stripped, is the user ID |
| Web.Insert | cmd/sprobot-web/main.go:115 | inserting a new key into a strictly sorted key list keeps it strictly sorted and adds exactly that key |
| Web.SortedKeys | cmd/sprobot-web/main.go:111-115 | the keys are strictly increasing in Go's string order and are exactly the profile's keys |
| Web.PageFields | cmd/sprobot-web/main.go:116-123 | the fields are exactly the profile's entries other than the picture, each with its stored value, in key order |
| Web.PictureUrl | cmd/sprobot-web/main.go:118-119 | the picture link is set exactly when the image field is present and not empty, and is then that field's value |
| Web.Serve | cmd/sprobot-web/main.go:87-129 | a bad escape is refused; only "/" shows the index; the not-found page is shown exactly for an unrouted path or a profile that cannot be fetched; a profile page shows the fetched profile's fields in key order and its picture |
| Web.Respond | cmd/sprobot-web/main.go:87-129 | each route reaches its handler: index, not found, or the profile page of the fetched profile, not found when the fetch fails |
| Web.PageFieldsShow | cmd/sprobot-web/main.go:109-123 | the fields built from the sorted keys, with the picture link, show the profile |
| Web.PageShowsEverything | cmd/sprobot-web/main.go:109-123 | every stored value appears on the page exactly once: as the picture when it is the non-empty image field, otherwise as a field under its own name, and no name is listed twice |
| Web.SanitizeLog | cmd/sprobot-web/main.go:180-183 | the logged text holds no line feed or carriage return |
| Web.SanitizeLogKeeps | cmd/sprobot-web/main.go:180-183 | text without line breaks is logged unchanged, and sanitising works piece by piece, so only the line breaks are removed |
| Wiki.FirstLink | pkg/bot/wiki.go:25-30 | the link found is the first one whose shortcut is the page; none is found only when no shortcut is the page |
| Wiki.Lookup | pkg/bot/wiki.go:13-35 | an empty page name is refused; otherwise a link's address is posted publicly exactly when some shortcut is the page, and the user alone is told the page was not found otherwise |
| Wiki.LookupFirstWins | pkg/bot/wiki.go:25-30 | with duplicate shortcuts the earliest link is the one posted |
| Wiki.Suggested | pkg/bot/wiki.go:41-62 | no more links are suggested than there are links |
| Wiki.SuggestedMembers | pkg/bot/wiki.go:46-62 | a shortcut is suggested exactly when some link with that shortcut contains the input in its shortcut or in one of its hints |
| Wiki.OnePerLink | pkg/bot/wiki.go:50-60 | a link is offered at most once, however many of its hints match |
| Wiki.AnyHint | pkg/bot/wiki.go:53-59 | the hint loop finds a match exactly when some hint contains the input |
| Wiki.Autocomplete | pkg/bot/wiki.go:37-66 | the choices are the first twenty suggestions for the lower-cased input, in table order |
| Wiki.SuggestedPrefix | pkg/bot/wiki.go:42-44 | links after the twentieth suggestion do not change the first twenty |

## Left out

- Network, storage and Discord calls: S3 reads, writes and deletes, image downloads, DNS validation of image URLs, and every REST call. Each is a parameter giving its outcome; retries, timeouts and the content of error values are not modelled.
- Timers, goroutines, mutexes, atomic flags and the periodic save loops. The idle loop is a state machine over discrete events (message, timer fired, repost result). Interleavings of concurrent handlers are not modelled.
- JSON encoding and decoding. A profile is a `map<string, string>`, and marshalling is taken to be an exact round trip.
- HTML templates, security headers and the access log of the web viewer, except `sanitizeLog`. Only GET requests are modelled. Go's mux path cleaning and redirects are left out.
- Web.Serve: the bucket segment of a profile path is routed but not compared with the configured bucket, which is what the handler does.
- Static configuration tables: templates, starboard, ticket, self-role and mod-log settings, and the wiki links. They enter as parameters.
- Floating point: `formatDuration` and `formatAge` use integer division where the code truncates `Hours()` and `Minutes()`. Rounding near a unit boundary is not modelled.
- Store.FetchProfile: the LRU cache of the Go client is modelled as a map with arbitrary eviction, not recency order.
- Backend.GetFromCache: the hit and miss counters are modelled. The deep copy a hit returns is value semantics; the dict a miss shares with the cache is finding 8, modelled by `SaveImage.PySaveImageMenuAsWritten` and `SaveImage.PySaveImageCommandAsWritten`.
- Backend.FetchProfile: returns the profile as a value. That a miss hands the caller the cached dict itself is stated by `Backend.HandsOutCachedDict` and `SaveImage.ColdMissHandsOut` (finding 8).
- SaveImage.PySaveImageMenu: models the menu over the corrected fetch (finding 8). The cache the menu leaves as written is stated by `SaveImage.PySaveImageMenuAsWritten`.
- SaveImage.PySaveImageCommand: models the slash command over the corrected fetch (finding 8). The cache it leaves as written is stated by `SaveImage.PySaveImageCommandAsWritten`.
- Backend.CacheEvict: the LRU's recency order is not modelled. Any entry may be dropped at any time, as a step of its own.
- Backend.RelocateImage: the upload and the `put_object_acl` that follows it are one outcome, `uploadOk`. A failing ACL call after a stored upload is modelled as a failed upload, with nothing stored.
- DeleteState.ConfirmedImageDelete: uses the corrected fetch. As written, after a miss the `del` at src/sprobot/commands.py:182 edits the cache entry too, the same sharing as finding 8; only the save-image handlers model it.
- The Python edit-profile command (`editfunc`, src/sprobot/commands.py:370-395) is not part of this model. It writes the image URL into the fetched dict, the same sharing as finding 8, before opening a modal.
- Store.SaveProfile: the web link returned is the corrected `Profiles.ProfileLink` (finding 1). The link as written is `Profiles.ProfileLinkAsWritten`.
- Tickets.PanelNeedsUpdateExactly: uses the corrected open button with the ticket emoji (finding 6). The button as written is `Tickets.PanelButtonAsWritten`.
- Tickets.PanelIsCurrent: stated for the corrected panel (finding 6).
- Tickets.EnsurePanel: compares against the corrected panel (finding 6).
- Tickets.EnsureIdempotent: stated for the corrected panel (finding 6).
- Tickets.CloseButton: carries the corrected padlock emoji (finding 6). The literal as written is `Tickets.LockEmojiAsWritten`.
- Profiles.UrlJoin: Python's `urljoin` is modelled for the one relative-path shape the backend passes it. Dot segments and absolute references are not modelled.
- Text.ToLower: lower-casing is ASCII-only. Go's and Python's Unicode case mapping are not modelled.
- TopPosters and ThreadBot sorts: `sort.Slice` is not stable, so the contracts allow any order among ties.
- ModLog.ContentChunks: content is cut every 1024 bytes, as the code does, so a chunk may end inside a character. This is stated, not corrected.
- Sticky.Preview: the preview cuts at 50 bytes, like the code. The `%q` quoting of the list line is not modelled.
- Sticky list, threadbot list and shortcut list: lines come out in Go's random map order. Only single lines and their contents are modelled.
- ModLog: the archive's timestamps, footer and user notification are left out, because they need the clock and Discord. ModLog.FindThread treats a failed active-thread listing as an empty list.
- Tickets: the intro message, the close and close-confirmation handlers and the ticket-save failures are left out. They only log or call Discord.
- Embed.RandomLetters: the random draws are a parameter, reduced into the alphabet.
- Embed.BuildProfileEmbed: the link uses the corrected `ProfileLink` (finding 1). `buildProfileURL` as written is `Profiles.ProfileLinkAsWritten`.
- SaveImage.SearchAgrees: the Go and Python searches treat an embed whose image has an empty proxy URL differently. The lemma states agreement only outside that case.
- GroupedCache.LoadDuplicateMiscounts: `load` counts duplicate keys twice. The bot only loads distinct keys, so this stays latent and is not a finding.
- DeleteFlow.ImageDeleteKeepsFields: the user-error branch of `confirmDeleteImage` is unreachable, because a profile without its image produces no notice.
- Backend and Store notices: user-facing messages are a `Notice` datatype. Their wording is rendered by `NoticeText`, and contracts speak of the notice, not the text.
- Wiki.Suggested: states only the length bound. Membership is stated by `Wiki.SuggestedMembers`.
- Tickets.OpenMany: states only the number of names. The numbering is stated by `Tickets.OpenManyNumbers`.
- Web.RouteOf: states only the index route and the segment count. Full routing is stated by `Web.RouteOfProfile` and `Web.LinkRoundTrip`.
- Sticky.ParseModalId: states only when an ID is refused. The values parsed are stated by `Sticky.ModalIdRoundTrip`.
- Selfrole.RoleLabel: the configurations are a sequence standing for Go's random map order. The contract states only that the label is some matching button's label, or "role".
- Python `src/sprobot/util.py`, `src/sprobot/templates.py` and the Go `pkg/bot/messagecache.go` mirror modelled code and are not part of this model. Neither are the thin REST handlers (welcome, poster role, warn, autorole, get/edit profile) or the command registration.

## Findings

| source | as written | input that shows it | evidently intended | confidence | as-written member | corrected member |
|---|---|---|---|---|---|---|
| pkg/bot/embed.go:53-56 | the profile link escapes the whole `bucket/profiles/g/t/u.json` path at once, so every "/" becomes "%2F" (the same expression is at pkg/s3client/s3client.go:251) | any profile, e.g. bucket "b", guild "1", template "t", user "2": the link's path is one segment, which the viewer's route `/{bucket}/profiles/{guildID}/{templateName}/{userID}` never matches | escape each component and keep the "/" separators, so the link opens the profile page | medium; not executed | Web.AsWrittenLinkNotFound | Web.LinkRoundTrip |
| pkg/bot/groupedcache.go:75-91 | eviction pops the oldest log entry and evicts its key if present, even when that entry is stale and the key was re-put later | capacity 2: put 1, put 2, remove 1, put 3, put 1: the 1 just put is evicted while 2 and 3 stay | skip log entries that are not a key's latest, so a key just put is never the one evicted | high; not executed | GroupedCache.PutEvictsNewest | GroupedCache.PutFixedThenGet |
| pkg/idleloop/idleloop.go:134-137 | the time threshold arms only if a message already came; otherwise it is lost and nothing re-arms it | message threshold 30, time threshold fires first, then one message: the loop stays disarmed with no timer running | arming by whichever threshold comes first (lines 17-21): after the time threshold, the next message arms | high; not executed | IdleLoop.ElapsedThresholdForgotten | IdleLoop.ElapsedThresholdArms |
| pkg/bot/eventlog.go:61-66 | truncation cuts `s[:max-1]` by byte, which can split a multi-byte character | "éé" truncated to 2: the bytes C3 E2 80 A6 are not valid UTF-8 | cut at a character boundary, within the same byte budget | high; not executed | EventLog.TruncateSplitsCharacter | EventLog.Truncate |
| pkg/threadbot/reminders.go:41-51 | `applyDefaults` replaces a zero message threshold by 30 and a zero minimum idle time by 30 on every load, though `handleEnable` accepts both | enable with message threshold 0 (time threshold 720): after a restart the threshold is 30; enable with idle range 0-10: after a restart the minimum (30) exceeds the maximum (10) | a reminder the enable command accepted reloads unchanged; defaults only fill records it could not have saved | high; not executed | ThreadBot.ReloadChangesSettings | ThreadBot.EnableSurvivesReload |
| pkg/bot/tickets.go:141 | the ticket and padlock emoji literals (lines 141 and 302) are the emoji's UTF-8 bytes read back as Windows-1252, e.g. "ðŸŽ«" for U+1F3AB | any ticket panel: the open button's emoji is four stray characters instead of the ticket emoji | the emoji U+1F3AB and U+1F512 | medium; not executed | Tickets.EmojiMojibake | Tickets.PanelButton |
| pkg/bot/shortcuts.go:365 | the separator of each shortcut list line is the em dash's UTF-8 bytes read back as Windows-1252 | any guild with a shortcut: its list line shows "â€”" between the name and the count | an em dash U+2014 | medium; not executed | Shortcuts.ListLineMojibake | Shortcuts.ListLineEmDash |
| src/sprobot/backend.py:126-129 | on a cache miss `fetch_profile` caches the dict it read and returns that same dict, while a hit returns a deep copy (line 74); the handlers then write into it (src/sprobot/commands.py:486, 551 and 566) | {"Grinder": "x"} stored, a cold cache, and "save image" on a post with two image attachments "u1" and "u2": the post is refused and nothing is written, yet the next fetch returns {"Grinder": "x"} with "u2" as the image | a miss hands the caller its own copy too, so the cache keeps equal to the stored documents unless a save goes through | high; not executed | SaveImage.RefusedPostPollutesCache | SaveImage.PySaveImageMenuCoherent |

=== FILE: backend.dfy ===
/** The Python profile store (src/sprobot/backend.py, class S3Backend): the
    same bucket layout as the Go store, a cache keyed by the tuple
    (template name, guild ID, user ID), and hit/miss counters.

    Every bucket or HTTP request takes an `ok` flag; a request that does not
    go through raises, which the model reports as `Raised` together with the
    state the backend was left in by the steps before the raise. */
module Backend {
  import opened Base
  import opened Text
  import opened Escape
  import opened Profiles

  /** The cache key tuple built by `cachetools.keys.hashkey`. */
  datatype Key = Key(tmpl: string, guild: nat, user: nat)

  datatype Backend = Backend(
    bucket: string,
    endpoint: string,
    objects: map<string, Profile>,
    images: map<string, string>,
    cache: map<Key, Profile>,
    totalHits: nat,   // lookups so far, starting at 1
    misses: nat)      // lookups that missed, starting at 1

  /** How a Python call ended: a value, the `KeyError` used for "not found",
      or any other exception, raised once the backend had become `state`. */
  datatype Outcome<T> = Returned(value: T) | NotFoundError | Raised(state: Backend)

  /** The storage key of `key`'s document: `os.path.join` of the parts, with
      the IDs written in decimal. */
  function PathOf(key: Key): string {
    ProfileS3Path(NatToString(key.guild), key.tmpl, NatToString(key.user))
  }

  /** A fresh backend, as `__init__` leaves it once the settings are present. */
  function Init(bucket: string, endpoint: string, objects: map<string, Profile>): (b: Backend)
    ensures b.cache == map[] && b.totalHits == 1 && b.misses == 1
    ensures Coherent(b) && b.misses <= b.totalHits
  {
    Backend(bucket, endpoint, objects, map[], map[], 1, 1)
  }

  ghost predicate Coherent(b: Backend) {
    forall k :: k in b.cache ==> PathOf(k) in b.objects && b.objects[PathOf(k)] == b.cache[k]
  }

  /** The LRU bound (`LRUCache(maxsize=500)`) decides which entries stay;
      dropping any one keeps coherence, and the next lookup of that key
      misses. */
  function CacheEvict(b: Backend, key: Key): (b': Backend)
    ensures b'.cache.Keys == b.cache.Keys - {key} && b'.objects == b.objects
    ensures forall k :: k in b'.cache ==> b'.cache[k] == b.cache[k]
    ensures Coherent(b) ==> Coherent(b')
    ensures !IsHit(b', key)
  {
    b.(cache := b.cache - {key})
  }

  /** A cache lookup counts a hit only for a non-empty profile: Python treats
      an empty dict as false. */
  predicate IsHit(b: Backend, key: Key) {
    key in b.cache && |b.cache[key]| > 0
  }

  datatype Lookup = Lookup(backend: Backend, found: Option<Profile>)

  /** `_get_from_cache`: every call counts a lookup, a miss (absent or empty)
      also counts a miss; the caller gets its own copy. */
  function GetFromCache(b: Backend, key: Key): (r: Lookup)
    ensures r.backend.totalHits == b.totalHits + 1
    ensures r.backend.misses == (if IsHit(b, key) then b.misses else b.misses + 1)
    ensures b.misses <= b.totalHits ==> r.backend.misses <= r.backend.totalHits
    ensures r.backend.cache == b.cache && r.backend.objects == b.objects
    ensures key in b.cache <==> r.found.Some?
    ensures r.found.Some? ==> r.found.value == b.cache[key]
  {
    var b' := b.(totalHits := b.totalHits + 1, misses := if IsHit(b, key) then b.misses else b.misses + 1);
    Lookup(b', if key in b.cache then Some(b.cache[key]) else None)
  }

  datatype Fetch = Fetch(backend: Backend, result: Outcome<Profile>)

  /** `fetch_profile`: a non-empty cached profile is returned; otherwise the
      document is read, cached and returned; a missing document is a
      `KeyError`. */
  function FetchProfile(b: Backend, tmpl: Template, guild: nat, user: nat, getOk: bool): (r: Fetch)
    ensures r.backend.objects == b.objects
    ensures IsHit(b, Key(tmpl.name, guild, user)) ==> r.result == Returned(b.cache[Key(tmpl.name, guild, user)])
    ensures !IsHit(b, Key(tmpl.name, guild, user)) && getOk && PathOf(Key(tmpl.name, guild, user)) !in b.objects ==>
      r.result == NotFoundError
    ensures !IsHit(b, Key(tmpl.name, guild, user)) && !getOk ==> r.result == Raised(r.backend) && r.backend.cache == b.cache
    ensures r.backend.totalHits == b.totalHits + 1
    ensures b.misses <= b.totalHits ==> r.backend.misses <= r.backend.totalHits
  {
    var key := Key(tmpl.name, guild, user);
    var look := GetFromCache(b, key);
    var b1 := look.backend;
    if look.found.Some? && |look.found.value| > 0 then Fetch(b1, Returned(look.found.value))
    else if !getOk then Fetch(b1, Raised(b1))
    else if PathOf(key) !in b1.objects then Fetch(b1, NotFoundError)
    else Fetch(b1.(cache := b1.cache[key := b1.objects[PathOf(key)]]), Returned(b1.objects[PathOf(key)]))
  }

  /** On a coherent backend, a fetched profile is the stored document, and
      coherence and the counter bound survive. */
  lemma FetchReturnsStored(b: Backend, tmpl: Template, guild: nat, user: nat, getOk: bool)
    requires Coherent(b)
    ensures var r := FetchProfile(b, tmpl, guild, user, getOk);
      Coherent(r.backend) &&
      (r.result.Returned? ==> r.result.value == b.objects[PathOf(Key(tmpl.name, guild, user))]) &&
      (r.result.NotFoundError? ==> PathOf(Key(tmpl.name, guild, user)) !in b.objects)
  {
  }

  /** As written, a miss that reads the document caches the parsed dict and
      returns that very object (lines 126-129); only a hit hands out a deep
      copy (line 74). Every handler replaces an empty dict by a new one, so
      the handler's dict IS the cache entry exactly when this holds. The
      model's `FetchProfile` returns a value, which is the corrected copy on
      both paths. */
  predicate HandsOutCachedDict(b: Backend, tmpl: Template, guild: nat, user: nat, getOk: bool) {
    var key := Key(tmpl.name, guild, user);
    !IsHit(b, key) && getOk && PathOf(key) in b.objects && |b.objects[PathOf(key)]| > 0
  }

  /** A stored profile is fetched, whether or not it was cached. */
  lemma FetchStored(b: Backend, tmpl: Template, guild: nat, user: nat, getOk: bool)
    requires Coherent(b) && getOk && PathOf(Key(tmpl.name, guild, user)) in b.objects
    ensures var r := FetchProfile(b, tmpl, guild, user, getOk);
      r.result == Returned(b.objects[PathOf(Key(tmpl.name, guild, user))]) && r.backend.objects == b.objects
  {
    FetchReturnsStored(b, tmpl, guild, user, getOk);
  }

  /** What downloading and sniffing the user's image produced: the download
      raised, `filetype.guess` recognised nothing, or it named a MIME type and
      an extension. */
  datatype Download = FetchFailed | Unrecognised | Guessed(mime: string, extension: string)

  /** The messages `_get_image_s3_url` can have for the user; `NoticeText`
      is what the user reads. */
  datatype Notice = UrlUnreachable | UnknownType | NotAnImage(mime: string)

  const ProfileSaved := "The rest of your profile has been saved."

  /** Every notice but the content-type one ends by telling the user the
      rest of the profile was saved. */
  function NoticeText(n: Notice): (t: string)
    ensures !n.NotAnImage? ==> HasSuffix(t, ProfileSaved)
  {
    match n
    case UrlUnreachable =>
      var head := "Unable to fetch from the URL provided, make sure it's an image and try again. ";
      ConcatEnds(head, ProfileSaved);
      head + ProfileSaved
    case UnknownType =>
      var head := "Unable to determine what type of file you linked. ";
      ConcatEnds(head, ProfileSaved);
      head + ProfileSaved
    case NotAnImage(mime) =>
      "It looks like you uploaded a " + mime + ", but we can only use images. " + ProfileSaved + " If this looked like a gif, discord probably used a mp4."
  }

  /** The storage key of an uploaded image: guild, template, user and the
      sniffed extension. */
  function ImagePath(guild: nat, tmpl: string, user: nat, ext: string): string {
    "images/" + NatToString(guild) + "/" + tmpl + "/" + NatToString(user) + "." + ext
  }

  /** The public URL of an object: `urljoin(endpoint, urljoin(bucket + "/", quote(key)))`. */
  function HostedUrl(endpoint: string, bucket: string, key: string): string {
    UrlJoin(endpoint, UrlJoin(bucket + "/", Quote(key)))
  }

  /** The result of `_get_image_s3_url`: a message for the user and an
      optional hosted URL. */
  datatype Relocation = Relocation(backend: Backend, userErr: Option<Notice>, url: Option<string>)

  /** The profile names an image that is not hosted by us yet, so
      `_get_image_s3_url` downloads it. */
  predicate ForeignImage(b: Backend, tmpl: Template, profile: Profile) {
    tmpl.image in profile && profile[tmpl.image] != "" && !HasPrefix(profile[tmpl.image], b.endpoint)
  }

  /** `_get_image_s3_url`. An upload that raises propagates. */
  function RelocateImage(b: Backend, tmpl: Template, guild: nat, user: nat, profile: Profile,
                         dl: Download, uploadOk: bool): (r: Outcome<Relocation>)
    // nothing to relocate, or already hosted by us: kept as it is
    ensures (tmpl.image !in profile || profile[tmpl.image] == "") ==> r == Returned(Relocation(b, None, None))
    ensures tmpl.image in profile && profile[tmpl.image] != "" && HasPrefix(profile[tmpl.image], b.endpoint) ==>
      r == Returned(Relocation(b, None, Some(profile[tmpl.image])))
    // a foreign URL that is not an image is refused with its own message
    ensures ForeignImage(b, tmpl, profile) && dl.FetchFailed? ==> r == Returned(Relocation(b, Some(UrlUnreachable), None))
    ensures ForeignImage(b, tmpl, profile) && dl.Unrecognised? ==> r == Returned(Relocation(b, Some(UnknownType), None))
    ensures ForeignImage(b, tmpl, profile) && dl.Guessed? && !HasPrefix(dl.mime, "image/") ==>
      r == Returned(Relocation(b, Some(NotAnImage(dl.mime)), None))
    // a foreign image is uploaded under this profile's image key and its hosted URL is returned
    ensures ForeignImage(b, tmpl, profile) && dl.Guessed? && HasPrefix(dl.mime, "image/") && uploadOk ==>
      r.Returned? && r.value.userErr.None? &&
      r.value.url == Some(HostedUrl(b.endpoint, b.bucket, ImagePath(guild, tmpl.name, user, dl.extension))) &&
      r.value.backend == b.(images := b.images[ImagePath(guild, tmpl.name, user, dl.extension) := dl.mime])
    // an upload that does not go through raises, with nothing stored
    ensures r.Raised? <==> ForeignImage(b, tmpl, profile) && dl.Guessed? && HasPrefix(dl.mime, "image/") && !uploadOk
    ensures r.Raised? ==> r.state == b
    ensures !r.NotFoundError?
    ensures r.Returned? ==> r.value.userErr.None? || r.value.url.None?
    ensures r.Returned? ==> r.value.backend.objects == b.objects && r.value.backend.cache == b.cache
  {
    var raw := if tmpl.image in profile then profile[tmpl.image] else "";
    if raw == "" then Returned(Relocation(b, None, None))
    else if HasPrefix(raw, b.endpoint) then Returned(Relocation(b, None, Some(raw)))
    else if dl.FetchFailed? then Returned(Relocation(b, Some(UrlUnreachable), None))
    else if dl.Unrecognised? then Returned(Relocation(b, Some(UnknownType), None))
    else if !HasPrefix(dl.mime, "image/") then Returned(Relocation(b, Some(NotAnImage(dl.mime)), None))
    else if !uploadOk then Raised(b)
    else
      var path := ImagePath(guild, tmpl.name, user, dl.extension);
      Returned(Relocation(b.(images := b.images[path := dl.mime]), None, Some(HostedUrl(b.endpoint, b.bucket, path))))
  }

  /** A relocated image is hosted by us: saving the relocated URL again keeps
      it as it is and uploads nothing (for an endpoint ending in "/", which
      `urljoin` keeps). */
  lemma RelocatedIsHosted(b: Backend, tmpl: Template, guild: nat, user: nat, profile: Profile,
                          dl: Download, uploadOk: bool, dl2: Download, uploadOk2: bool)
    requires HasSuffix(b.endpoint, "/")
    ensures var r := RelocateImage(b, tmpl, guild, user, profile, dl, uploadOk);
      r.Returned? && r.value.url.Some? ==>
        RelocateImage(r.value.backend, tmpl, guild, user, profile[tmpl.image := r.value.url.value], dl2, uploadOk2) ==
          Returned(Relocation(r.value.backend, None, r.value.url))
  {
    var r := RelocateImage(b, tmpl, guild, user, profile, dl, uploadOk);
    if r.Returned? && r.value.url.Some? && ForeignImage(b, tmpl, profile) {
      var key := ImagePath(guild, tmpl.name, user, dl.extension);
      assert HasSuffix(b.bucket + "/", "/");
      var u := HostedUrl(b.endpoint, b.bucket, key);
      assert u == b.endpoint + (b.bucket + "/" + Quote(key));
      assert u[..|b.endpoint|] == b.endpoint;
    }
  }

  /** The image key is the Go layout with the sniffed extension. */
  lemma ImageKeyLayout(guild: nat, tmpl: string, user: nat, ext: string)
    ensures ImagePath(guild, tmpl, user, ext) == ImageS3Path(NatToString(guild), tmpl, NatToString(user), ext)
  {
  }

  datatype Save = Save(backend: Backend, webUrl: string, userErr: Option<Notice>)

  /** The dict `save_profile` writes: its argument, edited in place before
      the write, with the image field set to a non-empty hosted URL or
      removed. */
  function SavedDocument(profile: Profile, image: string, rel: Relocation): (doc: Profile)
    ensures forall k :: k != image ==> (k in doc <==> k in profile) && (k in profile ==> doc[k] == profile[k])
    ensures rel.url.Some? && rel.url.value != "" ==> image in doc && doc[image] == rel.url.value
    ensures !(rel.url.Some? && rel.url.value != "") ==> image !in doc
  {
    if rel.url.Some? && rel.url.value != "" then profile[image := rel.url.value] else profile - {image}
  }

  /** `save_profile`: the image field becomes the hosted URL or is removed
      (there is no keep-the-previous-image rule here), then the document is
      written and cached. */
  function SaveProfile(b: Backend, tmpl: Template, guild: nat, user: nat, profile: Profile,
                       dl: Download, uploadOk: bool, putOk: bool): (r: Outcome<Save>)
    ensures r.Returned? <==> RelocateImage(b, tmpl, guild, user, profile, dl, uploadOk).Returned? && putOk
    ensures r.Returned? ==>
      var rel := RelocateImage(b, tmpl, guild, user, profile, dl, uploadOk).value;
      var key := Key(tmpl.name, guild, user);
      PathOf(key) in r.value.backend.objects &&
      var doc := r.value.backend.objects[PathOf(key)];
      r.value.backend.objects == b.objects[PathOf(key) := doc] &&
      r.value.backend.cache == b.cache[key := doc] &&
      r.value.userErr == rel.userErr &&
      r.value.webUrl == HostedUrl(WebEndpoint, b.bucket, PathOf(key)) &&
      (forall k :: k != tmpl.image ==> (k in doc <==> k in profile) && (k in profile ==> doc[k] == profile[k])) &&
      (rel.url.Some? && rel.url.value != "" ==> tmpl.image in doc && doc[tmpl.image] == rel.url.value) &&
      (rel.url.None? ==> tmpl.image !in doc)
    ensures !r.NotFoundError?
    // a write that raises leaves the documents and the cache alone, but an
    // image uploaded before it stays uploaded
    ensures r.Raised? ==> r.state.objects == b.objects && r.state.cache == b.cache
    ensures r.Raised? && RelocateImage(b, tmpl, guild, user, profile, dl, uploadOk).Returned? ==>
      r.state == RelocateImage(b, tmpl, guild, user, profile, dl, uploadOk).value.backend
  {
    var o := RelocateImage(b, tmpl, guild, user, profile, dl, uploadOk);
    if !o.Returned? then Raised(o.state)
    else
      var rel := o.value;
      var doc := SavedDocument(profile, tmpl.image, rel);
      if !putOk then Raised(rel.backend)
      else
        var key := Key(tmpl.name, guild, user);
        var b1 := rel.backend;
        var b2 := b1.(objects := b1.objects[PathOf(key) := doc], cache := b1.cache[key := doc]);
        Returned(Save(b2, HostedUrl(WebEndpoint, b.bucket, PathOf(key)), rel.userErr))
  }

  /** What the caller's dict holds once `save_profile` has run on it: the
      image edit is made in place before the write, so it is there whether
      the write then returns or raises; a raised upload leaves the dict as
      it was. */
  function EditedBySave(b: Backend, tmpl: Template, guild: nat, user: nat, profile: Profile,
                        dl: Download, uploadOk: bool): (p: Profile)
    ensures forall k :: k != tmpl.image ==> (k in p <==> k in profile) && (k in profile ==> p[k] == profile[k])
    ensures RelocateImage(b, tmpl, guild, user, profile, dl, uploadOk).Raised? ==> p == profile
    ensures RelocateImage(b, tmpl, guild, user, profile, dl, uploadOk).Returned? ==>
      p == SavedDocument(profile, tmpl.image, RelocateImage(b, tmpl, guild, user, profile, dl, uploadOk).value)
  {
    var o := RelocateImage(b, tmpl, guild, user, profile, dl, uploadOk);
    if o.Returned? then SavedDocument(profile, tmpl.image, o.value) else profile
  }

  /** Saving a profile that has no image field stores exactly that profile
      and has nothing to tell the user. */
  lemma SaveWithoutImage(b: Backend, tmpl: Template, guild: nat, user: nat, profile: Profile,
                         dl: Download, uploadOk: bool)
    requires tmpl.image !in profile
    ensures var r := SaveProfile(b, tmpl, guild, user, profile, dl, uploadOk, true);
      r.Returned? && r.value.userErr.None? &&
      r.value.backend.objects == b.objects[PathOf(Key(tmpl.name, guild, user)) := profile]
  {
    assert RelocateImage(b, tmpl, guild, user, profile, dl, uploadOk) == Returned(Relocation(b, None, None));
    assert profile - {tmpl.image} == profile;
  }

  /** The web link is the endpoint, the bucket and the quoted key, with the
      key's "/" kept (Python's `quote` leaves them alone). */
  lemma PyWebUrlShape(bucket: string, key: string)
    ensures HostedUrl(WebEndpoint, bucket, key) == WebEndpoint + bucket + "/" + Quote(key)
  {
    assert HasSuffix(bucket + "/", "/");
    assert HasSuffix(WebEndpoint, "/");
  }

  /** A save keeps the cache coherent; a save that raises leaves the
      documents as they were. */
  lemma SaveCoherent(b: Backend, tmpl: Template, guild: nat, user: nat, profile: Profile,
                     dl: Download, uploadOk: bool, putOk: bool)
    requires Coherent(b) && Segment(tmpl.name)
    requires forall k :: k in b.cache ==> Segment(k.tmpl)
    ensures var r := SaveProfile(b, tmpl, guild, user, profile, dl, uploadOk, putOk);
      (r.Returned? ==> Coherent(r.value.backend)) && (r.Raised? ==> Coherent(r.state))
  {
    var r := SaveProfile(b, tmpl, guild, user, profile, dl, uploadOk, putOk);
    if r.Returned? {
      var key := Key(tmpl.name, guild, user);
      var nb := r.value.backend;
      forall k | k in nb.cache
        ensures PathOf(k) in nb.objects && nb.objects[PathOf(k)] == nb.cache[k]
      {
        if k != key && PathOf(k) == PathOf(key) {
          PathOfInjective(k, key);
        }
      }
    }
  }

  /** `delete_profile`: the cache entry (if any) is dropped first, then the
      document is deleted; a failing delete raises with the entry already
      gone. */
  function DeleteProfile(b: Backend, tmpl: Template, guild: nat, user: nat, deleteOk: bool): (r: Outcome<Backend>)
    ensures deleteOk <==> r.Returned?
    ensures !deleteOk ==> r == Raised(b.(cache := b.cache - {Key(tmpl.name, guild, user)}))
    ensures r.Returned? ==>
      r.value.cache == b.cache - {Key(tmpl.name, guild, user)} &&
      r.value.objects == b.objects - {PathOf(Key(tmpl.name, guild, user))}
  {
    var key := Key(tmpl.name, guild, user);
    var b1 := b.(cache := b.cache - {key});
    if !deleteOk then Raised(b1) else Returned(b1.(objects := b1.objects - {PathOf(key)}))
  }

  /** Python's documents are keyed by the decimal IDs, so two keys share a
      document only when they are equal (template names have no "/"). */
  lemma PathOfInjective(k1: Key, k2: Key)
    requires Segment(k1.tmpl) && Segment(k2.tmpl)
    requires PathOf(k1) == PathOf(k2)
    ensures k1 == k2
  {
    var g1 := NatToString(k1.guild);
    var g2 := NatToString(k2.guild);
    assert Segment(g1) by { assert forall i :: 0 <= i < |g1| ==> IsDigit(g1[i]); }
    assert Segment(g2) by { assert forall i :: 0 <= i < |g2| ==> IsDigit(g2[i]); }
    ProfileS3PathInjective(g1, k1.tmpl, NatToString(k1.user), g2, k2.tmpl, NatToString(k2.user));
    NatToStringInjective(k1.guild, k2.guild);
    NatToStringInjective(k1.user, k2.user);
  }

  /** A delete keeps the cache coherent, and later fetches of the profile
      report not-found. */
  lemma DeleteCoherent(b: Backend, tmpl: Template, guild: nat, user: nat, getOk: bool)
    requires Coherent(b) && Segment(tmpl.name)
    requires forall k :: k in b.cache ==> Segment(k.tmpl)
    ensures var r := DeleteProfile(b, tmpl, guild, user, true);
      Coherent(r.value) &&
      (getOk ==> FetchProfile(r.value, tmpl, guild, user, getOk).result == NotFoundError)
  {
    var key := Key(tmpl.name, guild, user);
    var r := DeleteProfile(b, tmpl, guild, user, true).value;
    forall k | k in r.cache
      ensures PathOf(k) in r.objects && r.objects[PathOf(k)] == r.cache[k]
    {
      if PathOf(k) == PathOf(key) {
        PathOfInjective(k, key);
      }
    }
  }
}

=== FILE: base.dfy ===
/** Shared vocabulary of the model: optional values and bytes.
    Go strings are byte sequences; the few operations that slice or measure
    them by byte (truncation, chunking, previews) work on `seq<Byte>`. */
module Base {

  /** A value that may be absent (a Go `ok` flag, a Python `None`, Go's nil). */
  datatype Option<T> = None | Some(value: T) {
    function GetOr(default: T): T {
      match this
      case Some(v) => v
      case None => default
    }
  }

  /** The outcome of an operation that can fail with an error of type `E`. */
  datatype Result<T, E> = Success(value: T) | Failure(error: E)

  /** One byte of a Go string. */
  newtype Byte = b: int | 0 <= b < 256

  /** The largest value a Go `uint64` (and so a Discord snowflake) can hold. */
  const MaxUint64: nat := 0xFFFF_FFFF_FFFF_FFFF

  /** The range of a Go `int` on the 64-bit platforms the bot runs on. */
  const MinInt64: int := -0x8000_0000_0000_0000
  const MaxInt64: int := 0x7FFF_FFFF_FFFF_FFFF

  /** Looks `k` up in `m`, giving `d` when it is absent (Go's zero-value read). */
  function Lookup<K, V>(m: map<K, V>, k: K, d: V): (v: V)
    ensures k in m ==> v == m[k]
    ensures k !in m ==> v == d
  {
    if k in m then m[k] else d
  }

  // ---------------------------------------------------------------------
  // Arithmetic helpers

  lemma MulLe(x: int, y: int, b: int)
    requires x <= y && b > 0
    ensures x * b <= y * b
  {
    assert y * b - x * b == (y - x) * b;
  }

  /** Quotient and remainder are determined by any decomposition with the
      remainder in range. */
  lemma DivModUnique(y: int, q: int, r: int, n: int)
    requires n > 0 && 0 <= r < n && y == q * n + r
    ensures y / n == q && y % n == r
  {
    var q', r' := y / n, y % n;
    assert y == q' * n + r';
    if q' > q {
      MulLe(q + 1, q', n);
      assert false;
    } else if q' < q {
      MulLe(q' + 1, q, n);
      assert false;
    }
  }
}

=== FILE: components.dfy ===
/** The slice of Discord's message model the bot compares and builds:
    message content, embed descriptions and component rows of buttons. */
module Components {
  import opened Base

  datatype ButtonStyle = Primary | Secondary | Success | Danger | LinkStyle

  /** An interactive component: a button (with an optional emoji name), or
      anything else (select menus and the like). */
  datatype Interactive =
    | Button(style: ButtonStyle, text: string, customId: string, emoji: Option<string>)
    | OtherInteractive

  /** A top-level component: an action row of interactive components, or
      any other layout component. */
  datatype Layout = ActionRow(children: seq<Interactive>) | OtherLayout

  /** A posted message as far as the panel checks look at it. */
  datatype Message = Message(content: string, embedDescriptions: seq<string>, components: seq<Layout>)
}

=== FILE: deleteflow.dfy ===
/** The Go delete workflow (pkg/bot/deleteprofile.go): the button routing of
    `handleComponentInteraction` and the two confirmed deletions. */
module DeleteFlow {
  import opened Base
  import opened Text
  import opened Components
  import opened Profiles
  import Store
  import Selfrole

  /** Where a component click goes. */
  datatype Route =
    | ToggleSelfrole(roleId: nat)
    | TicketOpen | TicketCloseConfirm | TicketClose | TicketCloseCancel
    | CancelDelete                    // "No worries!", buttons cleared
    | AskConfirm(confirmId: string)   // "Are you sure?" with Confirm and Cancel
    | ConfirmProfile(tmpl: Template)
    | ConfirmImage(tmpl: Template)
    | Ignored

  function ProfileButtonId(t: Template): string { "del_profile_" + t.shortName }
  function ImageButtonId(t: Template): string { "del_image_" + t.shortName }
  function ConfirmProfileId(t: Template): string { "del_confirm_profile_" + t.shortName }
  function ConfirmImageId(t: Template): string { "del_confirm_image_" + t.shortName }
  const CancelId: string := "del_cancel"

  /** A message update: new content and new components. */
  datatype Update = Update(content: string, components: seq<Layout>)

  /** `handleDelete`: the first prompt with its three buttons. */
  function DeletePrompt(t: Template): (u: Update)
    ensures |u.components| == 1 && u.components[0].ActionRow? && |u.components[0].children| == 3
    ensures u.components[0].children[0].Button? && u.components[0].children[0].customId == ProfileButtonId(t)
    ensures u.components[0].children[1].Button? && u.components[0].children[1].customId == ImageButtonId(t)
    ensures u.components[0].children[2].Button? && u.components[0].children[2].customId == CancelId
  {
    Update("What would you like to delete?", [ActionRow([
      Button(Primary, "Delete Entire Profile", ProfileButtonId(t), None),
      Button(Primary, "Delete Profile Picture", ImageButtonId(t), None),
      Button(Secondary, "Cancel", CancelId, None)])])
  }

  /** The "Are you sure?" update for a confirm ID. */
  function ConfirmPrompt(confirmId: string): Update {
    Update("Are you sure?", [ActionRow([Button(Danger, "Confirm", confirmId, None), Button(Secondary, "Cancel", CancelId, None)])])
  }

  /** The template loop of `handleComponentInteraction`: the first template
      (in iteration order) for which the ID is one of its four delete IDs. */
  function RouteTemplates(customId: string, templates: seq<Template>): (r: Route)
    ensures r.AskConfirm? || r.ConfirmProfile? || r.ConfirmImage? || r.Ignored?
    ensures r.ConfirmProfile? ==> r.tmpl in templates && customId == ConfirmProfileId(r.tmpl)
    ensures r.ConfirmImage? ==> r.tmpl in templates && customId == ConfirmImageId(r.tmpl)
    ensures r.AskConfirm? ==>
      (exists t :: t in templates &&
        ((customId == ProfileButtonId(t) && r.confirmId == ConfirmProfileId(t)) ||
         (customId == ImageButtonId(t) && r.confirmId == ConfirmImageId(t))))
  {
    if |templates| == 0 then Ignored
    else
      var t := templates[0];
      if customId == ProfileButtonId(t) then AskConfirm(ConfirmProfileId(t))
      else if customId == ImageButtonId(t) then AskConfirm(ConfirmImageId(t))
      else if customId == ConfirmProfileId(t) then ConfirmProfile(t)
      else if customId == ConfirmImageId(t) then ConfirmImage(t)
      else
        var r := RouteTemplates(customId, templates[1..]);
        assert forall x :: x in templates[1..] ==> x in templates;
        r
  }

  /** `handleComponentInteraction`: role buttons first, then the ticket
      buttons, then cancel, then the delete buttons of every template. */
  function RouteClick(customId: string, templates: seq<Template>): (r: Route)
    ensures customId == CancelId ==> r == CancelDelete
    ensures Selfrole.ParseSelfroleId(customId).Some? ==> r == ToggleSelfrole(Selfrole.ParseSelfroleId(customId).value)
  {
    match Selfrole.ParseSelfroleId(customId)
    case Some(id) => ToggleSelfrole(id)
    case None =>
      if customId == "ticket_open" then TicketOpen
      else if customId == "ticket_close" then TicketCloseConfirm
      else if customId == "ticket_close_yes" then TicketClose
      else if customId == "ticket_close_no" then TicketCloseCancel
      else if customId == CancelId then CancelDelete
      else RouteTemplates(customId, templates)
  }

  /** The reply to each route that only updates the prompt. */
  function PromptUpdate(r: Route): (u: Option<Update>)
    ensures r.CancelDelete? ==> u == Some(Update("No worries!", []))
    ensures r.AskConfirm? ==> u == Some(ConfirmPrompt(r.confirmId))
  {
    match r
    case CancelDelete => Some(Update("No worries!", []))
    case AskConfirm(id) => Some(ConfirmPrompt(id))
    case _ => None
  }

  lemma DeleteIdsDiffer(a: string, b: string)
    ensures "del_profile_" + a != "del_image_" + b
    ensures "del_profile_" + a != "del_confirm_profile_" + b && "del_profile_" + a != "del_confirm_image_" + b
    ensures "del_image_" + a != "del_confirm_profile_" + b && "del_image_" + a != "del_confirm_image_" + b
    ensures "del_confirm_profile_" + a != "del_confirm_image_" + b
    ensures "del_profile_" + a != CancelId && "del_image_" + a != CancelId
  {
    assert ("del_profile_" + a)[4] == 'p' && ("del_image_" + b)[4] == 'i' && ("del_confirm_profile_" + b)[4] == 'c';
    assert ("del_image_" + a)[4] == 'i' && ("del_confirm_image_" + b)[4] == 'c';
    assert ("del_confirm_profile_" + a)[12] == 'p' && ("del_confirm_image_" + b)[12] == 'i';
    assert CancelId[4] == 'c';
  }

  /** A delete ID never reaches the role, ticket or cancel branches. */
  lemma DeleteIdReachesTemplates(id: string, templates: seq<Template>)
    requires id != CancelId && |id| > 0 && id[0] == 'd'
    ensures RouteClick(id, templates) == RouteTemplates(id, templates)
  {
    assert Selfrole.ParseSelfroleId(id).None?;
    assert "ticket_open"[0] == 't' && "ticket_close"[0] == 't' && "ticket_close_yes"[0] == 't' && "ticket_close_no"[0] == 't';
  }

  /** A delete button of a listed template leads only to the "Are you
      sure?" prompt, whose confirm button carries the matching confirm ID;
      clicking that ID reaches the confirmation of a template with the same
      short name. */
  lemma DeleteButtonsRoute(t: Template, templates: seq<Template>)
    requires t in templates
    ensures RouteClick(ProfileButtonId(t), templates) == AskConfirm(ConfirmProfileId(t))
    ensures RouteClick(ImageButtonId(t), templates) == AskConfirm(ConfirmImageId(t))
    ensures var r := RouteClick(ConfirmProfileId(t), templates); r.ConfirmProfile? && r.tmpl.shortName == t.shortName
    ensures var r := RouteClick(ConfirmImageId(t), templates); r.ConfirmImage? && r.tmpl.shortName == t.shortName
  {
    DeleteIdsDiffer(t.shortName, t.shortName);
    assert |ConfirmProfileId(t)| > |CancelId| && |ConfirmImageId(t)| > |CancelId|;
    DeleteIdReachesTemplates(ProfileButtonId(t), templates);
    DeleteIdReachesTemplates(ImageButtonId(t), templates);
    DeleteIdReachesTemplates(ConfirmProfileId(t), templates);
    DeleteIdReachesTemplates(ConfirmImageId(t), templates);
    RouteTemplatesFinds(t, templates);
  }

  lemma {:induction false} RouteTemplatesFinds(t: Template, templates: seq<Template>)
    requires t in templates
    ensures RouteTemplates(ProfileButtonId(t), templates) == AskConfirm(ConfirmProfileId(t))
    ensures RouteTemplates(ImageButtonId(t), templates) == AskConfirm(ConfirmImageId(t))
    ensures var r := RouteTemplates(ConfirmProfileId(t), templates); r.ConfirmProfile? && r.tmpl.shortName == t.shortName
    ensures var r := RouteTemplates(ConfirmImageId(t), templates); r.ConfirmImage? && r.tmpl.shortName == t.shortName
  {
    var h := templates[0];
    DeleteIdsDiffer(t.shortName, h.shortName);
    DeleteIdsDiffer(h.shortName, t.shortName);
    SuffixEq("del_profile_", t.shortName, h.shortName);
    SuffixEq("del_image_", t.shortName, h.shortName);
    SuffixEq("del_confirm_profile_", t.shortName, h.shortName);
    SuffixEq("del_confirm_image_", t.shortName, h.shortName);
    if t != h {
      assert t in templates[1..];
      RouteTemplatesFinds(t, templates[1..]);
    }
  }

  lemma SuffixEq(p: string, a: string, b: string)
    ensures p + a == p + b <==> a == b
  {
    if p + a == p + b {
      assert a == (p + a)[|p|..];
    }
  }

  // -------------------------------------------------------------------
  // Confirmed deletions

  const MsgDeleted: string := "Deleted!"
  const MsgRetry: string := "Something went wrong, please try again."

  /** `confirmDeleteProfile`: the whole document goes. */
  function ConfirmDeleteProfile(c: Store.Client, t: Template, guild: string, user: string, deleteOk: bool): (r: (Store.Client, Update))
    ensures r.0 == Store.DeleteProfile(c, t, guild, user, deleteOk).client
    ensures r.1 == Update(if deleteOk then MsgDeleted else "Oops! Something went wrong.", [])
  {
    var d := Store.DeleteProfile(c, t, guild, user, deleteOk);
    (d.client, Update(if d.err.None? then MsgDeleted else "Oops! Something went wrong.", []))
  }

  /** Whether some template field still has a non-blank value. */
  predicate HasFields(t: Template, p: Profile) {
    exists f | f in t.fields :: f in p && !IsBlank(p[f])
  }

  /** `confirmDeleteImage`: read the profile, drop its image, then save what
      is left when some field still has text, or delete the document. The
      storage requests each take an `ok` flag. */
  function ConfirmDeleteImage(c: Store.Client, t: Template, guild: string, user: string,
                              getOk: bool, putOk: bool, deleteOk: bool): (r: (Store.Client, Update))
    ensures r.1.components == []
    // a read that fails on a miss: retry, nothing changes
    ensures CacheKey(t.name, guild, user) !in c.cache && !getOk ==> r == (c, Update(MsgRetry, []))
    // a profile that is not there counts as deleted
    ensures Store.FetchProfile(c, t, guild, user, getOk).result == Failure(Store.NotFound) ==> r == (c, Update(MsgDeleted, []))
    // a failed rewrite of the remaining fields: retry, no document changes
    ensures var f := Store.FetchProfile(c, t, guild, user, getOk);
      f.result.Success? && HasFields(t, f.result.value - {t.image}) && !putOk ==>
        r.1 == Update(MsgRetry, []) && r.0.objects == c.objects
    // a failed delete of a profile with nothing left: retry, the document stays but its cache entry is gone
    ensures var f := Store.FetchProfile(c, t, guild, user, getOk);
      f.result.Success? && !HasFields(t, f.result.value - {t.image}) && !deleteOk ==>
        r.1 == Update(MsgRetry, []) && r.0.objects == c.objects && CacheKey(t.name, guild, user) !in r.0.cache
  {
    var f := Store.FetchProfile(c, t, guild, user, getOk);
    if f.result == Failure(Store.NotFound) then (f.client, Update(MsgDeleted, []))
    else if f.result.Failure? then (f.client, Update(MsgRetry, []))
    else
      var rest := f.result.value - {t.image};
      if HasFields(t, rest) then
        var s := Store.SaveProfile(f.client, t, guild, user, rest, Store.Unreachable, false, getOk, putOk);
        if s.err.Some? then (s.client, Update(MsgRetry, []))
        else match s.userErr
          case Some(n) => (s.client, Update(Store.NoticeText(n), []))
          case None => (s.client, Update(MsgDeleted, []))
      else
        var d := Store.DeleteProfile(f.client, t, guild, user, deleteOk);
        if d.err.Some? then (d.client, Update(MsgRetry, []))
        else (d.client, Update(MsgDeleted, []))
  }

  /** A profile that does not exist counts as deleted, and nothing changes. */
  lemma ImageDeleteOfMissingProfile(c: Store.Client, t: Template, guild: string, user: string, putOk: bool, deleteOk: bool)
    requires CacheKey(t.name, guild, user) !in c.cache && ProfileS3Path(guild, t.name, user) !in c.objects
    ensures ConfirmDeleteImage(c, t, guild, user, true, putOk, deleteOk) == (c, Update(MsgDeleted, []))
  {
  }

  /** Deleting the image of a profile with text left rewrites the document
      as the same profile without the image (every other key unchanged), and
      the save can never produce a message for the user, because no image is
      left to relocate. */
  lemma ImageDeleteKeepsFields(c: Store.Client, t: Template, guild: string, user: string, getOk: bool, deleteOk: bool)
    requires Store.Coherent(c) && Segment(t.name) && Segment(guild)
    requires ProfileS3Path(guild, t.name, user) in c.objects
    requires var f := Store.FetchProfile(c, t, guild, user, getOk); f.result.Success?
    requires HasFields(t, c.objects[ProfileS3Path(guild, t.name, user)] - {t.image})
    ensures var r := ConfirmDeleteImage(c, t, guild, user, getOk, true, deleteOk);
      r.1 == Update(MsgDeleted, []) &&
      r.0.objects[ProfileS3Path(guild, t.name, user)] == c.objects[ProfileS3Path(guild, t.name, user)] - {t.image}
  {
    Store.FetchReturnsStored(c, t, guild, user, getOk);
    var f := Store.FetchProfile(c, t, guild, user, getOk);
    var rest := f.result.value - {t.image};
    var rel := Store.RelocateImage(f.client, t, guild, user, rest, Store.Unreachable, false);
    assert rel == Store.Relocation(f.client, None, "");
    var s := Store.SaveProfile(f.client, t, guild, user, rest, Store.Unreachable, false, getOk, true);
    var doc := s.client.objects[ProfileS3Path(guild, t.name, user)];
    assert doc == rest;
  }

  /** Deleting the image of a profile with no text left removes the whole
      document. */
  lemma ImageDeleteRemovesEmptyProfile(c: Store.Client, t: Template, guild: string, user: string, getOk: bool, putOk: bool)
    requires Store.Coherent(c) && Segment(t.name) && Segment(guild)
    requires ProfileS3Path(guild, t.name, user) in c.objects
    requires Store.FetchProfile(c, t, guild, user, getOk).result.Success?
    requires !HasFields(t, c.objects[ProfileS3Path(guild, t.name, user)] - {t.image})
    ensures var r := ConfirmDeleteImage(c, t, guild, user, getOk, putOk, true);
      r.1 == Update(MsgDeleted, []) && ProfileS3Path(guild, t.name, user) !in r.0.objects &&
      CacheKey(t.name, guild, user) !in r.0.cache
  {
    Store.FetchReturnsStored(c, t, guild, user, getOk);
  }
}

=== FILE: deletestate.dfy ===
/** The Python delete dialogue (src/sprobot/commands.py, `DeleteState` and
    the `DeleteProfile` view): a small state machine driven by button clicks,
    with storage requests through the `Backend` model. */
module DeleteState {
  import opened Base
  import opened Profiles
  import Backend

  datatype State = Called | WaitForConfirm | Confirmed | Cancelled | Deleted | Error

  /** The two deletions a confirmation can run (`self._next`). */
  datatype Action = EntireProfile | ProfileImage

  /** The buttons of the view, by custom ID. */
  datatype ButtonKind = DeleteProfileButton | DeleteImageButton | ConfirmButton | CancelButton

  const InitialButtons: seq<ButtonKind> := [DeleteProfileButton, DeleteImageButton, CancelButton]
  const ConfirmButtons: seq<ButtonKind> := [ConfirmButton, CancelButton]

  /** The view: its state, the action a confirmation runs, its buttons,
      whether it has stopped listening, and the message saved for the user. */
  datatype View = View(state: State, next: Option<Action>, buttons: seq<ButtonKind>, stopped: bool, error: Option<Backend.Notice>)

  /** A fresh view, as the delete command sends it. */
  const Fresh: View := View(Called, None, InitialButtons, false, None)

  /** Who is deleting what, and how the storage requests go. */
  datatype Env = Env(tmpl: Template, guild: nat, user: nat, getOk: bool, putOk: bool, deleteOk: bool)

  /** After a click: the view, the backend, and the new message content if
      the message was edited; or an exception that escaped the callback,
      with the backend as the raise left it. */
  datatype Step = Step(view: View, backend: Backend.Backend, edit: Option<string>)
                | Crashed(view: View, backend: Backend.Backend)

  /** `_update_message` as written: the buttons are cleared, then redrawn
      for the confirmation; the error state falls through every branch, so
      it neither edits the message nor stops the view. */
  function Render(v: View): (r: (View, Option<string>))
    ensures r.0.state == v.state && r.0.next == v.next
    ensures r.0.buttons == (if v.state == WaitForConfirm then ConfirmButtons else [])
    ensures r.0.stopped <==> v.stopped || v.state == Cancelled || v.state == Deleted
    ensures r.1.Some? <==> v.state in {WaitForConfirm, Cancelled, Deleted}
  {
    var cleared := v.(buttons := []);
    if v.state == WaitForConfirm then (cleared.(buttons := ConfirmButtons), Some("Are you sure?"))
    else if v.state == Cancelled then (cleared.(stopped := true), Some("No worries!"))
    else if v.state == Deleted then (cleared.(stopped := true), Some("Deleted!"))
    else (cleared, None)
  }

  function Rendered(v: View, b: Backend.Backend): (r: Step)
    ensures r.Step? && r.backend == b && r.view == Render(v).0 && r.edit == Render(v).1
  {
    Step(Render(v).0, b, Render(v).1)
  }

  /** `delete_entire_profile` and `delete_profile_image`: from `Called` they
      ask for confirmation and remember themselves; once `Confirmed` they do
      the work; in any other state they do nothing. */
  function RunAction(a: Action, v: View, b: Backend.Backend, env: Env): (r: Step)
    ensures v.state == Called ==> r == Rendered(v.(state := WaitForConfirm, next := Some(a)), b)
    ensures v.state != Called && v.state != Confirmed ==> r == Step(v, b, None)
    ensures r.Step? && v.state == Confirmed ==> r.view.state in {Deleted, Error}
  {
    if v.state == Called then Rendered(v.(state := WaitForConfirm, next := Some(a)), b)
    else if v.state != Confirmed then Step(v, b, None)
    else if a == EntireProfile then
      var d := Backend.DeleteProfile(b, env.tmpl, env.guild, env.user, env.deleteOk);
      if d.Returned? then Rendered(v.(state := Deleted), d.value) else Crashed(v, d.state)
    else ConfirmedImageDelete(v, b, env)
  }

  /** The confirmed picture deletion: a missing profile counts as deleted;
      otherwise the image field is dropped and the rest saved, or the
      document deleted when nothing is left. */
  function ConfirmedImageDelete(v: View, b: Backend.Backend, env: Env): (r: Step)
    ensures r.Step? ==> r.view.state in {Deleted, Error} && r.view.buttons == [] && r.view.next == v.next
    ensures r.Step? && r.view.state == Deleted ==> r.view.stopped
    ensures r.Crashed? ==> r.view == v
  {
    var f := Backend.FetchProfile(b, env.tmpl, env.guild, env.user, env.getOk);
    if f.result.NotFoundError? then Rendered(v.(state := Deleted), f.backend)
    else if f.result.Raised? then Crashed(v, f.backend)
    else StoreRemainder(v, f.backend, f.result.value - {env.tmpl.image}, env)
  }

  /** What is left of the profile is saved when non-empty, else deleted. */
  function StoreRemainder(v: View, b: Backend.Backend, rest: Profile, env: Env): (r: Step)
    ensures r.Step? ==> r.view.state in {Deleted, Error} && r.view.buttons == [] && r.view.next == v.next
    ensures r.Step? && r.view.state == Deleted ==> r.view.stopped
    ensures r.Crashed? ==> r.view == v
  {
    if |rest| > 0 then
      var s := Backend.SaveProfile(b, env.tmpl, env.guild, env.user, rest, Backend.FetchFailed, false, env.putOk);
      if !s.Returned? then Crashed(v, s.state)
      else if s.value.userErr.Some? then Rendered(v.(state := Error, error := s.value.userErr), s.value.backend)
      else Rendered(v.(state := Deleted), s.value.backend)
    else
      var d := Backend.DeleteProfile(b, env.tmpl, env.guild, env.user, env.deleteOk);
      if d.Returned? then Rendered(v.(state := Deleted), d.value) else Crashed(v, d.state)
  }

  /** A click on one of the view's buttons. A view that has stopped, or a
      button it no longer shows, gets no callback. */
  function Click(v: View, button: ButtonKind, b: Backend.Backend, env: Env): (r: Step)
    ensures v.stopped || button !in v.buttons ==> r == Step(v, b, None)
    ensures !v.stopped && button == CancelButton && button in v.buttons ==>
      r == Step(v.(state := Cancelled, buttons := [], stopped := true), b, Some("No worries!"))
  {
    if v.stopped || button !in v.buttons then Step(v, b, None)
    else match button
      case CancelButton => Rendered(v.(state := Cancelled), b)
      case DeleteProfileButton => RunAction(EntireProfile, v, b, env)
      case DeleteImageButton => RunAction(ProfileImage, v, b, env)
      case ConfirmButton =>
        if v.next.None? then Crashed(v.(state := Confirmed), b)
        else RunAction(v.next.value, v.(state := Confirmed), b, env)
  }

  /** The shapes a view can be in. */
  ghost predicate Valid(v: View) {
    (v.state == Called ==> v.buttons == InitialButtons && v.next.None? && !v.stopped) &&
    (v.state == WaitForConfirm ==> v.buttons == ConfirmButtons && v.next.Some? && !v.stopped) &&
    (v.state == Confirmed ==> v.buttons == ConfirmButtons && v.next.Some? && !v.stopped) &&
    (v.state in {Cancelled, Deleted, Error} ==> v.buttons == []) &&
    (v.state in {Cancelled, Deleted} ==> v.stopped)
  }

  /** Every click keeps the view in one of its shapes. */
  lemma ClickValid(v: View, button: ButtonKind, b: Backend.Backend, env: Env)
    requires Valid(v)
    ensures Valid(Click(v, button, b, env).view)
  {
  }

  /** The error state cannot be reached: once the image field is removed
      the save has no image to relocate and so no message for the user. */
  lemma NeverError(v: View, button: ButtonKind, b: Backend.Backend, env: Env)
    requires Valid(v) && v.state != Error
    ensures Click(v, button, b, env).view.state != Error
  {
    if !v.stopped && button in v.buttons && button == ConfirmButton && v.next == Some(ProfileImage) {
      var c := v.(state := Confirmed);
      ConfirmRunsImageDelete(v, b, env);
      var f := Backend.FetchProfile(b, env.tmpl, env.guild, env.user, env.getOk);
      if f.result.Returned? {
        var rest := f.result.value - {env.tmpl.image};
        FetchedStores(c, b, env, rest);
        RemainderNeverError(c, f.backend, rest, env);
      }
    }
  }

  /** Confirming a picture deletion runs it on the confirmed view. */
  lemma ConfirmRunsImageDelete(v: View, b: Backend.Backend, env: Env)
    requires !v.stopped && ConfirmButton in v.buttons && v.next == Some(ProfileImage)
    ensures Click(v, ConfirmButton, b, env) == ConfirmedImageDelete(v.(state := Confirmed), b, env)
  {
  }

  /** Saving a remainder without its image never reports a user message. */
  lemma RemainderNeverError(v: View, b: Backend.Backend, rest: Profile, env: Env)
    requires v.state != Error && env.tmpl.image !in rest
    ensures StoreRemainder(v, b, rest, env).view.state != Error
  {
    if |rest| > 0 && env.putOk {
      Backend.SaveWithoutImage(b, env.tmpl, env.guild, env.user, rest, Backend.FetchFailed, false);
    }
  }

  /** A view that has stopped, or reached `Deleted` or `Cancelled`, ignores
      every further click and leaves storage alone. */
  lemma FinishedIgnoresClicks(v: View, button: ButtonKind, b: Backend.Backend, env: Env)
    requires Valid(v) && v.state in {Cancelled, Deleted}
    ensures Click(v, button, b, env) == Step(v, b, None)
  {
  }

  /** Deleting the whole profile takes two clicks: the first only asks,
      the second deletes the document and its cache entry. */
  lemma DeleteEntireProfile(b: Backend.Backend, env: Env)
    requires env.deleteOk
    ensures var s1 := Click(Fresh, DeleteProfileButton, b, env);
      s1 == Step(View(WaitForConfirm, Some(EntireProfile), ConfirmButtons, false, None), b, Some("Are you sure?")) &&
      var s2 := Click(s1.view, ConfirmButton, b, env);
      s2.Step? && s2.view.state == Deleted && s2.edit == Some("Deleted!") && s2.view.stopped &&
      s2.backend.objects == b.objects - {Backend.PathOf(Backend.Key(env.tmpl.name, env.guild, env.user))} &&
      Backend.Key(env.tmpl.name, env.guild, env.user) !in s2.backend.cache
  {
  }

  lemma StoreRemainderSaves(v: View, b: Backend.Backend, rest: Profile, env: Env)
    requires |rest| > 0 && env.tmpl.image !in rest && env.putOk
    ensures var r := StoreRemainder(v, b, rest, env);
      r.Step? && r.view.state == Deleted && r.edit == Some("Deleted!") &&
      r.backend.objects == b.objects[Backend.PathOf(Backend.Key(env.tmpl.name, env.guild, env.user)) := rest]
  {
    Backend.SaveWithoutImage(b, env.tmpl, env.guild, env.user, rest, Backend.FetchFailed, false);
  }

  /** The confirmed picture deletion on a stored profile with other keys
      left rewrites the document without its image field. */
  lemma ConfirmedImageDeleteRewrites(v: View, b: Backend.Backend, env: Env)
    requires v.state == Confirmed
    requires Backend.Coherent(b) && env.getOk && env.putOk
    requires Backend.PathOf(Backend.Key(env.tmpl.name, env.guild, env.user)) in b.objects
    requires |b.objects[Backend.PathOf(Backend.Key(env.tmpl.name, env.guild, env.user))] - {env.tmpl.image}| > 0
    ensures var r := ConfirmedImageDelete(v, b, env);
      var path := Backend.PathOf(Backend.Key(env.tmpl.name, env.guild, env.user));
      r.Step? && r.view.state == Deleted && r.edit == Some("Deleted!") &&
      path in r.backend.objects && r.backend.objects[path] == b.objects[path] - {env.tmpl.image}
  {
    var path := Backend.PathOf(Backend.Key(env.tmpl.name, env.guild, env.user));
    var f := Backend.FetchProfile(b, env.tmpl, env.guild, env.user, env.getOk);
    assert f.result == Backend.Returned(b.objects[path]) && f.backend.objects == b.objects by {
      Backend.FetchStored(b, env.tmpl, env.guild, env.user, env.getOk);
    }
    var rest := b.objects[path] - {env.tmpl.image};
    assert ConfirmedImageDelete(v, b, env) == StoreRemainder(v, f.backend, rest, env) by {
      FetchedStores(v, b, env, rest);
    }
    StoreRemainderSaves(v, f.backend, rest, env);
  }

  /** The confirmed picture deletion on a stored profile with nothing but
      the image removes the document. */
  lemma ConfirmedImageDeleteRemoves(v: View, b: Backend.Backend, env: Env)
    requires v.state == Confirmed
    requires Backend.Coherent(b) && env.getOk && env.deleteOk
    requires Backend.PathOf(Backend.Key(env.tmpl.name, env.guild, env.user)) in b.objects
    requires |b.objects[Backend.PathOf(Backend.Key(env.tmpl.name, env.guild, env.user))] - {env.tmpl.image}| == 0
    ensures var r := ConfirmedImageDelete(v, b, env);
      r.Step? && r.view.state == Deleted && r.edit == Some("Deleted!") &&
      Backend.PathOf(Backend.Key(env.tmpl.name, env.guild, env.user)) !in r.backend.objects
  {
    var path := Backend.PathOf(Backend.Key(env.tmpl.name, env.guild, env.user));
    var f := Backend.FetchProfile(b, env.tmpl, env.guild, env.user, env.getOk);
    assert f.result == Backend.Returned(b.objects[path]) && f.backend.objects == b.objects by {
      Backend.FetchStored(b, env.tmpl, env.guild, env.user, env.getOk);
    }
    var rest := b.objects[path] - {env.tmpl.image};
    assert ConfirmedImageDelete(v, b, env) == StoreRemainder(v, f.backend, rest, env) by {
      FetchedStores(v, b, env, rest);
    }
    EmptyRemainderDeletes(v, f.backend, rest, env);
  }

  /** A fetch that returns hands what is left of the profile on. */
  lemma FetchedStores(v: View, b: Backend.Backend, env: Env, rest: Profile)
    requires Backend.FetchProfile(b, env.tmpl, env.guild, env.user, env.getOk).result.Returned?
    requires rest == Backend.FetchProfile(b, env.tmpl, env.guild, env.user, env.getOk).result.value - {env.tmpl.image}
    ensures ConfirmedImageDelete(v, b, env) ==
      StoreRemainder(v, Backend.FetchProfile(b, env.tmpl, env.guild, env.user, env.getOk).backend, rest, env)
  {
  }

  /** Nothing left of the profile: the document is deleted. */
  lemma EmptyRemainderDeletes(v: View, b: Backend.Backend, rest: Profile, env: Env)
    requires |rest| == 0 && env.deleteOk
    ensures var r := StoreRemainder(v, b, rest, env);
      r.Step? && r.view.state == Deleted && r.edit == Some("Deleted!") &&
      r.backend.objects == b.objects - {Backend.PathOf(Backend.Key(env.tmpl.name, env.guild, env.user))}
  {
    var d := Backend.DeleteProfile(b, env.tmpl, env.guild, env.user, env.deleteOk);
    assert StoreRemainder(v, b, rest, env) == Rendered(v.(state := Deleted), d.value);
  }

  /** From a fresh view, the picture button only asks; the confirmation
      then runs the picture deletion. */
  lemma DeleteImageClicks(b: Backend.Backend, env: Env)
    ensures var s1 := Click(Fresh, DeleteImageButton, b, env);
      s1 == Step(View(WaitForConfirm, Some(ProfileImage), ConfirmButtons, false, None), b, Some("Are you sure?")) &&
      Click(s1.view, ConfirmButton, b, env) == ConfirmedImageDelete(s1.view.(state := Confirmed), b, env)
  {
  }
}

=== FILE: embed.dfy ===
/** The profile embed the Go bot shows (pkg/bot/embed.go): title, link,
    colour, the template's fields in order, and the image or a hint on how
    to add one. */
module Embed {
  import opened Base
  import opened Text
  import opened Profiles

  datatype Field = Field(name: string, value: string)

  /** The embed footer: its text and icon link. */
  datatype Footer = Footer(text: string, iconUrl: string)

  datatype ProfileEmbed = ProfileEmbed(title: string, url: string, color: int,
                                       fields: seq<Field>, image: Option<string>, footer: Footer)

  const FooterIconUrl := "https://profile-bot.us-southeast-1.linodeobjects.com/76916743.gif"

  const HintName := "Want to add a profile image?"
  const HintValue := "Check out the guide at https://espressoaf.com/guides/sprobot.html#saving-a-profile-image-via-right-click"
  /** The size of the alphabet of `randomLetters`. */
  const AlphabetSize := 52

  /** The `k`-th letter of the alphabet: "a" to "z", then "A" to "Z". */
  function LetterAt(k: int): (c: char)
    requires 0 <= k < 52
    ensures IsLetter(c)
  {
    if k < 26 then ('a' as int + k) as char else ('A' as int + k - 26) as char
  }

  predicate IsLetter(c: char) {
    ('a' <= c <= 'z') || ('A' <= c <= 'Z')
  }

  /** `rgbToInt` for channel values in 0..255: the three bytes packed
      red, green, blue from the most significant end. */
  function RgbToInt(r: int, g: int, b: int): (c: int)
    requires 0 <= r < 256 && 0 <= g < 256 && 0 <= b < 256
    ensures 0 <= c < 0x100_0000
    ensures c / 0x1_0000 == r && (c / 0x100) % 0x100 == g && c % 0x100 == b
  {
    var c := r * 0x1_0000 + g * 0x100 + b;
    DivModUnique(c, r * 0x100 + g, b, 0x100);
    DivModUnique(r * 0x100 + g, r, g, 0x100);
    DivModUnique(c, r, g * 0x100 + b, 0x1_0000);
    c
  }

  /** The embed colour, the brown of (103, 71, 54). */
  lemma EmbedColor()
    ensures RgbToInt(103, 71, 54) == 0x674736
  {
  }

  /** `randomLetters(n)`: `draws` are the random numbers the generator
      returns, each reduced into the alphabet. */
  function RandomLetters(draws: seq<nat>): (s: string)
    ensures |s| == |draws|
    ensures forall i :: 0 <= i < |s| ==> IsLetter(s[i])
  {
    seq(|draws|, i requires 0 <= i < |draws| => LetterAt(draws[i] % AlphabetSize))
  }

  /** Every letter can come out of the generator. */
  lemma RandomLettersCoverAlphabet(c: char)
    requires IsLetter(c)
    ensures exists d: nat :: RandomLetters([d]) == [c]
  {
    var d: nat := if 'a' <= c <= 'z' then c as int - 'a' as int else 26 + c as int - 'A' as int;
    assert LetterAt(d) == c;
    assert RandomLetters([d]) == [c];
  }

  /** The fields of the template that the profile fills with a non-empty
      value, in template order. */
  function ProfileFields(fieldNames: seq<string>, profile: Profile): (fs: seq<Field>)
    ensures |fs| <= |fieldNames|
  {
    if |fieldNames| == 0 then []
    else
      var rest := ProfileFields(fieldNames[1..], profile);
      var name := fieldNames[0];
      if name in profile && profile[name] != "" then [Field(name, profile[name])] + rest else rest
  }

  /** Exactly the filled fields of the template are shown, each with its
      value. */
  lemma {:induction false} ProfileFieldsMembers(fieldNames: seq<string>, profile: Profile, f: Field)
    ensures f in ProfileFields(fieldNames, profile) <==>
      f.name in fieldNames && f.name in profile && profile[f.name] != "" && f.value == profile[f.name]
  {
    if |fieldNames| > 0 {
      ProfileFieldsMembers(fieldNames[1..], profile, f);
      assert f.name in fieldNames <==> f.name == fieldNames[0] || f.name in fieldNames[1..];
    }
  }

  /** The fields keep the template's order: a field listed before another
      in the template comes out before it. */
  lemma {:induction false} ProfileFieldsOrdered(fieldNames: seq<string>, profile: Profile, i: nat, j: nat)
    requires i < j < |fieldNames|
    requires fieldNames[i] in profile && profile[fieldNames[i]] != ""
    requires fieldNames[j] in profile && profile[fieldNames[j]] != ""
    ensures var out := ProfileFields(fieldNames, profile);
      exists a, b :: 0 <= a < b < |out| && out[a].name == fieldNames[i] && out[b].name == fieldNames[j]
    decreases i
  {
    if i == 0 {
      var b := ProfileFieldsHeadFirst(fieldNames, profile, j);
    } else {
      var rest := ProfileFields(fieldNames[1..], profile);
      var out := ProfileFields(fieldNames, profile);
      assert fieldNames[1..][i - 1] == fieldNames[i];
      assert fieldNames[1..][j - 1] == fieldNames[j];
      ProfileFieldsOrdered(fieldNames[1..], profile, i - 1, j - 1);
      var a, b :| 0 <= a < b < |rest| && rest[a].name == fieldNames[i] && rest[b].name == fieldNames[j];
      var d := ProfileFieldsShift(fieldNames, profile);
      assert out[a + d] == out[d..][a] && out[b + d] == out[d..][b];
    }
  }

  /** The fields of the template's tail sit at the end of the template's
      fields, moved up by one when the first field is filled. */
  lemma ProfileFieldsShift(fieldNames: seq<string>, profile: Profile) returns (d: nat)
    requires |fieldNames| > 0
    ensures var rest := ProfileFields(fieldNames[1..], profile);
      var out := ProfileFields(fieldNames, profile);
      d <= 1 && |out| == |rest| + d && out[d..] == rest
  {
    var name := fieldNames[0];
    var rest := ProfileFields(fieldNames[1..], profile);
    if name in profile && profile[name] != "" {
      d := 1;
      assert ProfileFields(fieldNames, profile) == [Field(name, profile[name])] + rest;
    } else {
      d := 0;
      assert ProfileFields(fieldNames, profile) == rest;
    }
  }

  /** A filled first field comes out first, before every other filled one
      (at position `b`). */
  lemma ProfileFieldsHeadFirst(fieldNames: seq<string>, profile: Profile, j: nat) returns (b: nat)
    requires 0 < j < |fieldNames|
    requires fieldNames[0] in profile && profile[fieldNames[0]] != ""
    requires fieldNames[j] in profile && profile[fieldNames[j]] != ""
    ensures var out := ProfileFields(fieldNames, profile);
      0 < b < |out| && out[0].name == fieldNames[0] && out[b].name == fieldNames[j]
  {
    var rest := ProfileFields(fieldNames[1..], profile);
    var f := Field(fieldNames[j], profile[fieldNames[j]]);
    assert fieldNames[1..][j - 1] == fieldNames[j];
    ProfileFieldsMembers(fieldNames[1..], profile, f);
    var k :| 0 <= k < |rest| && rest[k] == f;
    var out := ProfileFields(fieldNames, profile);
    assert out == [Field(fieldNames[0], profile[fieldNames[0]])] + rest;
    b := k + 1;
    assert out[b] == f;
  }

  /** `buildProfileEmbed`. `draws` are the ten random numbers behind the
      cache-busting suffix of the image link. The title links to the
      profile page through the corrected `ProfileLink`; `buildProfileURL`
      as written is `ProfileLinkAsWritten`. */
  function BuildProfileEmbed(tmpl: Template, username: string, profile: Profile,
                             guild: string, user: string, bucket: string, draws: seq<nat>): (e: ProfileEmbed)
    requires |draws| == 10
    ensures e.title == tmpl.name + " for " + username
    ensures e.url == ProfileLink(bucket, guild, tmpl.name, user)
    ensures e.color == RgbToInt(103, 71, 54)
    ensures e.footer == Footer("sprobot", FooterIconUrl)
    ensures tmpl.image in profile && profile[tmpl.image] != "" ==>
      e.fields == ProfileFields(tmpl.fields, profile) &&
      e.image.Some? && HasPrefix(e.image.value, profile[tmpl.image] + "?") &&
      |e.image.value| == |profile[tmpl.image]| + 11
    ensures !(tmpl.image in profile && profile[tmpl.image] != "") ==>
      e.fields == ProfileFields(tmpl.fields, profile) + [Field(HintName, HintValue)] && e.image.None?
  {
    var fields := ProfileFields(tmpl.fields, profile);
    var base := ProfileEmbed(tmpl.name + " for " + username, ProfileLink(bucket, guild, tmpl.name, user),
                             RgbToInt(103, 71, 54), fields, None, Footer("sprobot", FooterIconUrl));
    if tmpl.image in profile && profile[tmpl.image] != "" then
      var img := profile[tmpl.image] + "?" + RandomLetters(draws);
      assert img[..|profile[tmpl.image]| + 1] == profile[tmpl.image] + "?";
      base.(image := Some(img))
    else
      base.(fields := fields + [Field(HintName, HintValue)])
  }

  /** The image link is the stored URL back again once its query string is
      cut at the last "?": the ten letters contain no "?". */
  lemma ImageLinkStripsBack(url: string, draws: seq<nat>)
    requires |draws| == 10
    ensures var img := url + "?" + RandomLetters(draws);
      img[..|url|] == url && img[|url|] == '?' && '?' !in img[|url| + 1..]
  {
    var img := url + "?" + RandomLetters(draws);
    assert img[|url| + 1..] == RandomLetters(draws);
  }
}

=== FILE: escape.dfy ===
/** UTF-8 encoding and URL percent-escaping: Go's `url.PathEscape`, Python's
    `urllib.parse.quote(s, safe="/")`, and the unescaping a Go HTTP server
    applies to each path segment. */
module Escape {
  import opened Base
  import opened Text

  /** The UTF-8 bytes of one character (a Go string holds these bytes). */
  function Utf8(c: char): (bs: seq<Byte>)
    ensures 1 <= |bs| <= 4
    ensures (c as int < 128) <==> |bs| == 1
    ensures c as int < 128 ==> bs == [c as int as Byte]
  {
    var n := c as int;
    if n < 0x80 then [n as Byte]
    else if n < 0x800 then [(0xC0 + n / 64) as Byte, (0x80 + n % 64) as Byte]
    else if n < 0x10000 then
      [(0xE0 + n / 4096) as Byte, (0x80 + (n / 64) % 64) as Byte, (0x80 + n % 64) as Byte]
    else
      [(0xF0 + n / 262144) as Byte, (0x80 + (n / 4096) % 64) as Byte,
       (0x80 + (n / 64) % 64) as Byte, (0x80 + n % 64) as Byte]
  }

  /** The bytes of a string, as Go stores it. */
  function Utf8Bytes(s: string): (bs: seq<Byte>)
    ensures |bs| >= |s|
  {
    if |s| == 0 then [] else Utf8(s[0]) + Utf8Bytes(s[1..])
  }

  lemma {:induction false} Utf8BytesAppend(a: string, b: string)
    ensures Utf8Bytes(a + b) == Utf8Bytes(a) + Utf8Bytes(b)
  {
    if |a| > 0 {
      assert (a + b)[1..] == a[1..] + b;
      Utf8BytesAppend(a[1..], b);
    } else {
      assert a + b == b;
    }
  }

  /** `len(s)` of a Go string: its length in bytes. */
  function ByteLen(s: string): nat {
    |Utf8Bytes(s)|
  }

  /** For pure-ASCII text the byte length is the character count. */
  lemma {:induction false} AsciiByteLen(s: string)
    requires forall i :: 0 <= i < |s| ==> s[i] as int < 128
    ensures ByteLen(s) == |s|
  {
    if |s| > 0 {
      AsciiByteLen(s[1..]);
    }
  }

  predicate IsContinuation(b: Byte) {
    0x80 <= b < 0xC0
  }

  /** The shape of UTF-8: each lead byte announces how many continuation
      bytes follow, and they do. Every well-formed encoding has this shape;
      a byte string without it is not text. */
  predicate WellFormed(bs: seq<Byte>)
    decreases |bs|
  {
    if |bs| == 0 then true
    else if bs[0] < 0x80 then WellFormed(bs[1..])
    else if 0xC0 <= bs[0] < 0xE0 then
      |bs| >= 2 && IsContinuation(bs[1]) && WellFormed(bs[2..])
    else if 0xE0 <= bs[0] < 0xF0 then
      |bs| >= 3 && IsContinuation(bs[1]) && IsContinuation(bs[2]) && WellFormed(bs[3..])
    else if 0xF0 <= bs[0] < 0xF8 then
      |bs| >= 4 && IsContinuation(bs[1]) && IsContinuation(bs[2]) && IsContinuation(bs[3]) && WellFormed(bs[4..])
    else false
  }

  /** One character's encoding in front of well-formed bytes keeps them
      well-formed. */
  lemma Utf8ThenWellFormed(c: char, rest: seq<Byte>)
    requires WellFormed(rest)
    ensures WellFormed(Utf8(c) + rest)
  {
    var bs := Utf8(c) + rest;
    var k := |Utf8(c)|;
    assert bs[k..] == rest;
  }

  /** The bytes of every string are well-formed. */
  lemma {:induction false} Utf8BytesWellFormed(s: string)
    ensures WellFormed(Utf8Bytes(s))
  {
    if |s| > 0 {
      Utf8BytesWellFormed(s[1..]);
      Utf8ThenWellFormed(s[0], Utf8Bytes(s[1..]));
    }
  }

  // ---------------------------------------------------------------------
  // Percent-escaping

  function HexDigit(d: nat): (c: char)
    requires d < 16
  {
    "0123456789ABCDEF"[d]
  }

  /** The value of a hexadecimal digit of either case (Go's `unhex`). */
  function Unhex(c: char): (r: Option<nat>)
    ensures r.Some? ==> r.value < 16
  {
    if '0' <= c <= '9' then Some(c as int - '0' as int)
    else if 'A' <= c <= 'F' then Some(c as int - 'A' as int + 10)
    else if 'a' <= c <= 'f' then Some(c as int - 'a' as int + 10)
    else None
  }

  lemma UnhexOfHexDigit(d: nat)
    requires d < 16
    ensures Unhex(HexDigit(d)) == Some(d)
  {
  }

  predicate IsAsciiAlnum(c: char) {
    'a' <= c <= 'z' || 'A' <= c <= 'Z' || '0' <= c <= '9'
  }

  /** The characters both escapers leave alone (RFC 3986 unreserved). */
  predicate Unreserved(c: char) {
    IsAsciiAlnum(c) || c == '-' || c == '_' || c == '.' || c == '~'
  }

  /** Characters `url.PathEscape` keeps: unreserved plus `$&+:=@`;
      `/`, `;`, `,`, `?` and every other byte are escaped. */
  predicate GoPathSafe(c: char) {
    Unreserved(c) || c == '$' || c == '&' || c == '+' || c == ':' || c == '=' || c == '@'
  }

  /** Characters `quote(s, safe="/")` keeps. */
  predicate PyQuoteSafe(c: char) {
    Unreserved(c) || c == '/'
  }

  /** Escapes every byte whose character is not safe as `%XX` (upper-case hex). */
  function EscapeBytes(bs: seq<Byte>, safe: char -> bool): (r: string)
    ensures forall i :: 0 <= i < |r| ==> r[i] == '%' || IsAsciiAlnum(r[i]) || safe(r[i])
  {
    if |bs| == 0 then ""
    else
      var b := bs[0];
      var head := if b < 128 && safe(b as int as char) then [b as int as char]
                  else ['%', HexDigit(b as int / 16), HexDigit(b as int % 16)];
      head + EscapeBytes(bs[1..], safe)
  }

  /** `url.PathEscape`. */
  function PathEscape(s: string): (r: string)
    ensures forall i :: 0 <= i < |r| ==> r[i] != '/'
  {
    EscapeBytes(Utf8Bytes(s), GoPathSafe)
  }

  /** Python's `quote(s)` with its default `safe="/"`. */
  function Quote(s: string): string {
    EscapeBytes(Utf8Bytes(s), PyQuoteSafe)
  }

  /** Percent-decoding of one path segment: `%XX` becomes the byte XX, any
      other character stands for its own bytes; a `%` not followed by two
      hex digits is an error. */
  function Unescape(s: string): (r: Option<seq<Byte>>)
  {
    if |s| == 0 then Some([])
    else if s[0] == '%' then
      if |s| < 3 || Unhex(s[1]).None? || Unhex(s[2]).None? then None
      else
        match Unescape(s[3..])
        case None => None
        case Some(rest) => Some([(Unhex(s[1]).value * 16 + Unhex(s[2]).value) as Byte] + rest)
    else
      match Unescape(s[1..])
      case None => None
      case Some(rest) => Some(Utf8(s[0]) + rest)
  }

  /** Unescaping undoes escaping for any byte string, whatever the safe set,
      as long as `%` itself is not safe and only ASCII characters are. */
  lemma {:induction false} UnescapeEscapeBytes(bs: seq<Byte>, safe: char -> bool)
    requires !safe('%')
    ensures Unescape(EscapeBytes(bs, safe)) == Some(bs)
  {
    if |bs| > 0 {
      var b := bs[0];
      var rest := EscapeBytes(bs[1..], safe);
      UnescapeEscapeBytes(bs[1..], safe);
      assert bs == [b] + bs[1..];
      if b < 128 && safe(b as int as char) {
        assert EscapeBytes(bs, safe) == [b as int as char] + rest;
        UnescapeKeptHead(b, rest, bs[1..]);
      } else {
        assert EscapeBytes(bs, safe) == ['%', HexDigit(b as int / 16), HexDigit(b as int % 16)] + rest;
        UnescapeHexHead(b, rest, bs[1..]);
      }
    }
  }

  /** An ASCII byte that was kept as its character decodes to itself. */
  lemma UnescapeKeptHead(b: Byte, rest: string, tail: seq<Byte>)
    requires b < 128 && b as int as char != '%' && Unescape(rest) == Some(tail)
    ensures Unescape([b as int as char] + rest) == Some([b] + tail)
  {
    var s := [b as int as char] + rest;
    assert s[1..] == rest;
  }

  /** A byte written as `%XX` decodes to itself. */
  lemma UnescapeHexHead(b: Byte, rest: string, tail: seq<Byte>)
    requires Unescape(rest) == Some(tail)
    ensures Unescape(['%', HexDigit(b as int / 16), HexDigit(b as int % 16)] + rest) == Some([b] + tail)
  {
    var s := ['%', HexDigit(b as int / 16), HexDigit(b as int % 16)] + rest;
    assert s[3..] == rest;
    UnhexOfHexDigit(b as int / 16);
    UnhexOfHexDigit(b as int % 16);
  }

  /** Unescaping a Go path-escaped string gives back the string's bytes. */
  lemma UnescapePathEscape(s: string)
    ensures Unescape(PathEscape(s)) == Some(Utf8Bytes(s))
  {
    UnescapeEscapeBytes(Utf8Bytes(s), GoPathSafe);
  }

  /** Characters that need no escaping come through `PathEscape` unchanged. */
  lemma {:induction false} PathEscapeOfSafe(s: string)
    requires forall i :: 0 <= i < |s| ==> GoPathSafe(s[i])
    ensures PathEscape(s) == s
  {
    if |s| > 0 {
      PathEscapeOfSafe(s[1..]);
      assert EscapeBytes(Utf8Bytes(s), GoPathSafe)
          == [s[0]] + EscapeBytes(Utf8Bytes(s[1..]), GoPathSafe);
    }
  }

  // ---------------------------------------------------------------------
  // Windows-1252

  /** The character Windows-1252 gives a byte. Bytes 0x80-0x9F hold the
      typographic marks; the five that code page leaves unassigned are read
      as the C1 control of the same value, and every other byte is the
      Latin-1 character of the same value. */
  function Cp1252(b: Byte): (c: char)
    ensures (b < 0x80 || b >= 0xA0) ==> c as int == b as int
  {
    if b == 0x80 then '\U{20AC}' else if b == 0x82 then '\U{201A}'
    else if b == 0x83 then '\U{0192}' else if b == 0x84 then '\U{201E}'
    else if b == 0x85 then '\U{2026}' else if b == 0x86 then '\U{2020}'
    else if b == 0x87 then '\U{2021}' else if b == 0x88 then '\U{02C6}'
    else if b == 0x89 then '\U{2030}' else if b == 0x8A then '\U{0160}'
    else if b == 0x8B then '\U{2039}' else if b == 0x8C then '\U{0152}'
    else if b == 0x8E then '\U{017D}' else if b == 0x91 then '\U{2018}'
    else if b == 0x92 then '\U{2019}' else if b == 0x93 then '\U{201C}'
    else if b == 0x94 then '\U{201D}' else if b == 0x95 then '\U{2022}'
    else if b == 0x96 then '\U{2013}' else if b == 0x97 then '\U{2014}'
    else if b == 0x98 then '\U{02DC}' else if b == 0x99 then '\U{2122}'
    else if b == 0x9A then '\U{0161}' else if b == 0x9B then '\U{203A}'
    else if b == 0x9C then '\U{0153}' else if b == 0x9E then '\U{017E}'
    else if b == 0x9F then '\U{0178}'
    else b as int as char
  }

  /** Bytes read as Windows-1252 text, one character per byte. */
  function Cp1252Decode(bs: seq<Byte>): (s: string)
    ensures |s| == |bs|
    ensures forall i :: 0 <= i < |bs| ==> s[i] == Cp1252(bs[i])
  {
    seq(|bs|, i requires 0 <= i < |bs| => Cp1252(bs[i]))
  }

  /** Mojibake: the UTF-8 bytes of a text read back as Windows-1252. ASCII
      text comes through unchanged; anything else grows, one character per
      byte. */
  function Misread(s: string): (r: string)
    ensures |r| == ByteLen(s)
  {
    Cp1252Decode(Utf8Bytes(s))
  }

  lemma {:induction false} MisreadAscii(s: string)
    requires forall i :: 0 <= i < |s| ==> s[i] as int < 128
    ensures Misread(s) == s
  {
    if |s| > 0 {
      MisreadAscii(s[1..]);
      assert Utf8Bytes(s) == Utf8(s[0]) + Utf8Bytes(s[1..]);
      assert Misread(s) == [s[0]] + Misread(s[1..]);
    }
  }
}

=== FILE: eventlog.dfy ===
/** The formatting helpers of the event log, pkg/bot/eventlog.go:
    truncation of message text, durations, channel type names, and the
    summary of a permission-overwrite change. */
module EventLog {
  import opened Base
  import opened Text
  import opened Escape

  // ---------------------------------------------------------------------
  // Truncation

  /** The bytes of "…". */
  const EllipsisBytes: seq<Byte> := [0xE2, 0x80, 0xA6]

  /** `truncate` as written: it cuts the string's bytes, so a cut can fall
      inside a character. `max` must be positive when `s` is longer (Go
      panics on `s[:-1]`); the callers pass 4000 and 1016. */
  function TruncateBytes(s: seq<Byte>, max: int): (r: seq<Byte>)
    requires max >= 1
    ensures |s| <= max ==> r == s
    ensures |s| > max ==> |r| == max + 2 && r[..max - 1] == s[..max - 1] && r[max - 1..] == EllipsisBytes
  {
    if |s| <= max then s else s[..max - 1] + EllipsisBytes
  }

  /** Truncating an already truncated text changes nothing more. */
  lemma TruncateBytesIdempotent(s: seq<Byte>, max: int)
    requires max >= 1
    ensures TruncateBytes(TruncateBytes(s, max), max) == TruncateBytes(s, max)
  {
    if |s| > max {
      var r := TruncateBytes(s, max);
      assert r[..max - 1] == s[..max - 1];
    }
  }

  /** As written, a cut inside a two-byte character leaves its lead byte
      without a continuation: "éé" cut to 2 bytes is not text any more. */
  lemma TruncateSplitsCharacter()
    ensures WellFormed(Utf8Bytes("éé"))
    ensures TruncateBytes(Utf8Bytes("éé"), 2) == [0xC3, 0xE2, 0x80, 0xA6]
    ensures !WellFormed(TruncateBytes(Utf8Bytes("éé"), 2))
  {
    Utf8BytesWellFormed("éé");
    assert Utf8Bytes("éé") == [0xC3, 0xA9, 0xC3, 0xA9];
    var r: seq<Byte> := [0xC3, 0xE2, 0x80, 0xA6];
    assert !IsContinuation(r[1]);
  }

  /** How many leading characters of `s` fit in `budget` bytes. */
  function FittingPrefix(s: string, budget: int): (k: nat)
    requires budget >= 0
    ensures k <= |s| && ByteLen(s[..k]) <= budget
    ensures k < |s| ==> ByteLen(s[..k + 1]) > budget
  {
    if |s| == 0 || |Utf8(s[0])| > budget then
      assert |s| > 0 ==> s[..1] == [s[0]] && Utf8Bytes(s[..1]) == Utf8(s[0]) + Utf8Bytes([]);
      assert s[..0] == [];
      0
    else
      var k := FittingPrefix(s[1..], budget - |Utf8(s[0])|) + 1;
      assert s[..k] == [s[0]] + s[1..][..k - 1];
      assert Utf8Bytes(s[..k]) == Utf8(s[0]) + Utf8Bytes(s[1..][..k - 1]);
      assert k < |s| ==> s[..k + 1] == [s[0]] + s[1..][..k];
      assert k < |s| ==> Utf8Bytes(s[..k + 1]) == Utf8(s[0]) + Utf8Bytes(s[1..][..k]);
      k
  }

  /** `truncate` cutting between characters: the longest prefix that fits
      in `max - 1` bytes, then "…". The result is always text, and a
      truncated result is at most `max + 2` bytes long. */
  function Truncate(s: string, max: int): (r: string)
    requires max >= 1
    ensures ByteLen(s) <= max ==> r == s
    ensures ByteLen(s) > max ==>
      |r| >= 1 && r[|r| - 1] == '…' && |r| - 1 < |s| && r[..|r| - 1] == s[..|r| - 1] &&
      ByteLen(r[..|r| - 1]) <= max - 1 && ByteLen(s[..|r|]) > max - 1 &&
      ByteLen(r) <= max + 2
    ensures WellFormed(Utf8Bytes(r))
  {
    Utf8BytesWellFormed(s);
    if ByteLen(s) <= max then s
    else
      var k := FittingPrefix(s, max - 1);
      assert s[..|s|] == s;
      assert k < |s|;
      var r := s[..k] + "…";
      assert r[..|r| - 1] == s[..k];
      Utf8BytesAppend(s[..k], "…");
      Utf8BytesWellFormed(r);
      r
  }

  lemma EllipsisUtf8()
    ensures Utf8Bytes("…") == EllipsisBytes
  {
    assert Utf8Bytes("…") == Utf8('…') + Utf8Bytes([]);
  }

  /** On ASCII text the corrected truncation keeps `max - 1` characters. */
  lemma TruncateAsciiShape(s: string, max: int)
    requires max >= 1 && |s| > max
    requires forall i :: 0 <= i < |s| ==> s[i] as int < 128
    ensures Truncate(s, max) == s[..max - 1] + "…"
  {
    AsciiByteLen(s);
    var r := Truncate(s, max);
    var k := |r| - 1;
    AsciiByteLen(s[..k]);
    AsciiByteLen(s[..k + 1]);
    assert k == max - 1;
    assert r == r[..k] + [r[k]];
  }

  /** For ASCII text the two truncations agree byte for byte: the
      correction only changes where a character would be split. */
  lemma TruncateAsciiAgrees(s: string, max: int)
    requires max >= 1
    requires forall i :: 0 <= i < |s| ==> s[i] as int < 128
    ensures Utf8Bytes(Truncate(s, max)) == TruncateBytes(Utf8Bytes(s), max)
  {
    if |s| > max {
      TruncateAsciiShape(s, max);
      AsciiCutBytes(s, max);
    } else {
      AsciiByteLen(s);
    }
  }

  /** The bytes of an ASCII text cut to `max - 1` characters and followed
      by "…" are the byte truncation of its bytes. */
  lemma AsciiCutBytes(s: string, max: int)
    requires max >= 1 && |s| > max
    requires forall i :: 0 <= i < |s| ==> s[i] as int < 128
    ensures Utf8Bytes(s[..max - 1] + "…") == TruncateBytes(Utf8Bytes(s), max)
  {
    var head := s[..max - 1];
    var bs := Utf8Bytes(s);
    assert Utf8Bytes(head + "…") == Utf8Bytes(head) + EllipsisBytes by {
      Utf8BytesAppend(head, "…");
      EllipsisUtf8();
    }
    assert Utf8Bytes(head) == bs[..max - 1] by { AsciiPrefixBytes(s, max - 1); }
    assert |bs| > max by { AsciiByteLen(s); }
  }

  /** The bytes of an ASCII prefix are the same prefix of the bytes. */
  lemma {:induction false} AsciiPrefixBytes(s: string, k: nat)
    requires k <= |s|
    requires forall i :: 0 <= i < |s| ==> s[i] as int < 128
    ensures Utf8Bytes(s[..k]) == Utf8Bytes(s)[..k]
  {
    assert s == s[..k] + s[k..];
    Utf8BytesAppend(s[..k], s[k..]);
    AsciiByteLen(s[..k]);
  }

  // ---------------------------------------------------------------------
  // Durations

  const MinuteNs: int := 60 * 1000000000
  const HourNs: int := 60 * MinuteNs
  const DayNs: int := 24 * HourNs

  /** Go's integer conversion of a quotient: rounds toward zero. */
  function TruncDiv(a: int, b: int): (q: int)
    requires b > 0
    ensures a >= 0 ==> q == a / b
    ensures a < 0 ==> q == -((-a) / b)
  {
    if a >= 0 then a / b else -((-a) / b)
  }

  /** `formatDuration` of a duration in nanoseconds (floating-point
      rounding aside). */
  function FormatDuration(d: int): (r: string)
    ensures HasSuffix(r, " days") || HasSuffix(r, " hours") || HasSuffix(r, " minutes")
    ensures TruncDiv(d, DayNs) <= 0 && TruncDiv(d, HourNs) <= 0 ==> HasSuffix(r, " minutes")
  {
    var days := TruncDiv(d, DayNs);
    if days > 365 then IntToString(days / 365) + " years, " + IntToString(days % 365) + " days"
    else if days > 0 then IntToString(days) + " days"
    else
      var hours := TruncDiv(d, HourNs);
      if hours > 0 then IntToString(hours) + " hours"
      else IntToString(TruncDiv(d, MinuteNs)) + " minutes"
  }

  /** Whole units: `a / b` reaches `n` exactly when `a` reaches `n` units. */
  lemma DivAtLeast(a: int, b: int, n: int)
    requires a >= 0 && b > 0 && n >= 0
    ensures a / b >= n <==> a >= n * b
  {
    var q := a / b;
    assert a == q * b + a % b;
    if q >= n {
      assert q * b >= n * b by { MulLe(n, q, b); }
    } else {
      assert (q + 1) * b <= n * b by { MulLe(q + 1, n, b); }
    }
  }

  /** What `formatDuration` shows for each length of time: past 365 whole
      days, years and the days left over, which add back up to the days
      elapsed; from one day, days; from one hour, hours; below that, and
      for a negative duration, minutes rounded toward zero. */
  lemma FormatDurationRanges(d: int)
    ensures d >= 366 * DayNs ==>
      FormatDuration(d) == IntToString(d / DayNs / 365) + " years, " + IntToString(d / DayNs % 365) + " days" &&
      (d / DayNs / 365) * 365 + d / DayNs % 365 == d / DayNs && d / DayNs % 365 < 365
    ensures DayNs <= d < 366 * DayNs ==> FormatDuration(d) == IntToString(d / DayNs) + " days"
    ensures HourNs <= d < DayNs ==> FormatDuration(d) == IntToString(d / HourNs) + " hours"
    ensures 0 <= d < HourNs ==> FormatDuration(d) == IntToString(d / MinuteNs) + " minutes"
    ensures d < 0 ==> FormatDuration(d) == IntToString(-((-d) / MinuteNs)) + " minutes"
  {
    if d >= 0 {
      DivAtLeast(d, DayNs, 366);
      DivAtLeast(d, DayNs, 1);
      DivAtLeast(d, HourNs, 1);
    } else {
      assert TruncDiv(d, DayNs) <= 0 && TruncDiv(d, HourNs) <= 0;
    }
  }

  // ---------------------------------------------------------------------
  // Channel types

  /** The Discord channel-type numbers the event log names. */
  const GuildText := 0
  const GuildVoice := 2
  const GuildCategory := 4
  const GuildNews := 5
  const GuildStageVoice := 13
  const GuildForum := 15
  const GuildMedia := 16

  predicate KnownChannelType(t: int) {
    t in {GuildText, GuildVoice, GuildCategory, GuildNews, GuildStageVoice, GuildForum, GuildMedia}
  }

  /** `channelTypeName`. */
  function ChannelTypeName(t: int): (r: string)
    ensures !KnownChannelType(t) <==> HasPrefix(r, "Type ")
    ensures !KnownChannelType(t) ==> r == "Type " + IntToString(t)
  {
    KnownNamesDiffer();
    if t == GuildText then "Text"
    else if t == GuildVoice then "Voice"
    else if t == GuildCategory then "Category"
    else if t == GuildNews then "Announcement"
    else if t == GuildStageVoice then "Stage"
    else if t == GuildForum then "Forum"
    else if t == GuildMedia then "Media"
    else "Type " + IntToString(t)
  }

  lemma KnownNamesDiffer()
    ensures forall n :: n in ["Text", "Voice", "Category", "Announcement", "Stage", "Forum", "Media"] ==>
      !HasPrefix(n, "Type ")
  {
    assert "Type "[0] == 'T' && "Type "[1] == 'y';
    assert "Text"[1] == 'e';
  }

  /** Different channel types never share a name. */
  lemma ChannelTypeNameInjective(s: int, t: int)
    requires s != t
    ensures ChannelTypeName(s) != ChannelTypeName(t)
  {
    if !KnownChannelType(s) && !KnownChannelType(t) {
      var a := ChannelTypeName(s);
      var b := ChannelTypeName(t);
      if a == b {
        assert a[5..] == IntToString(s) && b[5..] == IntToString(t);
        IntToStringInjective(s, t);
      }
    }
  }

  // ---------------------------------------------------------------------
  // Permission overwrites

  /** A permission set, as the bit positions that are set. */
  type Perms = set<nat>

  /** The audit-log actions on a channel permission overwrite; any other
      action lists nothing. */
  datatype OverwriteAction = OverwriteCreate | OverwriteDelete | OverwriteUpdate | OtherAction

  /** `channelPermissionBits`: bit positions of Discord's permission flags
      with the names the log shows, in display order. */
  const PermissionBits: seq<(nat, string)> := [
    (10, "View Channel"), (4, "Manage Channels"), (28, "Manage Permissions"),
    (0, "Create Invite"), (11, "Send Messages"), (38, "Send Messages in Threads"),
    (35, "Create Public Threads"), (36, "Create Private Threads"), (14, "Embed Links"),
    (15, "Attach Files"), (6, "Add Reactions"), (18, "Use External Emojis"),
    (37, "Use External Stickers"), (17, "Mention Everyone"), (13, "Manage Messages"),
    (34, "Manage Threads"), (16, "Read Message History"), (12, "Send TTS Messages"),
    (46, "Send Voice Messages"), (49, "Create Polls"), (31, "Use Application Commands"),
    (20, "Connect"), (21, "Speak"), (9, "Video"), (42, "Use Soundboard"),
    (45, "Use External Sounds"), (25, "Use Voice Activity"), (8, "Priority Speaker"),
    (22, "Mute Members"), (23, "Deafen Members"), (24, "Move Members"),
    (33, "Manage Events"), (39, "Use Activities")]

  const Allowed := "\U{2705}"
  const Denied := "\U{274C}"
  const Reverted := "\U{21A9}\U{FE0F}"
  const NoChanges := "*No recognizable permission changes*"

  /** The mark one permission bit gets, if any. */
  function Mark(action: OverwriteAction, oldAllow: Perms, oldDeny: Perms, newAllow: Perms, newDeny: Perms,
                bit: nat): (m: Option<string>)
    ensures action == OverwriteCreate ==>
      m == (if bit in newAllow then Some(Allowed) else if bit in newDeny then Some(Denied) else None)
    ensures action == OverwriteDelete ==>
      m == (if bit in oldAllow || bit in oldDeny then Some(Reverted) else None)
    ensures action == OverwriteUpdate ==>
      (m == Some(Allowed) <==> bit in newAllow - oldAllow) &&
      (m == Some(Denied) <==> bit in newDeny - oldDeny && bit !in newAllow - oldAllow) &&
      (m.None? <==> (bit in oldAllow <==> bit in newAllow) && (bit in oldDeny <==> bit in newDeny))
    ensures action == OtherAction ==> m.None?
  {
    match action
    case OverwriteCreate =>
      if bit in newAllow then Some(Allowed) else if bit in newDeny then Some(Denied) else None
    case OverwriteDelete =>
      if bit in oldAllow || bit in oldDeny then Some(Reverted) else None
    case OverwriteUpdate =>
      var wasAllowed := bit in oldAllow;
      var wasDenied := bit in oldDeny;
      var nowAllowed := bit in newAllow;
      var nowDenied := bit in newDeny;
      if nowAllowed && !wasAllowed then Some(Allowed)
      else if nowDenied && !wasDenied then Some(Denied)
      else if (wasAllowed && !nowAllowed) || (wasDenied && !nowDenied) then Some(Reverted)
      else None
    case OtherAction => None
  }

  /** The marked permissions, as (mark, name) pairs in table order. */
  function DiffEntries(action: OverwriteAction, oldAllow: Perms, oldDeny: Perms, newAllow: Perms, newDeny: Perms,
                       table: seq<(nat, string)>): (es: seq<(string, string)>)
    ensures |es| <= |table|
    ensures |table| > 0 && Mark(action, oldAllow, oldDeny, newAllow, newDeny, table[0].0).Some? ==>
      |es| > 0 && es[0] == (Mark(action, oldAllow, oldDeny, newAllow, newDeny, table[0].0).value, table[0].1)
  {
    if |table| == 0 then []
    else
      var rest := DiffEntries(action, oldAllow, oldDeny, newAllow, newDeny, table[1..]);
      match Mark(action, oldAllow, oldDeny, newAllow, newDeny, table[0].0)
      case Some(m) => [(m, table[0].1)] + rest
      case None => rest
  }

  /** A (mark, name) pair is listed exactly when the table has a
      permission of that name whose bit gets that mark. */
  lemma {:induction false} DiffEntriesExactly(action: OverwriteAction, oldAllow: Perms, oldDeny: Perms, newAllow: Perms, newDeny: Perms,
                                              table: seq<(nat, string)>, e: (string, string))
    ensures e in DiffEntries(action, oldAllow, oldDeny, newAllow, newDeny, table) <==>
      exists i :: 0 <= i < |table| && table[i].1 == e.1 && Mark(action, oldAllow, oldDeny, newAllow, newDeny, table[i].0) == Some(e.0)
  {
    if |table| > 0 {
      DiffEntriesExactly(action, oldAllow, oldDeny, newAllow, newDeny, table[1..], e);
      assert forall i :: 0 < i < |table| ==> table[i] == table[1..][i - 1];
      if e in DiffEntries(action, oldAllow, oldDeny, newAllow, newDeny, table[1..]) {
        var i :| 0 <= i < |table[1..]| && table[1..][i].1 == e.1 && Mark(action, oldAllow, oldDeny, newAllow, newDeny, table[1..][i].0) == Some(e.0);
        assert table[i + 1] == table[1..][i];
      }
    }
  }

  function Names(es: seq<(string, string)>): (ns: seq<string>)
    ensures |ns| == |es|
    ensures forall i :: 0 <= i < |es| ==> ns[i] == es[i].1
  {
    if |es| == 0 then [] else [es[0].1] + Names(es[1..])
  }

  /** `formatPermissionDiff`. */
  function FormatPermissionDiff(action: OverwriteAction, oldAllow: Perms, oldDeny: Perms, newAllow: Perms, newDeny: Perms): (r: string)
    ensures DiffEntries(action, oldAllow, oldDeny, newAllow, newDeny, PermissionBits) == [] ==> r == NoChanges
    ensures DiffEntries(action, oldAllow, oldDeny, newAllow, newDeny, PermissionBits) != [] ==>
      var es := DiffEntries(action, oldAllow, oldDeny, newAllow, newDeny, PermissionBits);
      r == Join(seq(|es|, i requires 0 <= i < |es| => es[i].0 + " " + es[i].1), "\n")
  {
    var es := DiffEntries(action, oldAllow, oldDeny, newAllow, newDeny, PermissionBits);
    if |es| == 0 then NoChanges
    else Join(seq(|es|, i requires 0 <= i < |es| => es[i].0 + " " + es[i].1), "\n")
  }

  /** An update that changes no bit lists nothing. */
  lemma {:induction false} UnchangedListsNothing(allow: Perms, deny: Perms, table: seq<(nat, string)>)
    ensures DiffEntries(OverwriteUpdate, allow, deny, allow, deny, table) == []
  {
    if |table| > 0 {
      UnchangedListsNothing(allow, deny, table[1..]);
    }
  }

  /** Deleting an overwrite lists, in the same order, exactly the
      permissions that creating it listed. */
  lemma {:induction false} DeleteListsCreated(allow: Perms, deny: Perms, table: seq<(nat, string)>)
    ensures Names(DiffEntries(OverwriteDelete, allow, deny, {}, {}, table))
         == Names(DiffEntries(OverwriteCreate, {}, {}, allow, deny, table))
  {
    if |table| > 0 {
      DeleteListsCreated(allow, deny, table[1..]);
    }
  }

  /** An update and the update that undoes it list the same permissions. */
  lemma {:induction false} UpdateUndoListsSame(oA: Perms, oD: Perms, nA: Perms, nD: Perms, table: seq<(nat, string)>)
    ensures Names(DiffEntries(OverwriteUpdate, oA, oD, nA, nD, table))
         == Names(DiffEntries(OverwriteUpdate, nA, nD, oA, oD, table))
  {
    if |table| > 0 {
      UpdateUndoListsSame(oA, oD, nA, nD, table[1..]);
    }
  }
}

=== FILE: groupedcache.dfy ===
/** The capped grouped cache of pkg/bot/groupedcache.go: entities kept per
    group (a channel or a guild), evicted first-in first-out once more than
    `maxSize` are held.

    The Go value is a map of groups to maps of IDs; a group is deleted as
    soon as it is empty, so the nested map is determined by the flat map
    from (group, ID) pairs used here. */
module GroupedCache {
  import opened Base

  datatype Key = Key(group: nat, id: nat)

  /** `entries` is the data, `order` the insertion log read from `head`,
      `size` the counter the Go code keeps next to the data. */
  datatype Cache<T> = Cache(entries: map<Key, T>, order: seq<Key>, head: nat, size: int, maxSize: int)

  /** The counter matches the data, the log position is in range, and every
      entry is still in the unread part of the log. */
  ghost predicate Valid<T>(c: Cache<T>) {
    c.head <= |c.order| &&
    c.size == |c.entries| &&
    forall k :: k in c.entries ==> k in c.order[c.head..]
  }

  function New<T>(maxSize: int): (c: Cache<T>)
    ensures Valid(c) && c.entries == map[] && c.maxSize == maxSize
  {
    Cache(map[], [], 0, 0, maxSize)
  }

  function Get<T>(c: Cache<T>, group: nat, id: nat): (r: Option<T>)
    ensures r.Some? <==> Key(group, id) in c.entries
    ensures r.Some? ==> r.value == c.entries[Key(group, id)]
  {
    if Key(group, id) in c.entries then Some(c.entries[Key(group, id)]) else None
  }

  function Len<T>(c: Cache<T>): int { c.size }

  /** The number of entries in a group. */
  function GroupLen<T>(c: Cache<T>, group: nat): (n: nat)
    ensures n == 0 <==> forall k :: k in c.entries ==> k.group != group
  {
    var ks := set k | k in c.entries && k.group == group;
    assert forall k :: k in c.entries && k.group == group ==> k in ks;
    |ks|
  }

  lemma RemoveOneCard<T>(m: map<Key, T>, k: Key)
    requires k in m
    ensures |m - {k}| == |m| - 1
  {
    assert (m - {k}).Keys == m.Keys - {k};
  }

  // -------------------------------------------------------------------
  // Eviction

  /** Take the log entry at `head` and remove its entry. */
  function TakeHead<T>(c: Cache<T>): Cache<T>
    requires c.head < |c.order|
  {
    var k := c.order[c.head];
    c.(head := c.head + 1, entries := c.entries - {k}, size := c.size - 1)
  }

  /** The eviction loop as written: take log entries from `head` while the
      cache is over capacity; the first one still present is removed, and
      the loop stops. */
  function EvictScan<T>(c: Cache<T>): (r: Cache<T>)
    ensures r.maxSize == c.maxSize && r.order == c.order && c.head <= r.head
    ensures c.head <= |c.order| ==> r.head <= |r.order|
    decreases |c.order| - c.head
  {
    if c.size > c.maxSize && c.head < |c.order| then
      var k := c.order[c.head];
      var c1 := c.(head := c.head + 1);
      if k in c.entries then TakeHead(c)
      else EvictScan(c1)
    else c
  }

  /** The corrected eviction loop: a log entry only counts when it is the
      last one for its key, i.e. the key has not been removed and put again
      since. */
  function EvictScanFixed<T>(c: Cache<T>): (r: Cache<T>)
    ensures r.maxSize == c.maxSize && r.order == c.order && c.head <= r.head
    ensures c.head <= |c.order| ==> r.head <= |r.order|
    decreases |c.order| - c.head
  {
    if c.size > c.maxSize && c.head < |c.order| then
      var k := c.order[c.head];
      var c1 := c.(head := c.head + 1);
      if k in c.entries && k !in c.order[c.head + 1..] then TakeHead(c)
      else EvictScanFixed(c1)
    else c
  }

  /** Drop the read part of the log once it is at least half of it. */
  function Compact<T>(c: Cache<T>): (r: Cache<T>)
    requires c.head <= |c.order|
    ensures r.entries == c.entries && r.size == c.size && r.maxSize == c.maxSize
    ensures r.head <= |r.order| && r.order[r.head..] == c.order[c.head..]
  {
    if c.head >= |c.order| / 2 && c.head > 0 then c.(order := c.order[c.head..], head := 0) else c
  }

  /** Taking the log entry at `head` leaves every other entry in the
      unread part of the log. */
  lemma AdvanceKeeps<T>(c: Cache<T>)
    requires Valid(c) && c.head < |c.order|
    ensures forall k :: k in c.entries && k != c.order[c.head] ==> k in c.order[c.head + 1..]
  {
    forall k | k in c.entries && k != c.order[c.head] ensures k in c.order[c.head + 1..] {
      var i :| c.head <= i < |c.order| && c.order[i] == k;
      assert c.order[c.head + 1..][i - c.head - 1] == k;
    }
  }

  /** A consistent cache whose log has been read to the end is empty. */
  lemma ExhaustedIsEmpty<T>(c: Cache<T>)
    requires Valid(c) && c.head == |c.order|
    ensures c.entries == map[] && c.size == 0
  {
    assert c.order[c.head..] == [];
  }

  /** Removing the entry at `head` keeps the cache consistent. */
  lemma RemoveHeadValid<T>(c: Cache<T>)
    requires Valid(c) && c.head < |c.order| && c.order[c.head] in c.entries
    ensures var k := c.order[c.head];
      Valid(TakeHead(c)) && c.entries.Keys - TakeHead(c).entries.Keys == {k}
  {
    AdvanceKeeps(c);
    RemoveOneCard(c.entries, c.order[c.head]);
  }

  /** Over capacity by one, taking a present head entry brings the cache
      back to capacity. */
  lemma TakeHeadEvicted<T>(c: Cache<T>)
    requires Valid(c) && c.head < |c.order| && c.order[c.head] in c.entries
    requires c.maxSize < c.size <= c.maxSize + 1
    ensures EvictedOne(c, TakeHead(c))
  {
    RemoveHeadValid(c);
  }

  /** What both eviction loops guarantee. */
  ghost predicate EvictedOne<T>(c: Cache<T>, r: Cache<T>) {
    Valid(r) && r.size <= r.maxSize &&
    r.entries.Keys <= c.entries.Keys && |c.entries.Keys - r.entries.Keys| <= 1 &&
    forall k :: k in r.entries ==> r.entries[k] == c.entries[k]
  }

  lemma {:induction false} EvictScanValid<T>(c: Cache<T>)
    requires Valid(c) && c.maxSize >= 0 && c.size <= c.maxSize + 1
    ensures EvictedOne(c, EvictScan(c))
    decreases |c.order| - c.head
  {
    if c.size > c.maxSize && c.head < |c.order| {
      var k := c.order[c.head];
      if k in c.entries {
        assert EvictScan(c) == TakeHead(c);
        TakeHeadEvicted(c);
      } else {
        var c1 := SkipStale(c);
        EvictScanValid(c1);
      }
    } else if c.size > c.maxSize {
      ExhaustedIsEmpty(c);
    }
  }

  /** A stale log entry the original loop skips leaves a consistent cache
      whose eviction is the same. */
  lemma SkipStale<T>(c: Cache<T>) returns (c1: Cache<T>)
    requires Valid(c) && c.size > c.maxSize && c.head < |c.order| && c.order[c.head] !in c.entries
    ensures c1 == c.(head := c.head + 1)
    ensures Valid(c1) && EvictScan(c) == EvictScan(c1)
  {
    c1 := c.(head := c.head + 1);
    AdvanceKeeps(c);
  }

  lemma {:induction false} EvictScanFixedValid<T>(c: Cache<T>)
    requires Valid(c) && c.maxSize >= 0 && c.size <= c.maxSize + 1
    ensures EvictedOne(c, EvictScanFixed(c))
    decreases |c.order| - c.head
  {
    if c.size > c.maxSize && c.head < |c.order| {
      var k := c.order[c.head];
      if k in c.entries && k !in c.order[c.head + 1..] {
        TakeHeadEvicted(c);
      } else {
        var c1 := SkipHead(c);
        EvictScanFixedValid(c1);
      }
    } else if c.size > c.maxSize {
      ExhaustedIsEmpty(c);
    }
  }

  /** The last position of `x` in `s` at or after `i`. */
  lemma {:induction false} LastOccurrence(s: seq<Key>, x: Key, i: nat) returns (j: nat)
    requires i < |s| && s[i] == x
    ensures i <= j < |s| && s[j] == x && x !in s[j + 1..]
    decreases |s| - i
  {
    if x in s[i + 1..] {
      var m :| i + 1 <= m < |s| && s[m] == x;
      j := LastOccurrence(s, x, m);
    } else {
      j := i;
    }
  }

  /** The corrected loop never takes the last log entry while another entry
      is present, so the key logged last survives. */
  lemma EvictScanFixedKeepsNewest<T>(c: Cache<T>, other: Key)
    requires Valid(c) && |c.order| > 0
    requires c.order[|c.order| - 1] in c.entries
    requires other in c.entries && other != c.order[|c.order| - 1]
    ensures c.order[|c.order| - 1] in EvictScanFixed(c).entries
  {
    var i :| c.head <= i < |c.order| && c.order[i] == other;
    var j := LastOccurrence(c.order, other, i);
    KeepsNewestBefore(c, j);
  }

  /** While a present key has its last log position `j` before the end,
      the corrected loop stops at or before `j`. */
  lemma {:induction false} KeepsNewestBefore<T>(c: Cache<T>, j: nat)
    requires c.head <= j < |c.order| - 1
    requires c.order[j] in c.entries && c.order[j] !in c.order[j + 1..]
    requires c.order[|c.order| - 1] in c.entries
    ensures c.order[|c.order| - 1] in EvictScanFixed(c).entries
    decreases j - c.head
  {
    var newest := c.order[|c.order| - 1];
    if c.size > c.maxSize {
      var k := c.order[c.head];
      if k in c.entries && k !in c.order[c.head + 1..] {
        assert c.order[c.head + 1..][|c.order| - 1 - c.head - 1] == newest;
        assert k != newest;
        assert EvictScanFixed(c) == TakeHead(c);
        assert TakeHead(c).entries == c.entries - {k};
        assert newest in TakeHead(c).entries;
      } else {
        assert c.head != j;
        var c1 := c.(head := c.head + 1);
        assert EvictScanFixed(c) == EvictScanFixed(c1);
        KeepsNewestBefore(c1, j);
      }
    }
  }

  /** A log entry the corrected loop skips leaves a consistent cache whose
      eviction is the same. */
  lemma SkipHead<T>(c: Cache<T>) returns (c1: Cache<T>)
    requires Valid(c) && c.size > c.maxSize && c.head < |c.order|
    requires !(c.order[c.head] in c.entries && c.order[c.head] !in c.order[c.head + 1..])
    ensures c1 == c.(head := c.head + 1)
    ensures Valid(c1) && EvictScanFixed(c) == EvictScanFixed(c1)
  {
    c1 := c.(head := c.head + 1);
    AdvanceKeeps(c);
  }

  /** The eviction loop only drops entries, and none while the counter is
      within capacity. */
  lemma {:induction false} EvictScanDrops<T>(c: Cache<T>)
    ensures var r := EvictScan(c);
      (forall k :: k in r.entries ==> k in c.entries && r.entries[k] == c.entries[k]) &&
      (c.size <= c.maxSize ==> r == c)
    decreases |c.order| - c.head
  {
    if c.size > c.maxSize && c.head < |c.order| && c.order[c.head] !in c.entries {
      EvictScanDrops(c.(head := c.head + 1));
    }
  }

  lemma {:induction false} EvictScanFixedDrops<T>(c: Cache<T>)
    ensures var r := EvictScanFixed(c);
      (forall k :: k in r.entries ==> k in c.entries && r.entries[k] == c.entries[k]) &&
      (c.size <= c.maxSize ==> r == c)
    decreases |c.order| - c.head
  {
    if c.size > c.maxSize && c.head < |c.order| {
      var k := c.order[c.head];
      if !(k in c.entries && k !in c.order[c.head + 1..]) {
        EvictScanFixedDrops(c.(head := c.head + 1));
      }
    }
  }

  /** Eviction only ever drops entries, and none while the counter is
      within capacity. */
  function Evict<T>(c: Cache<T>): (r: Cache<T>)
    requires c.head <= |c.order|
    ensures r.maxSize == c.maxSize
    ensures c.size <= c.maxSize ==> r.entries == c.entries && r.size == c.size
  {
    EvictScanDrops(c);
    Compact(EvictScan(c))
  }

  function EvictFixed<T>(c: Cache<T>): (r: Cache<T>)
    requires c.head <= |c.order|
    ensures r.maxSize == c.maxSize
    ensures c.size <= c.maxSize ==> r.entries == c.entries && r.size == c.size
  {
    EvictScanFixedDrops(c);
    Compact(EvictScanFixed(c))
  }

  // -------------------------------------------------------------------
  // Put

  /** Store the entity and log the key when it is new, before eviction. */
  function Insert<T>(c: Cache<T>, group: nat, id: nat, v: T): (r: Cache<T>)
    ensures r.entries == c.entries[Key(group, id) := v] && r.head == c.head && r.maxSize == c.maxSize
    ensures Key(group, id) in c.entries ==> r.order == c.order && r.size == c.size
    ensures Key(group, id) !in c.entries ==> r.order == c.order + [Key(group, id)] && r.size == c.size + 1
  {
    var k := Key(group, id);
    if k in c.entries then c.(entries := c.entries[k := v])
    else c.(entries := c.entries[k := v], order := c.order + [k], size := c.size + 1)
  }

  lemma InsertValid<T>(c: Cache<T>, group: nat, id: nat, v: T)
    requires Valid(c)
    ensures Valid(Insert(c, group, id, v))
  {
    var k := Key(group, id);
    var r := Insert(c, group, id, v);
    if k !in c.entries {
      assert r.order[r.head..] == c.order[c.head..] + [k];
    }
  }

  /** `Put` as written. */
  function Put<T>(c: Cache<T>, group: nat, id: nat, v: T): (r: Cache<T>)
    requires c.head <= |c.order|
    ensures r.maxSize == c.maxSize
    ensures c.size < c.maxSize ==> Get(r, group, id) == Some(v)
  {
    Evict(Insert(c, group, id, v))
  }

  /** `Put` with the corrected eviction. */
  function PutFixed<T>(c: Cache<T>, group: nat, id: nat, v: T): (r: Cache<T>)
    requires c.head <= |c.order|
    ensures r.maxSize == c.maxSize
    ensures c.size < c.maxSize ==> Get(r, group, id) == Some(v)
  {
    EvictFixed(Insert(c, group, id, v))
  }

  /** Whatever a put keeps is the entity just put, with its value, or an
      earlier entry with its old value; both evictions only drop entries. */
  lemma PutKeepsValues<T>(c: Cache<T>, group: nat, id: nat, v: T)
    requires c.head <= |c.order|
    ensures forall k :: k in Evict(c).entries ==> k in c.entries && Evict(c).entries[k] == c.entries[k]
    ensures forall k :: k in EvictFixed(c).entries ==> k in c.entries && EvictFixed(c).entries[k] == c.entries[k]
    ensures var r := Put(c, group, id, v);
      forall k :: k in r.entries ==>
        if k == Key(group, id) then r.entries[k] == v else k in c.entries && r.entries[k] == c.entries[k]
    ensures var r := PutFixed(c, group, id, v);
      forall k :: k in r.entries ==>
        if k == Key(group, id) then r.entries[k] == v else k in c.entries && r.entries[k] == c.entries[k]
  {
    EvictScanDrops(c);
    EvictScanFixedDrops(c);
    var i := Insert(c, group, id, v);
    EvictScanDrops(i);
    EvictScanFixedDrops(i);
  }

  /** Both versions keep the cache within its capacity and consistent, and
      evict at most one earlier entry, leaving the others unchanged. */
  lemma PutBounded<T>(c: Cache<T>, group: nat, id: nat, v: T)
    requires Valid(c) && 0 <= c.size <= c.maxSize
    ensures EvictedOne(Insert(c, group, id, v), Put(c, group, id, v))
    ensures EvictedOne(Insert(c, group, id, v), PutFixed(c, group, id, v))
  {
    InsertValid(c, group, id, v);
    var i := Insert(c, group, id, v);
    EvictScanValid(i);
    EvictScanFixedValid(i);
  }

  /** With the corrected eviction, an entity just put can be read back
      whenever the capacity is at least one. */
  lemma PutFixedThenGet<T>(c: Cache<T>, group: nat, id: nat, v: T)
    requires Valid(c) && 1 <= c.maxSize && c.size <= c.maxSize
    ensures Get(PutFixed(c, group, id, v), group, id) == Some(v)
  {
    var k := Key(group, id);
    InsertValid(c, group, id, v);
    var i := Insert(c, group, id, v);
    var s := EvictScanFixed(i);
    assert PutFixed(c, group, id, v).entries == s.entries;
    EvictScanFixedValid(i);
    if i.size > i.maxSize {
      NewKeyLogged(c, group, id, v);
      var other := OtherKey(i.entries, k);
      EvictScanFixedKeepsNewest(i, other);
    }
    assert k in s.entries && s.entries[k] == i.entries[k];
  }

  /** Going over capacity means the key was new and is logged last. */
  lemma NewKeyLogged<T>(c: Cache<T>, group: nat, id: nat, v: T)
    requires Valid(c) && c.size <= c.maxSize
    requires Insert(c, group, id, v).size > c.maxSize
    ensures var i := Insert(c, group, id, v);
      |i.order| > 0 && i.order[|i.order| - 1] == Key(group, id) && Key(group, id) !in c.entries
  {
  }

  /** A key of a map with at least two keys, other than `k`. */
  ghost function OtherKey<T>(m: map<Key, T>, k: Key): (o: Key)
    requires |m| >= 2
    ensures o in m && o != k
  {
    assert |m.Keys - {k}| >= 1;
    var o :| o in m.Keys - {k}; o
  }

  /** The original eviction does not keep that promise: with capacity two,
      putting k, putting a, removing k, putting b (which reaches `StaleLog`)
      and putting k again evicts the k just put, through k's first, stale
      log entry, and keeps a and b. */
  lemma PutEvictsNewest()
    ensures var c5 := Put(StaleLog, 1, 1, 11);
      Get(c5, 1, 1) == None && Get(c5, 1, 2) == Some(20) && Get(c5, 1, 3) == Some(30)
  {
    PutThroughStaleHead(StaleLog, 1, 1, 11);
  }

  /** A full cache whose log starts with a stale entry for the key being
      put evicts that key again at once. */
  lemma PutThroughStaleHead<T>(c: Cache<T>, group: nat, id: nat, v: T)
    requires c.head < |c.order| && c.order[c.head] == Key(group, id) && Key(group, id) !in c.entries
    requires c.size == c.maxSize
    ensures Put(c, group, id, v).entries == c.entries
  {
    var i := Insert(c, group, id, v);
    assert i.order[i.head] == Key(group, id) && i.size > i.maxSize;
    assert EvictScan(i) == TakeHead(i);
  }

  /** The states of that scenario: k cached; k and a cached; a cached with
      k's entry left in the log; a and b cached with k's stale entry at the
      head of the log. */
  const PutK: Cache<int> := Cache(map[Key(1, 1) := 10], [Key(1, 1)], 0, 1, 2)
  const PutKA: Cache<int> := Cache(map[Key(1, 1) := 10, Key(1, 2) := 20], [Key(1, 1), Key(1, 2)], 0, 2, 2)
  const RemovedK: Cache<int> := Cache(map[Key(1, 2) := 20], [Key(1, 1), Key(1, 2)], 0, 1, 2)
  const StaleLog: Cache<int> := Cache(map[Key(1, 2) := 20, Key(1, 3) := 30], [Key(1, 1), Key(1, 2), Key(1, 3)], 0, 2, 2)

  /** The first four steps of that scenario, one at a time. */
  lemma PutKReached()
    ensures Put(New(2), 1, 1, 10) == PutK
  {
    assert Insert(New(2), 1, 1, 10) == PutK;
  }

  lemma PutKAReached()
    ensures Put(PutK, 1, 2, 20) == PutKA
  {
    assert Insert(PutK, 1, 2, 20) == PutKA;
  }

  lemma RemovedKReached()
    ensures Remove(PutKA, 1, 1).0 == RemovedK
  {
    assert Remove(PutKA, 1, 1).0.entries == map[Key(1, 2) := 20];
  }

  lemma StaleLogReached()
    ensures Put(RemovedK, 1, 3, 30) == StaleLog
  {
    assert Insert(RemovedK, 1, 3, 30) == StaleLog;
  }

  // -------------------------------------------------------------------
  // Removal

  /** `Remove`: the log is left alone, so the key's log entry goes stale. */
  function Remove<T>(c: Cache<T>, group: nat, id: nat): (r: (Cache<T>, Option<T>))
    ensures r.1 == Get(c, group, id)
    ensures r.0.entries == c.entries - {Key(group, id)}
    ensures r.0.order == c.order && r.0.head == c.head && r.0.maxSize == c.maxSize
  {
    var k := Key(group, id);
    if k in c.entries then (c.(entries := c.entries - {k}, size := c.size - 1), Some(c.entries[k]))
    else (c, None)
  }

  lemma RemoveValid<T>(c: Cache<T>, group: nat, id: nat)
    requires Valid(c)
    ensures Valid(Remove(c, group, id).0)
  {
    if Key(group, id) in c.entries {
      RemoveOneCard(c.entries, Key(group, id));
    }
  }

  lemma FilterCard<T>(m: map<Key, T>, gone: set<Key>)
    requires gone <= m.Keys
    ensures |m - gone| == |m| - |gone|
  {
    assert (m - gone).Keys == m.Keys - gone;
    assert (m.Keys - gone) + gone == m.Keys;
  }

  /** `RemoveIf`: every entity the filter selects (given its group) goes,
      and the counter drops by their number. */
  function RemoveIf<T>(c: Cache<T>, f: (nat, T) -> bool): (r: Cache<T>)
    ensures forall k :: k in r.entries <==> k in c.entries && !f(k.group, c.entries[k])
    ensures forall k :: k in r.entries ==> r.entries[k] == c.entries[k]
    ensures r.order == c.order && r.head == c.head
    ensures Valid(c) ==> Valid(r)
  {
    var gone := set k | k in c.entries && f(k.group, c.entries[k]);
    FilterCard(c.entries, gone);
    c.(entries := c.entries - gone, size := c.size - |gone|)
  }

  /** `GroupRemoveIf`: the same, restricted to one group. */
  function GroupRemoveIf<T>(c: Cache<T>, group: nat, f: (nat, T) -> bool): (r: Cache<T>)
    ensures forall k :: k in r.entries <==> k in c.entries && !(k.group == group && f(group, c.entries[k]))
    ensures forall k :: k in r.entries ==> r.entries[k] == c.entries[k]
    ensures r.order == c.order && r.head == c.head
    ensures Valid(c) ==> Valid(r)
  {
    var gone := set k | k in c.entries && k.group == group && f(group, c.entries[k]);
    FilterCard(c.entries, gone);
    c.(entries := c.entries - gone, size := c.size - |gone|)
  }

  /** `GroupRemove`: the whole group goes, and the counter drops by its size. */
  function GroupRemove<T>(c: Cache<T>, group: nat): (r: Cache<T>)
    ensures forall k :: k in r.entries <==> k in c.entries && k.group != group
    ensures forall k :: k in r.entries ==> r.entries[k] == c.entries[k]
    ensures r.size == c.size - GroupLen(c, group)
    ensures Valid(c) ==> Valid(r)
  {
    var gone := set k | k in c.entries && k.group == group;
    FilterCard(c.entries, gone);
    c.(entries := c.entries - gone, size := c.size - |gone|)
  }

  // -------------------------------------------------------------------
  // Persistence

  /** `load`: the cache is rebuilt from a list of entities, each filed under
      the key `keyOf` gives it, in list order; a later item with the same
      key replaces an earlier one. Capacity is not enforced here. */
  function Load<T>(c: Cache<T>, items: seq<T>, keyOf: T -> Key): (r: Cache<T>)
    ensures r.maxSize == c.maxSize && r.head == 0 && |r.order| == |items| && r.size == |items|
    ensures forall i :: 0 <= i < |items| ==> r.order[i] == keyOf(items[i])
    ensures forall k :: k in r.entries <==> k in r.order
    decreases |items|
  {
    if |items| == 0 then Cache(map[], [], 0, 0, c.maxSize)
    else
      var r := Load(c, items[..|items| - 1], keyOf);
      var it := items[|items| - 1];
      r.(entries := r.entries[keyOf(it) := it], order := r.order + [keyOf(it)], size := r.size + 1)
  }

  /** Reading back a loaded cache gives, for each key, the last item filed
      under it. */
  lemma {:induction false} LoadLastWins<T>(c: Cache<T>, items: seq<T>, keyOf: T -> Key, i: nat)
    requires i < |items|
    requires forall j :: i < j < |items| ==> keyOf(items[j]) != keyOf(items[i])
    ensures Load(c, items, keyOf).entries[keyOf(items[i])] == items[i]
    decreases |items|
  {
    if i < |items| - 1 {
      var prefix := items[..|items| - 1];
      assert forall j :: i < j < |prefix| ==> prefix[j] == items[j];
      LoadLastWins(c, prefix, keyOf, i);
    }
  }

  /** Loading items with distinct keys gives a consistent cache holding each
      item under its key. */
  lemma {:induction false} LoadDistinctValid<T>(c: Cache<T>, items: seq<T>, keyOf: T -> Key)
    requires forall i, j :: 0 <= i < j < |items| ==> keyOf(items[i]) != keyOf(items[j])
    ensures Valid(Load(c, items, keyOf))
    decreases |items|
  {
    if |items| > 0 {
      var prefix := items[..|items| - 1];
      LoadDistinctValid(c, prefix, keyOf);
      var r := Load(c, prefix, keyOf);
      var k := keyOf(items[|items| - 1]);
      assert k !in r.entries;
    }
  }

  /** A duplicate key in the list is counted twice, so the counter no
      longer matches the data. */
  lemma LoadDuplicateMiscounts(c: Cache<int>)
    ensures var r := Load(c, [5, 5], (x: int) => Key(1, 1)); r.size == 2 && |r.entries| == 1
  {
    var f := (x: int) => Key(1, 1);
    assert Load(c, [5], f).entries == map[Key(1, 1) := 5] by {
      assert [5][..0] == [];
    }
    assert [5, 5][..1] == [5];
  }
}

=== FILE: idleloop.dfy ===
/** The idle-repost loop of pkg/idleloop/idleloop.go, as a state machine
    over the events its `select` waits for. Durations are not modelled:
    a timer is off, running, or has fired and was not restarted. */
module IdleLoop {

  datatype Timer = Off | Running | Expired

  datatype Config = Config(minIdleMins: int, maxIdleMins: int, msgThreshold: int, timeThresholdMins: int)

  /** The loop's variables. `elapsed` belongs to the corrected loop only and
      stays false in the original. */
  datatype Loop = Loop(msgs: nat, armed: bool, idle: Timer, max: Timer, thresh: Timer, stopped: bool, elapsed: bool)

  /** What the `select` can receive; a timer event carries the result of
      the repost callback, which is only consulted when the loop calls it. */
  datatype Event = Message | ThreshFired | IdleFired(repostOk: bool) | MaxFired(repostOk: bool) | Stop

  /** The start of `Run`: the time-threshold timer runs only for a positive
      threshold. */
  function Start(cfg: Config): (l: Loop)
    ensures l.msgs == 0 && !l.armed && !l.stopped
    ensures l.thresh != Off <==> cfg.timeThresholdMins > 0
  {
    Loop(0, false, Off, Off, if cfg.timeThresholdMins > 0 then Running else Off, false, false)
  }

  /** Whether the `select` can take this event now: a timer only fires
      while it runs, and nothing happens after a stop. */
  predicate Enabled(l: Loop, e: Event) {
    !l.stopped &&
    match e
    case ThreshFired => l.thresh == Running
    case IdleFired(_) => l.idle == Running
    case MaxFired(_) => l.max == Running
    case _ => true
  }

  /** `arm`: start the idle and maximum timers, once. */
  function Arm(l: Loop): (r: Loop)
    ensures r.armed && r.msgs == l.msgs && r.thresh == l.thresh
    ensures l.armed ==> r == l
  {
    if l.armed then l else l.(armed := true, idle := Running, max := Running)
  }

  /** `resetAll`, after a repost went through. */
  function ResetAll(l: Loop): (r: Loop)
    ensures r.msgs == 0 && !r.armed && r.idle == Off && r.max == Off && !r.elapsed
    ensures r.thresh == (if l.thresh == Off then Off else Running)
  {
    l.(msgs := 0, armed := false, max := Off, thresh := if l.thresh == Off then Off else Running, idle := Off, elapsed := false)
  }

  /** Whether taking `e` calls the repost callback. */
  predicate Reposts(l: Loop, e: Event) {
    (e.IdleFired? && l.idle == Running) || (e.MaxFired? && l.max == Running && l.msgs >= 1)
  }

  /** One turn of the loop as written. */
  function Step(cfg: Config, l: Loop, e: Event): (r: Loop)
    requires Enabled(l, e)
    ensures e.Message? ==> r.msgs == l.msgs + 1
    ensures Reposts(l, e) && e.repostOk ==> r.msgs == 0 && !r.armed
    ensures !e.Message? && !(Reposts(l, e) && e.repostOk) ==> r.msgs == l.msgs
    ensures r.stopped <==> e.Stop?
    ensures r.thresh != Off <==> l.thresh != Off
    ensures !l.elapsed ==> !r.elapsed
  {
    match e
    case Stop => l.(stopped := true)
    case Message =>
      var l1 := l.(msgs := l.msgs + 1);
      if l1.armed then (if l1.idle != Off then l1.(idle := Running) else l1)
      else if cfg.msgThreshold > 0 && l1.msgs >= cfg.msgThreshold then Arm(l1)
      else l1
    case ThreshFired =>
      var l1 := l.(thresh := Expired);
      if l1.msgs >= 1 then Arm(l1) else l1
    case IdleFired(ok) =>
      if ok then ResetAll(l) else l.(idle := Off)
    case MaxFired(ok) =>
      if l.msgs >= 1 && ok then ResetAll(l) else l
  }

  /** The corrected turn: a time threshold that passes before any message
      is remembered, and the next message arms the loop. */
  function StepFixed(cfg: Config, l: Loop, e: Event): (r: Loop)
    requires Enabled(l, e)
    ensures e.Message? ==> r.msgs == l.msgs + 1
    ensures e.Message? && l.elapsed && !l.armed ==> r.armed && !r.elapsed
    ensures e.ThreshFired? ==> (r.armed || r.elapsed) && r.thresh == Expired
    ensures !e.Message? && !e.ThreshFired? ==> r == Step(cfg, l, e)
    ensures r.stopped <==> e.Stop?
  {
    match e
    case Message =>
      var l1 := l.(msgs := l.msgs + 1);
      if l1.armed then (if l1.idle != Off then l1.(idle := Running) else l1)
      else if (cfg.msgThreshold > 0 && l1.msgs >= cfg.msgThreshold) || l1.elapsed then Arm(l1).(elapsed := false)
      else l1
    case ThreshFired =>
      var l1 := l.(thresh := Expired);
      if l1.msgs >= 1 then Arm(l1) else l1.(elapsed := true)
    case _ => Step(cfg, l, e)
  }

  /** The loop's invariant: it is armed exactly while the maximum timer
      runs, the idle timer only runs while armed, arming needs a message,
      and the time-threshold timer exists exactly for a positive threshold. */
  ghost predicate Inv(cfg: Config, l: Loop) {
    (l.armed <==> l.max == Running) &&
    l.max != Expired &&
    (l.idle == Running ==> l.armed) && l.idle != Expired &&
    (l.armed ==> l.msgs >= 1) &&
    (l.thresh != Off <==> cfg.timeThresholdMins > 0) &&
    (l.elapsed ==> !l.armed && l.thresh == Expired)
  }

  lemma StartInv(cfg: Config)
    ensures Inv(cfg, Start(cfg))
  {
  }

  lemma StepInv(cfg: Config, l: Loop, e: Event)
    requires Inv(cfg, l) && Enabled(l, e) && !l.elapsed
    ensures Inv(cfg, Step(cfg, l, e)) && !Step(cfg, l, e).elapsed
  {
  }

  lemma StepFixedInv(cfg: Config, l: Loop, e: Event)
    requires Inv(cfg, l) && Enabled(l, e)
    ensures Inv(cfg, StepFixed(cfg, l, e))
  {
  }

  /** The callback is only called after at least one message since the
      last successful repost, and a successful repost starts the count
      again with the loop disarmed. */
  lemma RepostNeedsMessage(cfg: Config, l: Loop, e: Event)
    requires Inv(cfg, l) && Enabled(l, e) && Reposts(l, e)
    ensures l.msgs >= 1
    ensures (e.IdleFired? && e.repostOk) || (e.MaxFired? && e.repostOk) ==>
      var r := Step(cfg, l, e); r.msgs == 0 && !r.armed
  {
  }

  /** A failed repost keeps the loop armed: the maximum timer starts over,
      and after an idle-timer failure only the maximum timer is left. */
  lemma FailedRepostStaysArmed(cfg: Config, l: Loop, e: Event)
    requires Inv(cfg, l) && Enabled(l, e) && Reposts(l, e)
    requires (e.IdleFired? || e.MaxFired?) && !e.repostOk
    ensures var r := Step(cfg, l, e); r.armed && r.max == Running && r.msgs == l.msgs
    ensures e.IdleFired? ==> Step(cfg, l, e).idle == Off
  {
  }

  /** While armed, a message only counts and restarts a running idle
      timer: the loop's state is otherwise unchanged. */
  lemma ArmedMessageCounts(cfg: Config, l: Loop)
    requires Inv(cfg, l) && !l.stopped && l.armed
    ensures Step(cfg, l, Message) == l.(msgs := l.msgs + 1)
    ensures StepFixed(cfg, l, Message) == l.(msgs := l.msgs + 1)
  {
  }

  /** The message that reaches a positive threshold arms the loop. */
  lemma ThresholdArms(cfg: Config, l: Loop)
    requires Inv(cfg, l) && !l.stopped && cfg.msgThreshold > 0 && l.msgs + 1 >= cfg.msgThreshold
    ensures Step(cfg, l, Message).armed && StepFixed(cfg, l, Message).armed
  {
  }

  /** As written, a time threshold that passes before any message is lost:
      with a message threshold of 30, the first message afterwards leaves
      the loop disarmed, and no timer is left that could arm it. */
  lemma ElapsedThresholdForgotten()
    ensures var cfg := Config(5, 60, 30, 720);
      var l1 := Step(cfg, Start(cfg), ThreshFired);
      var l2 := Step(cfg, l1, Message);
      !l2.armed && l2.thresh == Expired && l2.idle == Off && l2.max == Off
  {
  }

  /** Corrected: once the time threshold has passed, the next message arms
      the loop, whatever the message threshold. */
  lemma ElapsedThresholdArms(cfg: Config, l: Loop)
    requires Inv(cfg, l) && l.thresh == Running && !l.stopped && !l.armed
    ensures var l1 := StepFixed(cfg, l, ThreshFired);
      l1.armed || (l.msgs == 0 && StepFixed(cfg, l1, Message).armed)
  {
  }
}

=== FILE: modlog.dfy ===
/** The mod-log archive of pkg/bot/modlog.go: the embed that copies a
    reported message into the mod-log forum, and the search for the
    thread it goes into. Discord calls are parameters. */
module ModLog {
  import opened Base
  import opened Text
  import opened Escape

  const EmbedSplitSize := 1024

  datatype Field = Field(name: string, value: seq<Byte>)

  // ---------------------------------------------------------------------
  // Content chunks

  /** The concatenation of a list of chunks. */
  function Concat(chunks: seq<seq<Byte>>): seq<Byte> {
    if |chunks| == 0 then [] else chunks[0] + Concat(chunks[1..])
  }

  lemma {:induction false} ConcatAppend(chunks: seq<seq<Byte>>, c: seq<Byte>)
    ensures Concat(chunks + [c]) == Concat(chunks) + c
  {
    if |chunks| > 0 {
      assert (chunks + [c])[1..] == chunks[1..] + [c];
      ConcatAppend(chunks[1..], c);
    } else {
      assert chunks + [c] == [c];
    }
  }

  /** The message content cut, by byte, into field values of at most 1024
      bytes: the loop of `handleModLogModalSubmit`. Empty content gives no
      field; every chunk but the last is full. */
  method ContentChunks(content: seq<Byte>) returns (chunks: seq<seq<Byte>>)
    ensures Concat(chunks) == content
    ensures forall i :: 0 <= i < |chunks| ==> 0 < |chunks[i]| <= EmbedSplitSize
    ensures forall i :: 0 <= i < |chunks| - 1 ==> |chunks[i]| == EmbedSplitSize
    ensures |chunks| == (|content| + EmbedSplitSize - 1) / EmbedSplitSize
  {
    chunks := [];
    var idx := 0;
    while idx < |content|
      invariant 0 <= idx <= |content|
      invariant idx == |chunks| * EmbedSplitSize || idx == |content|
      invariant idx < |content| ==> idx == |chunks| * EmbedSplitSize
      invariant Concat(chunks) == content[..idx]
      invariant forall i :: 0 <= i < |chunks| ==> 0 < |chunks[i]| <= EmbedSplitSize
      invariant forall i :: 0 <= i < |chunks| - 1 ==> |chunks[i]| == EmbedSplitSize
      invariant |chunks| == (idx + EmbedSplitSize - 1) / EmbedSplitSize
      invariant |chunks| > 0 && idx < |content| ==> |chunks[|chunks| - 1]| == EmbedSplitSize
      decreases |content| - idx
    {
      var end := idx + EmbedSplitSize;
      if end > |content| {
        end := |content|;
      }
      ConcatAppend(chunks, content[idx..end]);
      assert content[..idx] + content[idx..end] == content[..end];
      ghost var n := |chunks|;
      chunks := chunks + [content[idx..end]];
      DivModUnique(idx + EmbedSplitSize - 1, n, EmbedSplitSize - 1, EmbedSplitSize);
      DivModUnique(end + EmbedSplitSize - 1, n + 1, end - idx - 1, EmbedSplitSize);
      idx := end;
    }
    assert content[..idx] == content;
  }

  // ---------------------------------------------------------------------
  // Attachments

  /** The links listed for the attachments: the bot's own copy where the
      save worked (`saved[i]`), the attachment's proxy URL where it did
      not, one per attachment and in order. */
  function AttachmentLinks(proxyUrls: seq<string>, saved: seq<Option<string>>): (links: seq<string>)
    requires |saved| == |proxyUrls|
    ensures |links| == |proxyUrls|
    ensures forall i :: 0 <= i < |links| ==> links[i] == saved[i].GetOr(proxyUrls[i])
  {
    seq(|proxyUrls|, i requires 0 <= i < |proxyUrls| => saved[i].GetOr(proxyUrls[i]))
  }

  /** With every save failing, the archive points at Discord's copies. */
  lemma AllSavesFailed(proxyUrls: seq<string>)
    ensures AttachmentLinks(proxyUrls, seq(|proxyUrls|, i => None)) == proxyUrls
  {
  }

  // ---------------------------------------------------------------------
  // Links

  const ChannelsPrefix := "https://discord.com/channels/"

  /** `messageLink`. */
  function MessageLink(guild: string, channel: string, message: string): (r: string)
    ensures HasPrefix(r, ChannelsPrefix)
    ensures |r| == |ChannelsPrefix| + |guild| + |channel| + |message| + 2
  {
    ChannelsPrefix + guild + "/" + channel + "/" + message
  }

  /** Reads a message link back into its guild, channel and message. */
  function ParseMessageLink(link: string): (r: Option<(string, string, string)>)
    ensures r.Some? ==>
      '/' !in r.value.0 && '/' !in r.value.1 && link == MessageLink(r.value.0, r.value.1, r.value.2)
  {
    if !HasPrefix(link, ChannelsPrefix) then None
    else
      var tail := link[|ChannelsPrefix|..];
      var parts := SplitOnce(tail, '/');
      if |parts| == 1 then None
      else
        var rest := SplitOnce(parts[1], '/');
        if |rest| == 1 then None
        else
          PrefixedJoin(link, ChannelsPrefix, parts[0], rest[0], rest[1]);
          Some((parts[0], rest[0], rest[1]))
  }

  /** A string that starts with `p` and continues with three parts joined
      by "/" is `p` followed by that join. */
  lemma PrefixedJoin(link: string, p: string, a: string, b: string, c: string)
    requires HasPrefix(link, p) && link[|p|..] == a + "/" + (b + "/" + c)
    ensures link == p + a + "/" + b + "/" + c
  {
    assert link == p + link[|p|..];
  }

  /** Decimal snowflakes contain no "/", so a message link gives back the
      three IDs it was made from. */
  lemma MessageLinkRoundTrip(guild: string, channel: string, message: string)
    requires '/' !in guild && '/' !in channel
    ensures ParseMessageLink(MessageLink(guild, channel, message)) == Some((guild, channel, message))
  {
    var link := MessageLink(guild, channel, message);
    assert link[|ChannelsPrefix|..] == guild + "/" + (channel + "/" + message);
    SplitOnceJoin(guild, '/', channel + "/" + message);
    SplitOnceJoin(channel, '/', message);
  }

  // ---------------------------------------------------------------------
  // The archive embed

  /** The fields of the archive embed, in order: the content chunks, the
      attachment links when there are attachments, the message link, the
      timestamps, and the moderator's note when one was written. The
      timestamp text is a parameter (it reads the clock). */
  function ArchiveFields(chunks: seq<seq<Byte>>, links: seq<string>, messageLink: string,
                         timestamps: string, note: string): (fs: seq<Field>)
    ensures |fs| == |chunks| + (if |links| > 0 then 1 else 0) + 2 + (if note != "" then 1 else 0)
    ensures forall i :: 0 <= i < |chunks| ==> fs[i] == Field("", chunks[i])
    ensures note != "" <==> fs[|fs| - 1].name == "Mod Note"
    ensures note != "" ==> fs[|fs| - 1].value == Utf8Bytes(note)
    ensures |links| > 0 <==> |fs| > |chunks| && fs[|chunks|].name == "Attachments"
    // the attachment links, in order, separated by single spaces
    ensures |links| > 0 ==> fs[|chunks|].value == Utf8Bytes(Join(links, " "))
    // then the link to the message and the timestamps, in that order
    ensures var at := |chunks| + (if |links| > 0 then 1 else 0);
      fs[at] == Field("Link to Message", Utf8Bytes("[Click here](" + messageLink + ")")) &&
      fs[at + 1] == Field("Timestamps", Utf8Bytes(timestamps))
  {
    var chunkFields := seq(|chunks|, i requires 0 <= i < |chunks| => Field("", chunks[i]));
    var attachments := if |links| > 0 then [Field("Attachments", Utf8Bytes(Join(links, " ")))] else [];
    var fixed := [Field("Link to Message", Utf8Bytes("[Click here](" + messageLink + ")")),
                  Field("Timestamps", Utf8Bytes(timestamps))];
    var noteField := if note != "" then [Field("Mod Note", Utf8Bytes(note))] else [];
    chunkFields + attachments + fixed + noteField
  }

  /** Links contain no space, so the Attachments field splits back on " "
      into the attachment links, in order. */
  lemma AttachmentsReadBack(chunks: seq<seq<Byte>>, links: seq<string>, messageLink: string,
                            timestamps: string, note: string)
    requires |links| > 0 && forall i :: 0 <= i < |links| ==> ' ' !in links[i]
    ensures var fs := ArchiveFields(chunks, links, messageLink, timestamps, note);
      fs[|chunks|].name == "Attachments" && fs[|chunks|].value == Utf8Bytes(Join(links, " ")) &&
      Split(Join(links, " "), ' ') == links
  {
    assert " " == [' '];
    SplitJoin(links, ' ');
  }

  // ---------------------------------------------------------------------
  // Finding the thread

  datatype Thread = Thread(id: nat, name: string, parent: Option<nat>)

  /** The texts a thread name is searched for: "- <user ID>" and the
      user name. */
  function SearchTerms(authorId: nat, username: string): seq<string> {
    ["- " + NatToString(authorId), username]
  }

  predicate NameMatches(t: Thread, terms: seq<string>) {
    exists k :: 0 <= k < |terms| && Contains(t.name, terms[k])
  }

  /** The thread is searched: any thread when `forum` is absent, else only
      a thread of that forum. */
  predicate InForum(t: Thread, forum: Option<nat>) {
    forum.None? || t.parent == forum
  }

  /** Position `i` holds a searched thread whose name matches, and no
      earlier searched thread matches. */
  predicate FirstMatchAt(threads: seq<Thread>, terms: seq<string>, forum: Option<nat>, i: int) {
    0 <= i < |threads| && InForum(threads[i], forum) && NameMatches(threads[i], terms) &&
    forall j :: 0 <= j < i ==> !(InForum(threads[j], forum) && NameMatches(threads[j], terms))
  }

  /** No searched thread matches. */
  predicate NoMatch(threads: seq<Thread>, terms: seq<string>, forum: Option<nat>) {
    forall j :: 0 <= j < |threads| ==> !(InForum(threads[j], forum) && NameMatches(threads[j], terms))
  }

  /** The first thread, in listing order, whose name contains a search
      term; `forum` restricts the search to threads of that forum. */
  function FirstMatch(threads: seq<Thread>, terms: seq<string>, forum: Option<nat>): (r: Option<Thread>)
    ensures r.Some? ==> r.value in threads && NameMatches(r.value, terms)
    ensures r.Some? && forum.Some? ==> r.value.parent == forum
    ensures r.None? <==> NoMatch(threads, terms, forum)
    ensures forall i :: FirstMatchAt(threads, terms, forum, i) ==> r == Some(threads[i])
  {
    if |threads| == 0 then None
    else if InForum(threads[0], forum) && NameMatches(threads[0], terms) then
      assert FirstMatchAt(threads, terms, forum, 0);
      Some(threads[0])
    else
      var r := FirstMatch(threads[1..], terms, forum);
      FirstMatchShift(threads, terms, forum);
      r
  }

  /** When the first thread is not a match, the first match of the listing
      is the first match of its tail, one position on. */
  lemma FirstMatchShift(threads: seq<Thread>, terms: seq<string>, forum: Option<nat>)
    requires |threads| > 0 && !(InForum(threads[0], forum) && NameMatches(threads[0], terms))
    ensures forall i :: FirstMatchAt(threads, terms, forum, i) ==> FirstMatchAt(threads[1..], terms, forum, i - 1)
    ensures NoMatch(threads, terms, forum) <==> NoMatch(threads[1..], terms, forum)
  {
    forall i | FirstMatchAt(threads, terms, forum, i)
      ensures FirstMatchAt(threads[1..], terms, forum, i - 1)
    {
      assert i > 0;
      assert forall j :: 0 <= j < i - 1 ==> threads[1..][j] == threads[j + 1];
    }
    if NoMatch(threads[1..], terms, forum) {
      forall j | 0 <= j < |threads| ensures !(InForum(threads[j], forum) && NameMatches(threads[j], terms)) {
        if j > 0 { assert threads[j] == threads[1..][j - 1]; }
      }
    }
  }

  datatype ThreadChoice = Existing(thread: Thread) | CreateNew(name: string)

  /** `findOrCreateModLogThread` once the forum channel is known: an
      active thread of the forum, else an archived thread of the forum
      (absent when listing them failed), else a new thread named
      "<username> - <user ID>". */
  function FindThread(forum: nat, active: seq<Thread>, archived: Option<seq<Thread>>,
                      authorId: nat, username: string): (r: ThreadChoice)
    ensures r.CreateNew? ==> r.name == username + " - " + NatToString(authorId)
    ensures r.Existing? ==> NameMatches(r.thread, SearchTerms(authorId, username))
    ensures r.Existing? ==> r.thread in active || (archived.Some? && r.thread in archived.value)
    // a thread is created exactly when neither listing holds a match
    ensures var terms := SearchTerms(authorId, username);
      r.CreateNew? <==> NoMatch(active, terms, Some(forum)) && (archived.Some? ==> NoMatch(archived.value, terms, None))
    // the first active thread of the forum that matches wins
    ensures var terms := SearchTerms(authorId, username);
      forall i :: FirstMatchAt(active, terms, Some(forum), i) ==> r == Existing(active[i])
    // with no active match, the first archived thread that matches is taken
    ensures var terms := SearchTerms(authorId, username);
      forall i :: NoMatch(active, terms, Some(forum)) && archived.Some? && FirstMatchAt(archived.value, terms, None, i) ==>
        r == Existing(archived.value[i])
  {
    var terms := SearchTerms(authorId, username);
    match FirstMatch(active, terms, Some(forum))
    case Some(t) => Existing(t)
    case None =>
      match (if archived.Some? then FirstMatch(archived.value, terms, None) else None)
      case Some(t) => Existing(t)
      case None => CreateNew(username + " - " + NatToString(authorId))
  }

  /** A thread the bot created for a user is found again next time, as
      long as it stays active in the forum and no earlier listed thread of
      the forum matches, whatever follows it in the listing. */
  lemma CreatedThreadFound(forum: nat, id: nat, authorId: nat, username: string,
                           before: seq<Thread>, after: seq<Thread>, archived: Option<seq<Thread>>)
    requires NoMatch(before, SearchTerms(authorId, username), Some(forum))
    ensures var t := Thread(id, username + " - " + NatToString(authorId), Some(forum));
      FindThread(forum, before + [t] + after, archived, authorId, username) == Existing(t)
  {
    var t := Thread(id, username + " - " + NatToString(authorId), Some(forum));
    var terms := SearchTerms(authorId, username);
    var listing := before + [t] + after;
    assert OccursAt(t.name, terms[1], 0) by {
      assert t.name[..|username|] == username;
    }
    assert Contains(t.name, terms[1]);
    assert listing[|before|] == t;
    assert forall j :: 0 <= j < |before| ==> listing[j] == before[j];
    assert FirstMatchAt(listing, terms, Some(forum), |before|);
  }
}

=== FILE: profiles.dfy ===
/** Profile documents, profile templates, and the keys and links derived
    from them (pkg/sprobot and the key helpers of pkg/s3client). */
module Profiles {
  import opened Base
  import opened Text
  import opened Escape

  /** A saved profile: field name to value, as stored in the JSON document. */
  type Profile = map<string, string>

  /** A profile template: its display name, its text fields in display
      order, and the name of its image field. */
  datatype Template = Template(name: string, shortName: string, fields: seq<string>, image: string)

  const ImageField: string := "Gear Picture"
  const WebEndpoint: string := "http://bot.espressoaf.com/"

  const CoffeeSetup := Template("Coffee Setup", "profile",
    ["Machine", "Grinder", "Favorite Beans", "Location"], ImageField)
  const RoastingSetup := Template("Roasting Setup", "roaster",
    ["Roasting Machine", "Favorite Greens", "Website", "Location"], ImageField)

  /** A path component without "/": what guild IDs (decimal snowflakes) and
      template names are. */
  predicate Segment(s: string) {
    '/' !in s
  }

  /** The storage key of a profile document. */
  function ProfileS3Path(guild: string, tmpl: string, user: string): (p: string)
    ensures HasPrefix(p, "profiles/") && HasSuffix(p, ".json")
    ensures |p| == |guild| + |tmpl| + |user| + 16
  {
    "profiles/" + guild + "/" + tmpl + "/" + user + ".json"
  }

  lemma ProfileS3PathEmptyTemplate()
    ensures ProfileS3Path("0", "", "0") == "profiles/0//0.json"
  {
  }

  /** Distinct (guild, template, user) triples get distinct documents as long
      as guild and template contain no "/". */
  lemma ProfileS3PathInjective(g1: string, t1: string, u1: string, g2: string, t2: string, u2: string)
    requires Segment(g1) && Segment(t1) && Segment(g2) && Segment(t2)
    requires ProfileS3Path(g1, t1, u1) == ProfileS3Path(g2, t2, u2)
    ensures g1 == g2 && t1 == t2 && u1 == u2
  {
    var p1 := ProfileS3Path(g1, t1, u1);
    var p2 := ProfileS3Path(g2, t2, u2);
    assert p1[9..] == g1 + "/" + (t1 + "/" + (u1 + ".json"));
    assert p2[9..] == g2 + "/" + (t2 + "/" + (u2 + ".json"));
    SlashFree(g1, t1 + "/" + (u1 + ".json"), g2, t2 + "/" + (u2 + ".json"), '/');
    SlashFree(t1, u1 + ".json", t2, u2 + ".json", '/');
    assert u1 == (u1 + ".json")[..|u1|];
    assert u2 == (u2 + ".json")[..|u2|];
  }

  /** The profile cache key (pkg/s3client): template, guild and user joined by "/". */
  function CacheKey(tmpl: string, guild: string, user: string): (k: string)
    ensures |k| == |tmpl| + |guild| + |user| + 2
    ensures HasPrefix(k, tmpl + "/")
  {
    tmpl + "/" + guild + "/" + user
  }

  /** Cache keys identify the triple as long as template and guild contain no "/". */
  lemma CacheKeyInjective(t1: string, g1: string, u1: string, t2: string, g2: string, u2: string)
    requires Segment(t1) && Segment(g1) && Segment(t2) && Segment(g2)
    requires CacheKey(t1, g1, u1) == CacheKey(t2, g2, u2)
    ensures t1 == t2 && g1 == g2 && u1 == u2
  {
    assert CacheKey(t1, g1, u1) == t1 + "/" + (g1 + "/" + u1);
    assert CacheKey(t2, g2, u2) == t2 + "/" + (g2 + "/" + u2);
    SlashFree(t1, g1 + "/" + u1, t2, g2 + "/" + u2, '/');
    SlashFree(g1, u1, g2, u2, '/');
  }

  /** Without the "/" restriction two triples can share a cache key. */
  lemma CacheKeyCollidesWithSlashes()
    ensures CacheKey("a/b", "c", "d") == CacheKey("a", "b/c", "d")
  {
  }

  /** The storage key of a relocated profile image. */
  function ImageS3Path(guild: string, tmpl: string, user: string, ext: string): (p: string)
    ensures HasPrefix(p, "images/") && HasSuffix(p, "." + ext)
  {
    "images/" + guild + "/" + tmpl + "/" + user + "." + ext
  }

  /** Go's `strings.TrimRight(s, "/")`: drops every trailing "/". */
  function TrimTrailingSlashes(s: string): (r: string)
    ensures |r| <= |s| && r == s[..|r|]
    ensures |r| == 0 || r[|r| - 1] != '/'
    ensures forall i :: |r| <= i < |s| ==> s[i] == '/'
  {
    if |s| > 0 && s[|s| - 1] == '/' then TrimTrailingSlashes(s[..|s| - 1]) else s
  }

  /** The public URL of an object in the bucket (`buildS3URL`): the endpoint
      without trailing slashes, the bucket, and the escaped key as one segment. */
  function BuildS3Url(endpoint: string, bucket: string, key: string): (u: string)
    ensures HasPrefix(u, TrimTrailingSlashes(endpoint) + "/" + bucket + "/")
    ensures Unescape(u[|TrimTrailingSlashes(endpoint)| + |bucket| + 2..]) == Some(Utf8Bytes(key))
  {
    var base := TrimTrailingSlashes(endpoint) + "/" + bucket + "/";
    var u := base + PathEscape(key);
    assert u[|base|..] == PathEscape(key);
    UnescapePathEscape(key);
    u
  }

  /** The web link to a saved profile as the bot writes it (s3client.go and
      embed.go): the whole "bucket/profiles/g/t/u.json" path escaped at once,
      so every "/" inside it becomes "%2F". */
  function ProfileLinkAsWritten(bucket: string, guild: string, tmpl: string, user: string): (u: string)
    ensures HasPrefix(u, WebEndpoint)
    ensures forall i :: |WebEndpoint| <= i < |u| ==> u[i] != '/'
  {
    WebEndpoint + PathEscape(bucket + "/" + ProfileS3Path(guild, tmpl, user))
  }

  /** The web link with each path component escaped on its own, so the
      separators stay "/" (the shape the web server's route expects). */
  function ProfileLink(bucket: string, guild: string, tmpl: string, user: string): (u: string)
    ensures HasPrefix(u, WebEndpoint)
  {
    WebEndpoint + ProfileLinkPath(bucket, guild, tmpl, user)
  }

  /** The part of `ProfileLink` after the endpoint. */
  function ProfileLinkPath(bucket: string, guild: string, tmpl: string, user: string): string {
    Join([PathEscape(bucket), "profiles", PathEscape(guild), PathEscape(tmpl), PathEscape(user + ".json")], "/")
  }

  /** Python's `urljoin(base, rel)` for a relative path reference: `rel`
      replaces whatever follows the last "/" of `base`; a base that is only
      "scheme://host" gets a "/" first. */
  function UrlJoin(base: string, rel: string): (r: string)
    ensures HasSuffix(base, "/") ==> r == base + rel
  {
    match LastSlash(base)
    case None => rel
    case Some(k) =>
      if k == |base| - 1 then base + rel
      else if k >= 1 && base[k - 1] == '/' then base + "/" + rel
      else base[..k + 1] + rel
  }

  function LastSlash(s: string): (r: Option<nat>)
    ensures r.Some? ==> r.value < |s| && s[r.value] == '/'
    ensures r.Some? ==> forall i :: r.value < i < |s| ==> s[i] != '/'
    ensures r.None? ==> '/' !in s
  {
    if |s| == 0 then None
    else if s[|s| - 1] == '/' then Some(|s| - 1)
    else LastSlash(s[..|s| - 1])
  }
}

=== FILE: saveimage.dfy ===
/** Saving a posted image as the profile picture: the Go context-menu and
    slash-command handlers (pkg/bot/saveimage.go) and the Python context menu
    and slash command (src/sprobot/commands.py, `_getsavemenu` and
    `_getsavecommand`). */
module SaveImage {
  import opened Base
  import opened Text
  import opened Profiles
  import Store
  import Backend

  /** A message attachment: its declared content type and proxy URL. */
  datatype Attachment = Attachment(contentType: Option<string>, proxyUrl: string)

  /** A message embed: the proxy URL of its image, when it has one, and
      whether it carries a video. */
  datatype Embed = Embed(image: Option<string>, video: bool)

  datatype Post = Post(attachments: seq<Attachment>, embeds: seq<Embed>)

  /** What one attachment or embed contributes to the search. */
  datatype Item = FoundImage(url: string) | FoundVideo(message: string) | Nothing

  function AttachmentVideoMessage(contentType: string): string {
    "It looks like that attachment was a video (" + contentType + "), we can only use images. Discord often uses mp4s instead of gifs."
  }

  const EmbedVideoMessage: string :=
    "It looks like that attachment was a video, unfortunately we can only use images. Discord will often use a mp4 instead of a gif."

  /** An attachment counts when its content type is `image/…`; a `video/…`
      one yields the video message. */
  function ClassifyAttachment(a: Attachment): (it: Item)
    ensures it.FoundImage? <==> a.contentType.Some? && HasPrefix(a.contentType.value, "image/")
    ensures it.FoundImage? ==> it.url == a.proxyUrl
    ensures it.FoundVideo? <==> a.contentType.Some? && HasPrefix(a.contentType.value, "video/")
  {
    if a.contentType.Some? && HasPrefix(a.contentType.value, "image/") then FoundImage(a.proxyUrl)
    else if a.contentType.Some? && HasPrefix(a.contentType.value, "video/") then FoundVideo(AttachmentVideoMessage(a.contentType.value))
    else Nothing
  }

  /** Go: an embed counts when its image has a non-empty proxy URL; any
      other embed with a video yields the video message. */
  function ClassifyEmbedGo(e: Embed): (it: Item)
    ensures it.FoundImage? <==> e.image.Some? && e.image.value != ""
    ensures it.FoundVideo? <==> !(e.image.Some? && e.image.value != "") && e.video
  {
    if e.image.Some? && e.image.value != "" then FoundImage(e.image.value)
    else if e.video then FoundVideo(EmbedVideoMessage)
    else Nothing
  }

  /** Python: an embed with an image never yields the video message, even
      when the image has no proxy URL. */
  function ClassifyEmbedPy(e: Embed): (it: Item)
    ensures it.FoundImage? <==> e.image.Some? && e.image.value != ""
    ensures it.FoundVideo? <==> e.image.None? && e.video
  {
    if e.image.Some? then (if e.image.value != "" then FoundImage(e.image.value) else Nothing)
    else if e.video then FoundVideo(EmbedVideoMessage)
    else Nothing
  }

  function ClassifyEmbeds(embeds: seq<Embed>, python: bool): (items: seq<Item>)
    ensures |items| == |embeds|
    ensures forall i :: 0 <= i < |embeds| ==> items[i] == (if python then ClassifyEmbedPy(embeds[i]) else ClassifyEmbedGo(embeds[i]))
  {
    if |embeds| == 0 then []
    else [if python then ClassifyEmbedPy(embeds[0]) else ClassifyEmbedGo(embeds[0])] + ClassifyEmbeds(embeds[1..], python)
  }

  function ClassifyAttachments(atts: seq<Attachment>): (items: seq<Item>)
    ensures |items| == |atts|
    ensures forall i :: 0 <= i < |atts| ==> items[i] == ClassifyAttachment(atts[i])
  {
    if |atts| == 0 then [] else [ClassifyAttachment(atts[0])] + ClassifyAttachments(atts[1..])
  }

  /** The post's items in the order the handlers visit them: attachments,
      then embeds. */
  function Items(p: Post, python: bool): seq<Item> {
    ClassifyAttachments(p.attachments) + ClassifyEmbeds(p.embeds, python)
  }

  /** The loop state: images found, the last video message, and the last
      image URL (the one the profile ends up with). */
  datatype Scan = Scan(found: nat, videoError: string, url: Option<string>)

  /** The two loops of the handlers, one item at a time. */
  function ScanItems(items: seq<Item>, s: Scan): Scan
    decreases |items|
  {
    if |items| == 0 then s
    else
      var s' := match items[0]
        case FoundImage(u) => s.(found := s.found + 1, url := Some(u))
        case FoundVideo(m) => s.(videoError := m)
        case Nothing => s;
      ScanItems(items[1..], s')
  }

  /** Reference definitions: the image URLs and the video messages of a
      list of items, in order. */
  function ImageUrls(items: seq<Item>): seq<string> {
    if |items| == 0 then []
    else (if items[0].FoundImage? then [items[0].url] else []) + ImageUrls(items[1..])
  }

  function VideoMessages(items: seq<Item>): seq<string> {
    if |items| == 0 then []
    else (if items[0].FoundVideo? then [items[0].message] else []) + VideoMessages(items[1..])
  }

  function Last(s: seq<string>): string requires |s| > 0 { s[|s| - 1] }

  /** The scan counts exactly the images, keeps the last image URL and the
      last video message. */
  lemma {:induction false} ScanItemsCounts(items: seq<Item>, s: Scan)
    ensures var r := ScanItems(items, s);
      r.found == s.found + |ImageUrls(items)| &&
      r.url == (if |ImageUrls(items)| > 0 then Some(Last(ImageUrls(items))) else s.url) &&
      r.videoError == (if |VideoMessages(items)| > 0 then Last(VideoMessages(items)) else s.videoError)
    decreases |items|
  {
    if |items| > 0 {
      var s' := match items[0]
        case FoundImage(u) => s.(found := s.found + 1, url := Some(u))
        case FoundVideo(m) => s.(videoError := m)
        case Nothing => s;
      ScanItemsCounts(items[1..], s');
    }
  }

  /** What the handler does with the scan: answer, or save the image URL. */
  datatype Decision = Answer(text: string) | SaveUrl(url: string)

  const NoImageMessage: string := "I didn't find an image to save in that post :("

  function TooManyMessage(found: nat): string {
    "I found " + NatToString(found) + " images in that post, but I'm not sure which one to use! Please make a post with just a single image."
  }

  /** The checks after the loops, in the handlers' order: a video with no
      image, more than one image, no image; otherwise exactly one. */
  function Decide(s: Scan): (d: Decision)
    requires s.found > 0 ==> s.url.Some?
    ensures d.SaveUrl? <==> s.found == 1
    ensures d.SaveUrl? ==> d.url == s.url.value
    ensures s.found == 0 && s.videoError != "" ==> d == Answer(s.videoError)
    ensures s.found == 0 && s.videoError == "" ==> d == Answer(NoImageMessage)
    ensures s.found > 1 ==> d == Answer(TooManyMessage(s.found))
  {
    if s.videoError != "" && s.found == 0 then Answer(s.videoError)
    else if s.found > 1 then Answer(TooManyMessage(s.found))
    else if s.found == 0 then Answer(NoImageMessage)
    else SaveUrl(s.url.value)
  }

  const Start: Scan := Scan(0, "", None)

  /** The search over a post, for either implementation. */
  function Search(p: Post, python: bool): (d: Decision)
    ensures var urls := ImageUrls(Items(p, python));
      (d.SaveUrl? <==> |urls| == 1) && (d.SaveUrl? ==> d.url == urls[0])
  {
    ScanItemsCounts(Items(p, python), Start);
    Decide(ScanItems(Items(p, python), Start))
  }

  /** The two implementations decide alike unless some embed has an image
      without a proxy URL (Go then reports the embed's video, Python does
      not). */
  lemma SearchAgrees(p: Post)
    requires forall e :: e in p.embeds ==> e.image != Some("")
    ensures Search(p, false) == Search(p, true)
  {
    assert forall i :: 0 <= i < |p.embeds| ==> ClassifyEmbedGo(p.embeds[i]) == ClassifyEmbedPy(p.embeds[i]) by {
      forall i | 0 <= i < |p.embeds| ensures ClassifyEmbedGo(p.embeds[i]) == ClassifyEmbedPy(p.embeds[i]) {
        assert p.embeds[i] in p.embeds;
      }
    }
    assert ClassifyEmbeds(p.embeds, false) == ClassifyEmbeds(p.embeds, true);
  }

  /** A post whose only image-like item is one image attachment is saved
      with that attachment's URL, in both implementations. */
  lemma SingleAttachmentSaved(url: string, python: bool)
    ensures Search(Post([Attachment(Some("image/png"), url)], []), python) == SaveUrl(url)
  {
    var p := Post([Attachment(Some("image/png"), url)], []);
    assert HasPrefix("image/png", "image/");
    assert Items(p, python) == [FoundImage(url)];
    assert ImageUrls(Items(p, python)) == [url];
  }

  // -------------------------------------------------------------------
  // Handlers

  /** The reply: an ephemeral text, or the saved profile shown as an embed. */
  datatype Reply = Ephemeral(text: string) | ShowProfile(profile: Profile)

  const MsgOops: string := "Oops! Something went wrong."

  /** Go: the profile the handlers start from, which is empty unless the
      fetch succeeded (a failed fetch is only logged). */
  function StartingProfile(f: Store.Fetch): (p: Profile)
    ensures f.result.Success? ==> p == f.result.value
    ensures f.result.Failure? ==> p == map[]
  {
    if f.result.Success? then f.result.value else map[]
  }

  /** Go: save the profile and answer with the stored document, the user
      message, or the generic failure. */
  function GoSaveAndShow(c: Store.Client, t: Template, guild: string, user: string, p: Profile,
                         dl: Store.Download, imagePutOk: bool, getOk: bool, putOk: bool): (r: (Store.Client, Reply))
    ensures !putOk ==> r.1 == Ephemeral(MsgOops)
    ensures putOk && r.1.ShowProfile? ==>
      ProfileS3Path(guild, t.name, user) in r.0.objects && r.1.profile == r.0.objects[ProfileS3Path(guild, t.name, user)]
    // whatever the answer, the client is the one the save left
    ensures r.0 == Store.SaveProfile(c, t, guild, user, p, dl, imagePutOk, getOk, putOk).client
  {
    var s := Store.SaveProfile(c, t, guild, user, p, dl, imagePutOk, getOk, putOk);
    if s.err.Some? then (s.client, Ephemeral(MsgOops))
    else match s.userErr
      case Some(n) => (s.client, Ephemeral(Store.NoticeText(n)))
      case None => (s.client, ShowProfile(s.client.objects[ProfileS3Path(guild, t.name, user)]))
  }

  /** `handleSaveImageMenu`. */
  function GoSaveImageMenu(c: Store.Client, t: Template, guild: string, user: string, post: Post,
                           dl: Store.Download, imagePutOk: bool, getOk: bool, putOk: bool): (r: (Store.Client, Reply))
    ensures Search(post, false).Answer? ==> r.1 == Ephemeral(Search(post, false).text)
    ensures Search(post, false).Answer? ==> r.0.objects == c.objects
  {
    var f := Store.FetchProfile(c, t, guild, user, getOk);
    match Search(post, false)
    case Answer(text) => (f.client, Ephemeral(text))
    case SaveUrl(url) => GoSaveAndShow(f.client, t, guild, user, StartingProfile(f)[t.image := url], dl, imagePutOk, getOk, putOk)
  }

  /** `handleSaveImageCommand`: the optional attachment, when given, becomes
      the image field, whatever its type. */
  function GoSaveImageCommand(c: Store.Client, t: Template, guild: string, user: string, attachment: Option<string>,
                              dl: Store.Download, imagePutOk: bool, getOk: bool, putOk: bool): (r: (Store.Client, Reply))
    ensures !putOk ==> r.1 == Ephemeral(MsgOops)
  {
    var f := Store.FetchProfile(c, t, guild, user, getOk);
    var p := StartingProfile(f);
    GoSaveAndShow(f.client, t, guild, user, if attachment.Some? then p[t.image := attachment.value] else p, dl, imagePutOk, getOk, putOk)
  }

  /** A Go save that goes through writes the saved document under the
      profile's key and changes no other document. The document keeps every
      other field of the profile handed in. Its image is the given URL when
      that is hosted by us already, or the hosted copy when the upload goes
      through. */
  lemma GoSaveWrites(c: Store.Client, t: Template, guild: string, user: string, p: Profile,
                     dl: Store.Download, imagePutOk: bool, getOk: bool)
    ensures var r := GoSaveAndShow(c, t, guild, user, p, dl, imagePutOk, getOk, true);
      var path := ProfileS3Path(guild, t.name, user);
      var rel := Store.RelocateImage(c, t, guild, user, p, dl, imagePutOk);
      path in r.0.objects && r.0.objects == c.objects[path := r.0.objects[path]] &&
      r.0.objects[path] == Store.SavedDocument(p, t, rel, Store.PreviousForSave(rel.client, t, guild, user, rel, getOk)) &&
      (forall k :: k != t.image ==> (k in r.0.objects[path] <==> k in p) && (k in p ==> r.0.objects[path][k] == p[k])) &&
      (t.image in p && p[t.image] != "" && HasPrefix(p[t.image], c.endpoint) ==> r.0.objects[path][t.image] == p[t.image]) &&
      (Store.ForeignImage(c, t, p) && dl.Sniffed? && HasPrefix(dl.contentType, "image/") && imagePutOk ==>
        r.0.objects[path][t.image] == BuildS3Url(c.endpoint, c.bucket, ImageS3Path(guild, t.name, user, Store.ImageExtension(dl.contentType))))
  {
  }

  /** The context menu saves the single image it found: the document written
      is the starting profile with the found URL as its image, so every
      other field is the starting profile's, and the image is the URL itself
      when we host it already, or its hosted copy when the upload goes
      through. No other document changes. */
  lemma GoMenuSavesImage(c: Store.Client, t: Template, guild: string, user: string, post: Post,
                         dl: Store.Download, imagePutOk: bool, getOk: bool)
    requires Search(post, false).SaveUrl?
    ensures var u := Search(post, false).url;
      var f := Store.FetchProfile(c, t, guild, user, getOk);
      var p := StartingProfile(f)[t.image := u];
      var rel := Store.RelocateImage(f.client, t, guild, user, p, dl, imagePutOk);
      var r := GoSaveImageMenu(c, t, guild, user, post, dl, imagePutOk, getOk, true);
      var path := ProfileS3Path(guild, t.name, user);
      path in r.0.objects && r.0.objects == c.objects[path := r.0.objects[path]] &&
      r.0.objects[path] == Store.SavedDocument(p, t, rel, Store.PreviousForSave(rel.client, t, guild, user, rel, getOk)) &&
      (forall k :: k != t.image ==> (k in r.0.objects[path] <==> k in StartingProfile(f)) &&
                                    (k in StartingProfile(f) ==> r.0.objects[path][k] == StartingProfile(f)[k])) &&
      (u != "" && HasPrefix(u, c.endpoint) ==> r.0.objects[path][t.image] == u) &&
      (u != "" && !HasPrefix(u, c.endpoint) && dl.Sniffed? && HasPrefix(dl.contentType, "image/") && imagePutOk ==>
        r.0.objects[path][t.image] == BuildS3Url(c.endpoint, c.bucket, ImageS3Path(guild, t.name, user, Store.ImageExtension(dl.contentType))))
  {
    var f := Store.FetchProfile(c, t, guild, user, getOk);
    GoSaveWrites(f.client, t, guild, user, StartingProfile(f)[t.image := Search(post, false).url], dl, imagePutOk, getOk);
  }

  /** The slash command saves its attachment, when given, as the image: the
      document written is the starting profile with the attachment as its
      image, so every other field is the starting profile's, and the image
      is the attachment itself when we host it already, or its hosted copy
      when the upload goes through. No other document changes. */
  lemma GoCommandSavesImage(c: Store.Client, t: Template, guild: string, user: string, attachment: Option<string>,
                            dl: Store.Download, imagePutOk: bool, getOk: bool)
    ensures var f := Store.FetchProfile(c, t, guild, user, getOk);
      var p := if attachment.Some? then StartingProfile(f)[t.image := attachment.value] else StartingProfile(f);
      var rel := Store.RelocateImage(f.client, t, guild, user, p, dl, imagePutOk);
      var r := GoSaveImageCommand(c, t, guild, user, attachment, dl, imagePutOk, getOk, true);
      var path := ProfileS3Path(guild, t.name, user);
      path in r.0.objects && r.0.objects == c.objects[path := r.0.objects[path]] &&
      r.0.objects[path] == Store.SavedDocument(p, t, rel, Store.PreviousForSave(rel.client, t, guild, user, rel, getOk)) &&
      (forall k :: k != t.image ==> (k in r.0.objects[path] <==> k in StartingProfile(f)) &&
                                    (k in StartingProfile(f) ==> r.0.objects[path][k] == StartingProfile(f)[k])) &&
      (attachment.Some? && attachment.value != "" && HasPrefix(attachment.value, c.endpoint) ==>
        r.0.objects[path][t.image] == attachment.value) &&
      (attachment.Some? && attachment.value != "" && !HasPrefix(attachment.value, c.endpoint) &&
       dl.Sniffed? && HasPrefix(dl.contentType, "image/") && imagePutOk ==>
        r.0.objects[path][t.image] == BuildS3Url(c.endpoint, c.bucket, ImageS3Path(guild, t.name, user, Store.ImageExtension(dl.contentType))))
  {
    var f := Store.FetchProfile(c, t, guild, user, getOk);
    var p := StartingProfile(f);
    GoSaveWrites(f.client, t, guild, user, if attachment.Some? then p[t.image := attachment.value] else p, dl, imagePutOk, getOk);
  }

  /** Saving an attachment keeps every other field of the stored profile
      (on a coherent client whose read goes through). */
  lemma GoCommandKeepsFields(c: Store.Client, t: Template, guild: string, user: string, attachment: Option<string>,
                             dl: Store.Download, imagePutOk: bool)
    requires Store.Coherent(c) && Segment(t.name) && Segment(guild)
    requires ProfileS3Path(guild, t.name, user) in c.objects
    ensures var r := GoSaveImageCommand(c, t, guild, user, attachment, dl, imagePutOk, true, true);
      var before := c.objects[ProfileS3Path(guild, t.name, user)];
      var after := r.0.objects[ProfileS3Path(guild, t.name, user)];
      forall k :: k != t.image ==> (k in after <==> k in before) && (k in before ==> after[k] == before[k])
  {
    Store.FetchReturnsStored(c, t, guild, user, true);
    GoCommandSavesImage(c, t, guild, user, attachment, dl, imagePutOk, true);
  }

  /** Saving one found image keeps every other field of the stored profile
      (on a coherent client whose read goes through). */
  lemma GoMenuKeepsFields(c: Store.Client, t: Template, guild: string, user: string, post: Post,
                          dl: Store.Download, imagePutOk: bool)
    requires Store.Coherent(c) && Segment(t.name) && Segment(guild)
    requires Search(post, false).SaveUrl?
    requires ProfileS3Path(guild, t.name, user) in c.objects
    ensures var r := GoSaveImageMenu(c, t, guild, user, post, dl, imagePutOk, true, true);
      var before := c.objects[ProfileS3Path(guild, t.name, user)];
      var after := r.0.objects[ProfileS3Path(guild, t.name, user)];
      forall k :: k != t.image ==> (k in after <==> k in before) && (k in before ==> after[k] == before[k])
  {
    var f := Store.FetchProfile(c, t, guild, user, true);
    Store.FetchReturnsStored(c, t, guild, user, true);
    var p := StartingProfile(f)[t.image := Search(post, false).url];
    assert GoSaveImageMenu(c, t, guild, user, post, dl, imagePutOk, true, true).0 ==
      Store.SaveProfile(f.client, t, guild, user, p, dl, imagePutOk, true, true).client;
  }

  /** A failed read is only logged, so the image is saved over an empty
      profile and the stored document loses every other field. */
  lemma GoMenuAfterFailedRead(c: Store.Client, t: Template, guild: string, user: string, post: Post,
                              dl: Store.Download, imagePutOk: bool)
    requires CacheKey(t.name, guild, user) !in c.cache
    requires Search(post, false).SaveUrl?
    ensures var r := GoSaveImageMenu(c, t, guild, user, post, dl, imagePutOk, false, true);
      var after := r.0.objects[ProfileS3Path(guild, t.name, user)];
      forall k :: k != t.image ==> k !in after
  {
  }

  /** Python: the context menu. A missing profile starts empty; a failed
      read or write, or a raised upload, ends in the generic failure. The
      fetched dict is the handler's own copy (the corrected fetch of the
      cache-aliasing finding). */
  function PySaveImageMenu(b: Backend.Backend, t: Template, guild: nat, user: nat, post: Post,
                           getOk: bool, dl: Backend.Download, uploadOk: bool, putOk: bool): (r: (Backend.Backend, Reply))
    ensures Search(post, true).Answer? && getOk ==> r.1 == Ephemeral(Search(post, true).text)
    ensures Search(post, true).Answer? ==> r.0.objects == b.objects
    ensures Search(post, true).Answer? ==> r.0.cache == Backend.FetchProfile(b, t, guild, user, getOk).backend.cache
    ensures !putOk ==> r.0.objects == b.objects
  {
    var f := Backend.FetchProfile(b, t, guild, user, getOk);
    if f.result.Raised? then (f.backend, Ephemeral(MsgOops))
    else
      var p := if f.result.Returned? then f.result.value else map[];
      match Search(post, true)
      case Answer(text) => (f.backend, Ephemeral(text))
      case SaveUrl(url) =>
        var s := Backend.SaveProfile(f.backend, t, guild, user, p[t.image := url], dl, uploadOk, putOk);
        if !s.Returned? then (s.state, Ephemeral(MsgOops))
        else match s.value.userErr
          case Some(n) => (s.value.backend, Ephemeral(Backend.NoticeText(n)))
          case None => (s.value.backend, ShowProfile(s.value.backend.objects[Backend.PathOf(Backend.Key(t.name, guild, user))]))
  }

  /** Python: the slash command. A missing profile starts empty, but there
      is no catch-all here, so a failed read or write, or a raised upload,
      ends the handler without an answer (`None`). The fetched dict is the
      handler's own copy, as in the menu. */
  function PySaveImageCommand(b: Backend.Backend, t: Template, guild: nat, user: nat, url: string,
                              getOk: bool, dl: Backend.Download, uploadOk: bool, putOk: bool): (r: (Backend.Backend, Option<Reply>))
    ensures r.1.None? ==> r.0.objects == b.objects
    ensures r.1.None? && (getOk || Backend.IsHit(b, Backend.Key(t.name, guild, user))) ==>
      r.0.cache == Backend.FetchProfile(b, t, guild, user, getOk).backend.cache
    ensures !getOk && !Backend.IsHit(b, Backend.Key(t.name, guild, user)) ==> r.1.None?
    ensures !putOk ==> r.1.None?
    ensures r.1.Some? && r.1.value.ShowProfile? ==>
      var path := Backend.PathOf(Backend.Key(t.name, guild, user));
      path in r.0.objects && r.1.value.profile == r.0.objects[path]
  {
    var f := Backend.FetchProfile(b, t, guild, user, getOk);
    if f.result.Raised? then (f.backend, None)
    else
      var p := if f.result.Returned? then f.result.value else map[];
      var s := Backend.SaveProfile(f.backend, t, guild, user, p[t.image := url], dl, uploadOk, putOk);
      if !s.Returned? then (s.state, None)
      else match s.value.userErr
        case Some(n) => (s.value.backend, Some(Ephemeral(Backend.NoticeText(n))))
        case None => (s.value.backend, Some(ShowProfile(s.value.backend.objects[Backend.PathOf(Backend.Key(t.name, guild, user))])))
  }

  /** Python's menu keeps the cache coherent whatever happens: a refused
      post, a failed upload or a failed write leave every cache entry equal
      to its stored document, so the next fetch returns what is stored. */
  lemma PySaveImageMenuCoherent(b: Backend.Backend, t: Template, guild: nat, user: nat, post: Post,
                                getOk: bool, dl: Backend.Download, uploadOk: bool, putOk: bool)
    requires Backend.Coherent(b) && Segment(t.name)
    requires forall k :: k in b.cache ==> Segment(k.tmpl)
    ensures Backend.Coherent(PySaveImageMenu(b, t, guild, user, post, getOk, dl, uploadOk, putOk).0)
  {
    var f := Backend.FetchProfile(b, t, guild, user, getOk);
    Backend.FetchReturnsStored(b, t, guild, user, getOk);
    PyMenuBackend(b, t, guild, user, post, getOk, dl, uploadOk, putOk);
    if !f.result.Raised? && Search(post, true).SaveUrl? {
      var p := if f.result.Returned? then f.result.value else map[];
      Backend.SaveCoherent(f.backend, t, guild, user, p[t.image := Search(post, true).url], dl, uploadOk, putOk);
    }
  }

  /** The backend the Python menu leaves: the fetch's when it raises or the
      post is refused, otherwise the save's, returned or raised. */
  lemma PyMenuBackend(b: Backend.Backend, t: Template, guild: nat, user: nat, post: Post,
                      getOk: bool, dl: Backend.Download, uploadOk: bool, putOk: bool)
    ensures var f := Backend.FetchProfile(b, t, guild, user, getOk);
      var p := if f.result.Returned? then f.result.value else map[];
      var r := PySaveImageMenu(b, t, guild, user, post, getOk, dl, uploadOk, putOk).0;
      if f.result.Raised? || Search(post, true).Answer? then r == f.backend
      else
        var s := Backend.SaveProfile(f.backend, t, guild, user, p[t.image := Search(post, true).url], dl, uploadOk, putOk);
        r == (if s.Returned? then s.value.backend else s.state)
  {
  }

  /** The same for the slash command. */
  lemma PySaveImageCommandCoherent(b: Backend.Backend, t: Template, guild: nat, user: nat, url: string,
                                   getOk: bool, dl: Backend.Download, uploadOk: bool, putOk: bool)
    requires Backend.Coherent(b) && Segment(t.name)
    requires forall k :: k in b.cache ==> Segment(k.tmpl)
    ensures Backend.Coherent(PySaveImageCommand(b, t, guild, user, url, getOk, dl, uploadOk, putOk).0)
  {
    var f := Backend.FetchProfile(b, t, guild, user, getOk);
    Backend.FetchReturnsStored(b, t, guild, user, getOk);
    PyCommandBackend(b, t, guild, user, url, getOk, dl, uploadOk, putOk);
    if !f.result.Raised? {
      var p := if f.result.Returned? then f.result.value else map[];
      Backend.SaveCoherent(f.backend, t, guild, user, p[t.image := url], dl, uploadOk, putOk);
    }
  }

  /** The backend the Python slash command leaves: the fetch's when it
      raises, otherwise the save's, returned or raised. */
  lemma PyCommandBackend(b: Backend.Backend, t: Template, guild: nat, user: nat, url: string,
                         getOk: bool, dl: Backend.Download, uploadOk: bool, putOk: bool)
    ensures var f := Backend.FetchProfile(b, t, guild, user, getOk);
      var p := if f.result.Returned? then f.result.value else map[];
      var r := PySaveImageCommand(b, t, guild, user, url, getOk, dl, uploadOk, putOk).0;
      if f.result.Raised? then r == f.backend
      else
        var s := Backend.SaveProfile(f.backend, t, guild, user, p[t.image := url], dl, uploadOk, putOk);
        r == (if s.Returned? then s.value.backend else s.state)
  {
  }

  // -------------------------------------------------------------------
  // Python as written: the fetched dict is the cache entry

  /** The dict the Python menu holds when it ends: the fetched profile (or a
      new one) with every image URL found written into it in turn, then
      edited in place by `save_profile` when the handler gets that far. */
  function PyMenuDict(b: Backend.Backend, t: Template, guild: nat, user: nat, post: Post,
                      getOk: bool, dl: Backend.Download, uploadOk: bool): (d: Profile)
    ensures Search(post, true).Answer? && |ImageUrls(Items(post, true))| > 0 ==>
      var f := Backend.FetchProfile(b, t, guild, user, getOk);
      d == (if f.result.Returned? then f.result.value else map[])[t.image := Last(ImageUrls(Items(post, true)))]
  {
    var f := Backend.FetchProfile(b, t, guild, user, getOk);
    var p := if f.result.Returned? then f.result.value else map[];
    var scan := ScanItems(Items(post, true), Start);
    ScanItemsCounts(Items(post, true), Start);
    var edited := if scan.url.Some? then p[t.image := scan.url.value] else p;
    if Search(post, true).SaveUrl? then Backend.EditedBySave(f.backend, t, guild, user, edited, dl, uploadOk) else edited
  }

  /** Python's menu as written: after a miss the handler's dict is the cache
      entry, so what the handler wrote into it stays cached even when the
      post is refused and nothing is saved. */
  function PySaveImageMenuAsWritten(b: Backend.Backend, t: Template, guild: nat, user: nat, post: Post,
                                    getOk: bool, dl: Backend.Download, uploadOk: bool, putOk: bool): (r: (Backend.Backend, Reply))
    // the replies and the documents are those of the corrected handler
    ensures r.1 == PySaveImageMenu(b, t, guild, user, post, getOk, dl, uploadOk, putOk).1
    ensures r.0.objects == PySaveImageMenu(b, t, guild, user, post, getOk, dl, uploadOk, putOk).0.objects
    // a refused post with images in it leaves the last image URL cached over the stored document
    ensures Backend.HandsOutCachedDict(b, t, guild, user, getOk) && Search(post, true).Answer? && |ImageUrls(Items(post, true))| > 0 ==>
      var key := Backend.Key(t.name, guild, user);
      r.0.objects == b.objects && key in r.0.cache &&
      r.0.cache[key] == b.objects[Backend.PathOf(key)][t.image := Last(ImageUrls(Items(post, true)))]
    // without the sharing, nothing differs
    ensures !Backend.HandsOutCachedDict(b, t, guild, user, getOk) ==> r == PySaveImageMenu(b, t, guild, user, post, getOk, dl, uploadOk, putOk)
  {
    var c := PySaveImageMenu(b, t, guild, user, post, getOk, dl, uploadOk, putOk);
    if Backend.HandsOutCachedDict(b, t, guild, user, getOk) then
      (c.0.(cache := c.0.cache[Backend.Key(t.name, guild, user) := PyMenuDict(b, t, guild, user, post, getOk, dl, uploadOk)]), c.1)
    else c
  }

  /** The Python slash command as written: after a miss, an upload or a
      write that raises leaves the handler's edited dict in the cache. */
  function PySaveImageCommandAsWritten(b: Backend.Backend, t: Template, guild: nat, user: nat, url: string,
                                       getOk: bool, dl: Backend.Download, uploadOk: bool, putOk: bool): (r: (Backend.Backend, Option<Reply>))
    ensures r.1 == PySaveImageCommand(b, t, guild, user, url, getOk, dl, uploadOk, putOk).1
    ensures r.0.objects == PySaveImageCommand(b, t, guild, user, url, getOk, dl, uploadOk, putOk).0.objects
    // a raise after a miss: the document is unchanged, but the cache holds its other fields with the edit made to the image
    ensures Backend.HandsOutCachedDict(b, t, guild, user, getOk) && r.1.None? ==>
      var key := Backend.Key(t.name, guild, user);
      var stored := b.objects[Backend.PathOf(key)];
      r.0.objects == b.objects && key in r.0.cache &&
      (forall k :: k != t.image ==> (k in r.0.cache[key] <==> k in stored) && (k in stored ==> r.0.cache[key][k] == stored[k])) &&
      (!uploadOk && url != "" && dl.Guessed? && HasPrefix(dl.mime, "image/") && !HasPrefix(url, b.endpoint) ==>
        t.image in r.0.cache[key] && r.0.cache[key][t.image] == url)
    ensures !Backend.HandsOutCachedDict(b, t, guild, user, getOk) ==> r == PySaveImageCommand(b, t, guild, user, url, getOk, dl, uploadOk, putOk)
  {
    var c := PySaveImageCommand(b, t, guild, user, url, getOk, dl, uploadOk, putOk);
    if Backend.HandsOutCachedDict(b, t, guild, user, getOk) then
      var f := Backend.FetchProfile(b, t, guild, user, getOk);
      var edited := f.result.value[t.image := url];
      (c.0.(cache := c.0.cache[Backend.Key(t.name, guild, user) := Backend.EditedBySave(f.backend, t, guild, user, edited, dl, uploadOk)]), c.1)
    else c
  }

  /** As written, a refused post after a miss leaves the last image URL
      cached, and the next fetch is a hit that returns it. */
  lemma RefusalLeavesImageCached(b: Backend.Backend, t: Template, guild: nat, user: nat, post: Post,
                                 dl: Backend.Download, uploadOk: bool, putOk: bool)
    requires Backend.HandsOutCachedDict(b, t, guild, user, true)
    requires Search(post, true).Answer? && |ImageUrls(Items(post, true))| > 0
    ensures var r := PySaveImageMenuAsWritten(b, t, guild, user, post, true, dl, uploadOk, putOk);
      var path := Backend.PathOf(Backend.Key(t.name, guild, user));
      r.1 == Ephemeral(Search(post, true).text) && r.0.objects == b.objects &&
      Backend.FetchProfile(r.0, t, guild, user, true).result == Backend.Returned(b.objects[path][t.image := Last(ImageUrls(Items(post, true)))])
  {
    var r := PySaveImageMenuAsWritten(b, t, guild, user, post, true, dl, uploadOk, putOk);
    var key := Backend.Key(t.name, guild, user);
    assert key in r.0.cache && |r.0.cache[key]| > 0;
  }

  /** A post with two image attachments. */
  const TwoImages: Post := Post([Attachment(Some("image/png"), "u1"), Attachment(Some("image/png"), "u2")], [])

  /** Both attachments are found. */
  lemma TwoImagesFound()
    ensures ImageUrls(Items(TwoImages, true)) == ["u1", "u2"]
  {
    assert HasPrefix("image/png", "image/");
    var items := Items(TwoImages, true);
    assert items == [FoundImage("u1"), FoundImage("u2")];
    assert items[1..] == [FoundImage("u2")] && items[1..][1..] == [];
    assert ImageUrls(items[1..]) == ["u2"];
  }

  /** The cache-aliasing finding: a stored profile, a cold cache, and a post
      whose images are "u1" then "u2" (such as `TwoImages`). The menu
      refuses the post and saves nothing, yet the next fetch is a hit that
      returns "u2" as the profile's image; the corrected handler
      (`PySaveImageMenuCoherent`) leaves the cache coherent. */
  lemma RefusedPostPollutesCache(b: Backend.Backend, t: Template, post: Post, dl: Backend.Download, uploadOk: bool, putOk: bool)
    requires t.image != "Grinder" && ImageUrls(Items(post, true)) == ["u1", "u2"]
    requires b.cache == map[] && b.objects == map[Backend.PathOf(Backend.Key(t.name, 1, 2)) := map["Grinder" := "x"]]
    ensures var r := PySaveImageMenuAsWritten(b, t, 1, 2, post, true, dl, uploadOk, putOk);
      Search(post, true).Answer? && r.1 == Ephemeral(Search(post, true).text) && r.0.objects == b.objects &&
      Backend.FetchProfile(r.0, t, 1, 2, true).result == Backend.Returned(map["Grinder" := "x", t.image := "u2"])
  {
    ColdMissHandsOut(b, t, 1, 2);
    RefusalLeavesImageCached(b, t, 1, 2, post, dl, uploadOk, putOk);
  }

  /** A miss on a cold cache hands out the cached dict of a non-empty document. */
  lemma ColdMissHandsOut(b: Backend.Backend, t: Template, guild: nat, user: nat)
    requires b.cache == map[] && Backend.PathOf(Backend.Key(t.name, guild, user)) in b.objects
    requires b.objects[Backend.PathOf(Backend.Key(t.name, guild, user))] == map["Grinder" := "x"]
    ensures Backend.HandsOutCachedDict(b, t, guild, user, true)
  {
    assert "Grinder" in b.objects[Backend.PathOf(Backend.Key(t.name, guild, user))];
  }
}

=== FILE: selfrole.dfy ===
/** Self-assignable role panels (pkg/bot/selfrole.go): the buttons posted,
    the test of whether a posted panel is still current, the custom-ID
    parsing and the add/remove toggle. */
module Selfrole {
  import opened Base
  import opened Text
  import opened Components

  datatype SelfroleButton = SelfroleButton(text: string, emoji: string, roleId: nat)
  datatype SelfroleConfig = SelfroleConfig(channelId: nat, message: string, buttons: seq<SelfroleButton>)

  const Prefix: string := "selfrole_"

  /** The custom ID of a role's button. */
  function ButtonId(roleId: nat): string {
    Prefix + NatToString(roleId)
  }

  /** The posted form of one button. */
  function PanelButton(b: SelfroleButton): Interactive {
    Button(Secondary, b.text, ButtonId(b.roleId), Some(b.emoji))
  }

  /** `selfrolePanelButtons`: one action row holding every button in order. */
  function PanelComponents(cfg: SelfroleConfig): (row: seq<Layout>)
    ensures |row| == 1 && row[0].ActionRow? && |row[0].children| == |cfg.buttons|
    ensures forall i :: 0 <= i < |cfg.buttons| ==> row[0].children[i] == PanelButton(cfg.buttons[i])
  {
    [ActionRow(seq(|cfg.buttons|, i requires 0 <= i < |cfg.buttons| => PanelButton(cfg.buttons[i])))]
  }

  /** The pairwise button test of `selfrolePanelNeedsUpdate`: same label,
      style and custom ID, and an emoji with the same name. */
  predicate ButtonMatches(got: Interactive, want: Interactive) {
    got.Button? && want.Button? &&
    got.text == want.text && got.style == want.style && got.customId == want.customId &&
    got.emoji.Some? && want.emoji.Some? && got.emoji.value == want.emoji.value
  }

  /** `selfrolePanelNeedsUpdate`, check by check. */
  function PanelNeedsUpdate(msg: Message, cfg: SelfroleConfig): (r: bool)
    ensures msg.content != "" || |msg.components| != 1 ==> r
    ensures msg.content == "" && msg.components == PanelComponents(cfg) ==> !r
  {
    var want := PanelComponents(cfg);
    if msg.content != "" then true
    else if |msg.components| != |want| then true
    else if !msg.components[0].ActionRow? then true
    else if |msg.components[0].children| != |want[0].children| then true
    else exists i | 0 <= i < |msg.components[0].children| ::
      !ButtonMatches(msg.components[0].children[i], want[0].children[i])
  }

  /** A panel is current exactly when it has no content and its components
      are precisely the configured button row. */
  lemma PanelNeedsUpdateExactly(msg: Message, cfg: SelfroleConfig)
    ensures !PanelNeedsUpdate(msg, cfg) <==> msg.content == "" && msg.components == PanelComponents(cfg)
  {
    var want := PanelComponents(cfg);
    if !PanelNeedsUpdate(msg, cfg) {
      var got := msg.components[0].children;
      assert forall i :: 0 <= i < |got| ==> got[i] == want[0].children[i] by {
        forall i | 0 <= i < |got| ensures got[i] == want[0].children[i] {
          assert ButtonMatches(got[i], want[0].children[i]);
        }
      }
      assert got == want[0].children;
      assert msg.components[0] == want[0];
      assert msg.components == want;
    }
  }

  /** `isSelfroleInteraction`: the prefix followed by a decimal 64-bit ID. */
  function ParseSelfroleId(customId: string): (r: Option<nat>)
    ensures r.Some? ==> HasPrefix(customId, Prefix) && r.value <= MaxUint64
    ensures !HasPrefix(customId, Prefix) ==> r.None?
  {
    if !HasPrefix(customId, Prefix) then None
    else ParseUint64(TrimPrefix(customId, Prefix))
  }

  /** Every button's custom ID parses back to its role. */
  lemma ParseButtonId(roleId: nat)
    requires roleId <= MaxUint64
    ensures ParseSelfroleId(ButtonId(roleId)) == Some(roleId)
  {
    var id := ButtonId(roleId);
    assert id[..|Prefix|] == Prefix;
    assert id[|Prefix|..] == NatToString(roleId);
    ParseUint64OfNatToString(roleId);
  }

  /** Anything after the prefix that is not a decimal number is refused. */
  lemma ParseRejectsNonDigits(rest: string)
    requires !AllDigits(rest) || |rest| == 0
    ensures ParseSelfroleId(Prefix + rest) == None
  {
    assert (Prefix + rest)[|Prefix|..] == rest;
  }

  /** `selfroleLabel`: the label of the first button (over every config, in
      order) for the role, or "role". The guild is not consulted. */
  function RoleLabel(configs: seq<SelfroleConfig>, roleId: nat): (r: string)
    ensures (exists c, b :: c in configs && b in c.buttons && b.roleId == roleId) || r == "role"
  {
    if |configs| == 0 then "role"
    else match FirstButton(configs[0].buttons, roleId)
      case Some(b) => b.text
      case None => RoleLabel(configs[1..], roleId)
  }

  function FirstButton(buttons: seq<SelfroleButton>, roleId: nat): (r: Option<SelfroleButton>)
    ensures r.Some? ==> r.value in buttons && r.value.roleId == roleId
    ensures r.None? ==> forall b :: b in buttons ==> b.roleId != roleId
  {
    if |buttons| == 0 then None
    else if buttons[0].roleId == roleId then Some(buttons[0])
    else FirstButton(buttons[1..], roleId)
  }

  /** The label is found whenever some configured button is for the role. */
  lemma {:induction false} RoleLabelFound(configs: seq<SelfroleConfig>, roleId: nat)
    ensures (exists c, b :: c in configs && b in c.buttons && b.roleId == roleId) <==>
            (exists c, b :: c in configs && b in c.buttons && b.roleId == roleId && RoleLabel(configs, roleId) == b.text)
  {
    if |configs| > 0 {
      RoleLabelFound(configs[1..], roleId);
      match FirstButton(configs[0].buttons, roleId)
      case Some(b) =>
        assert configs[0] in configs;
      case None =>
        if exists c, b :: c in configs && b in c.buttons && b.roleId == roleId {
          var c, b :| c in configs && b in c.buttons && b.roleId == roleId;
          assert c != configs[0];
          assert c in configs[1..];
        }
        forall c, b | c in configs[1..] && b in c.buttons
          ensures c in configs
        {
        }
    }
  }

  /** What clicking a role button does. */
  datatype Toggle = Toggle(removes: bool, reply: string)

  /** The toggle decision: a member holding the role loses it, anyone else
      gains it; a failed REST call gets the retry message. */
  function ToggleRole(memberRoles: Option<seq<nat>>, roleId: nat, name: string, restOk: bool): (t: Toggle)
    ensures t.removes <==> memberRoles.Some? && roleId in memberRoles.value
    ensures restOk ==> t.reply == (if t.removes then "Removed **" else "Added **") + name + "**"
    ensures !restOk ==> t.reply == "Something went wrong, please try again."
  {
    var has := memberRoles.Some? && roleId in memberRoles.value;
    if !restOk then Toggle(has, "Something went wrong, please try again.")
    else if has then Toggle(true, "Removed **" + name + "**")
    else Toggle(false, "Added **" + name + "**")
  }

  /** Toggling twice with successful calls returns the member to where they were. */
  lemma ToggleTwice(roles: seq<nat>, roleId: nat, name: string)
    ensures var first := ToggleRole(Some(roles), roleId, name, true);
      var after := if first.removes then RemoveAll(roles, roleId) else roles + [roleId];
      ToggleRole(Some(after), roleId, name, true).removes == !first.removes
  {
    var first := ToggleRole(Some(roles), roleId, name, true);
    if first.removes {
      assert roleId !in RemoveAll(roles, roleId);
    } else {
      assert (roles + [roleId])[|roles|] == roleId;
    }
  }

  /** The member's roles without `roleId` (what removing a role leaves). */
  function RemoveAll(roles: seq<nat>, roleId: nat): (r: seq<nat>)
    ensures roleId !in r
    ensures forall x :: x in r <==> x in roles && x != roleId
  {
    if |roles| == 0 then []
    else if roles[0] == roleId then RemoveAll(roles[1..], roleId)
    else [roles[0]] + RemoveAll(roles[1..], roleId)
  }
}

=== FILE: shortcuts.dfy ===
/** Per-guild text shortcuts, pkg/bot/shortcuts.go: a shortcut is a name
    with up to five canned responses, served round-robin from a random
    starting point. One guild's state is modelled. */
module Shortcuts {
  import opened Base
  import opened Text
  import opened Escape

  const ResponseSlots := 5
  const MaxShortcuts := 200
  const MaxChoices := 25

  /** `Shortcuts` is what is saved; `indices` is the round-robin position
      of each shortcut used since the bot started, and is not saved. */
  datatype State = State(shortcuts: map<string, seq<string>>, indices: map<string, int>)

  /** What the handlers keep true: positions belong to shortcuts and point
      at one of their responses. */
  predicate Valid(st: State) {
    forall name :: name in st.indices ==>
      name in st.shortcuts && 0 <= st.indices[name] < |st.shortcuts[name]|
  }

  /** A state just loaded from storage: no shortcut has been used yet. */
  function Loaded(shortcuts: map<string, seq<string>>): (st: State)
    ensures Valid(st) && st.shortcuts == shortcuts
  {
    State(shortcuts, map[])
  }

  // ---------------------------------------------------------------------
  // Using a shortcut

  datatype UseReply = AskForName | NotFound(name: string) | Respond(text: string)

  /** `handleShortcut`. `start` is the random draw `rand.IntN(n)` made on
      a shortcut's first use; it is only consulted then. */
  function Use(st: State, name: string, start: nat): (r: (State, UseReply))
    ensures name == "" || name !in st.shortcuts || |st.shortcuts[name]| == 0 ==>
      r.0 == st && r.1 == (if name == "" then AskForName else NotFound(name))
    ensures name != "" && name in st.shortcuts && |st.shortcuts[name]| > 0 ==>
      var n := |st.shortcuts[name]|;
      var idx := if name in st.indices then st.indices[name] else start;
      r.1 == Respond(st.shortcuts[name][idx % n]) &&
      r.0 == st.(indices := st.indices[name := (idx + 1) % n])
    ensures Valid(st) ==> Valid(r.0)
  {
    if name == "" then (st, AskForName)
    else if name !in st.shortcuts || |st.shortcuts[name]| == 0 then (st, NotFound(name))
    else
      var responses := st.shortcuts[name];
      var n := |responses|;
      var idx := if name in st.indices then st.indices[name] else start;
      (st.(indices := st.indices[name := (idx + 1) % n]), Respond(responses[idx % n]))
  }

  /** The responses `k` successive uses of one shortcut give. */
  function Uses(st: State, name: string, start: nat, k: nat): (out: seq<UseReply>)
    ensures |out| == k
    decreases k
  {
    if k == 0 then []
    else
      var (st1, reply) := Use(st, name, start);
      [reply] + Uses(st1, name, start, k - 1)
  }

  lemma ModStep(i: int, j: nat, n: int)
    requires n > 0
    ensures ((i + 1) % n + j) % n == (i + 1 + j) % n
  {
    var a := i + 1;
    var q, r := a / n, a % n;
    var x := r + j;
    var q2, r2 := x / n, x % n;
    assert a + j == (q + q2) * n + r2 by {
      assert a == q * n + r;
      assert x == q2 * n + r2;
      assert (q + q2) * n == q * n + q2 * n;
    }
    DivModUnique(a + j, q + q2, r2, n);
  }

  /** Round-robin: successive uses walk through the responses in order,
      wrapping around, from where the last use stopped (or from the
      random start on a first use). */
  lemma {:induction false} RoundRobin(st: State, name: string, start: nat, k: nat)
    requires name != "" && name in st.shortcuts && |st.shortcuts[name]| > 0
    ensures var rs := st.shortcuts[name];
      var idx := if name in st.indices then st.indices[name] else start;
      forall j :: 0 <= j < k ==> Uses(st, name, start, k)[j] == Respond(rs[(idx + j) % |rs|])
    decreases k
  {
    if k > 0 {
      var rs := st.shortcuts[name];
      var n := |rs|;
      var idx := if name in st.indices then st.indices[name] else start;
      var st1 := Use(st, name, start).0;
      RoundRobin(st1, name, start, k - 1);
      forall j | 1 <= j < k
        ensures Uses(st, name, start, k)[j] == Respond(rs[(idx + j) % n])
      {
        assert Uses(st, name, start, k)[j] == Uses(st1, name, start, k - 1)[j - 1];
        ModStep(idx, j - 1, n);
      }
    }
  }

  /** Using a shortcut as many times as it has responses brings its
      position back to where it was. */
  lemma {:induction false} FullCycle(st: State, name: string, i: nat, k: nat)
    requires name in st.shortcuts && name != "" && i < |st.shortcuts[name]|
    requires name in st.indices && st.indices[name] == i
    ensures var n := |st.shortcuts[name]|;
      name in UsesState(st, name, k).indices && UsesState(st, name, k).indices[name] == (i + k) % n
    decreases k
  {
    if k > 0 {
      var n := |st.shortcuts[name]|;
      var st1 := Use(st, name, 0).0;
      FullCycle(st1, name, (i + 1) % n, k - 1);
      ModStep(i, k - 1, n);
    }
  }

  /** The state after `k` uses of a shortcut already in use. */
  function UsesState(st: State, name: string, k: nat): (r: State)
    ensures r.shortcuts == st.shortcuts
    ensures name in st.indices ==> name in r.indices
    decreases k
  {
    if k == 0 then st else UsesState(Use(st, name, 0).0, name, k - 1)
  }

  // ---------------------------------------------------------------------
  // Autocomplete

  predicate Matches(name: string, current: string) {
    Contains(ToLower(name), ToLower(current))
  }

  /** `handleShortcutAutocomplete`: shortcut names, visited in any order,
      whose lower-case form contains the lower-cased input, at most 25.
      When fewer than 25 names match, all of them are offered. */
  method Autocomplete(names: set<string>, current: string) returns (choices: seq<string>)
    ensures |choices| <= MaxChoices
    ensures forall i :: 0 <= i < |choices| ==> choices[i] in names && Matches(choices[i], current)
    ensures forall i, j :: 0 <= i < j < |choices| ==> choices[i] != choices[j]
    ensures var matching := set n | n in names && Matches(n, current);
      |choices| == if |matching| < MaxChoices then |matching| else MaxChoices
  {
    choices := [];
    ghost var chosen: set<string> := {};
    var remaining := names;
    while remaining != {} && |choices| < MaxChoices
      invariant remaining <= names
      invariant |choices| <= MaxChoices
      invariant forall x :: x in chosen <==> x in choices
      invariant forall x :: x in chosen <==> x in names && x !in remaining && Matches(x, current)
      invariant |chosen| == |choices|
      invariant forall i, j :: 0 <= i < j < |choices| ==> choices[i] != choices[j]
      decreases remaining
    {
      var name :| name in remaining;
      if Matches(name, current) {
        choices := choices + [name];
        chosen := chosen + {name};
      }
      remaining := remaining - {name};
    }
    ChoicesCount(names, current, chosen, remaining, |choices|);
  }

  /** When the scan stops, the choices are all the matching names, or
      twenty-five of them. */
  lemma ChoicesCount(names: set<string>, current: string, chosen: set<string>, remaining: set<string>, n: nat)
    requires forall x :: x in chosen <==> x in names && x !in remaining && Matches(x, current)
    requires n == |chosen| <= MaxChoices && (remaining == {} || n == MaxChoices)
    ensures var matching := set x | x in names && Matches(x, current);
      n == if |matching| < MaxChoices then |matching| else MaxChoices
  {
    var matching := set x | x in names && Matches(x, current);
    if remaining == {} {
      assert chosen == matching;
    } else {
      assert chosen <= matching;
      SubsetSize(chosen, matching);
    }
  }

  lemma SubsetSize<T>(a: set<T>, b: set<T>)
    requires a <= b
    ensures |a| <= |b|
  {
    assert b == a + (b - a);
  }

  // ---------------------------------------------------------------------
  // Configuration

  /** The five text fields of the "set" form, filled with the shortcut's
      current responses. */
  function Prefill(responses: seq<string>): (slots: seq<string>)
    ensures |slots| == ResponseSlots
    ensures forall i :: 0 <= i < ResponseSlots ==> slots[i] == if i < |responses| then responses[i] else ""
  {
    seq(ResponseSlots, i requires 0 <= i < ResponseSlots => if i < |responses| then responses[i] else "")
  }

  /** The responses kept from a submitted form: the non-blank ones, in
      order. */
  function KeepResponses(texts: seq<string>): (r: seq<string>)
    ensures |r| <= |texts|
    ensures forall i :: 0 <= i < |r| ==> !IsBlank(r[i]) && r[i] in texts
    ensures forall i :: 0 <= i < |texts| && !IsBlank(texts[i]) ==> texts[i] in r
    ensures (forall i :: 0 <= i < |texts| ==> !IsBlank(texts[i])) ==> r == texts
    ensures (forall i :: 0 <= i < |texts| ==> IsBlank(texts[i])) ==> r == []
  {
    if |texts| == 0 then []
    else
      var rest := KeepResponses(texts[1..]);
      if IsBlank(texts[0]) then rest else [texts[0]] + rest
  }

  /** The fields are filtered one by one: keeping the responses of two runs
      of fields is keeping each run's, in order, so a non-blank field is kept
      exactly once and in its place, and a blank one is dropped. */
  lemma {:induction false} KeepResponsesAppend(a: seq<string>, b: seq<string>)
    ensures KeepResponses(a + b) == KeepResponses(a) + KeepResponses(b)
    ensures |a| == 1 ==> KeepResponses(a) == (if IsBlank(a[0]) then [] else a)
    decreases |a|
  {
    if |a| > 0 {
      assert (a + b)[1..] == a[1..] + b;
      KeepResponsesAppend(a[1..], b);
    } else {
      assert a + b == b;
    }
  }

  /** Submitting the form unchanged saves the same responses, for up to
      five non-blank responses. */
  lemma PrefillRoundTrip(responses: seq<string>)
    requires |responses| <= ResponseSlots
    requires forall i :: 0 <= i < |responses| ==> !IsBlank(responses[i])
    ensures KeepResponses(Prefill(responses)) == responses
  {
    var slots := Prefill(responses);
    assert slots == responses + slots[|responses|..];
    BlankTail(responses, slots[|responses|..]);
  }

  lemma {:induction false} BlankTail(kept: seq<string>, blanks: seq<string>)
    requires forall i :: 0 <= i < |kept| ==> !IsBlank(kept[i])
    requires forall i :: 0 <= i < |blanks| ==> blanks[i] == ""
    ensures KeepResponses(kept + blanks) == kept
  {
    if |kept| > 0 {
      assert (kept + blanks)[1..] == kept[1..] + blanks;
      BlankTail(kept[1..], blanks);
    } else {
      assert kept + blanks == blanks;
    }
  }

  datatype SetReply = NoResponses | LimitReached | SaveFailed | Saved(name: string, count: nat)

  const ModalPrefix := "sconfig_set_"

  /** `handleShortcutConfigSetModal`: the name comes from the form's ID;
      a new name is refused once the guild has 200 shortcuts; otherwise
      the responses replace the old ones and the position starts at the
      first response. The save to storage is the `persistOk` oracle. */
  function SetFromModal(st: State, customId: string, texts: seq<string>, persistOk: bool): (r: (State, SetReply))
    ensures var name := TrimPrefix(customId, ModalPrefix);
      var kept := KeepResponses(texts);
      (kept == [] ==> r == (st, NoResponses)) &&
      (kept != [] && name !in st.shortcuts && |st.shortcuts| >= MaxShortcuts ==> r == (st, LimitReached)) &&
      (kept != [] && (name in st.shortcuts || |st.shortcuts| < MaxShortcuts) ==>
        r.0 == State(st.shortcuts[name := kept], st.indices[name := 0]) &&
        r.1 == (if persistOk then Saved(name, |kept|) else SaveFailed))
    ensures Valid(st) ==> Valid(r.0)
  {
    var name := TrimPrefix(customId, ModalPrefix);
    var kept := KeepResponses(texts);
    if kept == [] then (st, NoResponses)
    else if name !in st.shortcuts && |st.shortcuts| >= MaxShortcuts then (st, LimitReached)
    else
      (State(st.shortcuts[name := kept], st.indices[name := 0]),
       if persistOk then Saved(name, |kept|) else SaveFailed)
  }

  /** Saving never takes a guild past 200 shortcuts, and the next use of a
      saved shortcut gives its first response. */
  lemma SetKeepsLimit(st: State, customId: string, texts: seq<string>, ok: bool)
    requires |st.shortcuts| <= MaxShortcuts
    ensures |SetFromModal(st, customId, texts, ok).0.shortcuts| <= MaxShortcuts
  {
  }

  lemma SetThenUse(st: State, customId: string, texts: seq<string>, ok: bool, start: nat)
    ensures var r := SetFromModal(st, customId, texts, ok);
      var name := TrimPrefix(customId, ModalPrefix);
      name != "" && (r.1.Saved? || r.1 == SaveFailed) ==>
        Use(r.0, name, start).1 == Respond(KeepResponses(texts)[0])
  {
    var r := SetFromModal(st, customId, texts, ok);
    var name := TrimPrefix(customId, ModalPrefix);
    if name != "" && (r.1.Saved? || r.1 == SaveFailed) {
      var kept := KeepResponses(texts);
      assert r.0.shortcuts[name] == kept && r.0.indices[name] == 0;
    }
  }

  datatype RemoveReply = RemoveAskForName | RemoveNotFound(name: string) | RemoveFailed | Removed(name: string)

  /** `handleShortcutConfigRemove`. */
  function Remove(st: State, name: string, persistOk: bool): (r: (State, RemoveReply))
    ensures name == "" ==> r == (st, RemoveAskForName)
    ensures name != "" && name !in st.shortcuts ==> r == (st, RemoveNotFound(name))
    ensures name != "" && name in st.shortcuts ==>
      r.0 == State(st.shortcuts - {name}, st.indices - {name}) &&
      r.1 == (if persistOk then Removed(name) else RemoveFailed)
    ensures Valid(st) ==> Valid(r.0)
  {
    if name == "" then (st, RemoveAskForName)
    else if name !in st.shortcuts then (st, RemoveNotFound(name))
    else (State(st.shortcuts - {name}, st.indices - {name}), if persistOk then Removed(name) else RemoveFailed)
  }

  /** Removing a shortcut just created gives back the guild's shortcuts
      as they were. */
  lemma SetThenRemove(st: State, name: string, texts: seq<string>, ok1: bool, ok2: bool)
    requires Valid(st) && name != "" && name !in st.shortcuts && |st.shortcuts| < MaxShortcuts
    requires KeepResponses(texts) != []
    ensures var st1 := SetFromModal(st, ModalPrefix + name, texts, ok1).0;
      Remove(st1, name, ok2).0 == st
  {
    assert TrimPrefix(ModalPrefix + name, ModalPrefix) == name by {
      assert (ModalPrefix + name)[..|ModalPrefix|] == ModalPrefix;
    }
    var st1 := SetFromModal(st, ModalPrefix + name, texts, ok1).0;
    assert st1 == State(st.shortcuts[name := KeepResponses(texts)], st.indices[name := 0]);
    assert st1.shortcuts - {name} == st.shortcuts;
    assert st1.indices - {name} == st.indices;
  }

  // ---------------------------------------------------------------------
  // Listing

  /** One line of `handleShortcutConfigList` as written: the dash between
      name and count is the em dash's UTF-8 bytes read as Windows-1252,
      so the list shows "â€”". */
  function ListLineAsWritten(name: string, count: nat): (l: string)
    ensures HasPrefix(l, "**" + name + "** ") && HasSuffix(l, NatToString(count) + " response(s)")
  {
    "**" + name + "** â€” " + NatToString(count) + " response(s)"
  }

  /** The evidently intended line, with an em dash. */
  function ListLine(name: string, count: nat): (l: string)
    ensures HasPrefix(l, "**" + name + "** ") && HasSuffix(l, NatToString(count) + " response(s)")
  {
    "**" + name + "** — " + NatToString(count) + " response(s)"
  }

  /** The intended line shows the bold name, then an em dash (U+2014)
      between spaces, then the count. */
  lemma ListLineEmDash(name: string, count: nat)
    ensures var l := ListLine(name, count);
      |l| > |name| + 7 && l[..|name| + 4] == "**" + name + "**" && l[|name| + 4..|name| + 7] == " \U{2014} " &&
      l[|name| + 7..] == NatToString(count) + " response(s)"
  {
    var l := ListLine(name, count);
    var head := "**" + name + "**";
    var tail := NatToString(count) + " response(s)";
    assert l == head + " \U{2014} " + tail;
  }

  /** The separator as written is exactly the em dash's UTF-8 bytes read
      as Windows-1252, and the line it gives differs from the intended one
      for every shortcut. */
  lemma ListLineMojibake(name: string, count: nat)
    ensures "â€”" == Misread("—")
    ensures ListLineAsWritten(name, count) != ListLine(name, count)
    ensures |ListLineAsWritten(name, count)| == |ListLine(name, count)| + 2
  {
    assert Utf8('—') == [0xE2, 0x80, 0x94];
    assert Utf8Bytes("—") == [0xE2, 0x80, 0x94];
    var a := ListLineAsWritten(name, count);
    var b := ListLine(name, count);
    assert a[|name| + 5] != b[|name| + 5];
  }
}

=== FILE: starboard.dfy ===
/** The starboard of pkg/bot/topreactions.go: per-message reaction counts,
    the decision to post or update a starboard message, pruning of stale
    entries, and the settings and blacklist commands. One guild's state is
    modelled; Discord calls are oracles given as parameters. */
module Starboard {
  import opened Base
  import opened Text

  /** A Discord snowflake; 0 means "unset". */
  type Id = nat

  datatype Settings = Settings(outputChannel: Id, emoji: string, threshold: int, blacklist: seq<Id>)

  /** `posted` is the starboard message's ID, 0 while nothing was posted. */
  datatype Entry = Entry(channel: Id, author: Id, count: int, posted: Id)

  /** Entries are keyed by the ID of the message that was reacted to. */
  datatype State = State(settings: Settings, entries: map<Id, Entry>)

  /** What a reaction event asks of Discord once the state is updated. */
  datatype Followup = NoFollowup | PostEntry | UpdateEntry

  const DefaultThreshold: int := 5

  // ---------------------------------------------------------------------
  // Settings helpers

  /** `effectiveThreshold`: a positive configured threshold, else 5. */
  function EffectiveThreshold(s: Settings): (t: int)
    ensures t >= 1
    ensures s.threshold > 0 ==> t == s.threshold
    ensures s.threshold <= 0 ==> t == DefaultThreshold
  {
    if s.threshold > 0 then s.threshold else DefaultThreshold
  }

  /** The inner loop of `isBlacklisted`. */
  function Listed(id: Id, list: seq<Id>): (b: bool)
    ensures b <==> id in list
  {
    if |list| == 0 then false else list[0] == id || Listed(id, list[1..])
  }

  /** `isBlacklisted`: some ID of `ids` is on the blacklist. */
  function IsBlacklisted(s: Settings, ids: seq<Id>): (b: bool)
    ensures b <==> exists i :: 0 <= i < |ids| && ids[i] in s.blacklist
  {
    if |ids| == 0 then false
    else if Listed(ids[0], s.blacklist) then true
    else
      var b := IsBlacklisted(s, ids[1..]);
      assert forall i :: 1 <= i < |ids| ==> ids[i] == ids[1..][i - 1];
      b
  }

  // ---------------------------------------------------------------------
  // Emoji forms: storage "name:id" or a Unicode emoji; display "<:name:id>"

  predicate IsWordChar(c: char) {
    ('0' <= c <= '9') || ('A' <= c <= 'Z') || ('a' <= c <= 'z') || c == '_'
  }

  /** A non-empty run of `\w`, the regular expression's name group. */
  predicate IsName(s: string) {
    |s| > 0 && forall i :: 0 <= i < |s| ==> IsWordChar(s[i])
  }

  /** A non-empty run of `\d`, the regular expression's ID group. */
  predicate IsNumber(s: string) {
    |s| > 0 && AllDigits(s)
  }

  /** Discord's custom-emoji markup, static or animated. */
  function Markup(name: string, id: string, animated: bool): string {
    (if animated then "<a:" else "<:") + name + ":" + id + ">"
  }

  /** `input` is the whole of `<a?:(\w+):(\d+)>` with these groups. */
  ghost predicate MatchesCustom(input: string, name: string, id: string) {
    IsName(name) && IsNumber(id) && (input == Markup(name, id, false) || input == Markup(name, id, true))
  }

  /** `emojiDisplay`: a stored "name:id" with something after the first
      colon is shown as markup; anything else is shown as it is. */
  function EmojiDisplay(emoji: string): (r: string)
    ensures (exists k :: 0 <= k < |emoji| - 1 && emoji[k] == ':') ==> r == "<:" + emoji + ">"
    ensures (forall k :: 0 <= k < |emoji| - 1 ==> emoji[k] != ':') ==> r == emoji
  {
    match IndexOf(emoji, ':')
    case Some(k) =>
      if k + 1 < |emoji| then "<:" + emoji + ">"
      else
        assert forall j :: 0 <= j < |emoji| - 1 ==> emoji[j] != ':' by {
          assert ':' !in emoji[..k];
          forall j | 0 <= j < |emoji| - 1 ensures emoji[j] != ':' {
            assert emoji[j] == emoji[..k][j];
          }
        }
        emoji
    case None => emoji
  }

  /** The body of the markup after `<:` or `<a:`, when the input has that
      frame. */
  function MarkupBody(input: string): (r: Option<string>)
    ensures r.Some? ==> input == "<:" + r.value + ">" || input == "<a:" + r.value + ">"
  {
    if |input| >= 3 && input[0] == '<' && input[|input| - 1] == '>' then
      var inner := input[1..|input| - 1];
      if inner[0] == ':' then
        assert input == "<:" + inner[1..] + ">";
        Some(inner[1..])
      else if |inner| >= 2 && inner[0] == 'a' && inner[1] == ':' then
        assert input == "<a:" + inner[2..] + ">";
        Some(inner[2..])
      else None
    else None
  }

  /** The two groups of the regular expression, when it matches. */
  function CustomGroups(input: string): (r: Option<(string, string)>)
    ensures r.Some? ==> MatchesCustom(input, r.value.0, r.value.1)
  {
    match MarkupBody(input)
    case None => None
    case Some(body) =>
      var parts := SplitOnce(body, ':');
      if |parts| == 2 && IsName(parts[0]) && IsNumber(parts[1]) then
        assert body == parts[0] + ":" + parts[1];
        MarkupOfBody(parts[0], parts[1]);
        Some((parts[0], parts[1]))
      else None
  }

  /** The markup is the frame around "name:id". */
  lemma MarkupOfBody(name: string, id: string)
    ensures Markup(name, id, false) == "<:" + (name + ":" + id) + ">"
    ensures Markup(name, id, true) == "<a:" + (name + ":" + id) + ">"
  {
  }

  /** `parseEmojiInput`: custom-emoji markup becomes "name:id"; any other
      input is stored as typed. */
  function ParseEmojiInput(input: string): (r: string)
    ensures r == input || exists name, id :: MatchesCustom(input, name, id) && r == name + ":" + id
  {
    match CustomGroups(input)
    case Some(g) => g.0 + ":" + g.1
    case None => input
  }

  /** Every markup, static or animated, is parsed into its name and ID. */
  lemma ParseMarkup(name: string, id: string, animated: bool)
    requires IsName(name) && IsNumber(id)
    ensures ParseEmojiInput(Markup(name, id, animated)) == name + ":" + id
  {
    var input := Markup(name, id, animated);
    var body := name + ":" + id;
    if animated {
      assert input == "<a:" + body + ">";
      assert input[1..|input| - 1] == "a:" + body;
    } else {
      assert input == "<:" + body + ">";
      assert input[1..|input| - 1] == ":" + body;
    }
    assert MarkupBody(input) == Some(body);
    assert ':' !in name by {
      forall i | 0 <= i < |name| ensures name[i] != ':' {
        assert IsWordChar(name[i]);
      }
    }
    SplitOnceJoin(name, ':', id);
    assert name + [':'] + id == body;
  }

  /** Storing a custom emoji and displaying it gives back its static
      markup; an animated emoji is displayed as static. */
  lemma DisplayOfParsed(name: string, id: string, animated: bool)
    requires IsName(name) && IsNumber(id)
    ensures EmojiDisplay(ParseEmojiInput(Markup(name, id, animated))) == Markup(name, id, false)
  {
    ParseMarkup(name, id, animated);
    var stored := name + ":" + id;
    assert stored[|name|] == ':' && |name| < |stored| - 1;
  }

  /** Text with no `<` at its head, such as a Unicode emoji, is stored and
      displayed unchanged when it has no inner colon. */
  lemma PlainEmojiUnchanged(e: string)
    requires |e| > 0 && e[0] != '<' && ':' !in e
    ensures ParseEmojiInput(e) == e && EmojiDisplay(e) == e
  {
  }

  // ---------------------------------------------------------------------
  // Pruning

  /** The Discord epoch, 2015-01-01, in Unix milliseconds. */
  const DiscordEpochMs: int := 1420070400000

  /** Thirty days in nanoseconds, the age past which unposted entries go. */
  const ThirtyDaysNs: int := 30 * 24 * 3600 * 1000000000

  /** The creation time of a snowflake, in Unix nanoseconds. */
  function SnowflakeNs(id: Id): int {
    (id / 4194304 + DiscordEpochMs) * 1000000
  }

  /** An entry that `pruneUnpostedEntries` drops at time `nowNs`. */
  predicate Stale(id: Id, e: Entry, nowNs: int) {
    e.posted == 0 && SnowflakeNs(id) < nowNs - ThirtyDaysNs
  }

  /** `pruneUnpostedEntries`. */
  function Prune(entries: map<Id, Entry>, nowNs: int): (r: map<Id, Entry>)
    ensures forall id :: id in r <==> id in entries && !Stale(id, entries[id], nowNs)
    ensures forall id :: id in r ==> r[id] == entries[id]
  {
    map id | id in entries && !Stale(id, entries[id], nowNs) :: entries[id]
  }

  /** Pruning never drops a posted entry nor one exactly thirty days old,
      and pruning again at the same time changes nothing. */
  lemma PruneKeeps(entries: map<Id, Entry>, nowNs: int, id: Id)
    requires id in entries
    requires entries[id].posted != 0 || SnowflakeNs(id) >= nowNs - ThirtyDaysNs
    ensures id in Prune(entries, nowNs) && Prune(entries, nowNs)[id] == entries[id]
    ensures Prune(Prune(entries, nowNs), nowNs) == Prune(entries, nowNs)
  {
  }

  // ---------------------------------------------------------------------
  // Reaction events

  /** The checks `onReactionAdd` makes before counting: not a bot, a
      configured channel and emoji, the configured emoji, not the output
      channel, and neither the channel nor its parents blacklisted. */
  predicate Counts(s: Settings, bot: bool, emoji: string, channel: Id, parents: seq<Id>) {
    !bot && s.outputChannel != 0 && s.emoji != "" && emoji == s.emoji &&
    channel != s.outputChannel && !IsBlacklisted(s, [channel] + parents)
  }

  /** `onReactionAdd`. `parents` is the parent chain the bot resolved
      through the REST API (the parent channel, and for a thread also its
      category); `author` is the message's author when Discord sent it. */
  function ReactionAdd(st: State, bot: bool, emoji: string, channel: Id, message: Id,
                       author: Option<Id>, parents: seq<Id>): (r: (State, Followup))
    ensures r.0.settings == st.settings
    ensures !Counts(st.settings, bot, emoji, channel, parents) ==> r == (st, NoFollowup)
    ensures Counts(st.settings, bot, emoji, channel, parents) ==>
      message in r.0.entries &&
      r.0.entries == st.entries[message := r.0.entries[message]] &&
      var before := if message in st.entries then st.entries[message].count else 0;
      var e := r.0.entries[message];
      e.count == before + 1 &&
      (message in st.entries ==> e == st.entries[message].(count := e.count)) &&
      (message !in st.entries ==> e == Entry(channel, author.GetOr(0), 1, 0)) &&
      (r.1 == PostEntry <==> e.count >= EffectiveThreshold(st.settings) && e.posted == 0) &&
      (r.1 == UpdateEntry <==> e.posted != 0)
  {
    if !Counts(st.settings, bot, emoji, channel, parents) then (st, NoFollowup)
    else
      var e0 := if message in st.entries then st.entries[message] else Entry(channel, author.GetOr(0), 0, 0);
      var e := e0.(count := e0.count + 1);
      var follow :=
        if e.count >= EffectiveThreshold(st.settings) && e.posted == 0 then PostEntry
        else if e.posted != 0 then UpdateEntry
        else NoFollowup;
      (st.(entries := st.entries[message := e]), follow)
  }

  /** `onReactionRemove`: the configured emoji only, known messages only;
      the count goes down by one but not below zero, and the entry stays. */
  function ReactionRemove(st: State, emoji: string, message: Id): (r: (State, Followup))
    ensures r.0.settings == st.settings
    ensures st.settings.emoji == "" || emoji != st.settings.emoji || message !in st.entries ==>
      r == (st, NoFollowup)
    ensures st.settings.emoji != "" && emoji == st.settings.emoji && message in st.entries ==>
      var prev := st.entries[message];
      r.0.entries == st.entries[message := prev.(count := if prev.count >= 1 then prev.count - 1 else 0)] &&
      (r.1 == UpdateEntry <==> prev.posted != 0) && r.1 != PostEntry
  {
    if st.settings.emoji == "" || emoji != st.settings.emoji || message !in st.entries then (st, NoFollowup)
    else
      var e0 := st.entries[message];
      var c := e0.count - 1;
      var e := e0.(count := if c < 0 then 0 else c);
      (st.(entries := st.entries[message := e]), if e.posted != 0 then UpdateEntry else NoFollowup)
  }

  /** Sets a known message's count to zero (both "remove all" events). */
  function ZeroCount(st: State, message: Id): (r: (State, Followup))
    ensures r.0.settings == st.settings
    ensures message !in st.entries ==> r == (st, NoFollowup)
    ensures message in st.entries ==>
      r.0.entries == st.entries[message := st.entries[message].(count := 0)] &&
      (r.1 == UpdateEntry <==> st.entries[message].posted != 0) && r.1 != PostEntry
  {
    if message !in st.entries then (st, NoFollowup)
    else
      var e := st.entries[message].(count := 0);
      (st.(entries := st.entries[message := e]), if e.posted != 0 then UpdateEntry else NoFollowup)
  }

  /** `onReactionRemoveAll`: every reaction of every emoji went, so the
      count is cleared whatever the configured emoji. */
  function ReactionRemoveAll(st: State, message: Id): (r: (State, Followup))
    ensures message in st.entries ==> message in r.0.entries && r.0.entries[message].count == 0
    ensures message !in st.entries ==> r == (st, NoFollowup)
  {
    ZeroCount(st, message)
  }

  /** `onReactionRemoveEmoji`: only the configured emoji clears the count. */
  function ReactionRemoveEmoji(st: State, emoji: string, message: Id): (r: (State, Followup))
    ensures st.settings.emoji == "" || emoji != st.settings.emoji ==> r == (st, NoFollowup)
    ensures st.settings.emoji != "" && emoji == st.settings.emoji && message in st.entries ==>
      message in r.0.entries && r.0.entries[message].count == 0
  {
    if st.settings.emoji == "" || emoji != st.settings.emoji then (st, NoFollowup)
    else ZeroCount(st, message)
  }

  /** A counted reaction followed by its removal gives the original count
      back, and a first reaction leaves a zero-count entry behind. */
  lemma AddThenRemove(st: State, emoji: string, channel: Id, message: Id, author: Option<Id>, parents: seq<Id>)
    requires Counts(st.settings, false, emoji, channel, parents)
    requires message in st.entries ==> st.entries[message].count >= 0
    ensures var st2 := ReactionRemove(ReactionAdd(st, false, emoji, channel, message, author, parents).0, emoji, message).0;
      message in st2.entries &&
      st2.entries[message].count == (if message in st.entries then st.entries[message].count else 0) &&
      (message in st.entries ==> st2.entries == st.entries)
  {
    var st1 := ReactionAdd(st, false, emoji, channel, message, author, parents).0;
    var st2 := ReactionRemove(st1, emoji, message).0;
    if message in st.entries {
      assert st2.entries[message] == st.entries[message];
      assert st2.entries == st.entries;
    }
  }

  /** The reaction that brings an unposted entry to the threshold posts it;
      once the entry is posted, further reactions only update it. */
  lemma PostsAtThreshold(st: State, emoji: string, channel: Id, message: Id, author: Option<Id>, parents: seq<Id>)
    requires Counts(st.settings, false, emoji, channel, parents)
    requires message in st.entries
    ensures var e := st.entries[message];
      var f := ReactionAdd(st, false, emoji, channel, message, author, parents).1;
      (e.posted == 0 && e.count == EffectiveThreshold(st.settings) - 1 ==> f == PostEntry) &&
      (e.posted != 0 ==> f == UpdateEntry)
  {
  }

  // ---------------------------------------------------------------------
  // Posting

  /** The content line of a starboard message: the emoji, the count in
      bold and the source channel. */
  function PostContent(s: Settings, e: Entry): (r: string)
    ensures HasPrefix(r, EmojiDisplay(s.emoji) + " **")
    ensures HasSuffix(r, "** | <#" + NatToString(e.channel) + ">")
    ensures var pre := EmojiDisplay(s.emoji) + " **";
      var suf := "** | <#" + NatToString(e.channel) + ">";
      |pre| + |suf| <= |r| && r[|pre|..|r| - |suf|] == IntToString(e.count)
  {
    EmojiDisplay(s.emoji) + " **" + IntToString(e.count) + "** | <#" + NatToString(e.channel) + ">"
  }

  /** The count between the bold markers reads back as the entry's count. */
  lemma PostCountReadsBack(s: Settings, e: Entry)
    requires MinInt64 <= e.count <= MaxInt64
    ensures var r := PostContent(s, e);
      var pre := EmojiDisplay(s.emoji) + " **";
      var suf := "** | <#" + NatToString(e.channel) + ">";
      Atoi(r[|pre|..|r| - |suf|]) == Some(e.count)
  {
    var r := PostContent(s, e);
    var pre := EmojiDisplay(s.emoji) + " **";
    var suf := "** | <#" + NatToString(e.channel) + ">";
    var count := IntToString(e.count);
    assert r[|pre|..|r| - |suf|] == count;
    AtoiOfIntToString(e.count);
  }

  /** The end of `postStarboardEntry`: once Discord accepted the message,
      its ID is recorded on the entry, re-read from the state. */
  function RecordPost(st: State, message: Id, sent: Id): (r: State)
    ensures r.settings == st.settings
    ensures message in r.entries && r.entries[message].posted == sent
    ensures message in st.entries ==> r.entries[message] == st.entries[message].(posted := sent)
    ensures forall m :: m != message ==> (m in r.entries <==> m in st.entries)
    ensures forall m :: m in st.entries && m != message ==> r.entries[m] == st.entries[m]
  {
    var e := Lookup(st.entries, message, Entry(0, 0, 0, 0));
    st.(entries := st.entries[message := e.(posted := sent)])
  }

  /** A posted entry is never posted a second time: further reactions ask
      for an update. */
  lemma PostedOnlyUpdates(st: State, message: Id, sent: Id, emoji: string, channel: Id,
                          author: Option<Id>, parents: seq<Id>)
    requires sent != 0
    requires Counts(st.settings, false, emoji, channel, parents)
    ensures ReactionAdd(RecordPost(st, message, sent), false, emoji, channel, message, author, parents).1 == UpdateEntry
  {
  }

  // ---------------------------------------------------------------------
  // Configuration commands

  /** Drops every entry that has not been posted. */
  function DropUnposted(entries: map<Id, Entry>): (r: map<Id, Entry>)
    ensures forall id :: id in r <==> id in entries && entries[id].posted != 0
    ensures forall id :: id in r ==> r[id] == entries[id]
  {
    map id | id in entries && entries[id].posted != 0 :: entries[id]
  }

  /** `handleSBConfigSet` on the state: each given option replaces its
      setting, and a different emoji (after parsing) first drops the
      unposted entries, whose counts were for the old emoji. */
  function ConfigSet(st: State, channel: Option<Id>, emoji: Option<string>, threshold: Option<int>): (r: State)
    ensures r.settings.blacklist == st.settings.blacklist
    ensures r.settings.outputChannel == channel.GetOr(st.settings.outputChannel)
    ensures r.settings.threshold == threshold.GetOr(st.settings.threshold)
    ensures emoji.None? ==> r.settings.emoji == st.settings.emoji && r.entries == st.entries
    ensures emoji.Some? ==> r.settings.emoji == ParseEmojiInput(emoji.value)
    ensures emoji.Some? && ParseEmojiInput(emoji.value) == st.settings.emoji ==> r.entries == st.entries
    ensures emoji.Some? && ParseEmojiInput(emoji.value) != st.settings.emoji ==>
      forall id :: id in r.entries <==> id in st.entries && st.entries[id].posted != 0
  {
    var s1 := if channel.Some? then st.settings.(outputChannel := channel.value) else st.settings;
    var st1 := st.(settings := s1);
    var st2 :=
      if emoji.Some? && ParseEmojiInput(emoji.value) != st1.settings.emoji then
        State(st1.settings.(emoji := ParseEmojiInput(emoji.value)), DropUnposted(st1.entries))
      else st1;
    if threshold.Some? then st2.(settings := st2.settings.(threshold := threshold.value)) else st2
  }

  /** Repeating a configuration command changes nothing more. */
  lemma ConfigSetIdempotent(st: State, channel: Option<Id>, emoji: Option<string>, threshold: Option<int>)
    ensures var once := ConfigSet(st, channel, emoji, threshold);
      ConfigSet(once, channel, emoji, threshold) == once
  {
  }

  /** The reply to a command whose change had to be saved. */
  function SavedReply(persistOk: bool, success: string, failure: string): (r: string)
    ensures persistOk ==> r == success
    ensures !persistOk ==> r == failure
  {
    if persistOk then success else failure
  }

  const MsgConfigUpdated := "Starboard configuration updated."
  const MsgConfigFailed := "Failed to save configuration."
  const MsgDisabled := "Starboard disabled. Settings preserved."

  /** `handleSBConfigDisable`: only the output channel is cleared. */
  function Disable(st: State): (r: State)
    ensures r.settings == st.settings.(outputChannel := 0) && r.entries == st.entries
  {
    st.(settings := st.settings.(outputChannel := 0))
  }

  /** A disabled starboard ignores reactions, and setting a channel again
      brings back the emoji, threshold, blacklist and counts unchanged. */
  lemma DisableStopsCounting(st: State, bot: bool, emoji: string, channel: Id, message: Id,
                             author: Option<Id>, parents: seq<Id>, out: Id)
    ensures ReactionAdd(Disable(st), bot, emoji, channel, message, author, parents) == (Disable(st), NoFollowup)
    ensures ConfigSet(Disable(st), Some(out), None, None) == st.(settings := st.settings.(outputChannel := out))
  {
  }

  // ---------------------------------------------------------------------
  // Blacklist commands

  function ChannelMention(id: Id): (m: string)
    ensures |m| >= 4 && HasPrefix(m, "<#") && m[|m| - 1] == '>'
    ensures m[2..|m| - 1] == NatToString(id) && AllDigits(m[2..|m| - 1])
  {
    "<#" + NatToString(id) + ">"
  }

  /** `handleSBBlacklistAdd`: a channel already listed is refused; any
      other is appended. */
  function BlacklistAdd(s: Settings, ch: Id, persistOk: bool): (r: (Settings, string))
    ensures ch in s.blacklist ==> r == (s, ChannelMention(ch) + " is already blacklisted.")
    ensures ch !in s.blacklist ==> r.0 == s.(blacklist := s.blacklist + [ch])
    ensures ch !in s.blacklist ==>
      r.1 == SavedReply(persistOk, ChannelMention(ch) + " added to blacklist.", "Failed to save blacklist.")
  {
    if IsBlacklisted(s, [ch]) then
      assert [ch][0] == ch;
      (s, ChannelMention(ch) + " is already blacklisted.")
    else
      (s.(blacklist := s.blacklist + [ch]), SavedReply(persistOk, ChannelMention(ch) + " added to blacklist.", "Failed to save blacklist."))
  }

  /** The index of the first occurrence of `x`. */
  function FirstIndex(list: seq<Id>, x: Id): (i: nat)
    requires x in list
    ensures i < |list| && list[i] == x && x !in list[..i]
  {
    if list[0] == x then 0
    else
      var k := FirstIndex(list[1..], x);
      assert list[..k + 1] == [list[0]] + list[1..][..k];
      k + 1
  }

  /** `handleSBBlacklistRemove`: the first occurrence goes; a channel not
      listed is reported and nothing changes. */
  function BlacklistRemove(s: Settings, ch: Id, persistOk: bool): (r: (Settings, string))
    ensures ch !in s.blacklist ==> r == (s, ChannelMention(ch) + " is not blacklisted.")
    ensures ch in s.blacklist ==>
      var i := FirstIndex(s.blacklist, ch);
      r.0 == s.(blacklist := s.blacklist[..i] + s.blacklist[i + 1..]) &&
      r.1 == SavedReply(persistOk, ChannelMention(ch) + " removed from blacklist.", "Failed to save blacklist.")
    ensures multiset(r.0.blacklist)[ch] == if ch in s.blacklist then multiset(s.blacklist)[ch] - 1 else 0
  {
    if ch !in s.blacklist then (s, ChannelMention(ch) + " is not blacklisted.")
    else
      var i := FirstIndex(s.blacklist, ch);
      assert s.blacklist == s.blacklist[..i] + [ch] + s.blacklist[i + 1..];
      (s.(blacklist := s.blacklist[..i] + s.blacklist[i + 1..]),
       SavedReply(persistOk, ChannelMention(ch) + " removed from blacklist.", "Failed to save blacklist."))
  }

  /** Adding a channel that was not listed and then removing it restores
      the blacklist, and adding keeps the list free of duplicates. */
  lemma BlacklistAddRemove(s: Settings, ch: Id, ok1: bool, ok2: bool)
    requires ch !in s.blacklist
    ensures BlacklistRemove(BlacklistAdd(s, ch, ok1).0, ch, ok2).0 == s
  {
    var s1 := BlacklistAdd(s, ch, ok1).0;
    assert FirstIndex(s1.blacklist, ch) == |s.blacklist|;
    assert s1.blacklist[..|s.blacklist|] == s.blacklist;
  }

  predicate NoDuplicates(list: seq<Id>) {
    forall i, j :: 0 <= i < j < |list| ==> list[i] != list[j]
  }

  /** The add command never creates a duplicate entry. */
  lemma BlacklistAddNoDuplicates(s: Settings, ch: Id, ok: bool)
    requires NoDuplicates(s.blacklist)
    ensures NoDuplicates(BlacklistAdd(s, ch, ok).0.blacklist)
  {
  }

  /** `handleSBBlacklistList`. */
  function BlacklistList(list: seq<Id>): (r: string)
    ensures |list| == 0 <==> r == "No channels are blacklisted."
    ensures |list| > 0 ==> HasPrefix(r, "**Blacklisted channels:**\n")
    ensures |list| > 0 ==> r[|"**Blacklisted channels:**\n"|..] == Join(Mentions(list), "\n")
  {
    if |list| == 0 then "No channels are blacklisted."
    else
      var r := "**Blacklisted channels:**\n" + Join(Mentions(list), "\n");
      assert r[..|"**Blacklisted channels:**\n"|] == "**Blacklisted channels:**\n";
      assert |r| != |"No channels are blacklisted."| || r[0] != 'N';
      r
  }

  /** One mention per listed channel, in list order. */
  function Mentions(list: seq<Id>): (r: seq<string>)
    ensures |r| == |list|
    ensures forall i :: 0 <= i < |list| ==> r[i] == ChannelMention(list[i])
  {
    seq(|list|, i requires 0 <= i < |list| => ChannelMention(list[i]))
  }

  /** Read line by line after the header, the list gives back every
      blacklisted channel's mention, in order. */
  lemma BlacklistListLines(list: seq<Id>)
    requires |list| > 0
    ensures var r := BlacklistList(list);
      Split(r[|"**Blacklisted channels:**\n"|..], '\n') == Mentions(list)
  {
    var ms := Mentions(list);
    forall i | 0 <= i < |ms| ensures '\n' !in ms[i] {
      var d := NatToString(list[i]);
      assert ms[i] == "<#" + d + ">";
      assert forall k :: 0 <= k < |d| ==> d[k] != '\n';
    }
    SplitJoin(ms, '\n');
  }
}

=== FILE: sticky.dfy ===
/** The sticky-message bot (pkg/stickybot): what is saved of a sticky and
    how it is read back, the custom ID that carries the target message
    through the settings form, the form's validation, and the
    stop/start/remove/list commands. Discord and storage calls are
    parameters. */
module Sticky {
  import opened Base
  import opened Text

  type Id = nat

  /** An embed, reduced to what the bot sets itself: an image link. The
      rest of a copied embed is carried along unread in `body`. */
  datatype Embed = Embed(image: Option<string>, body: string)

  /** A sticky. `lastPostTime` (nanoseconds) and `msgsSinceLast` are
      runtime bookkeeping and are not saved. */
  datatype Sticky = Sticky(channel: Id, guild: Id, content: string, embeds: seq<Embed>, fileUrls: seq<string>,
                           createdBy: Id, active: bool, lastMessage: Id, delaySeconds: int, msgThreshold: int,
                           lastPostTime: int, msgsSinceLast: nat)

  /** The saved form of a sticky. */
  datatype Export = Export(channel: Id, guild: Id, content: string, embeds: seq<Embed>, fileUrls: seq<string>,
                           createdBy: Id, active: bool, lastMessage: Id, delaySeconds: int, msgThreshold: int)

  // ---------------------------------------------------------------------
  // Saving and loading

  function ToExport(s: Sticky): (e: Export)
    ensures e.channel == s.channel && e.guild == s.guild && e.content == s.content
    ensures e.embeds == s.embeds && e.fileUrls == s.fileUrls && e.createdBy == s.createdBy
    ensures e.active == s.active && e.lastMessage == s.lastMessage
    ensures e.delaySeconds == s.delaySeconds && e.msgThreshold == s.msgThreshold
  {
    Export(s.channel, s.guild, s.content, s.embeds, s.fileUrls, s.createdBy, s.active, s.lastMessage,
           s.delaySeconds, s.msgThreshold)
  }

  function FromExport(e: Export): (s: Sticky)
    ensures s.lastPostTime == 0 && s.msgsSinceLast == 0
  {
    Sticky(e.channel, e.guild, e.content, e.embeds, e.fileUrls, e.createdBy, e.active, e.lastMessage,
           e.delaySeconds, e.msgThreshold, 0, 0)
  }

  /** A sticky with its runtime bookkeeping cleared. */
  function Reset(s: Sticky): Sticky {
    s.(lastPostTime := 0, msgsSinceLast := 0)
  }

  /** Reading back keeps every saved field and clears the runtime ones;
      the saved form itself survives unchanged. */
  lemma ExportRoundTrip(s: Sticky, e: Export)
    ensures FromExport(ToExport(s)) == Reset(s)
    ensures ToExport(FromExport(e)) == e
  {
  }

  /** The saved map of one guild's stickies: each under its channel ID in
      decimal. */
  function SaveChannels(channels: map<Id, Sticky>): (r: map<string, Export>)
    ensures forall ch :: ch in channels ==> NatToString(ch) in r && r[NatToString(ch)] == ToExport(channels[ch])
    ensures forall k :: k in r ==> exists ch :: ch in channels && k == NatToString(ch)
  {
    NatToStringInjectiveAll();
    map ch | ch in channels :: NatToString(ch) := ToExport(channels[ch])
  }

  /** `saveStickiesForGuild`: nothing is written for a guild without a
      sticky map. */
  function SaveForGuild(stickies: map<Id, map<Id, Sticky>>, guild: Id): (r: Option<map<string, Export>>)
    ensures guild !in stickies <==> r.None?
    ensures r.Some? ==> r.value == SaveChannels(stickies[guild])
  {
    if guild !in stickies then None else Some(SaveChannels(stickies[guild]))
  }

  lemma NatToStringInjectiveAll()
    ensures forall m: nat, n: nat :: NatToString(m) == NatToString(n) ==> m == n
  {
    forall m: nat, n: nat | NatToString(m) == NatToString(n) ensures m == n {
      NatToStringInjective(m, n);
    }
  }

  /** What `loadStickies` builds from a saved map: one sticky per channel
      ID found in the saved values, read back from a saved value with
      that channel ID. */
  ghost predicate LoadedFrom(exports: map<string, Export>, channels: map<Id, Sticky>) {
    (forall ch :: ch in channels <==> exists k :: k in exports && exports[k].channel == ch) &&
    (forall ch :: ch in channels ==> exists k :: k in exports && exports[k].channel == ch && channels[ch] == FromExport(exports[k]))
  }

  /** `loadStickies` for one guild, visiting the saved map in any order. */
  method Load(exports: map<string, Export>) returns (channels: map<Id, Sticky>)
    ensures LoadedFrom(exports, channels)
  {
    channels := map[];
    var remaining := exports.Keys;
    while remaining != {}
      invariant remaining <= exports.Keys
      invariant forall ch :: ch in channels <==> exists k :: k in exports && k !in remaining && exports[k].channel == ch
      invariant forall ch :: ch in channels ==> exists k :: k in exports && exports[k].channel == ch && channels[ch] == FromExport(exports[k])
      decreases remaining
    {
      var k :| k in remaining;
      var s := FromExport(exports[k]);
      channels := channels[s.channel := s];
      remaining := remaining - {k};
    }
  }

  /** Stickies are kept under their own channel. */
  predicate Keyed(channels: map<Id, Sticky>) {
    forall ch :: ch in channels ==> channels[ch].channel == ch
  }

  /** A saved entry read back is the sticky of the channel it names. */
  lemma SavedEntry(channels: map<Id, Sticky>, k: string) returns (ch: Id)
    requires Keyed(channels) && k in SaveChannels(channels)
    ensures ch in channels && SaveChannels(channels)[k].channel == ch
    ensures FromExport(SaveChannels(channels)[k]) == Reset(channels[ch])
  {
    ch :| ch in channels && k == NatToString(ch);
  }

  /** Saving a guild's stickies and loading them back gives the same
      stickies, with their runtime bookkeeping cleared. */
  lemma SaveThenLoad(channels: map<Id, Sticky>, loaded: map<Id, Sticky>)
    requires Keyed(channels)
    requires LoadedFrom(SaveChannels(channels), loaded)
    ensures forall ch :: ch in loaded <==> ch in channels
    ensures forall ch :: ch in loaded ==> loaded[ch] == Reset(channels[ch])
  {
    LoadedValues(channels, loaded);
    LoadedCovers(channels, loaded);
  }

  lemma LoadedValues(channels: map<Id, Sticky>, loaded: map<Id, Sticky>)
    requires Keyed(channels)
    requires LoadedFrom(SaveChannels(channels), loaded)
    ensures forall ch :: ch in loaded ==> ch in channels && loaded[ch] == Reset(channels[ch])
  {
    var exports := SaveChannels(channels);
    forall ch | ch in loaded ensures ch in channels && loaded[ch] == Reset(channels[ch]) {
      var k :| k in exports && exports[k].channel == ch && loaded[ch] == FromExport(exports[k]);
      var c := SavedEntry(channels, k);
    }
  }

  lemma LoadedCovers(channels: map<Id, Sticky>, loaded: map<Id, Sticky>)
    requires Keyed(channels)
    requires LoadedFrom(SaveChannels(channels), loaded)
    ensures forall ch :: ch in channels ==> ch in loaded
  {
    var exports := SaveChannels(channels);
    forall ch | ch in channels ensures ch in loaded {
      var k := NatToString(ch);
      assert k in exports && exports[k].channel == ch;
    }
  }

  // ---------------------------------------------------------------------
  // The settings form

  const ModalPrefix := "sticky_config_"

  /** The form's custom ID, carrying the target message's channel and ID. */
  function ModalId(channel: Id, message: Id): (id: string)
    ensures HasPrefix(id, ModalPrefix)
  {
    ModalPrefix + NatToString(channel) + "_" + NatToString(message)
  }

  /** How `handleStickyConfigModal` reads the custom ID back: `None` when
      there is no "_"; an ID that does not parse becomes 0, since the
      parse errors are ignored. */
  function ParseModalId(id: string): (r: Option<(Id, Id)>)
    ensures r.None? <==> '_' !in TrimPrefix(id, ModalPrefix)
  {
    var parts := SplitOnce(TrimPrefix(id, ModalPrefix), '_');
    if |parts| != 2 then None
    else Some((ParseUint64(parts[0]).GetOr(0), ParseUint64(parts[1]).GetOr(0)))
  }

  /** The form gives back the channel and message it was opened on. */
  lemma ModalIdRoundTrip(channel: Id, message: Id)
    requires channel <= MaxUint64 && message <= MaxUint64
    ensures ParseModalId(ModalId(channel, message)) == Some((channel, message))
  {
    var c := NatToString(channel);
    var id := ModalId(channel, message);
    assert id == ModalPrefix + (c + "_" + NatToString(message));
    assert id[..|ModalPrefix|] == ModalPrefix;
    assert TrimPrefix(id, ModalPrefix) == c + ['_'] + NatToString(message);
    assert '_' !in c by {
      forall i | 0 <= i < |c| ensures c[i] != '_' { assert IsDigit(c[i]); }
    }
    SplitOnceJoin(c, '_', NatToString(message));
    ParseUint64OfNatToString(channel);
    ParseUint64OfNatToString(message);
  }

  const MsgBadDelay := "Delay must be a non-negative number."
  const MsgBadThreshold := "Threshold must be a positive number."

  /** The form's two numbers: a delay of zero or more seconds and a
      threshold of one or more messages, each a Go `int`. */
  function ValidateSettings(delayText: string, thresholdText: string): (r: Result<(int, int), string>)
    ensures r.Success? <==> Atoi(delayText).Some? && Atoi(delayText).value >= 0 &&
                            Atoi(thresholdText).Some? && Atoi(thresholdText).value >= 1
    ensures r.Success? ==> r.value == (Atoi(delayText).value, Atoi(thresholdText).value)
    ensures r.Failure? ==> r.error == (if Atoi(delayText).None? || Atoi(delayText).value < 0 then MsgBadDelay else MsgBadThreshold)
  {
    match Atoi(delayText)
    case None => Failure(MsgBadDelay)
    case Some(delay) =>
      if delay < 0 then Failure(MsgBadDelay)
      else match Atoi(thresholdText)
        case None => Failure(MsgBadThreshold)
        case Some(threshold) =>
          if threshold < 1 then Failure(MsgBadThreshold) else Success((delay, threshold))
  }

  /** The form's defaults, 15 seconds and 4 messages, are accepted. */
  lemma DefaultsAccepted()
    ensures ValidateSettings("15", "4") == Success((15, 4))
  {
    AtoiOfIntToString(15);
    AtoiOfIntToString(4);
    assert IntToString(15) == "15";
    assert IntToString(4) == "4";
  }

  /** The links that re-hosting the attachments produced: the successful
      saves, in order; a failed one is skipped. */
  function SavedFiles(saves: seq<Option<string>>): (urls: seq<string>)
    ensures |urls| <= |saves|
    ensures forall u :: u in urls <==> Some(u) in saves
  {
    if |saves| == 0 then []
    else
      var rest := SavedFiles(saves[1..]);
      assert forall o :: o in saves <==> o == saves[0] || o in saves[1..];
      if saves[0].Some? then [saves[0].value] + rest else rest
  }

  /** The attachments are re-hosted one by one: the links of two runs of
      saves are each run's links, in order, so every successful save gives
      exactly one link in its place and a failed one gives none. */
  lemma {:induction false} SavedFilesAppend(a: seq<Option<string>>, b: seq<Option<string>>)
    ensures SavedFiles(a + b) == SavedFiles(a) + SavedFiles(b)
    ensures |a| == 1 ==> SavedFiles(a) == (if a[0].Some? then [a[0].value] else [])
    decreases |a|
  {
    if |a| > 0 {
      assert (a + b)[1..] == a[1..] + b;
      SavedFilesAppend(a[1..], b);
    } else {
      assert a + b == b;
    }
  }

  /** The sticky's embeds: the original message's, then one image embed
      per re-hosted file. */
  function StickyEmbeds(original: seq<Embed>, files: seq<string>): (es: seq<Embed>)
    ensures |es| == |original| + |files|
    ensures es[..|original|] == original
    ensures forall i :: 0 <= i < |files| ==> es[|original| + i] == Embed(Some(files[i]), "")
  {
    original + seq(|files|, i requires 0 <= i < |files| => Embed(Some(files[i]), ""))
  }

  // ---------------------------------------------------------------------
  // Stop, start, remove, list

  const MsgNoSticky := "No sticky in this channel."

  /** `handleStickyStop` (`active` false) and `handleStickyStart`
      (`active` true): only the flag changes. */
  function SetActive(channels: map<Id, Sticky>, channel: Id, active: bool): (r: (map<Id, Sticky>, string))
    ensures channel !in channels ==> r == (channels, MsgNoSticky)
    ensures channel in channels ==>
      r.0 == channels[channel := channels[channel].(active := active)] &&
      r.1 == (if active then "Sticky resumed." else "Sticky paused.")
  {
    if channel !in channels then (channels, MsgNoSticky)
    else (channels[channel := channels[channel].(active := active)], if active then "Sticky resumed." else "Sticky paused.")
  }

  /** Pausing and resuming an active sticky leaves it as it was. */
  lemma StopThenStart(channels: map<Id, Sticky>, channel: Id)
    requires channel in channels && channels[channel].active
    ensures SetActive(SetActive(channels, channel, false).0, channel, true).0 == channels
  {
  }

  /** `handleStickyRemove`: the sticky is deleted, along with its last
      posted message when there is one (the second result). */
  function Remove(channels: map<Id, Sticky>, channel: Id): (r: (map<Id, Sticky>, Option<Id>, string))
    ensures channel !in channels ==> r == (channels, None, MsgNoSticky)
    ensures channel in channels ==> r.0 == channels - {channel} && r.2 == "Sticky removed."
    ensures channel in channels ==> (r.1.Some? <==> channels[channel].lastMessage != 0)
  {
    if channel !in channels then (channels, None, MsgNoSticky)
    else
      var s := channels[channel];
      (channels - {channel}, if s.lastMessage != 0 then Some(s.lastMessage) else None, "Sticky removed.")
  }

  const PreviewLen := 50

  /** The bytes of "...". */
  const Ellipsis: seq<Byte> := [46, 46, 46]

  /** The list's preview of a sticky's content, by byte: the first 50
      bytes and "..." when it is longer. */
  function Preview(content: seq<Byte>): (p: seq<Byte>)
    ensures |content| <= PreviewLen ==> p == content
    ensures |content| > PreviewLen ==> |p| == PreviewLen + 3 && p[..PreviewLen] == content[..PreviewLen]
    ensures |content| > PreviewLen ==> p[PreviewLen..] == Ellipsis
    ensures |p| <= PreviewLen + 3
  {
    if |content| > PreviewLen then content[..PreviewLen] + Ellipsis else content
  }
}

=== FILE: store.dfy ===
/** The Go profile store (pkg/s3client): a bucket of JSON profile documents
    and uploaded images, fronted by an in-process profile cache.

    The bucket is modelled by its contents; every request to it takes an
    `ok` flag saying whether the request went through (network or service
    failures are the `false` case). JSON encoding is the identity. The cache
    is a map; the LRU capacity only decides WHICH entries are present, which
    `CacheEvict` models as dropping an arbitrary entry. */
module Store {
  import opened Base
  import opened Text
  import opened Escape
  import opened Profiles

  datatype Client = Client(
    bucket: string,
    endpoint: string,
    objects: map<string, Profile>,  // profile documents by storage key
    images: map<string, string>,    // uploaded images by storage key, with their content type
    cache: map<string, Profile>)    // profile cache by CacheKey

  /** `ErrNotFound`, or another failure wrapped with what was being done. */
  datatype StoreError = NotFound | Failed(context: string)

  /** What fetching the user's image URL produced: the URL validator refused
      it, the download or read failed, or the body was sniffed as `contentType`
      (Go's `http.DetectContentType`). */
  datatype Download = Invalid | Unreachable | Sniffed(contentType: string)

  /** The messages `getImageS3URL` can have for the user; `NoticeText` is
      what the user reads. */
  datatype Notice = UrlInvalid | UrlUnreachable | NotAnImage(contentType: string) | UploadFailed

  const ProfileSaved := "The rest of your profile has been saved."

  /** Every notice but the content-type one ends by telling the user the
      rest of the profile was saved. */
  function NoticeText(n: Notice): (t: string)
    ensures !n.NotAnImage? ==> HasSuffix(t, ProfileSaved)
  {
    match n
    case UrlInvalid =>
      var head := "The URL provided is not valid. Make sure it's a publicly accessible image URL and try again. ";
      ConcatEnds(head, ProfileSaved);
      head + ProfileSaved
    case UrlUnreachable =>
      var head := "Unable to fetch from the URL provided, make sure it's an image and try again. ";
      ConcatEnds(head, ProfileSaved);
      head + ProfileSaved
    case NotAnImage(ct) =>
      "It looks like you uploaded a " + ct + ", but we can only use images. " + ProfileSaved + " If this looked like a gif, discord probably used a mp4."
    case UploadFailed =>
      var head := "Unable to save image. ";
      ConcatEnds(head, ProfileSaved);
      head + ProfileSaved
  }

  /** `New`: the four settings are required, and checked in this order. The
      bucket's current contents (`objects`, `images`) are whatever is already
      stored there; only the cache starts empty. */
  function New(env: map<string, string>, objects: map<string, Profile>, images: map<string, string>): (r: Result<Client, string>)
    ensures r.Success? <==>
      Lookup(env, "S3_KEY", "") != "" && Lookup(env, "S3_SECRET", "") != "" &&
      Lookup(env, "S3_ENDPOINT", "") != "" && Lookup(env, "S3_BUCKET", "") != ""
    ensures r.Success? ==> r.value.endpoint == env["S3_ENDPOINT"] && r.value.bucket == env["S3_BUCKET"]
    ensures r.Success? ==> r.value.cache == map[] && r.value.objects == objects && r.value.images == images
    // the first missing setting is reported by name
    ensures Lookup(env, "S3_KEY", "") == "" ==> r == Failure("S3_KEY env var is undefined")
    ensures Lookup(env, "S3_KEY", "") != "" && Lookup(env, "S3_SECRET", "") == "" ==> r == Failure("S3_SECRET env var is undefined")
    ensures Lookup(env, "S3_KEY", "") != "" && Lookup(env, "S3_SECRET", "") != "" && Lookup(env, "S3_ENDPOINT", "") == "" ==>
      r == Failure("S3_ENDPOINT env var is undefined")
    ensures (Lookup(env, "S3_KEY", "") != "" && Lookup(env, "S3_SECRET", "") != "" &&
             Lookup(env, "S3_ENDPOINT", "") != "" && Lookup(env, "S3_BUCKET", "") == "") ==>
      r == Failure("S3_BUCKET env var is undefined")
  {
    if Lookup(env, "S3_KEY", "") == "" then Failure("S3_KEY env var is undefined")
    else if Lookup(env, "S3_SECRET", "") == "" then Failure("S3_SECRET env var is undefined")
    else if Lookup(env, "S3_ENDPOINT", "") == "" then Failure("S3_ENDPOINT env var is undefined")
    else if Lookup(env, "S3_BUCKET", "") == "" then Failure("S3_BUCKET env var is undefined")
    else Success(Client(env["S3_BUCKET"], env["S3_ENDPOINT"], objects, images, map[]))
  }

  // -------------------------------------------------------------------
  // Cache coherence: every cached profile is the stored document.

  /** The invariant the cache keeps: whatever is cached under a profile's
      key is exactly the document stored for that profile. */
  ghost predicate Coherent(c: Client) {
    forall t: string, g: string, u: string {:trigger CacheKey(t, g, u)} ::
      Segment(t) && Segment(g) && CacheKey(t, g, u) in c.cache ==>
        ProfileS3Path(g, t, u) in c.objects && c.objects[ProfileS3Path(g, t, u)] == c.cache[CacheKey(t, g, u)]
  }

  /** A fresh client (empty cache) is coherent, whatever the bucket holds. */
  lemma NewCoherent(env: map<string, string>, objects: map<string, Profile>, images: map<string, string>)
    requires New(env, objects, images).Success?
    ensures Coherent(New(env, objects, images).value)
  {
  }

  /** Dropping a cache entry (LRU capacity eviction) keeps coherence. */
  function CacheEvict(c: Client, key: string): (c': Client)
    ensures c'.cache.Keys == c.cache.Keys - {key}
    ensures Coherent(c) ==> Coherent(c')
  {
    c.(cache := c.cache - {key})
  }

  /** Writing `p` both to the store and the cache for one profile keeps coherence. */
  lemma WriteBothCoherent(c: Client, t: string, g: string, u: string, p: Profile)
    requires Coherent(c) && Segment(t) && Segment(g)
    ensures Coherent(c.(objects := c.objects[ProfileS3Path(g, t, u) := p],
                        cache := c.cache[CacheKey(t, g, u) := p]))
  {
    var c' := c.(objects := c.objects[ProfileS3Path(g, t, u) := p], cache := c.cache[CacheKey(t, g, u) := p]);
    forall t2: string, g2: string, u2: string | Segment(t2) && Segment(g2) && CacheKey(t2, g2, u2) in c'.cache
      ensures ProfileS3Path(g2, t2, u2) in c'.objects && c'.objects[ProfileS3Path(g2, t2, u2)] == c'.cache[CacheKey(t2, g2, u2)]
    {
      if CacheKey(t2, g2, u2) == CacheKey(t, g, u) {
        CacheKeyInjective(t2, g2, u2, t, g, u);
      } else if ProfileS3Path(g2, t2, u2) == ProfileS3Path(g, t, u) {
        ProfileS3PathInjective(g2, t2, u2, g, t, u);
      }
    }
  }

  /** Removing one profile's cache entry and then its document keeps coherence. */
  lemma RemoveBothCoherent(c: Client, t: string, g: string, u: string)
    requires Coherent(c) && Segment(t) && Segment(g)
    ensures Coherent(c.(objects := c.objects - {ProfileS3Path(g, t, u)},
                        cache := c.cache - {CacheKey(t, g, u)}))
  {
    var c' := c.(objects := c.objects - {ProfileS3Path(g, t, u)}, cache := c.cache - {CacheKey(t, g, u)});
    forall t2: string, g2: string, u2: string | Segment(t2) && Segment(g2) && CacheKey(t2, g2, u2) in c'.cache
      ensures ProfileS3Path(g2, t2, u2) in c'.objects && c'.objects[ProfileS3Path(g2, t2, u2)] == c'.cache[CacheKey(t2, g2, u2)]
    {
      if ProfileS3Path(g2, t2, u2) == ProfileS3Path(g, t, u) {
        ProfileS3PathInjective(g2, t2, u2, g, t, u);
      }
    }
  }

  // -------------------------------------------------------------------
  // Fetch

  datatype Fetch = Fetch(client: Client, result: Result<Profile, StoreError>)

  /** `FetchProfile`: a cached profile is returned without touching the bucket
      or the cache; otherwise the document is read and, when found, cached.
      The caller gets a value, so nothing it does to the result can reach the
      cache (the Go code copies the map for the same reason). */
  function FetchProfile(c: Client, tmpl: Template, guild: string, user: string, getOk: bool): (r: Fetch)
    ensures CacheKey(tmpl.name, guild, user) in c.cache ==>
      r == Fetch(c, Success(c.cache[CacheKey(tmpl.name, guild, user)]))
    ensures CacheKey(tmpl.name, guild, user) !in c.cache && !getOk ==>
      r == Fetch(c, Failure(Failed("fetching profile from s3")))
    ensures CacheKey(tmpl.name, guild, user) !in c.cache && getOk && ProfileS3Path(guild, tmpl.name, user) !in c.objects ==>
      r == Fetch(c, Failure(NotFound))
    ensures r.result.Success? ==> ProfileS3Path(guild, tmpl.name, user) in c.objects || CacheKey(tmpl.name, guild, user) in c.cache
    ensures r.client.objects == c.objects && r.client.images == c.images
    ensures r.result.Success? ==> r.client.cache == c.cache[CacheKey(tmpl.name, guild, user) := r.result.value]
    ensures r.result.Failure? ==> r.client == c
  {
    var key := CacheKey(tmpl.name, guild, user);
    var path := ProfileS3Path(guild, tmpl.name, user);
    if key in c.cache then Fetch(c, Success(c.cache[key]))
    else if !getOk then Fetch(c, Failure(Failed("fetching profile from s3")))
    else if path !in c.objects then Fetch(c, Failure(NotFound))
    else Fetch(c.(cache := c.cache[key := c.objects[path]]), Success(c.objects[path]))
  }

  /** On a coherent client a successful fetch returns the stored document,
      whether it came from the cache or the bucket, and coherence is kept. */
  lemma FetchReturnsStored(c: Client, tmpl: Template, guild: string, user: string, getOk: bool)
    requires Coherent(c) && Segment(tmpl.name) && Segment(guild)
    ensures var r := FetchProfile(c, tmpl, guild, user, getOk);
      Coherent(r.client) &&
      (r.result.Success? ==> ProfileS3Path(guild, tmpl.name, user) in c.objects &&
                             r.result.value == c.objects[ProfileS3Path(guild, tmpl.name, user)]) &&
      (r.result == Failure(NotFound) ==> ProfileS3Path(guild, tmpl.name, user) !in c.objects)
  {
    var r := FetchProfile(c, tmpl, guild, user, getOk);
    assert CacheKey(tmpl.name, guild, user) in c.cache ==> ProfileS3Path(guild, tmpl.name, user) in c.objects;
    if r.result.Success? && CacheKey(tmpl.name, guild, user) !in c.cache {
      WriteBothCoherent(c, tmpl.name, guild, user, r.result.value);
      assert c.objects[ProfileS3Path(guild, tmpl.name, user) := r.result.value] == c.objects;
    }
  }

  /** `FetchProfileSimple` (used by the web server): the bucket only, no cache. */
  function FetchProfileSimple(c: Client, guild: string, tmpl: string, user: string, getOk: bool): (r: Result<Profile, StoreError>)
    ensures r.Success? <==> getOk && ProfileS3Path(guild, tmpl, user) in c.objects
    ensures r.Success? ==> r.value == c.objects[ProfileS3Path(guild, tmpl, user)]
    ensures r == Failure(NotFound) <==> getOk && ProfileS3Path(guild, tmpl, user) !in c.objects
  {
    var path := ProfileS3Path(guild, tmpl, user);
    if !getOk then Failure(Failed("fetching profile from s3"))
    else if path !in c.objects then Failure(NotFound)
    else Success(c.objects[path])
  }

  // -------------------------------------------------------------------
  // Image relocation

  /** The file extension for a sniffed image content type. */
  function ImageExtension(ct: string): (ext: string)
    ensures ext in {"jpg", "png", "gif", "webp", "bmp", "bin"}
    ensures ext == "bin" <==> ct !in {"image/jpeg", "image/png", "image/gif", "image/webp", "image/bmp"}
  {
    if ct == "image/jpeg" then "jpg"
    else if ct == "image/png" then "png"
    else if ct == "image/gif" then "gif"
    else if ct == "image/webp" then "webp"
    else if ct == "image/bmp" then "bmp"
    else "bin"
  }

  /** What `getImageS3URL` decided: a message for the user, or a hosted URL,
      or neither (no image given). */
  datatype Relocation = Relocation(client: Client, userErr: Option<Notice>, url: string)

  /** The profile names an image that is not hosted by us yet, so
      `getImageS3URL` validates and downloads it. */
  predicate ForeignImage(c: Client, tmpl: Template, profile: Profile) {
    tmpl.image in profile && profile[tmpl.image] != "" && !HasPrefix(profile[tmpl.image], c.endpoint)
  }

  /** `getImageS3URL`. */
  function RelocateImage(c: Client, tmpl: Template, guild: string, user: string, profile: Profile,
                         dl: Download, putOk: bool): (r: Relocation)
    // at most one of the two answers is given
    ensures r.userErr.None? || r.url == ""
    // only images are written, and only to this profile's image key
    ensures r.client.objects == c.objects && r.client.cache == c.cache && r.client.bucket == c.bucket && r.client.endpoint == c.endpoint
    ensures r.client.images.Keys <= c.images.Keys + {ImageS3Path(guild, tmpl.name, user, ImageExtension(if dl.Sniffed? then dl.contentType else ""))}
    // no image given
    ensures (tmpl.image !in profile || profile[tmpl.image] == "") ==> r == Relocation(c, None, "")
    // already hosted by us: kept as it is
    ensures tmpl.image in profile && profile[tmpl.image] != "" && HasPrefix(profile[tmpl.image], c.endpoint) ==>
      r == Relocation(c, None, profile[tmpl.image])
    // a foreign URL that is invalid, unreachable or not an image is refused with its own message
    ensures ForeignImage(c, tmpl, profile) && dl.Invalid? ==> r == Relocation(c, Some(UrlInvalid), "")
    ensures ForeignImage(c, tmpl, profile) && dl.Unreachable? ==> r == Relocation(c, Some(UrlUnreachable), "")
    ensures ForeignImage(c, tmpl, profile) && dl.Sniffed? && !HasPrefix(dl.contentType, "image/") ==>
      r == Relocation(c, Some(NotAnImage(dl.contentType)), "")
    // a foreign image is uploaded under this profile's image key and its bucket URL returned
    ensures ForeignImage(c, tmpl, profile) && dl.Sniffed? && HasPrefix(dl.contentType, "image/") && putOk ==>
      r.userErr.None? &&
      r.url == BuildS3Url(c.endpoint, c.bucket, ImageS3Path(guild, tmpl.name, user, ImageExtension(dl.contentType))) &&
      r.client == c.(images := c.images[ImageS3Path(guild, tmpl.name, user, ImageExtension(dl.contentType)) := dl.contentType])
    // a failed upload is reported, with nothing stored
    ensures ForeignImage(c, tmpl, profile) && dl.Sniffed? && HasPrefix(dl.contentType, "image/") && !putOk ==>
      r == Relocation(c, Some(UploadFailed), "")
  {
    var raw := if tmpl.image in profile then profile[tmpl.image] else "";
    if raw == "" then Relocation(c, None, "")
    else if HasPrefix(raw, c.endpoint) then Relocation(c, None, raw)
    else match dl
      case Invalid => Relocation(c, Some(UrlInvalid), "")
      case Unreachable => Relocation(c, Some(UrlUnreachable), "")
      case Sniffed(ct) =>
        if !HasPrefix(ct, "image/") then Relocation(c, Some(NotAnImage(ct)), "")
        else
          var path := ImageS3Path(guild, tmpl.name, user, ImageExtension(ct));
          if !putOk then Relocation(c, Some(UploadFailed), "")
          else Relocation(c.(images := c.images[path := ct]), None, BuildS3Url(c.endpoint, c.bucket, path))
  }

  /** An endpoint that does not end in "//" starts every bucket URL built on it. */
  lemma EndpointStartsUrls(endpoint: string, bucket: string, key: string)
    requires !HasSuffix(endpoint, "//")
    ensures HasPrefix(BuildS3Url(endpoint, bucket, key), endpoint)
  {
    var t := TrimTrailingSlashes(endpoint);
    var u := BuildS3Url(endpoint, bucket, key);
    assert HasPrefix(u, t + "/") by { assert (t + "/" + bucket + "/")[..|t| + 1] == t + "/"; }
    if |t| < |endpoint| {
      assert endpoint == t + "/";
    } else {
      assert endpoint == t;
    }
  }

  /** A relocated image is hosted by us: saving the relocated URL again keeps
      it as it is and uploads nothing (for an endpoint that does not end in
      "//"). */
  lemma RelocatedIsHosted(c: Client, tmpl: Template, guild: string, user: string, profile: Profile,
                          dl: Download, putOk: bool, dl2: Download, putOk2: bool)
    requires !HasSuffix(c.endpoint, "//")
    ensures var r := RelocateImage(c, tmpl, guild, user, profile, dl, putOk);
      r.url != "" ==>
        RelocateImage(r.client, tmpl, guild, user, profile[tmpl.image := r.url], dl2, putOk2) == Relocation(r.client, None, r.url)
  {
    var r := RelocateImage(c, tmpl, guild, user, profile, dl, putOk);
    if r.url != "" && ForeignImage(c, tmpl, profile) {
      EndpointStartsUrls(c.endpoint, c.bucket, ImageS3Path(guild, tmpl.name, user, ImageExtension(dl.contentType)));
    }
  }

  // -------------------------------------------------------------------
  // Save

  datatype Save = Save(client: Client, webUrl: string, userErr: Option<Notice>, err: Option<StoreError>)

  /** The image value `SaveProfile` writes: the relocated URL; on a refused
      image, the previously saved one when there was a non-empty one;
      otherwise nothing. */
  function ChosenImage(relocated: string, userErr: Option<Notice>, previous: Option<Profile>, image: string): (r: Option<string>)
    ensures r.Some? ==> r.value != "" || relocated == ""
    ensures relocated != "" ==> r == Some(relocated)
    ensures relocated == "" && userErr.None? ==> r == None
    ensures relocated == "" && userErr.Some? && r.Some? ==>
      previous.Some? && image in previous.value && r.value == previous.value[image] != ""
  {
    if relocated != "" then Some(relocated)
    else if userErr.Some? && previous.Some? && image in previous.value && previous.value[image] != "" then Some(previous.value[image])
    else None
  }

  /** `profile` with its image field set to `img`, or removed. */
  function WithImage(profile: Profile, image: string, img: Option<string>): (r: Profile)
    ensures forall k :: k != image ==> (k in r <==> k in profile) && (k in profile ==> r[k] == profile[k])
    ensures img.Some? ==> image in r && r[image] == img.value
    ensures img.None? ==> image !in r
  {
    if img.Some? then profile[image := img.value] else profile - {image}
  }

  /** The previous document `SaveProfile` consults: only when the image was
      refused, through `FetchProfile` (which may cache what it read). */
  function PreviousForSave(c: Client, tmpl: Template, guild: string, user: string, rel: Relocation, getOk: bool): (r: Fetch)
    ensures r.client.objects == c.objects
    ensures !(rel.url == "" && rel.userErr.Some?) ==> r == Fetch(c, Failure(NotFound))
  {
    if rel.url == "" && rel.userErr.Some? then FetchProfile(c, tmpl, guild, user, getOk)
    else Fetch(c, Failure(NotFound))
  }

  /** The document `SaveProfile` writes. */
  function SavedDocument(profile: Profile, tmpl: Template, rel: Relocation, previous: Fetch): (doc: Profile)
    ensures forall k :: k != tmpl.image ==> (k in doc <==> k in profile) && (k in profile ==> doc[k] == profile[k])
    ensures rel.url != "" ==> tmpl.image in doc && doc[tmpl.image] == rel.url
    ensures rel.url == "" && rel.userErr.None? ==> tmpl.image !in doc
  {
    var prev := if previous.result.Success? then Some(previous.result.value) else None;
    WithImage(profile, tmpl.image, ChosenImage(rel.url, rel.userErr, prev, tmpl.image))
  }

  /** `SaveProfile`: relocate the image, decide the image field, write the
      document, cache it, and return the profile link and any message for
      the user. A failed write reports only the error. */
  function SaveProfile(c: Client, tmpl: Template, guild: string, user: string, profile: Profile,
                       dl: Download, imagePutOk: bool, getOk: bool, putOk: bool): (r: Save)
    ensures r.err.None? <==> putOk
    ensures !putOk ==>
      r.webUrl == "" && r.userErr.None? && r.err == Some(Failed("saving profile to s3")) && r.client.objects == c.objects
    ensures putOk ==>
      var rel := RelocateImage(c, tmpl, guild, user, profile, dl, imagePutOk);
      var doc := SavedDocument(profile, tmpl, rel, PreviousForSave(rel.client, tmpl, guild, user, rel, getOk));
      r.client.objects == c.objects[ProfileS3Path(guild, tmpl.name, user) := doc] &&
      CacheKey(tmpl.name, guild, user) in r.client.cache && r.client.cache[CacheKey(tmpl.name, guild, user)] == doc &&
      r.webUrl == ProfileLink(c.bucket, guild, tmpl.name, user) &&
      r.userErr == rel.userErr
  {
    var rel := RelocateImage(c, tmpl, guild, user, profile, dl, imagePutOk);
    var previous := PreviousForSave(rel.client, tmpl, guild, user, rel, getOk);
    var doc := SavedDocument(profile, tmpl, rel, previous);
    var c2 := previous.client;
    if !putOk then Save(c2, "", None, Some(Failed("saving profile to s3")))
    else
      var c3 := c2.(objects := c2.objects[ProfileS3Path(guild, tmpl.name, user) := doc],
                    cache := c2.cache[CacheKey(tmpl.name, guild, user) := doc]);
      Save(c3, ProfileLink(c.bucket, guild, tmpl.name, user), rel.userErr, None)
  }

  /** A user message does not stop the save: the document is written and
      cached, and the message comes back with no error. */
  lemma SaveWithUserError(c: Client, tmpl: Template, guild: string, user: string, profile: Profile,
                          dl: Download, imagePutOk: bool, getOk: bool)
    requires RelocateImage(c, tmpl, guild, user, profile, dl, imagePutOk).userErr.Some?
    ensures var r := SaveProfile(c, tmpl, guild, user, profile, dl, imagePutOk, getOk, true);
      r.err.None? && r.userErr.Some? && ProfileS3Path(guild, tmpl.name, user) in r.client.objects &&
      r.client.cache[CacheKey(tmpl.name, guild, user)] == r.client.objects[ProfileS3Path(guild, tmpl.name, user)]
  {
  }

  /** A save keeps the cache coherent, whether or not the write went through. */
  lemma SaveCoherent(c: Client, tmpl: Template, guild: string, user: string, profile: Profile,
                     dl: Download, imagePutOk: bool, getOk: bool, putOk: bool)
    requires Coherent(c) && Segment(tmpl.name) && Segment(guild)
    ensures Coherent(SaveProfile(c, tmpl, guild, user, profile, dl, imagePutOk, getOk, putOk).client)
  {
    var rel := RelocateImage(c, tmpl, guild, user, profile, dl, imagePutOk);
    assert Coherent(rel.client);
    FetchReturnsStored(rel.client, tmpl, guild, user, getOk);
    var previous := PreviousForSave(rel.client, tmpl, guild, user, rel, getOk);
    var doc := SavedDocument(profile, tmpl, rel, previous);
    if putOk {
      WriteBothCoherent(previous.client, tmpl.name, guild, user, doc);
    }
  }

  /** A refused image keeps the image of the previously saved document when
      it had a non-empty one (and the lookup went through). */
  lemma SaveKeepsPreviousImage(c: Client, tmpl: Template, guild: string, user: string, profile: Profile,
                               dl: Download, getOk: bool)
    requires Coherent(c) && Segment(tmpl.name) && Segment(guild) && getOk
    requires tmpl.image in profile && profile[tmpl.image] != "" && !HasPrefix(profile[tmpl.image], c.endpoint)
    requires dl.Invalid? || dl.Unreachable? || (dl.Sniffed? && !HasPrefix(dl.contentType, "image/"))
    requires ProfileS3Path(guild, tmpl.name, user) in c.objects
    requires var prev := c.objects[ProfileS3Path(guild, tmpl.name, user)]; tmpl.image in prev && prev[tmpl.image] != ""
    ensures var r := SaveProfile(c, tmpl, guild, user, profile, dl, true, getOk, true);
      r.userErr.Some? &&
      r.client.objects[ProfileS3Path(guild, tmpl.name, user)][tmpl.image] == c.objects[ProfileS3Path(guild, tmpl.name, user)][tmpl.image]
  {
    FetchReturnsStored(c, tmpl, guild, user, getOk);
  }

  /** Once a save went through, fetching the same profile returns exactly the
      document that was written. */
  lemma SaveThenFetch(c: Client, tmpl: Template, guild: string, user: string, profile: Profile,
                      dl: Download, imagePutOk: bool, getOk: bool, getOk2: bool)
    requires Coherent(c) && Segment(tmpl.name) && Segment(guild)
    ensures var s := SaveProfile(c, tmpl, guild, user, profile, dl, imagePutOk, getOk, true);
      FetchProfile(s.client, tmpl, guild, user, getOk2).result ==
        Success(s.client.objects[ProfileS3Path(guild, tmpl.name, user)])
  {
  }

  // -------------------------------------------------------------------
  // Delete

  datatype Delete = Delete(client: Client, err: Option<StoreError>)

  /** `DeleteProfile`: the cache entry goes first, whatever the bucket then says. */
  function DeleteProfile(c: Client, tmpl: Template, guild: string, user: string, deleteOk: bool): (r: Delete)
    ensures CacheKey(tmpl.name, guild, user) !in r.client.cache
    ensures r.client.cache == c.cache - {CacheKey(tmpl.name, guild, user)}
    ensures r.err.None? <==> deleteOk
    ensures deleteOk ==> r.client.objects == c.objects - {ProfileS3Path(guild, tmpl.name, user)}
    ensures !deleteOk ==> r.client.objects == c.objects && r.err == Some(Failed("deleting profile from s3"))
  {
    var c1 := c.(cache := c.cache - {CacheKey(tmpl.name, guild, user)});
    if deleteOk then Delete(c1.(objects := c1.objects - {ProfileS3Path(guild, tmpl.name, user)}), None)
    else Delete(c1, Some(Failed("deleting profile from s3")))
  }

  /** A delete keeps the cache coherent even when the bucket refuses it, and
      a successful one makes later fetches report not-found. */
  lemma DeleteCoherent(c: Client, tmpl: Template, guild: string, user: string, deleteOk: bool, getOk: bool)
    requires Coherent(c) && Segment(tmpl.name) && Segment(guild)
    ensures Coherent(DeleteProfile(c, tmpl, guild, user, deleteOk).client)
    ensures deleteOk && getOk ==>
      FetchProfile(DeleteProfile(c, tmpl, guild, user, deleteOk).client, tmpl, guild, user, getOk).result == Failure(NotFound)
  {
    RemoveBothCoherent(c, tmpl.name, guild, user);
    var c1 := c.(cache := c.cache - {CacheKey(tmpl.name, guild, user)});
    forall t2: string, g2: string, u2: string | Segment(t2) && Segment(g2) && CacheKey(t2, g2, u2) in c1.cache
      ensures ProfileS3Path(g2, t2, u2) in c1.objects && c1.objects[ProfileS3Path(g2, t2, u2)] == c1.cache[CacheKey(t2, g2, u2)]
    {
    }
  }
}

=== FILE: text.dfy ===
/** String helpers with the meaning of Go's `strings` and `strconv` functions
    the bot relies on, restricted to what the bot's inputs need: ASCII case
    folding, Unicode white space, base-10 integers. */
module Text {
  import opened Base

  // ---------------------------------------------------------------------
  // Prefixes, suffixes, substrings

  predicate HasPrefix(s: string, p: string) {
    |p| <= |s| && s[..|p|] == p
  }

  predicate HasSuffix(s: string, p: string) {
    |p| <= |s| && s[|s| - |p|..] == p
  }

  /** A concatenation starts with its first part and ends with its second. */
  lemma ConcatEnds(a: string, b: string)
    ensures HasPrefix(a + b, a) && HasSuffix(a + b, b)
  {
    assert (a + b)[..|a|] == a;
    assert (a + b)[|a|..] == b;
  }

  /** `strings.TrimPrefix`: drops `p` once when `s` starts with it. */
  function TrimPrefix(s: string, p: string): (r: string)
    ensures HasPrefix(s, p) ==> p + r == s
    ensures !HasPrefix(s, p) ==> r == s
  {
    if HasPrefix(s, p) then s[|p|..] else s
  }

  /** `strings.TrimSuffix`: drops `p` once when `s` ends with it. */
  function TrimSuffix(s: string, p: string): (r: string)
    ensures HasSuffix(s, p) ==> r + p == s
    ensures !HasSuffix(s, p) ==> r == s
  {
    if HasSuffix(s, p) then s[..|s| - |p|] else s
  }

  predicate OccursAt(s: string, sub: string, i: int) {
    0 <= i && i + |sub| <= |s| && s[i..i + |sub|] == sub
  }

  /** `strings.Contains` (and Python's `in` on strings). */
  predicate Contains(s: string, sub: string) {
    exists i | 0 <= i <= |s| - |sub| :: OccursAt(s, sub, i)
  }

  lemma ContainsSelf(s: string)
    ensures Contains(s, s) && Contains(s, "")
  {
    assert OccursAt(s, s, 0);
    assert OccursAt(s, "", 0);
  }

  // ---------------------------------------------------------------------
  // Case and white space

  function LowerChar(c: char): char {
    if 'A' <= c <= 'Z' then (c as int + 32) as char else c
  }

  /** `strings.ToLower` on ASCII letters; every other character is kept. */
  function ToLower(s: string): (r: string)
    ensures |r| == |s|
    ensures forall i :: 0 <= i < |s| ==> r[i] == LowerChar(s[i])
  {
    seq(|s|, i requires 0 <= i < |s| => LowerChar(s[i]))
  }

  /** `unicode.IsSpace`: the Latin-1 spaces, and beyond them the characters
      with Unicode's White_Space property. */
  predicate IsSpace(c: char) {
    c == ' ' || ('\t' <= c <= '\r') || c == '\U{0085}' || c == '\U{00A0}' ||
    c == '\U{1680}' || ('\U{2000}' <= c <= '\U{200A}') || c == '\U{2028}' || c == '\U{2029}' ||
    c == '\U{202F}' || c == '\U{205F}' || c == '\U{3000}'
  }

  /** `strings.TrimSpace(s) == ""`: nothing but white space. */
  predicate IsBlank(s: string) {
    forall i :: 0 <= i < |s| ==> IsSpace(s[i])
  }

  /** Removes every occurrence of the characters in `drop`. */
  function RemoveChars(s: string, drop: set<char>): (r: string)
    ensures forall i :: 0 <= i < |r| ==> r[i] !in drop
    ensures |r| <= |s|
  {
    if |s| == 0 then ""
    else if s[0] in drop then RemoveChars(s[1..], drop)
    else [s[0]] + RemoveChars(s[1..], drop)
  }

  /** Characters outside `drop` survive, in order. */
  lemma {:induction false} RemoveCharsKeeps(s: string, drop: set<char>)
    ensures (forall i :: 0 <= i < |s| ==> s[i] !in drop) ==> RemoveChars(s, drop) == s
  {
    if |s| > 0 {
      RemoveCharsKeeps(s[1..], drop);
      if forall i :: 0 <= i < |s| ==> s[i] !in drop {
        assert forall i :: 0 <= i < |s[1..]| ==> s[1..][i] == s[i + 1];
      }
    }
  }

  // ---------------------------------------------------------------------
  // Splitting and joining

  function IndexOf(s: string, c: char): (r: Option<nat>)
    ensures r.Some? ==> r.value < |s| && s[r.value] == c && c !in s[..r.value]
    ensures r.None? ==> c !in s
  {
    if |s| == 0 then None
    else if s[0] == c then Some(0)
    else match IndexOf(s[1..], c)
      case None => None
      case Some(k) => assert s[..k + 1] == [s[0]] + s[1..][..k]; Some(k + 1)
  }

  /** `strings.SplitN(s, sep, 2)` for a one-character separator: the parts
      before and after the first separator, or `[s]` when there is none. */
  function SplitOnce(s: string, sep: char): (parts: seq<string>)
    ensures 1 <= |parts| <= 2
    ensures |parts| == 1 <==> sep !in s
    ensures |parts| == 1 ==> parts[0] == s
    ensures |parts| == 2 ==> parts[0] + [sep] + parts[1] == s && sep !in parts[0]
  {
    match IndexOf(s, sep)
    case None => [s]
    case Some(k) =>
      assert s == s[..k] + [sep] + s[k + 1..];
      [s[..k], s[k + 1..]]
  }

  /** Splitting `a + [sep] + b` at the first `sep`, when `a` has none, gives back `a` and `b`. */
  lemma SplitOnceJoin(a: string, sep: char, b: string)
    requires sep !in a
    ensures SplitOnce(a + [sep] + b, sep) == [a, b]
  {
    var s := a + [sep] + b;
    var parts := SplitOnce(s, sep);
    assert s[|a|] == sep;
    assert |parts| == 2;
    SlashFree(parts[0], parts[1], a, b, sep);
  }

  /** A separator-free head is determined by the string it heads. */
  lemma SlashFree(a1: string, b1: string, a2: string, b2: string, sep: char)
    requires sep !in a1 && sep !in a2
    requires a1 + [sep] + b1 == a2 + [sep] + b2
    ensures a1 == a2 && b1 == b2
  {
    var s := a1 + [sep] + b1;
    assert forall i :: 0 <= i < |a1| ==> s[i] != sep;
    assert forall i :: 0 <= i < |a2| ==> s[i] == a2[i] != sep;
    assert s[|a1|] == sep && s[|a2|] == sep;
    assert |a1| == |a2|;
    assert a1 == s[..|a1|] == a2;
    assert b1 == s[|a1| + 1..] == b2;
  }

  /** `strings.Split` for a one-character separator: the pieces between
      separators, at least one. */
  function Split(s: string, sep: char): (parts: seq<string>)
    ensures |parts| >= 1
    ensures forall i :: 0 <= i < |parts| ==> sep !in parts[i]
    decreases |s|
  {
    var once := SplitOnce(s, sep);
    if |once| == 1 then [s]
    else
      assert |once[1]| < |s| by {
        assert |once[0] + [sep] + once[1]| == |s|;
      }
      [once[0]] + Split(once[1], sep)
  }

  /** `strings.Join`. */
  function Join(parts: seq<string>, sep: string): (r: string)
    ensures |parts| == 0 ==> r == ""
    ensures |parts| == 1 ==> r == parts[0]
  {
    if |parts| == 0 then ""
    else if |parts| == 1 then parts[0]
    else parts[0] + sep + Join(parts[1..], sep)
  }

  // ---------------------------------------------------------------------
  // Base-10 integers

  predicate IsDigit(c: char) {
    '0' <= c <= '9'
  }

  predicate AllDigits(s: string) {
    forall i :: 0 <= i < |s| ==> IsDigit(s[i])
  }

  function DigitChar(d: nat): (c: char)
    requires d < 10
    ensures IsDigit(c) && c as int - '0' as int == d
  {
    ('0' as int + d) as char
  }

  /** `strconv.FormatUint` / `%d` of a non-negative number: shortest
      decimal form, no leading zero. */
  function NatToString(n: nat): (s: string)
    ensures |s| >= 1 && AllDigits(s)
    ensures n > 0 ==> s[0] != '0'
  {
    if n < 10 then [DigitChar(n)] else NatToString(n / 10) + [DigitChar(n % 10)]
  }

  /** `%d` of a Go int. */
  function IntToString(i: int): (s: string)
    ensures |s| >= 1
    ensures i < 0 <==> s[0] == '-'
  {
    if i < 0 then "-" + NatToString(-i) else NatToString(i)
  }

  /** The number a string of decimal digits denotes (leading zeros allowed). */
  function DigitsValue(s: string): nat
    requires AllDigits(s)
  {
    if |s| == 0 then 0
    else DigitsValue(s[..|s| - 1]) * 10 + (s[|s| - 1] as int - '0' as int)
  }

  lemma {:induction false} DigitsValueOfNatToString(n: nat)
    ensures DigitsValue(NatToString(n)) == n
  {
    if n >= 10 {
      var s := NatToString(n);
      assert s[..|s| - 1] == NatToString(n / 10);
      DigitsValueOfNatToString(n / 10);
    }
  }

  /** Printing is injective: distinct numbers have distinct decimal forms. */
  lemma NatToStringInjective(m: nat, n: nat)
    requires NatToString(m) == NatToString(n)
    ensures m == n
  {
    DigitsValueOfNatToString(m);
    DigitsValueOfNatToString(n);
  }

  /** `%d` is injective on `int`. */
  lemma IntToStringInjective(s: int, t: int)
    requires IntToString(s) == IntToString(t)
    ensures s == t
  {
    var a := IntToString(s);
    if s < 0 {
      assert a[1..] == NatToString(-s) == NatToString(-t);
      NatToStringInjective(-s, -t);
    } else {
      NatToStringInjective(s, t);
    }
  }

  /** `strconv.ParseUint(s, 10, 64)`, which is how a snowflake ID is parsed:
      one or more digits, no sign, value within 64 bits. */
  function ParseUint64(s: string): (r: Option<nat>)
    ensures r.Some? <==> |s| > 0 && AllDigits(s) && DigitsValue(s) <= MaxUint64
    ensures r.Some? ==> r.value == DigitsValue(s)
  {
    if |s| > 0 && AllDigits(s) && DigitsValue(s) <= MaxUint64 then Some(DigitsValue(s)) else None
  }

  /** Every 64-bit number survives printing and parsing. */
  lemma ParseUint64OfNatToString(n: nat)
    requires n <= MaxUint64
    ensures ParseUint64(NatToString(n)) == Some(n)
  {
    DigitsValueOfNatToString(n);
  }

  /** `strconv.Atoi`: an optional sign, then one or more digits, with the
      value inside the 64-bit `int` range. */
  function Atoi(s: string): (r: Option<int>)
    ensures r.Some? ==> |s| > 0 && MinInt64 <= r.value <= MaxInt64
    ensures r.Some? && r.value < 0 ==> s[0] == '-'
  {
    var neg := |s| > 0 && s[0] == '-';
    var digits := if |s| > 0 && (s[0] == '+' || s[0] == '-') then s[1..] else s;
    if |digits| == 0 || !AllDigits(digits) then None
    else
      var magnitude: int := DigitsValue(digits);
      var v := if neg then 0 - magnitude else magnitude;
      if MinInt64 <= v <= MaxInt64 then Some(v) else None
  }

  /** Every `int` survives `%d` followed by `Atoi`. */
  lemma AtoiOfIntToString(i: int)
    requires MinInt64 <= i <= MaxInt64
    ensures Atoi(IntToString(i)) == Some(i)
  {
    var s := IntToString(i);
    if i < 0 {
      assert s[1..] == NatToString(-i);
      DigitsValueOfNatToString(-i);
    } else {
      DigitsValueOfNatToString(i);
    }
  }

  // ---------------------------------------------------------------------
  // Ordering

  /** Go's `<` on strings. Go compares bytes; for valid UTF-8 that is the
      same as comparing code points, which is what this does. */
  predicate LexLess(a: string, b: string) {
    if |a| == 0 then |b| > 0
    else if |b| == 0 then false
    else a[0] < b[0] || (a[0] == b[0] && LexLess(a[1..], b[1..]))
  }

  lemma {:induction false} LexIrreflexive(a: string)
    ensures !LexLess(a, a)
  {
    if |a| > 0 {
      LexIrreflexive(a[1..]);
    }
  }

  lemma {:induction false} LexTransitive(a: string, b: string, c: string)
    requires LexLess(a, b) && LexLess(b, c)
    ensures LexLess(a, c)
  {
    if |a| > 0 && a[0] == b[0] && b[0] == c[0] {
      LexTransitive(a[1..], b[1..], c[1..]);
    }
  }

  /** Any two different strings are ordered one way or the other. */
  lemma {:induction false} LexTotal(a: string, b: string)
    requires a != b
    ensures LexLess(a, b) || LexLess(b, a)
  {
    if |a| > 0 && |b| > 0 && a[0] == b[0] {
      assert a == [a[0]] + a[1..] && b == [b[0]] + b[1..];
      LexTotal(a[1..], b[1..]);
    }
  }

  // ---------------------------------------------------------------------
  // Splitting what was joined

  /** Splitting pieces joined by a separator none of them contains gives
      the pieces back. */
  lemma {:induction false} SplitJoin(parts: seq<string>, sep: char)
    requires |parts| >= 1
    requires forall i :: 0 <= i < |parts| ==> sep !in parts[i]
    ensures Split(Join(parts, [sep]), sep) == parts
  {
    if |parts| == 1 {
      assert Join(parts, [sep]) == parts[0];
    } else {
      var rest := Join(parts[1..], [sep]);
      assert Join(parts, [sep]) == parts[0] + [sep] + rest;
      SplitOnceJoin(parts[0], sep, rest);
      SplitJoin(parts[1..], sep);
      assert parts == [parts[0]] + parts[1..];
    }
  }
}

=== FILE: threadbot.dfy ===
/** The thread-reminder bot (pkg/threadbot): the enable and disable
    commands, the defaults applied to saved reminders, and the list of
    active threads it posts. One guild's reminders are modelled, keyed by
    channel; Discord calls and the clock are parameters. */
module ThreadBot {
  import opened Base
  import opened Text
  import opened Escape

  type Id = nat

  /** A saved reminder. The time of the last post is left out. */
  datatype Reminder = Reminder(channel: Id, guild: Id, enabledBy: Id, enabled: bool, lastMessage: Id,
                               minIdleMins: int, maxIdleMins: int, msgThreshold: int, timeThresholdMins: int)

  // ---------------------------------------------------------------------
  // Enable and disable

  const DefaultMinIdle := 30
  const DefaultMaxIdle := 720
  const DefaultMsgThreshold := 500
  const DefaultTimeThreshold := 720

  /** The command's options; Discord enforces their minimum values (0, 1,
      0 and 0). */
  datatype Options = Options(minIdle: Option<nat>, maxIdle: Option<nat>, msgThreshold: Option<nat>, timeThreshold: Option<nat>)

  const MsgBothZero := "At least one of msg_threshold or time_threshold must be > 0."
  const MsgNoReminder := "No thread reminder in this channel."
  const MsgDisabled := "Thread reminders disabled."

  function MsgIdleOrder(maxIdle: int, minIdle: int): string {
    "max_idle (" + IntToString(maxIdle) + ") must be greater than min_idle (" + IntToString(minIdle) + ")."
  }

  function MsgEnabled(r: Reminder): string {
    "Thread reminders enabled in <#" + NatToString(r.channel) + ">. Idle: " + IntToString(r.minIdleMins) +
    "–" + IntToString(r.maxIdleMins) + " min, msg threshold: " + IntToString(r.msgThreshold) +
    ", time threshold: " + IntToString(r.timeThresholdMins) + " min."
  }

  /** What `handleEnable` accepts: the maximum idle time above the
      minimum, and at least one of the two thresholds set. */
  predicate ValidSettings(minIdle: int, maxIdle: int, msgThreshold: int, timeThreshold: int) {
    maxIdle > minIdle && !(msgThreshold == 0 && timeThreshold == 0)
  }

  /** `handleEnable`: missing options take their defaults; an accepted
      request replaces whatever reminder the channel had. */
  function Enable(reminders: map<Id, Reminder>, guild: Id, channel: Id, user: Id, opts: Options): (r: (map<Id, Reminder>, string))
    ensures var minIdle := opts.minIdle.GetOr(DefaultMinIdle);
      var maxIdle := opts.maxIdle.GetOr(DefaultMaxIdle);
      var msg := opts.msgThreshold.GetOr(DefaultMsgThreshold);
      var time := opts.timeThreshold.GetOr(DefaultTimeThreshold);
      (!ValidSettings(minIdle, maxIdle, msg, time) ==> r.0 == reminders) &&
      (maxIdle <= minIdle ==> r.1 == MsgIdleOrder(maxIdle, minIdle)) &&
      (maxIdle > minIdle && msg == 0 && time == 0 ==> r.1 == MsgBothZero) &&
      (ValidSettings(minIdle, maxIdle, msg, time) ==>
        r.0 == reminders[channel := Reminder(channel, guild, user, true, 0, minIdle, maxIdle, msg, time)] &&
        r.1 == MsgEnabled(r.0[channel]))
  {
    var minIdle := opts.minIdle.GetOr(DefaultMinIdle);
    var maxIdle := opts.maxIdle.GetOr(DefaultMaxIdle);
    var msg := opts.msgThreshold.GetOr(DefaultMsgThreshold);
    var time := opts.timeThreshold.GetOr(DefaultTimeThreshold);
    if maxIdle <= minIdle then (reminders, MsgIdleOrder(maxIdle, minIdle))
    else if msg == 0 && time == 0 then (reminders, MsgBothZero)
    else
      var rem := Reminder(channel, guild, user, true, 0, minIdle, maxIdle, msg, time);
      (reminders[channel := rem], MsgEnabled(rem))
  }

  /** With no options the defaults are accepted: 30 to 720 idle minutes,
      500 messages, 720 minutes. */
  lemma EnableDefaults(reminders: map<Id, Reminder>, guild: Id, channel: Id, user: Id)
    ensures var r := Enable(reminders, guild, channel, user, Options(None, None, None, None));
      channel in r.0 && r.0[channel].minIdleMins == 30 && r.0[channel].maxIdleMins == 720 &&
      r.0[channel].msgThreshold == 500 && r.0[channel].timeThresholdMins == 720
  {
  }

  /** `handleDisable`: the reminder is deleted, along with its last posted
      message when there is one (the message to delete is the second
      result). */
  function Disable(reminders: map<Id, Reminder>, channel: Id): (r: (map<Id, Reminder>, Option<Id>, string))
    ensures channel !in reminders ==> r == (reminders, None, MsgNoReminder)
    ensures channel in reminders ==> r.0 == reminders - {channel} && r.2 == MsgDisabled
    ensures channel in reminders ==> (r.1.Some? <==> reminders[channel].lastMessage != 0)
  {
    if channel !in reminders then (reminders, None, MsgNoReminder)
    else
      var rem := reminders[channel];
      (reminders - {channel}, if rem.lastMessage != 0 then Some(rem.lastMessage) else None, MsgDisabled)
  }

  /** Enabling a channel that had no reminder and disabling it again
      leaves the guild's reminders as they were. */
  lemma EnableThenDisable(reminders: map<Id, Reminder>, guild: Id, channel: Id, user: Id, opts: Options)
    requires channel !in reminders
    ensures Disable(Enable(reminders, guild, channel, user, opts).0, channel).0 == reminders
  {
    var e := Enable(reminders, guild, channel, user, opts).0;
    if channel in e {
      assert e - {channel} == reminders;
    }
  }

  // ---------------------------------------------------------------------
  // Defaults on load

  /** `applyDefaults`, run on every reminder loaded from storage: a zero
      minimum idle time, maximum idle time or message threshold becomes
      30, 720 and 30. */
  function ApplyDefaults(r: Reminder): (d: Reminder)
    ensures d.minIdleMins == (if r.minIdleMins == 0 then 30 else r.minIdleMins)
    ensures d.maxIdleMins == (if r.maxIdleMins == 0 then 720 else r.maxIdleMins)
    ensures d.msgThreshold == (if r.msgThreshold == 0 then 30 else r.msgThreshold)
    ensures d.(minIdleMins := r.minIdleMins, maxIdleMins := r.maxIdleMins, msgThreshold := r.msgThreshold) == r
  {
    r.(minIdleMins := if r.minIdleMins == 0 then 30 else r.minIdleMins,
       maxIdleMins := if r.maxIdleMins == 0 then 720 else r.maxIdleMins,
       msgThreshold := if r.msgThreshold == 0 then 30 else r.msgThreshold)
  }

  lemma ApplyDefaultsIdempotent(r: Reminder)
    ensures ApplyDefaults(ApplyDefaults(r)) == ApplyDefaults(r)
  {
  }

  /** As written, a reminder enabled with only a time threshold (message
      threshold 0, which `handleEnable` accepts) comes back from a restart
      with a message threshold of 30; one enabled with a minimum idle time
      of 0 and a maximum of 10 comes back with its minimum above its
      maximum. */
  lemma ReloadChangesSettings(reminders: map<Id, Reminder>)
    ensures var r := Enable(reminders, 1, 2, 3, Options(None, None, Some(0), None)).0[2];
      r.msgThreshold == 0 && ApplyDefaults(r).msgThreshold == 30
    ensures var r := Enable(reminders, 1, 2, 3, Options(Some(0), Some(10), None, None)).0[2];
      ValidSettings(r.minIdleMins, r.maxIdleMins, r.msgThreshold, r.timeThresholdMins) &&
      ApplyDefaults(r).minIdleMins > ApplyDefaults(r).maxIdleMins
  {
  }

  /** Corrected defaults: a reminder whose settings `handleEnable` could
      have accepted is loaded as saved; only one that it could not have
      saved (an older record with missing fields) gets the defaults. */
  function ApplyDefaultsFixed(r: Reminder): (d: Reminder)
    ensures ValidSettings(r.minIdleMins, r.maxIdleMins, r.msgThreshold, r.timeThresholdMins) ==> d == r
    ensures !ValidSettings(r.minIdleMins, r.maxIdleMins, r.msgThreshold, r.timeThresholdMins) ==> d == ApplyDefaults(r)
  {
    if ValidSettings(r.minIdleMins, r.maxIdleMins, r.msgThreshold, r.timeThresholdMins) then r else ApplyDefaults(r)
  }

  /** Corrected: every reminder `handleEnable` saves survives a restart
      unchanged. */
  lemma EnableSurvivesReload(reminders: map<Id, Reminder>, guild: Id, channel: Id, user: Id, opts: Options)
    ensures var e := Enable(reminders, guild, channel, user, opts).0;
      e != reminders ==> channel in e && ApplyDefaultsFixed(e[channel]) == e[channel]
  {
  }

  // ---------------------------------------------------------------------
  // Ages

  const MinuteNs: int := 60 * 1000000000
  const HourNs: int := 60 * MinuteNs
  const DayNs: int := 24 * HourNs

  /** `formatAge` of a duration in nanoseconds (floating-point rounding
      left out). */
  function FormatAge(d: int): (r: string)
    ensures HasSuffix(r, " day") || HasSuffix(r, " days") || HasSuffix(r, " hour") || HasSuffix(r, " hours") ||
            HasSuffix(r, " min") || HasSuffix(r, " mins")
    ensures |r| > 0 && IsDigit(r[0])
  {
    if d >= DayNs then
      var days := d / DayNs;
      if days == 1 then "1 day" else NatToString(days) + " days"
    else if d >= HourNs then
      var hours := d / HourNs;
      if hours == 1 then "1 hour" else NatToString(hours) + " hours"
    else
      var mins := if d >= 0 then d / MinuteNs else -((-d) / MinuteNs);
      if mins <= 1 then "1 min" else NatToString(mins) + " mins"
  }

  /** The age names the largest whole unit that fits, in the singular
      exactly for one, and anything under two minutes (including a
      creation time in the future) reads "1 min". */
  lemma FormatAgeUnits(d: int)
    ensures d >= 2 * DayNs ==> FormatAge(d) == NatToString(d / DayNs) + " days" && d / DayNs >= 2
    ensures DayNs <= d < 2 * DayNs ==> FormatAge(d) == "1 day"
    ensures 2 * HourNs <= d < DayNs ==> FormatAge(d) == NatToString(d / HourNs) + " hours" && 2 <= d / HourNs < 24
    ensures HourNs <= d < 2 * HourNs ==> FormatAge(d) == "1 hour"
    ensures 2 * MinuteNs <= d < HourNs ==> FormatAge(d) == NatToString(d / MinuteNs) + " mins" && 2 <= d / MinuteNs < 60
    ensures d < 2 * MinuteNs ==> FormatAge(d) == "1 min"
  {
    if d >= 2 * DayNs {
      DivAtLeastLocal(d, DayNs, 2);
    } else if DayNs <= d {
      DivBelow(d, DayNs, 2);
      DivAtLeastLocal(d, DayNs, 1);
    } else if d >= HourNs {
      DivAtLeastLocal(d, HourNs, 1);
      DivAtLeastLocal(d, HourNs, 2);
      DivBelow(d, HourNs, 24);
    } else if d >= 0 {
      DivAtLeastLocal(d, MinuteNs, 2);
      DivBelow(d, MinuteNs, 60);
    } else {
      assert (-d) / MinuteNs >= 0;
    }
  }

  lemma DivAtLeastLocal(a: int, b: int, n: int)
    requires a >= 0 && b > 0 && n >= 0
    ensures a / b >= n <==> a >= n * b
  {
    var q := a / b;
    assert a == q * b + a % b;
    if q >= n {
      MulLe(n, q, b);
    } else {
      MulLe(q + 1, n, b);
    }
  }

  lemma DivBelow(a: int, b: int, n: int)
    requires a >= 0 && b > 0 && a < n * b
    ensures a / b < n
  {
    DivAtLeastLocal(a, b, n);
  }

  // ---------------------------------------------------------------------
  // The thread list

  /** An active thread as the list sees it; `age` is the time since its
      creation, in nanoseconds. */
  datatype Thread = Thread(name: string, id: Id, parent: Option<Id>, archived: bool,
                           messageCount: int, memberCount: int, age: int)

  const MaxShown := 10
  const MaxDescLen := 3900

  /** The threads listed for a channel: not archived and under it. */
  function Eligible(threads: seq<Thread>, channel: Id): (r: seq<Thread>)
    ensures forall t :: t in r <==> t in threads && !t.archived && t.parent == Some(channel)
    ensures |r| <= |threads|
  {
    if |threads| == 0 then []
    else
      var rest := Eligible(threads[1..], channel);
      assert forall t :: t in threads <==> t == threads[0] || t in threads[1..];
      if !threads[0].archived && threads[0].parent == Some(channel) then [threads[0]] + rest else rest
  }

  predicate ByMessages(s: seq<Thread>) {
    forall i, j :: 0 <= i < j < |s| ==> s[i].messageCount >= s[j].messageCount
  }

  /** Inserts one thread after every thread with more messages. */
  function InsertByMessages(t: Thread, s: seq<Thread>): (r: seq<Thread>)
    requires ByMessages(s)
    ensures ByMessages(r)
    ensures multiset(r) == multiset(s) + multiset{t}
  {
    if |s| == 0 then [t]
    else if t.messageCount >= s[0].messageCount then
      ConsByMessages(t, s);
      [t] + s
    else
      var rest := InsertByMessages(t, s[1..]);
      assert s == [s[0]] + s[1..];
      HeadBoundsInsert(s[0], s[1..], t, rest);
      ConsByMessages(s[0], rest);
      [s[0]] + rest
  }

  /** A thread with at least as many messages as the head of a sorted list
      (or as all of its threads) can go in front of it. */
  lemma ConsByMessages(h: Thread, rest: seq<Thread>)
    requires ByMessages(rest)
    requires |rest| > 0 ==> rest[0].messageCount <= h.messageCount
    ensures ByMessages([h] + rest)
  {
    var r := [h] + rest;
    forall i, j | 0 <= i < j < |r| ensures r[i].messageCount >= r[j].messageCount {
      if i == 0 {
        assert r[j] == rest[j - 1];
      } else {
        assert r[i] == rest[i - 1] && r[j] == rest[j - 1];
      }
    }
  }

  /** A thread with at least as many messages as every thread of `tail` and
      as `t` has at least as many as every thread of their merge. */
  lemma HeadBoundsInsert(h: Thread, tail: seq<Thread>, t: Thread, rest: seq<Thread>)
    requires forall j :: 0 <= j < |tail| ==> tail[j].messageCount <= h.messageCount
    requires t.messageCount <= h.messageCount
    requires multiset(rest) == multiset(tail) + multiset{t}
    ensures forall i :: 0 <= i < |rest| ==> rest[i].messageCount <= h.messageCount
  {
    forall i | 0 <= i < |rest| ensures rest[i].messageCount <= h.messageCount {
      assert rest[i] in multiset(rest);
      if rest[i] != t {
        assert rest[i] in multiset(tail);
        var k :| 0 <= k < |tail| && tail[k] == rest[i];
      }
    }
  }

  /** The `sort.Slice` by descending message count (ties in some order). */
  function SortByMessages(s: seq<Thread>): (r: seq<Thread>)
    ensures ByMessages(r)
    ensures multiset(r) == multiset(s)
  {
    if |s| == 0 then []
    else
      assert s == [s[0]] + s[1..];
      InsertByMessages(s[0], SortByMessages(s[1..]))
  }

  /** The member count shown: the refreshed count when there is a positive
      one, else the one Discord sent with the thread. */
  function MemberCount(t: Thread, cache: map<Id, int>): (n: int)
    ensures t.id in cache && cache[t.id] > 0 ==> n == cache[t.id]
    ensures !(t.id in cache && cache[t.id] > 0) ==> n == t.memberCount
  {
    if t.id in cache && cache[t.id] > 0 then cache[t.id] else t.memberCount
  }

  function ThreadLine(t: Thread, guild: Id, cache: map<Id, int>): string {
    "- [" + t.name + "](https://discord.com/channels/" + NatToString(guild) + "/" + NatToString(t.id) + ") — " +
    IntToString(t.messageCount) + " msgs, " + IntToString(MemberCount(t, cache)) + " members, " +
    FormatAge(t.age) + " old\n"
  }

  /** The lines that fit: lines are added in order while the description
      stays within `budget` bytes, and the first line that does not fit
      ends the list. */
  function TakeWithin(lines: seq<string>, budget: int): (r: seq<string>)
    ensures |r| <= |lines| && r == lines[..|r|]
    ensures ByteLen(ConcatLines(r)) <= budget || r == []
    ensures |r| < |lines| ==> ByteLen(ConcatLines(r)) + ByteLen(lines[|r|]) > budget
  {
    if |lines| == 0 || ByteLen(lines[0]) > budget then []
    else
      var rest := TakeWithin(lines[1..], budget - ByteLen(lines[0]));
      ByteLenConcat(lines[0], ConcatLines(rest));
      assert [lines[0]] + rest == lines[..1 + |rest|];
      [lines[0]] + rest
  }

  function ConcatLines(lines: seq<string>): string {
    if |lines| == 0 then "" else lines[0] + ConcatLines(lines[1..])
  }

  lemma ByteLenConcat(a: string, b: string)
    ensures ByteLen(a + b) == ByteLen(a) + ByteLen(b)
  {
    Utf8BytesAppend(a, b);
  }

  /** `buildThreadEmbed`'s description: `None` when the thread listing
      failed or the channel has no active thread. At most ten threads,
      most messages first, within 3900 bytes, and a closing "...and N
      more threads" line exactly when there are more than ten. */
  function ThreadList(listing: Option<seq<Thread>>, guild: Id, channel: Id, cache: map<Id, int>): (r: Option<(string, nat)>)
    ensures listing.None? ==> r.None?
    ensures listing.Some? ==> (r.None? <==> Eligible(listing.value, channel) == [])
    ensures r.Some? ==> r.value.1 == |Eligible(listing.value, channel)|
    ensures r.Some? && r.value.1 <= MaxShown ==> ByteLen(r.value.0) <= MaxDescLen
    ensures r.Some? ==> exists sorted ::
      multiset(sorted) == multiset(Eligible(listing.value, channel)) && ByMessages(sorted) &&
      r.value.0 == ListDescription(sorted, guild, cache)
  {
    if listing.None? then None
    else
      var threads := Eligible(listing.value, channel);
      if threads == [] then None
      else
        var sorted := SortByMessages(threads);
        var total := |sorted|;
        assert total == |threads| by { assert |multiset(sorted)| == |multiset(threads)|; }
        Some((ListDescription(sorted, guild, cache), total))
  }

  /** The description of the list: the first ten threads' lines that fit,
      and the count of the threads not shown. */
  function ListDescription(sorted: seq<Thread>, guild: Id, cache: map<Id, int>): (d: string)
    ensures |sorted| <= MaxShown ==> d == ShownLines(sorted, guild, cache)
    ensures |sorted| > MaxShown ==> d == ShownLines(sorted[..MaxShown], guild, cache) + MoreLine(|sorted|)
    ensures |sorted| <= MaxShown ==> ByteLen(d) <= MaxDescLen
    ensures |sorted| > MaxShown ==>
      var more := MoreLine(|sorted|);
      |more| <= |d| && d[|d| - |more|..] == more && ByteLen(d[..|d| - |more|]) <= MaxDescLen
  {
    var shown := if |sorted| > MaxShown then sorted[..MaxShown] else sorted;
    var body := ShownLines(shown, guild, cache);
    if |sorted| > MaxShown then
      var d := body + MoreLine(|sorted|);
      assert d[..|body|] == body;
      d
    else body
  }

  /** One line per thread, in the order given. */
  function ThreadLines(shown: seq<Thread>, guild: Id, cache: map<Id, int>): (lines: seq<string>)
    ensures |lines| == |shown|
    ensures forall i :: 0 <= i < |shown| ==> lines[i] == ThreadLine(shown[i], guild, cache)
  {
    seq(|shown|, i requires 0 <= i < |shown| => ThreadLine(shown[i], guild, cache))
  }

  /** How many of the shown threads get their line: the longest run from
      the first whose lines fit in 3900 bytes, since the first line that
      would overflow ends the list. */
  function ShownCount(shown: seq<Thread>, guild: Id, cache: map<Id, int>): (k: nat)
    ensures k <= |shown|
    ensures ByteLen(ConcatLines(ThreadLines(shown, guild, cache)[..k])) <= MaxDescLen
    ensures k < |shown| ==>
      ByteLen(ConcatLines(ThreadLines(shown, guild, cache)[..k])) + ByteLen(ThreadLine(shown[k], guild, cache)) > MaxDescLen
  {
    var taken := TakeWithin(ThreadLines(shown, guild, cache), MaxDescLen);
    assert ConcatLines([]) == "" && Utf8Bytes("") == [];
    |taken|
  }

  /** The lines of the shown threads that fit in the budget. */
  function ShownLines(shown: seq<Thread>, guild: Id, cache: map<Id, int>): (body: string)
    ensures body == ConcatLines(ThreadLines(shown, guild, cache)[..ShownCount(shown, guild, cache)])
    ensures ByteLen(body) <= MaxDescLen
  {
    ConcatLines(TakeWithin(ThreadLines(shown, guild, cache), MaxDescLen))
  }

  /** The description lists the shown threads in order: the line of the
      `i`-th thread follows the lines of the threads before it. */
  lemma {:induction false} ShownInOrder(shown: seq<Thread>, guild: Id, cache: map<Id, int>, i: nat)
    requires i < ShownCount(shown, guild, cache)
    ensures var lines := ThreadLines(shown, guild, cache)[..ShownCount(shown, guild, cache)];
      ShownLines(shown, guild, cache) == ConcatLines(lines[..i]) + ThreadLine(shown[i], guild, cache) + ConcatLines(lines[i + 1..])
  {
    var lines := ThreadLines(shown, guild, cache)[..ShownCount(shown, guild, cache)];
    ConcatSplit(lines, i);
  }

  lemma {:induction false} ConcatSplit(lines: seq<string>, i: nat)
    requires i < |lines|
    ensures ConcatLines(lines) == ConcatLines(lines[..i]) + lines[i] + ConcatLines(lines[i + 1..])
    decreases i
  {
    if i > 0 {
      ConcatSplit(lines[1..], i - 1);
      assert lines[1..][..i - 1] == lines[1..i];
      assert lines[1..][i - 1] == lines[i];
      assert lines[1..][i..] == lines[i + 1..];
      assert lines[..i][1..] == lines[1..i];
    }
  }

  function MoreLine(total: nat): string
    requires total > MaxShown
  {
    "...and " + NatToString(total - MaxShown) + " more threads\n"
  }
}

=== FILE: tickets.dfy ===
/** Support tickets, pkg/bot/tickets.go: a per-guild counter that numbers
    private "ticket-N" threads, and the panel message whose button opens
    one. Storage and Discord calls are parameters. */
module Tickets {
  import opened Base
  import opened Text
  import opened Escape
  import opened Components

  /** `ticketConfig` (the IDs that matter here, the offset and the texts). */
  datatype Config = Config(channel: nat, staffRole: nat, counterOffset: int, panelMessage: string,
                           panelButtonLabel: string, ticketIntro: string, closeButtonLabel: string)

  // ---------------------------------------------------------------------
  // The counter

  /** What the store gave back for a guild's ticket file: nothing saved,
      a failed fetch, or a document whose `counter` was read (`None` when
      it did not decode or had no counter). */
  datatype Stored = Missing | FetchFailed | Saved(counter: Option<int>)

  /** The counter `loadTickets` starts a guild with: a saved counter of at
      least 1 is kept, and everything else starts at 1. */
  function LoadCounter(s: Stored): (c: int)
    ensures c >= 1
    ensures !(s.Saved? && s.counter.Some? && s.counter.value >= 1) ==> c == 1
    ensures s.Saved? && s.counter.Some? && s.counter.value >= 1 ==> c == s.counter.value
  {
    var c := if s.Saved? && s.counter.Some? then s.counter.value else 1;
    if c < 1 then 1 else c
  }

  /** The name of ticket number `n`. */
  function ThreadName(n: int): (r: string)
    ensures HasPrefix(r, "ticket-") && r[7..] == IntToString(n)
  {
    "ticket-" + IntToString(n)
  }

  /** Different ticket numbers give different thread names. */
  lemma ThreadNameInjective(m: int, n: int)
    requires ThreadName(m) == ThreadName(n)
    ensures m == n
  {
    assert ThreadName(m)[7..] == ThreadName(n)[7..];
    IntToStringInjective(m, n);
  }

  const MsgOpenFailed := "Something went wrong creating your ticket. Please try again."

  datatype Opened = Opened(counter: int, threadName: string, reply: string)

  /** `handleTicketOpen` once the guild's configuration and counter are
      found: the ticket takes number `counter + offset` and the counter
      moves on by one, whether or not Discord then creates the thread
      (`thread` is the new thread's ID, `None` when creation failed). */
  function Open(counter: int, cfg: Config, thread: Option<nat>): (r: Opened)
    ensures r.counter == counter + 1
    ensures r.threadName == ThreadName(counter + cfg.counterOffset)
    ensures thread.None? ==> r.reply == MsgOpenFailed
    ensures thread.Some? ==> r.reply == "Your ticket has been created: <#" + NatToString(thread.value) + ">"
  {
    var name := ThreadName(counter + cfg.counterOffset);
    match thread
    case None => Opened(counter + 1, name, MsgOpenFailed)
    case Some(id) =>
      Opened(counter + 1, name, "Your ticket has been created: <#" + NatToString(id) + ">")
  }

  /** The thread names of `k` tickets opened in a row, with the counter
      they leave behind. `threads` says which creations worked. */
  function OpenMany(counter: int, cfg: Config, threads: seq<Option<nat>>): (r: (seq<string>, int))
    ensures |r.0| == |threads|
    decreases |threads|
  {
    if |threads| == 0 then ([], counter)
    else
      var o := Open(counter, cfg, threads[0]);
      var rest := OpenMany(o.counter, cfg, threads[1..]);
      ([o.threadName] + rest.0, rest.1)
  }

  /** Tickets opened in a row are numbered consecutively from the
      counter plus the offset, and the counter ends up advanced by the
      number of tickets. */
  lemma {:induction false} OpenManyNumbers(counter: int, cfg: Config, threads: seq<Option<nat>>)
    ensures OpenMany(counter, cfg, threads).1 == counter + |threads|
    ensures forall i :: 0 <= i < |threads| ==>
      OpenMany(counter, cfg, threads).0[i] == ThreadName(counter + cfg.counterOffset + i)
    decreases |threads|
  {
    if |threads| > 0 {
      var o := Open(counter, cfg, threads[0]);
      var rest := OpenMany(counter + 1, cfg, threads[1..]);
      var all := OpenMany(counter, cfg, threads);
      assert all == ([o.threadName] + rest.0, rest.1);
      OpenManyNumbers(counter + 1, cfg, threads[1..]);
      forall i | 0 <= i < |threads|
        ensures all.0[i] == ThreadName(counter + cfg.counterOffset + i)
      {
        if i > 0 {
          assert all.0[i] == rest.0[i - 1];
          assert counter + 1 + cfg.counterOffset + (i - 1) == counter + cfg.counterOffset + i;
        }
      }
    }
  }

  /** No two tickets opened in a row share a thread name. */
  lemma OpenManyDistinct(counter: int, cfg: Config, threads: seq<Option<nat>>, i: nat, j: nat)
    requires i < j < |threads|
    ensures OpenMany(counter, cfg, threads).0[i] != OpenMany(counter, cfg, threads).0[j]
  {
    OpenManyNumbers(counter, cfg, threads);
    if ThreadName(counter + cfg.counterOffset + i) == ThreadName(counter + cfg.counterOffset + j) {
      ThreadNameInjective(counter + cfg.counterOffset + i, counter + cfg.counterOffset + j);
    }
  }

  /** A counter saved after tickets were opened comes back unchanged on
      the next load, so numbering continues after a restart. */
  lemma CounterSurvivesRestart(s: Stored, cfg: Config, threads: seq<Option<nat>>)
    ensures var after := OpenMany(LoadCounter(s), cfg, threads).1;
      LoadCounter(Saved(Some(after))) == after
  {
    OpenManyNumbers(LoadCounter(s), cfg, threads);
  }

  // ---------------------------------------------------------------------
  // The panel

  const OpenId := "ticket_open"
  const CloseId := "ticket_close"

  /** The panel emoji as written: the UTF-8 bytes of the ticket emoji
      read as Windows-1252, four characters. */
  const TicketEmojiAsWritten := "ðŸŽ«"
  /** The ticket emoji, U+1F3AB. */
  const TicketEmoji := "\U{1F3AB}"
  /** The close-button emoji as written, and the padlock, U+1F512. */
  const LockEmojiAsWritten := "ðŸ”’"
  const LockEmoji := "\U{1F512}"

  /** `ticketPanelButton` as written. */
  function PanelButtonAsWritten(cfg: Config): (b: Interactive)
    ensures b.Button? && b.customId == OpenId && b.emoji == Some(TicketEmojiAsWritten)
    ensures b.style == Primary && b.text == cfg.panelButtonLabel
  {
    Button(Primary, cfg.panelButtonLabel, OpenId, Some(TicketEmojiAsWritten))
  }

  /** The panel button with the ticket emoji itself. */
  function PanelButton(cfg: Config): (b: Interactive)
    ensures b.Button? && b.customId == OpenId && b.emoji == Some(TicketEmoji)
    ensures b.style == Primary && b.text == cfg.panelButtonLabel
  {
    Button(Primary, cfg.panelButtonLabel, OpenId, Some(TicketEmoji))
  }

  /** Both emoji literals are the intended emoji's bytes misread, and
      neither is the emoji. */
  lemma EmojiMojibake()
    ensures TicketEmojiAsWritten == Misread(TicketEmoji) && TicketEmojiAsWritten != TicketEmoji
    ensures LockEmojiAsWritten == Misread(LockEmoji) && LockEmojiAsWritten != LockEmoji
  {
    assert Utf8('\U{1F3AB}') == [0xF0, 0x9F, 0x8E, 0xAB];
    assert Utf8Bytes(TicketEmoji) == [0xF0, 0x9F, 0x8E, 0xAB];
    assert Utf8('\U{1F512}') == [0xF0, 0x9F, 0x94, 0x92];
    assert Utf8Bytes(LockEmoji) == [0xF0, 0x9F, 0x94, 0x92];
  }

  /** The button under each ticket's intro (and restored by "Cancel"). */
  function CloseButton(text: string): (b: Interactive)
    ensures b.Button? && b.style == Danger && b.customId == CloseId && b.emoji == Some(LockEmoji)
  {
    Button(Danger, text, CloseId, Some(LockEmoji))
  }

  /** The panel the bot posts: no content, the panel text as the one
      embed, and one row holding the open button. */
  function Panel(cfg: Config): (m: Message)
    ensures !PanelNeedsUpdate(m, cfg)
  {
    Message("", [cfg.panelMessage], [ActionRow([PanelButton(cfg)])])
  }

  /** `panelNeedsUpdate`, check by check. The custom ID is not compared. */
  function PanelNeedsUpdate(msg: Message, cfg: Config): (r: bool)
    ensures msg.content != "" || msg.embedDescriptions != [cfg.panelMessage] ==> r
    ensures |msg.components| != 1 ==> r
  {
    var want := PanelButton(cfg);
    if msg.content != "" then true
    else if |msg.embedDescriptions| != 1 || msg.embedDescriptions[0] != cfg.panelMessage then true
    else if |msg.components| != 1 then true
    else if !msg.components[0].ActionRow? || |msg.components[0].children| != 1 then true
    else if !msg.components[0].children[0].Button? then true
    else
      var btn := msg.components[0].children[0];
      if btn.text != want.text || btn.style != want.style then true
      else btn.emoji.None? || btn.emoji.value != want.emoji.value
  }

  /** A posted panel is current exactly when it is the bot's panel, up to
      the button's custom ID. */
  lemma PanelNeedsUpdateExactly(msg: Message, cfg: Config)
    ensures !PanelNeedsUpdate(msg, cfg) <==>
              exists id: string ::
                msg == Panel(cfg).(components := [ActionRow([PanelButton(cfg).(customId := id)])])
  {
    if !PanelNeedsUpdate(msg, cfg) {
      var id := msg.components[0].children[0].customId;
      assert msg.components[0].children == [PanelButton(cfg).(customId := id)];
      assert msg == Panel(cfg).(components := [ActionRow([PanelButton(cfg).(customId := id)])]);
    }
  }

  /** The panel the bot posts needs no update. */
  lemma PanelIsCurrent(cfg: Config)
    ensures !PanelNeedsUpdate(Panel(cfg), cfg)
  {
  }

  /** A message as the channel listing returns it. */
  datatype Posted = Posted(id: nat, author: nat, msg: Message)

  /** A message of the bot's holding a button with the open custom ID, in
      any action row. */
  predicate IsPanelFor(p: Posted, appId: nat) {
    p.author == appId &&
    exists k, c :: 0 <= k < |p.msg.components| && p.msg.components[k].ActionRow? &&
      0 <= c < |p.msg.components[k].children| &&
      p.msg.components[k].children[c].Button? && p.msg.components[k].children[c].customId == OpenId
  }

  /** Position `i` holds a panel and no earlier message is one. */
  predicate FirstPanelAt(messages: seq<Posted>, appId: nat, i: int) {
    0 <= i < |messages| && IsPanelFor(messages[i], appId) &&
    forall j :: 0 <= j < i ==> !IsPanelFor(messages[j], appId)
  }

  /** The first panel in the listing. */
  function FindPanel(messages: seq<Posted>, appId: nat): (r: Option<nat>)
    ensures r.Some? ==> r.value < |messages| && IsPanelFor(messages[r.value], appId)
    ensures r.Some? ==> forall j :: 0 <= j < r.value ==> !IsPanelFor(messages[j], appId)
    ensures r.None? ==> forall j :: 0 <= j < |messages| ==> !IsPanelFor(messages[j], appId)
  {
    if |messages| == 0 then None
    else if IsPanelFor(messages[0], appId) then Some(0)
    else
      match FindPanel(messages[1..], appId)
      case None => None
      case Some(i) => Some(i + 1)
  }

  datatype PanelAction = AlreadyCurrent | UpdatePanel(messageId: nat) | CreatePanel

  /** `ensureTicketPanel` given the channel's latest messages (`None`
      when fetching them failed, and nothing is done). */
  function EnsurePanel(messages: Option<seq<Posted>>, appId: nat, cfg: Config): (r: Option<PanelAction>)
    ensures messages.None? <==> r.None?
    ensures r == Some(CreatePanel) <==>
      messages.Some? && forall j :: 0 <= j < |messages.value| ==> !IsPanelFor(messages.value[j], appId)
    ensures r.Some? && r.value.UpdatePanel? ==>
      exists j :: 0 <= j < |messages.value| && messages.value[j].id == r.value.messageId &&
        IsPanelFor(messages.value[j], appId) && PanelNeedsUpdate(messages.value[j].msg, cfg)
    // the first panel in the listing decides: rewritten when it needs an update, else left alone
    ensures forall i :: messages.Some? && FirstPanelAt(messages.value, appId, i) ==>
      r == Some(if PanelNeedsUpdate(messages.value[i].msg, cfg) then UpdatePanel(messages.value[i].id) else AlreadyCurrent)
  {
    match messages
    case None => None
    case Some(ms) =>
      match FindPanel(ms, appId)
      case None => Some(CreatePanel)
      case Some(i) =>
        if PanelNeedsUpdate(ms[i].msg, cfg) then Some(UpdatePanel(ms[i].id)) else Some(AlreadyCurrent)
  }

  /** Once the panel is posted (or rewritten), the next start finds it
      current and leaves it alone. */
  lemma EnsureIdempotent(id: nat, appId: nat, cfg: Config, others: seq<Posted>)
    requires forall j :: 0 <= j < |others| ==> !IsPanelFor(others[j], appId)
    ensures EnsurePanel(Some(others + [Posted(id, appId, Panel(cfg))]), appId, cfg) == Some(AlreadyCurrent)
  {
    var ms := others + [Posted(id, appId, Panel(cfg))];
    assert Panel(cfg).components[0].children[0].customId == OpenId;
    assert IsPanelFor(ms[|others|], appId);
    assert forall j :: 0 <= j < |others| ==> ms[j] == others[j];
  }
}

=== FILE: topposters.dfy ===
/** The message-count leaderboard of pkg/bot/topposters.go: per-day,
    per-user counters, the seven-day pruning, and the ranked summary.
    Dates are the bot's "2006-01-02" strings and users are decimal IDs;
    Go's random map iteration order is modelled by arbitrary choice. */
module TopPosters {
  import opened Base
  import opened Text

  /** date -> user -> messages that day. */
  type Counts = map<string, map<string, int>>

  // ---------------------------------------------------------------------
  // Recording

  /** `onMessage`. `tracked` says the guild has a leaderboard configured
      and loaded; `memberRoles` is absent when Discord sent no member. */
  function OnMessage(counts: Counts, today: string, bot: bool, tracked: bool, targetRole: nat,
                     memberRoles: Option<seq<nat>>, author: nat): (r: Counts)
    ensures bot || !tracked || (targetRole != 0 && memberRoles.Some? && targetRole in memberRoles.value) ==>
      r == counts
    ensures !(bot || !tracked || (targetRole != 0 && memberRoles.Some? && targetRole in memberRoles.value)) ==>
      var user := NatToString(author);
      today in r && r.Keys == counts.Keys + {today} &&
      (forall d :: d in counts && d != today ==> r[d] == counts[d]) &&
      Lookup(r[today], user, 0) == Lookup(Lookup(counts, today, map[]), user, 0) + 1 &&
      r[today].Keys == Lookup(counts, today, map[]).Keys + {user} &&
      (forall u :: u in r[today] && u != user ==> r[today][u] == counts[today][u])
  {
    if bot || !tracked then counts
    else if targetRole != 0 && memberRoles.Some? && targetRole in memberRoles.value then counts
    else
      var user := NatToString(author);
      var day := Lookup(counts, today, map[]);
      counts[today := day[user := Lookup(day, user, 0) + 1]]
  }

  // ---------------------------------------------------------------------
  // Pruning and the oldest day

  /** `pruneOldDays`: drops the days strictly before the cutoff. */
  function PruneOldDays(counts: Counts, cutoff: string): (r: Counts)
    ensures forall d :: d in r <==> d in counts && !LexLess(d, cutoff)
    ensures forall d :: d in r ==> r[d] == counts[d]
  {
    map d | d in counts && !LexLess(d, cutoff) :: counts[d]
  }

  /** The cutoff day itself is kept, and pruning again changes nothing. */
  lemma PruneKeepsCutoff(counts: Counts, cutoff: string)
    ensures cutoff in counts ==> cutoff in PruneOldDays(counts, cutoff)
    ensures PruneOldDays(PruneOldDays(counts, cutoff), cutoff) == PruneOldDays(counts, cutoff)
  {
    LexIrreflexive(cutoff);
  }

  /** `oldestDate`, visiting the days in any order. With the bot's date
      keys, none of which is empty, the result does not depend on the
      order: it is the earliest day, or "" when there is none. */
  method OldestDate(counts: Counts) returns (oldest: string)
    ensures counts == map[] ==> oldest == ""
    ensures "" !in counts && counts != map[] ==>
      oldest in counts && forall d :: d in counts ==> !LexLess(d, oldest)
  {
    oldest := "";
    var remaining := counts.Keys;
    ghost var seen: set<string> := {};
    while remaining != {}
      invariant remaining <= counts.Keys && seen == counts.Keys - remaining
      invariant seen == {} ==> oldest == ""
      invariant "" !in counts && seen != {} ==>
        oldest in seen && forall d :: d in seen ==> !LexLess(d, oldest)
      decreases remaining
    {
      var d :| d in remaining;
      if oldest == "" || LexLess(d, oldest) {
        if "" !in counts && seen != {} {
          forall e | e in seen ensures !LexLess(e, d) {
            if LexLess(e, d) {
              LexTransitive(e, d, oldest);
            }
          }
        }
        LexIrreflexive(d);
        oldest := d;
      }
      remaining := remaining - {d};
      seen := seen + {d};
    }
    assert seen == counts.Keys;
  }

  // ---------------------------------------------------------------------
  // Totals

  /** A user's count on one day, zero when absent. */
  function DayCount(counts: Counts, d: string, u: string): int
    requires d in counts
  {
    Lookup(counts[d], u, 0)
  }

  /** A user's messages summed over a set of days: the reference the
      aggregation is checked against. */
  ghost function Total(counts: Counts, days: set<string>, u: string): int
    requires days <= counts.Keys
    decreases days
  {
    if days == {} then 0
    else
      var d :| d in days;
      DayCount(counts, d, u) + Total(counts, days - {d}, u)
  }

  /** The sum does not depend on which day is taken out first. */
  lemma {:induction false} TotalRemove(counts: Counts, days: set<string>, d: string, u: string)
    requires days <= counts.Keys && d in days
    ensures Total(counts, days, u) == DayCount(counts, d, u) + Total(counts, days - {d}, u)
    decreases days
  {
    var e :| e in days && Total(counts, days, u) == DayCount(counts, e, u) + Total(counts, days - {e}, u);
    if e != d {
      TotalRemove(counts, days - {e}, d, u);
      TotalRemove(counts, days - {d}, e, u);
      assert days - {e} - {d} == days - {d} - {e};
    }
  }

  /** Two count tables that agree on a set of days have the same sums
      over it. */
  lemma {:induction false} TotalAgree(c1: Counts, c2: Counts, days: set<string>, u: string)
    requires days <= c1.Keys && days <= c2.Keys
    requires forall d :: d in days ==> Lookup(c1[d], u, 0) == Lookup(c2[d], u, 0)
    ensures Total(c1, days, u) == Total(c2, days, u)
    decreases days
  {
    if days != {} {
      var d :| d in days;
      TotalRemove(c1, days, d, u);
      TotalRemove(c2, days, d, u);
      TotalAgree(c1, c2, days - {d}, u);
    }
  }

  /** One day folded into the running totals: the inner loop of
      `aggregateCounts`. */
  function AddDay(totals: map<string, int>, users: map<string, int>): (r: map<string, int>)
    ensures r.Keys == totals.Keys + users.Keys
    ensures forall u :: Lookup(r, u, 0) == Lookup(totals, u, 0) + Lookup(users, u, 0)
  {
    map u | u in totals.Keys + users.Keys :: Lookup(totals, u, 0) + Lookup(users, u, 0)
  }

  /** `aggregateCounts`: every user seen on some day, with the sum of
      their counts over all days. */
  method AggregateCounts(counts: Counts) returns (totals: map<string, int>)
    ensures forall u :: u in totals <==> exists d :: d in counts && u in counts[d]
    ensures forall u :: Lookup(totals, u, 0) == Total(counts, counts.Keys, u)
  {
    totals := map[];
    var remaining := counts.Keys;
    while remaining != {}
      invariant remaining <= counts.Keys
      invariant forall u :: u in totals <==> exists d :: d in counts.Keys - remaining && u in counts[d]
      invariant forall u :: Lookup(totals, u, 0) == Total(counts, counts.Keys - remaining, u)
      decreases remaining
    {
      var d :| d in remaining;
      var done := counts.Keys - remaining;
      totals := AddDay(totals, counts[d]);
      forall u ensures Total(counts, done + {d}, u) == DayCount(counts, d, u) + Total(counts, done, u) {
        TotalRemove(counts, done + {d}, d, u);
        assert done + {d} - {d} == done;
      }
      remaining := remaining - {d};
      assert counts.Keys - remaining == done + {d};
    }
    assert counts.Keys - remaining == counts.Keys;
  }

  /** Counting a message raises exactly its author's total, by one. */
  lemma OnMessageTotal(counts: Counts, today: string, targetRole: nat, memberRoles: Option<seq<nat>>,
                       author: nat, u: string)
    requires !(targetRole != 0 && memberRoles.Some? && targetRole in memberRoles.value)
    ensures var r := OnMessage(counts, today, false, true, targetRole, memberRoles, author);
      Total(r, r.Keys, u) == Total(counts, counts.Keys, u) + (if u == NatToString(author) then 1 else 0)
  {
    var r := OnMessage(counts, today, false, true, targetRole, memberRoles, author);
    var rest := counts.Keys - {today};
    TotalAgree(r, counts, rest, u);
    TotalRemove(r, r.Keys, today, u);
    assert r.Keys - {today} == rest;
    if today in counts {
      TotalRemove(counts, counts.Keys, today, u);
    } else {
      assert rest == counts.Keys;
    }
  }

  // ---------------------------------------------------------------------
  // Ranking

  datatype Poster = Poster(user: string, count: int)

  predicate Descending(s: seq<Poster>) {
    forall i, j :: 0 <= i < j < |s| ==> s[i].count >= s[j].count
  }

  /** Places one poster into a ranking, after every higher count. */
  function Insert(p: Poster, s: seq<Poster>): (r: seq<Poster>)
    requires Descending(s)
    ensures Descending(r)
    ensures |r| == |s| + 1
    ensures multiset(r) == multiset(s) + multiset{p}
  {
    if |s| == 0 then [p]
    else if p.count >= s[0].count then
      ConsDescending(p, s);
      [p] + s
    else
      var t := Insert(p, s[1..]);
      assert s == [s[0]] + s[1..];
      HeadBoundsInsert(s[0], s[1..], p, t);
      ConsDescending(s[0], t);
      [s[0]] + t
  }

  /** A poster counting at least as much as the first of a ranking can go
      in front of it. */
  lemma ConsDescending(h: Poster, rest: seq<Poster>)
    requires Descending(rest)
    requires |rest| > 0 ==> rest[0].count <= h.count
    ensures Descending([h] + rest)
  {
    var s := [h] + rest;
    forall i, j | 0 <= i < j < |s| ensures s[i].count >= s[j].count {
      if i > 0 {
        assert s[i] == rest[i - 1] && s[j] == rest[j - 1];
      } else {
        assert s[j] == rest[j - 1] && rest[0].count >= rest[j - 1].count;
      }
    }
  }

  /** A poster with a count at least that of every poster of `tail` and of
      `p` has a count at least that of every poster of their merge. */
  lemma HeadBoundsInsert(h: Poster, tail: seq<Poster>, p: Poster, t: seq<Poster>)
    requires forall j :: 0 <= j < |tail| ==> tail[j].count <= h.count
    requires p.count <= h.count
    requires multiset(t) == multiset(tail) + multiset{p}
    ensures forall i :: 0 <= i < |t| ==> t[i].count <= h.count
  {
    forall i | 0 <= i < |t| ensures t[i].count <= h.count {
      assert t[i] in multiset(t);
      if t[i] != p {
        assert t[i] in multiset(tail);
        var k :| 0 <= k < |tail| && tail[k] == t[i];
      }
    }
  }

  /** A sequence with one more poster than another holds exactly that
      poster besides the other's. */
  lemma InsertMembers(p: Poster, s: seq<Poster>, r: seq<Poster>)
    requires multiset(r) == multiset(s) + multiset{p}
    ensures forall x :: x in r <==> x == p || x in s
  {
    forall x ensures x in r <==> x == p || x in s {
      assert x in r <==> x in multiset(r);
      assert x in s <==> x in multiset(s);
    }
  }

  /** One more user's total placed into the ranking keeps it exactly the
      totals of the users done so far. */
  lemma RankStep(totals: map<string, int>, done: set<string>, u: string, prev: seq<Poster>, ranked: seq<Poster>)
    requires u in totals && u !in done && |prev| == |done|
    requires forall v :: v in done ==> v in totals && Poster(v, totals[v]) in prev
    requires forall p :: p in prev ==> p.user in done && p.count == totals[p.user]
    requires multiset(ranked) == multiset(prev) + multiset{Poster(u, totals[u])}
    ensures |ranked| == |done + {u}|
    ensures forall v :: v in done + {u} ==> Poster(v, totals[v]) in ranked
    ensures forall p :: p in ranked ==> p.user in done + {u} && p.count == totals[p.user]
  {
    InsertMembers(Poster(u, totals[u]), prev, ranked);
    assert |ranked| == |multiset(ranked)|;
  }

  /** The ranking in `handleTopPosters`: every user's total exactly once,
      by descending count. Ties come out in some order, as with Go's
      unstable `sort.Slice`. */
  method Rank(totals: map<string, int>) returns (ranked: seq<Poster>)
    ensures Descending(ranked)
    ensures |ranked| == |totals|
    ensures forall u :: u in totals ==> Poster(u, totals[u]) in ranked
    ensures forall p :: p in ranked ==> p.user in totals && p.count == totals[p.user]
  {
    ranked := [];
    var remaining := totals.Keys;
    var done: set<string> := {};
    while remaining != {}
      invariant done !! remaining && done + remaining == totals.Keys && done <= totals.Keys
      invariant Descending(ranked) && |ranked| == |done|
      invariant forall u :: u in done ==> Poster(u, totals[u]) in ranked
      invariant forall p :: p in ranked ==> p.user in done && p.count == totals[p.user]
      decreases remaining
    {
      var u :| u in remaining;
      var prev, pu := ranked, Poster(u, totals[u]);
      ranked := Insert(pu, ranked);
      RankStep(totals, done, u, prev, ranked);
      done := done + {u};
      remaining := remaining - {u};
    }
    assert done == totals.Keys;
  }

  const MaxLines := 20

  /** One leaderboard line: "N. <@user> — C messages". */
  function RankLine(rank: nat, p: Poster): (r: string)
    ensures HasPrefix(r, RankHead(rank, p))
    ensures HasSuffix(r, " messages")
    ensures |RankHead(rank, p)| + |" messages"| <= |r| &&
      r[|RankHead(rank, p)|..|r| - |" messages"|] == IntToString(p.count)
  {
    var head := RankHead(rank, p);
    var count := IntToString(p.count);
    var line := head + count + " messages";
    assert line[|head|..|line| - |" messages"|] == count;
    line
  }

  /** The start of a leaderboard line: "N. <@user> — ". */
  function RankHead(rank: nat, p: Poster): string {
    NatToString(rank) + ". <@" + p.user + "> — "
  }

  /** The count between the mention and " messages" reads back
      (`strconv.Atoi`) as the poster's count. */
  lemma RankLineCountReadsBack(rank: nat, p: Poster)
    requires MinInt64 <= p.count <= MaxInt64
    ensures var r := RankLine(rank, p);
      Atoi(r[|RankHead(rank, p)|..|r| - |" messages"|]) == Some(p.count)
  {
    AtoiOfIntToString(p.count);
  }

  /** The lines for the first twenty places, numbered from 1. */
  function RankLines(ranked: seq<Poster>): (lines: seq<string>)
    ensures |lines| <= MaxLines && |lines| == (if |ranked| < MaxLines then |ranked| else MaxLines)
    ensures forall i :: 0 <= i < |lines| ==> lines[i] == RankLine(i + 1, ranked[i])
  {
    var n := if |ranked| < MaxLines then |ranked| else MaxLines;
    seq(n, i requires 0 <= i < n => RankLine(i + 1, ranked[i]))
  }

  const MsgNoMessages := "No messages tracked yet."

  /** The leaderboard's description. */
  function Leaderboard(ranked: seq<Poster>): (r: string)
    ensures |ranked| == 0 ==> r == MsgNoMessages
    ensures |ranked| > 0 ==> r == Join(RankLines(ranked), "\n")
  {
    var lines := RankLines(ranked);
    if |lines| == 0 then MsgNoMessages else Join(lines, "\n")
  }

  /** Everyone on the board has at least as many messages as everyone
      left off it. */
  lemma BoardHasTop(ranked: seq<Poster>)
    requires Descending(ranked)
    ensures forall j, i :: 0 <= j < |RankLines(ranked)| <= i < |ranked| ==> ranked[j].count >= ranked[i].count
  {
  }
}

=== FILE: web.dfy ===
/** The profile web viewer, cmd/sprobot-web/main.go: request routing, the
    profile page built from a stored profile, and the log sanitiser. The
    store and the HTML templates are parameters or left out. */
module Web {
  import opened Base
  import opened Text
  import opened Escape
  import opened Profiles

  // ---------------------------------------------------------------------
  // Routing

  /** Where a request path (as sent, still escaped) is routed. Path values
      are unescaped bytes. */
  datatype Route =
    | IndexRoute
    | ProfileRoute(bucket: seq<Byte>, guild: seq<Byte>, tmpl: seq<Byte>, user: seq<Byte>)
    | NoRoute
    | BadEscape

  /** Unescapes every path segment; `None` when one holds a bad escape. */
  function UnescapeAll(segs: seq<string>): (r: Option<seq<seq<Byte>>>)
    ensures r.Some? ==> |r.value| == |segs| && forall i :: 0 <= i < |segs| ==> Unescape(segs[i]) == Some(r.value[i])
    ensures r.None? <==> exists i :: 0 <= i < |segs| && Unescape(segs[i]).None?
  {
    if |segs| == 0 then Some([])
    else
      match Unescape(segs[0])
      case None => None
      case Some(v) =>
        match UnescapeAll(segs[1..])
        case None => None
        case Some(vs) => Some([v] + vs)
  }

  /** The server's mux for the two patterns "GET /" and
      "GET /{bucket}/profiles/{guildID}/{templateName}/{userID}": a path
      with a bad escape is refused before routing; the profile pattern
      takes five non-empty segments whose second reads "profiles"; the
      root pattern takes everything else, and `handleIndex` serves only
      "/" itself. An escaped "/" does not separate segments. */
  function RouteOf(path: string): (r: Route)
    requires |path| > 0 && path[0] == '/'
    ensures path == "/" ==> r == IndexRoute
    ensures r.ProfileRoute? ==> |Split(path[1..], '/')| == 5
  {
    var segs := Split(path[1..], '/');
    match UnescapeAll(segs)
    case None => BadEscape
    case Some(vs) =>
      if path == "/" then IndexRoute
      else if |segs| == 5 && (forall i :: 0 <= i < 5 ==> segs[i] != "") && vs[1] == Utf8Bytes("profiles") then
        ProfileRoute(vs[0], vs[2], vs[3], vs[4])
      else NoRoute
  }

  const JsonSuffix: seq<Byte> := Utf8Bytes(".json")

  /** `strings.TrimSuffix(userID, ".json")`: one trailing ".json" goes. */
  function TrimJson(user: seq<Byte>): (r: seq<Byte>)
    ensures |user| >= |JsonSuffix| && user[|user| - |JsonSuffix|..] == JsonSuffix ==> r + JsonSuffix == user
    ensures !(|user| >= |JsonSuffix| && user[|user| - |JsonSuffix|..] == JsonSuffix) ==> r == user
  {
    if |user| >= |JsonSuffix| && user[|user| - |JsonSuffix|..] == JsonSuffix then user[..|user| - |JsonSuffix|]
    else user
  }

  /** Only one ".json" is stripped. */
  lemma TrimJsonOnce(id: seq<Byte>)
    ensures TrimJson(id + JsonSuffix) == id
    ensures TrimJson(id + JsonSuffix + JsonSuffix) == id + JsonSuffix
  {
    var a := id + JsonSuffix;
    assert a[|a| - |JsonSuffix|..] == JsonSuffix;
    var b := id + JsonSuffix + JsonSuffix;
    assert b[|b| - |JsonSuffix|..] == JsonSuffix;
    assert b[..|b| - |JsonSuffix|] == id + JsonSuffix;
  }

  /** The request path of a link to the web server. */
  function LinkPath(url: string): (p: string)
    requires HasPrefix(url, WebEndpoint)
    ensures |p| > 0 && p[0] == '/'
  {
    url[|WebEndpoint| - 1..]
  }

  lemma PathEscapeNonEmpty(s: string)
    requires s != ""
    ensures PathEscape(s) != ""
  {
    assert Utf8Bytes(s) == Utf8(s[0]) + Utf8Bytes(s[1..]);
  }

  /** The profile link the bot posts has its separators escaped, so the
      whole path is one segment and the server answers "not found". */
  lemma AsWrittenLinkNotFound(bucket: string, guild: string, tmpl: string, user: string)
    ensures RouteOf(LinkPath(ProfileLinkAsWritten(bucket, guild, tmpl, user))) == NoRoute
  {
    var whole := bucket + "/" + ProfileS3Path(guild, tmpl, user);
    var rest := PathEscape(whole);
    var url := ProfileLinkAsWritten(bucket, guild, tmpl, user);
    assert url == WebEndpoint + rest;
    var path := LinkPath(url);
    assert path == "/" + rest;
    assert path[1..] == rest;
    assert '/' !in rest;
    assert Split(rest, '/') == [rest];
    UnescapePathEscape(whole);
    UnescapeAllCons(rest, [], Utf8Bytes(whole), []);
    assert [rest] + [] == [rest];
    PathEscapeNonEmpty(whole);
    assert path != "/" by {
      assert |path| > 1;
    }
  }

  /** The escaped components of a profile link, in path order. */
  function LinkSegments(bucket: string, guild: string, tmpl: string, user: string): (segs: seq<string>)
    ensures |segs| == 5 && forall i :: 0 <= i < 5 ==> '/' !in segs[i]
  {
    [PathEscape(bucket), "profiles", PathEscape(guild), PathEscape(tmpl), PathEscape(user + ".json")]
  }

  lemma LinkSplits(bucket: string, guild: string, tmpl: string, user: string)
    ensures var path := LinkPath(ProfileLink(bucket, guild, tmpl, user));
      path != "/" && Split(path[1..], '/') == LinkSegments(bucket, guild, tmpl, user)
  {
    var segs := LinkSegments(bucket, guild, tmpl, user);
    var rest := ProfileLinkPath(bucket, guild, tmpl, user);
    assert rest == Join(segs, "/");
    var url := ProfileLink(bucket, guild, tmpl, user);
    assert url == WebEndpoint + rest;
    var path := LinkPath(url);
    assert path[1..] == rest;
    SplitJoin(segs, '/');
    assert |path| > 1 by {
      assert |Join(segs, "/")| >= |"profiles"|;
    }
  }

  lemma LinkUnescapes(bucket: string, guild: string, tmpl: string, user: string)
    ensures UnescapeAll(LinkSegments(bucket, guild, tmpl, user)) ==
      Some([Utf8Bytes(bucket), Utf8Bytes("profiles"), Utf8Bytes(guild), Utf8Bytes(tmpl), Utf8Bytes(user + ".json")])
  {
    UnescapePathEscape(bucket);
    ProfilesUnescapes();
    UnescapePathEscape(guild);
    UnescapePathEscape(tmpl);
    UnescapePathEscape(user + ".json");
    UnescapeFive(PathEscape(bucket), "profiles", PathEscape(guild), PathEscape(tmpl), PathEscape(user + ".json"),
      Utf8Bytes(bucket), Utf8Bytes("profiles"), Utf8Bytes(guild), Utf8Bytes(tmpl), Utf8Bytes(user + ".json"));
  }

  /** Five segments that each unescape to their value unescape together to
      the five values. */
  lemma UnescapeFive(a: string, b: string, c: string, d: string, e: string,
                     va: seq<Byte>, vb: seq<Byte>, vc: seq<Byte>, vd: seq<Byte>, ve: seq<Byte>)
    requires Unescape(a) == Some(va) && Unescape(b) == Some(vb) && Unescape(c) == Some(vc)
    requires Unescape(d) == Some(vd) && Unescape(e) == Some(ve)
    ensures UnescapeAll([a, b, c, d, e]) == Some([va, vb, vc, vd, ve])
  {
    UnescapeEach([a, b, c, d, e], [va, vb, vc, vd, ve]);
  }

  /** Segments that each unescape to their value unescape together to the
      values. */
  lemma {:induction false} UnescapeEach(segs: seq<string>, vs: seq<seq<Byte>>)
    requires |segs| == |vs|
    requires forall i :: 0 <= i < |segs| ==> Unescape(segs[i]) == Some(vs[i])
    ensures UnescapeAll(segs) == Some(vs)
  {
    if |segs| > 0 {
      UnescapeEach(segs[1..], vs[1..]);
      UnescapeAllCons(segs[0], segs[1..], vs[0], vs[1..]);
      assert [segs[0]] + segs[1..] == segs && [vs[0]] + vs[1..] == vs;
    }
  }

  /** The literal segment reads as itself. */
  lemma ProfilesUnescapes()
    ensures Unescape("profiles") == Some(Utf8Bytes("profiles"))
  {
    assert forall i :: 0 <= i < |"profiles"| ==> GoPathSafe("profiles"[i]);
    PathEscapeOfSafe("profiles");
    UnescapePathEscape("profiles");
  }

  lemma UnescapeAllCons(s: string, segs: seq<string>, v: seq<Byte>, vs: seq<seq<Byte>>)
    requires Unescape(s) == Some(v) && UnescapeAll(segs) == Some(vs)
    ensures UnescapeAll([s] + segs) == Some([v] + vs)
  {
    assert ([s] + segs)[1..] == segs;
  }

  /** The link with each component escaped on its own is routed to the
      profile page with the four values it was built from, and the user ID
      looked up is the one the link names. */
  lemma LinkRoundTrip(bucket: string, guild: string, tmpl: string, user: string)
    requires bucket != "" && guild != "" && tmpl != ""
    ensures var r := RouteOf(LinkPath(ProfileLink(bucket, guild, tmpl, user)));
      r == ProfileRoute(Utf8Bytes(bucket), Utf8Bytes(guild), Utf8Bytes(tmpl), Utf8Bytes(user + ".json")) &&
      TrimJson(r.user) == Utf8Bytes(user)
  {
    LinkRoutes(bucket, guild, tmpl, user);
    UserIdOfLink(user);
  }

  lemma LinkRoutes(bucket: string, guild: string, tmpl: string, user: string)
    requires bucket != "" && guild != "" && tmpl != ""
    ensures RouteOf(LinkPath(ProfileLink(bucket, guild, tmpl, user))) ==
      ProfileRoute(Utf8Bytes(bucket), Utf8Bytes(guild), Utf8Bytes(tmpl), Utf8Bytes(user + ".json"))
  {
    var path := LinkPath(ProfileLink(bucket, guild, tmpl, user));
    var segs := LinkSegments(bucket, guild, tmpl, user);
    LinkSplits(bucket, guild, tmpl, user);
    LinkUnescapes(bucket, guild, tmpl, user);
    LinkSegmentsNonEmpty(bucket, guild, tmpl, user);
    RouteOfProfile(path, segs, [Utf8Bytes(bucket), Utf8Bytes("profiles"), Utf8Bytes(guild), Utf8Bytes(tmpl), Utf8Bytes(user + ".json")]);
  }

  lemma LinkSegmentsNonEmpty(bucket: string, guild: string, tmpl: string, user: string)
    requires bucket != "" && guild != "" && tmpl != ""
    ensures forall i :: 0 <= i < 5 ==> LinkSegments(bucket, guild, tmpl, user)[i] != ""
  {
    PathEscapeNonEmpty(bucket);
    PathEscapeNonEmpty(guild);
    PathEscapeNonEmpty(tmpl);
    PathEscapeNonEmpty(user + ".json");
  }

  /** A path of five non-empty segments, the second "profiles", goes to
      the profile handler with the unescaped values. */
  lemma RouteOfProfile(path: string, segs: seq<string>, vs: seq<seq<Byte>>)
    requires |path| > 1 && path[0] == '/'
    requires Split(path[1..], '/') == segs && UnescapeAll(segs) == Some(vs)
    requires |segs| == 5 && forall i :: 0 <= i < 5 ==> segs[i] != ""
    requires vs[1] == Utf8Bytes("profiles")
    ensures RouteOf(path) == ProfileRoute(vs[0], vs[2], vs[3], vs[4])
  {
  }

  /** The user segment of a link is the user ID with ".json" after it. */
  lemma UserIdOfLink(user: string)
    ensures TrimJson(Utf8Bytes(user + ".json")) == Utf8Bytes(user)
  {
    Utf8BytesAppend(user, ".json");
    TrimJsonOnce(Utf8Bytes(user));
  }

  // ---------------------------------------------------------------------
  // The profile page

  datatype Field = Field(name: string, value: string)

  /** Strictly increasing in Go's string order. */
  predicate StrictlySorted(s: seq<string>) {
    forall i, j :: 0 <= i < j < |s| ==> LexLess(s[i], s[j])
  }

  /** Inserts a new key at its place in a sorted list. */
  function Insert(s: seq<string>, x: string): (r: seq<string>)
    requires StrictlySorted(s) && x !in s
    ensures StrictlySorted(r)
    ensures forall y :: y in r <==> y in s || y == x
    ensures |r| == |s| + 1
  {
    if |s| == 0 then [x]
    else if LexLess(x, s[0]) then
      assert forall j :: 0 < j < |s| ==> LexLess(x, s[j]) by {
        forall j | 0 < j < |s| ensures LexLess(x, s[j]) {
          LexTransitive(x, s[0], s[j]);
        }
      }
      [x] + s
    else
      LexTotal(x, s[0]);
      var rest := Insert(s[1..], x);
      assert forall y :: y in rest ==> LexLess(s[0], y);
      [s[0]] + rest
  }

  /** `sort.Strings` over the keys of the profile, collected in the map's
      arbitrary iteration order. */
  method SortedKeys(m: Profile) returns (keys: seq<string>)
    ensures StrictlySorted(keys)
    ensures forall k :: k in keys <==> k in m
  {
    keys := [];
    var remaining := m.Keys;
    while remaining != {}
      invariant remaining <= m.Keys
      invariant StrictlySorted(keys)
      invariant forall k :: k in keys <==> k in m && k !in remaining
      decreases |remaining|
    {
      var k :| k in remaining;
      keys := Insert(keys, k);
      remaining := remaining - {k};
    }
  }

  /** The key whose value is shown as the picture instead of as a field. */
  predicate IsPicture(profile: Profile, key: string)
    requires key in profile
  {
    key == ImageField && profile[key] != ""
  }

  /** The fields of the page: every key in the given order, with its
      value, except the picture. */
  function PageFields(profile: Profile, keys: seq<string>): (fs: seq<Field>)
    requires forall i :: 0 <= i < |keys| ==> keys[i] in profile
    ensures forall f :: f in fs <==> f.name in keys && f.name in profile && f.value == profile[f.name] && !IsPicture(profile, f.name)
    ensures StrictlySorted(keys) ==> forall i, j :: 0 <= i < j < |fs| ==> LexLess(fs[i].name, fs[j].name)
  {
    if |keys| == 0 then []
    else
      var k := keys[0];
      var rest := PageFields(profile, keys[1..]);
      assert forall n :: n in keys <==> n == k || n in keys[1..];
      if IsPicture(profile, k) then rest
      else
        assert StrictlySorted(keys) ==> forall f :: f in rest ==> LexLess(k, f.name);
        [Field(k, profile[k])] + rest
  }

  /** The picture link: the image field's value when it is not empty. */
  function PictureUrl(profile: Profile): (u: string)
    ensures u != "" <==> ImageField in profile && IsPicture(profile, ImageField)
    ensures u != "" ==> u == profile[ImageField]
  {
    if ImageField in profile && profile[ImageField] != "" then profile[ImageField] else ""
  }

  datatype Page =
    | IndexPage
    | NotFoundPage
    | BadRequestPage
    | ProfilePage(templateName: seq<Byte>, fields: seq<Field>, imageUrl: string)

  /** What a stored profile looks like on its page. */
  ghost predicate Shows(profile: Profile, fields: seq<Field>, imageUrl: string) {
    imageUrl == PictureUrl(profile) &&
    (forall f :: f in fields <==> f.name in profile && f.value == profile[f.name] && !IsPicture(profile, f.name)) &&
    (forall i, j :: 0 <= i < j < |fields| ==> LexLess(fields[i].name, fields[j].name))
  }

  /** A request: routing, then `handleIndex` or `handleProfile`. `store`
      answers the profile fetch for (guild, template, user ID), `None`
      when it fails. */
  method Serve(path: string, store: (seq<Byte>, seq<Byte>, seq<Byte>) -> Option<Profile>) returns (page: Page)
    requires |path| > 0 && path[0] == '/'
    ensures RouteOf(path) == BadEscape <==> page == BadRequestPage
    ensures RouteOf(path) == IndexRoute <==> page == IndexPage
    ensures page == NotFoundPage <==>
      RouteOf(path) == NoRoute ||
      (RouteOf(path).ProfileRoute? && store(RouteOf(path).guild, RouteOf(path).tmpl, TrimJson(RouteOf(path).user)).None?)
    ensures page.ProfilePage? ==>
      var r := RouteOf(path);
      r.ProfileRoute? && page.templateName == r.tmpl &&
      store(r.guild, r.tmpl, TrimJson(r.user)).Some? &&
      Shows(store(r.guild, r.tmpl, TrimJson(r.user)).value, page.fields, page.imageUrl)
  {
    page := Respond(RouteOf(path), store);
  }

  /** The handler a route reaches. */
  method Respond(r: Route, store: (seq<Byte>, seq<Byte>, seq<Byte>) -> Option<Profile>) returns (page: Page)
    ensures r == BadEscape <==> page == BadRequestPage
    ensures r == IndexRoute <==> page == IndexPage
    ensures page == NotFoundPage <==> r == NoRoute || (r.ProfileRoute? && store(r.guild, r.tmpl, TrimJson(r.user)).None?)
    ensures page.ProfilePage? ==>
      r.ProfileRoute? && page.templateName == r.tmpl &&
      store(r.guild, r.tmpl, TrimJson(r.user)).Some? &&
      Shows(store(r.guild, r.tmpl, TrimJson(r.user)).value, page.fields, page.imageUrl)
  {
    match r
    case BadEscape => page := BadRequestPage;
    case IndexRoute => page := IndexPage;
    case NoRoute => page := NotFoundPage;
    case ProfileRoute(_, guild, tmpl, user) =>
      var fetched := store(guild, tmpl, TrimJson(user));
      if fetched.None? {
        page := NotFoundPage;
      } else {
        var profile := fetched.value;
        var keys := SortedKeys(profile);
        PageFieldsShow(profile, keys);
        page := ProfilePage(tmpl, PageFields(profile, keys), PictureUrl(profile));
      }
  }

  /** The fields of every key, in sorted order, show the profile. */
  lemma PageFieldsShow(profile: Profile, keys: seq<string>)
    requires StrictlySorted(keys) && forall k :: k in keys <==> k in profile
    ensures Shows(profile, PageFields(profile, keys), PictureUrl(profile))
  {
  }

  /** Every stored value appears on the page exactly once: as the picture
      or as one field. */
  lemma PageShowsEverything(profile: Profile, fields: seq<Field>, imageUrl: string, key: string)
    requires Shows(profile, fields, imageUrl) && key in profile
    ensures IsPicture(profile, key) ==> imageUrl == profile[key] && forall f :: f in fields ==> f.name != key
    ensures !IsPicture(profile, key) ==> exists i :: 0 <= i < |fields| && fields[i] == Field(key, profile[key])
    ensures forall i, j :: 0 <= i < j < |fields| ==> fields[i].name != fields[j].name
  {
    if !IsPicture(profile, key) {
      assert Field(key, profile[key]) in fields;
    }
    forall i, j | 0 <= i < j < |fields| ensures fields[i].name != fields[j].name {
      if fields[i].name == fields[j].name {
        LexIrreflexive(fields[i].name);
      }
    }
  }

  // ---------------------------------------------------------------------
  // Access log

  /** `sanitizeLog`: line feeds and carriage returns are dropped. */
  function SanitizeLog(s: string): (r: string)
    ensures '\n' !in r && '\r' !in r
  {
    RemoveChars(s, {'\n', '\r'})
  }

  /** Nothing else is touched: text without line breaks is logged as is,
      and sanitising works piece by piece. */
  lemma {:induction false} SanitizeLogKeeps(a: string, b: string)
    ensures '\n' !in a && '\r' !in a ==> SanitizeLog(a) == a
    ensures SanitizeLog(a + b) == SanitizeLog(a) + SanitizeLog(b)
  {
    RemoveCharsKeeps(a, {'\n', '\r'});
    if |a| > 0 {
      assert (a + b)[1..] == a[1..] + b;
      SanitizeLogKeeps(a[1..], b);
    } else {
      assert a + b == b;
    }
  }
}

=== FILE: wiki.dfy ===
/** The /wiki command of pkg/bot/wiki.go: a page shortcut looked up in the
    table of wiki links, and the suggestions offered while typing one. The
    table itself is configuration and is a parameter here. */
module Wiki {
  import opened Base
  import opened Text

  /** One entry of `WikiLinks`: the shortcut typed, the page it links to,
      and extra words that also suggest it. */
  datatype Link = Link(shortcut: string, url: string, hints: seq<string>)

  const MaxChoices := 20
  const MsgNoPage := "Please provide a page name."

  datatype Reply = Public(text: string) | Ephemeral(text: string)

  /** The position of the first link whose shortcut is exactly `page`. */
  function FirstLink(links: seq<Link>, page: string): (r: Option<nat>)
    ensures r.Some? ==> r.value < |links| && links[r.value].shortcut == page
    ensures r.Some? ==> forall j :: 0 <= j < r.value ==> links[j].shortcut != page
    ensures r.None? ==> forall j :: 0 <= j < |links| ==> links[j].shortcut != page
  {
    if |links| == 0 then None
    else if links[0].shortcut == page then Some(0)
    else
      match FirstLink(links[1..], page)
      case None => None
      case Some(i) => Some(i + 1)
  }

  /** `handleWiki`: an empty page name is refused; otherwise the first
      link with that shortcut is posted for everyone to see, or the user
      alone is told it was not found. */
  function Lookup(links: seq<Link>, page: string): (r: Reply)
    ensures page == "" ==> r == Ephemeral(MsgNoPage)
    ensures page != "" && r.Public? ==> exists i :: 0 <= i < |links| && links[i].shortcut == page && r.text == links[i].url
    ensures page != "" && r.Ephemeral? <==> page != "" && forall i :: 0 <= i < |links| ==> links[i].shortcut != page
    ensures r.Ephemeral? && page != "" ==> r.text == "Can't find a link for page " + page + "!"
  {
    if page == "" then Ephemeral(MsgNoPage)
    else
      match FirstLink(links, page)
      case Some(i) => Public(links[i].url)
      case None => Ephemeral("Can't find a link for page " + page + "!")
  }

  /** With duplicate shortcuts, the earlier link wins. */
  lemma LookupFirstWins(before: seq<Link>, link: Link, after: seq<Link>)
    requires link.shortcut != ""
    requires forall j :: 0 <= j < |before| ==> before[j].shortcut != link.shortcut
    ensures Lookup(before + [link] + after, link.shortcut) == Public(link.url)
  {
    var links := before + [link] + after;
    assert links[|before|] == link;
    assert forall j :: 0 <= j < |before| ==> links[j] == before[j];
  }

  // ---------------------------------------------------------------------
  // Suggestions

  /** A link is suggested for the (lower-cased) input when its shortcut or
      one of its hints contains it. Shortcut and hints are compared as
      they are written, not lower-cased. */
  predicate Suggests(link: Link, current: string) {
    Contains(link.shortcut, current) || exists h :: h in link.hints && Contains(h, current)
  }

  /** The shortcuts of the suggested links, one per link, in table order. */
  function Suggested(links: seq<Link>, current: string): (r: seq<string>)
    ensures |r| <= |links|
  {
    if |links| == 0 then []
    else
      var last := links[|links| - 1];
      Suggested(links[..|links| - 1], current) + (if Suggests(last, current) then [last.shortcut] else [])
  }

  /** Exactly the shortcuts of suggested links are offered. */
  lemma {:induction false} SuggestedMembers(links: seq<Link>, current: string, s: string)
    ensures s in Suggested(links, current) <==>
      exists i :: 0 <= i < |links| && links[i].shortcut == s && Suggests(links[i], current)
  {
    if |links| > 0 {
      var init := links[..|links| - 1];
      SuggestedMembers(init, current, s);
      assert forall i :: 0 <= i < |init| ==> links[i] == init[i];
    }
  }

  /** A link whose hints contain the input is offered once, not once per
      hint. */
  lemma OnePerLink(link: Link, current: string)
    ensures |Suggested([link], current)| == (if Suggests(link, current) then 1 else 0)
  {
    assert [link][..0] == [];
  }

  /** Whether some hint of the link contains the input: the inner loop of
      `handleAutocomplete`. */
  method AnyHint(hints: seq<string>, current: string) returns (found: bool)
    ensures found <==> exists h :: h in hints && Contains(h, current)
  {
    found := false;
    var k := 0;
    while k < |hints|
      invariant 0 <= k <= |hints|
      invariant !found ==> forall j :: 0 <= j < k ==> !Contains(hints[j], current)
      invariant found ==> exists h :: h in hints && Contains(h, current)
    {
      if Contains(hints[k], current) {
        found := true;
        return;
      }
      k := k + 1;
    }
  }

  /** `handleAutocomplete`: the input is lower-cased, and the first twenty
      suggested shortcuts are offered, in table order. */
  method Autocomplete(links: seq<Link>, input: string) returns (choices: seq<string>)
    ensures var all := Suggested(links, ToLower(input));
      choices == if |all| <= MaxChoices then all else all[..MaxChoices]
  {
    var current := ToLower(input);
    choices := [];
    var i := 0;
    while i < |links|
      invariant 0 <= i <= |links|
      invariant |choices| <= MaxChoices
      invariant var all := Suggested(links[..i], current);
        choices == if |all| <= MaxChoices then all else all[..MaxChoices]
    {
      if |choices| >= MaxChoices {
        SuggestedPrefix(links, i, current);
        assert links[..|links|] == links;
        return;
      }
      var link := links[i];
      assert links[..i + 1][..i] == links[..i];
      if Contains(link.shortcut, current) {
        choices := choices + [link.shortcut];
        i := i + 1;
        continue;
      }
      var hit := AnyHint(link.hints, current);
      if hit {
        choices := choices + [link.shortcut];
      }
      i := i + 1;
    }
    assert links[..i] == links;
  }

  /** Once twenty links are suggested, later links change nothing about
      the first twenty. */
  lemma {:induction false} SuggestedPrefix(links: seq<Link>, i: nat, current: string)
    requires i <= |links|
    ensures |Suggested(links[..i], current)| <= |Suggested(links, current)|
    ensures Suggested(links, current)[..|Suggested(links[..i], current)|] == Suggested(links[..i], current)
    decreases |links| - i
  {
    if i < |links| {
      SuggestedPrefix(links, i + 1, current);
      assert links[..i + 1][..i] == links[..i];
    } else {
      assert links[..i] == links;
    }
  }
}
